=== FILE: README.md ===
# dune2-resources in Dafny

A model of the asset decoders and image primitives of dune2-resources, the
Rust workspace that reads the data files of the game Dune II and turns them
into tiles, sprites and BMP images:

- **SHP sprites**, read twice over. The rctoolkit reader (module
  `ToolkitShp`) goes through the `Read` trait. The older dune2 reader
  (module `Dune2Shp`) uses an in-memory byte iterator. Both use the
  LCW back-reference copy and the zero-run expansion (module `Lcw`).
- **ICN tile sets** (module `Icn`): the `FORM`/`ICON` container, its
  `SINF`, `SSET`, `RPAL` and `RTBL` chunks, and the bit unpacking of
  tiles through palette rows.
- **MAP icon tables** (module `Maps`), cut into icons by group shape.
- **PAL palettes** (module `Colors`): 6-bit channels scaled by 4. Also the
  non-deduplicating palette of the dune2 crate (`Colors`) and the
  deduplicating palette of the bitmap crate (`DedupPalettes`).
- **PAK archives** as the `unpak` command reads and extracts them (module
  `Unpak`).
- **BMP writers**:
  - the palette writer of the dune2 crate (`BmpWriters`);
  - the 24-bit writer of the bitmap crate (`Bitmaps`).
- **The dune2 geometry and images**:
  - rectangles and their iterator (`Rects`);
  - unsigned points and shapes (`Geometry`);
  - surfaces with `fill_rect`, `clear` and `blit` (`Surfaces`);
  - tiles with their transforms and resize (`Tiles`);
  - tilesets (`Tilesets`), tilemaps (`Tilemaps`) and the asset bundle
    (`AssetStore`);
  - the faction colour remap (`Factions`).
- **The two stand-alone bitmap crates**: `Bitmaps` for packages/bitmap and
  `LegacyBitmaps` for the older bitmap crate. `PointRows` is the common
  row-by-row reference for their rectangle iterators.
- **The `check` command** of rctoolkit (`TilesetCheck`): the tiles of a
  tileset that no tilemap uses.

How the model treats the source:

- **Readers** are a byte sequence with a position (`Reader.Cursor`). The
  two ways of reading bytes are kept apart:
  - `read_exact` fails with `UnexpectedEof` on a short read;
  - a single `read` (rctoolkit's `try_read_from`, `check_chunk_id`, the
    PAK reader) fills what is available and leaves the rest of the buffer
    zeroed.
- **Panics** on data read from a file become `Err(Panic)`: an index out of
  bounds, an `unwrap` of `None`, a division by zero, or an overflow that a
  debug build traps. The panics of in-memory primitives (pixel access,
  colour lookup, arithmetic on points) are preconditions; the list is under
  "Left out".
- **Integer widths**: u8, u16 and u32 are subset types of `int`. Where
  file data can make the source overflow or wrap, the model writes the
  check or the wrap-around out. The i32 coordinates, rect edges and
  pixel indices of the geometry are unbounded. "Left out" lists the
  members whose results differ near ±2^31.

Where the code does not do what it evidently means to, the model has both
the code as written and the intended behaviour. The members named after
source functions follow the code as written. Each pair is in "Findings".

## Model

| member | source | states |
|---|---|---|
| `Reader.ReadExact` | packages/dune2/src/io.rs:13-15 | `read_exact` of `n` bytes succeeds exactly when `n` bytes remain: it returns those bytes and moves past them. A short read is `UnexpectedEof`. |
| `Reader.ReadSome` | packages/rctoolkit/src/io.rs:29-31 | One `read` into a zeroed buffer fills the first `min(n, remaining)` bytes from the data and keeps the rest at zero. It returns that count and moves the cursor by it. |
| `Reader.FromLeReader` | packages/dune2/src/io.rs:10-16 | `from_le_reader` succeeds exactly when `size_of::<T>()` bytes remain. Its value is `from_le_bytes` of those bytes, fits `T`, and the cursor moves past them. |
| `Reader.FromLeReaderRoundTrip` | packages/dune2/src/io.rs:10-16 | Reading back the little-endian bytes of any unsigned value gives the value and consumes exactly those bytes, whatever follows. |
| `Reader.TryReadFrom` | packages/rctoolkit/src/io.rs:24-62 | `try_read_from` never fails. With enough bytes it decodes them in the chosen byte order; on an exhausted reader it gives 0. The cursor moves by what was available, and the value always fits the type. |
| `Reader.ReadU32BeAgrees` | packages/rctoolkit/src/io.rs:36-44 | The u32 MSB read used by the ICN reader is `try_read_from::<MSB>` of a u32, in value and cursor. |
| `Bytes.LeRoundTrip` | packages/rctoolkit/src/io.rs:29-31 | `from_le_bytes` of `to_le_bytes(v)` is `v` for every `v` that fits. |
| `Bytes.LeBytesOfValue` | packages/rctoolkit/src/io.rs:29-31 | `to_le_bytes` of `from_le_bytes(bs)` is `bs`: the encoding is a bijection. |
| `Bytes.BeIsReversedLe` | packages/rctoolkit/src/io.rs:41-43 | `from_be_bytes` is `from_le_bytes` of the reversed bytes. |
| `Lcw.CopyBlock` | packages/rctoolkit/src/shp.rs:88-93 | `copy_block` succeeds exactly when its window starts inside the output, or copies nothing; otherwise it panics. The output keeps its prefix and grows by `count`. Each new byte is the byte `pos` back (relative) or `pos + i` (absolute), so an overlapping window reads back bytes just written. |
| `Lcw.CopyBlockInPlace` | packages/dune2/src/shp.rs:156-161 | The push loop of `copy_block` as the code runs it: the same success condition and the same bytes as the reference copy. |
| `Lcw.InflateRleZero` | packages/rctoolkit/src/shp.rs:157-169 | Zero-run expansion fails only with a panic, and only on non-empty input. Its output is at most 255 bytes per input byte. |
| `Lcw.CompleteInflates` | packages/rctoolkit/src/shp.rs:163-167 | Expansion succeeds exactly on streams of whole tokens, where every 0 is followed by its count byte. |
| `Lcw.InflateRleZeroConcat` | packages/rctoolkit/src/shp.rs:163-168 | Expansion works token by token: after a stream of whole tokens, the rest expands independently. |
| `Lcw.LoneTrailingZeroFails` | packages/rctoolkit/src/shp.rs:164-165 | A 0 without its count byte at the end of whole tokens is the `unwrap` panic. |
| `Lcw.RleZeroRoundTrip` | packages/rctoolkit/src/shp.rs:157-169 | Expanding the zero-run encoding of any byte sequence gives it back. |
| `Lcw.InflateRleZeroLoop` | packages/dune2/src/shp.rs:217-226 | The loop that appends to an output buffer computes the same expansion as the reference definition, on every input. |
| `ToolkitShp.ReadVersion` | packages/rctoolkit/src/shp.rs:24-40 | The version read succeeds exactly when 6 bytes are there. The file is 1.07 exactly when the u16 at byte 4 is 0. The reader is rewound to 0. |
| `ToolkitShp.OffsetValue` | packages/rctoolkit/src/shp.rs:51-65 | A 1.00 entry is its u16 value. A 1.07 entry is its u32 plus 2, and that addition panics exactly when the sum reaches 2^32. |
| `ToolkitShp.ReadOffset` | packages/rctoolkit/src/shp.rs:51-65 | An entry cut short is `UnexpectedEof`. Otherwise the entry's value is returned and the cursor moves past the entry. |
| `ToolkitShp.ReadOffsets` | packages/rctoolkit/src/shp.rs:67-80 | `n` entries read in a row give `n` values and move the cursor by `n` entry sizes; the only errors are end of file and the 1.07 overflow. |
| `ToolkitShp.ReadOffsetsShort` | packages/rctoolkit/src/shp.rs:67-80 | A table that runs past the end of the file fails. |
| `ToolkitShp.FramePairs` | packages/rctoolkit/src/shp.rs:81-85 | `windows(2)` succeeds exactly when the offsets never decrease; a decreasing pair underflows. It gives one `(start, length)` per adjacent pair, and each frame ends where the next one starts. |
| `ToolkitShp.ReadFrameOffsets` | packages/rctoolkit/src/shp.rs:42-86 | A missing count is `UnexpectedEof`. A successful read gives as many frames as the u16 count says. |
| `ToolkitShp.ReadOffsetsRoundTrip` | packages/rctoolkit/src/shp.rs:51-80 | An encoded offset table reads back as its offsets, in either version. It consumes exactly the encoded bytes, whatever surrounds them. |
| `ToolkitShp.ParseCommand` | packages/rctoolkit/src/shp.rs:105-151 | Reading one LCW command never moves backwards and only reports end of file as an error. `0x80` ends the stream having consumed one byte. |
| `ToolkitShp.ParseEnd` | packages/rctoolkit/src/shp.rs:106 | `0x80` is the end command and consumes one byte. |
| `ToolkitShp.ParseLiteral` | packages/rctoolkit/src/shp.rs:107-115 | `10cccccc` copies the next `cccccc` bytes. It succeeds exactly when that many bytes follow. |
| `ToolkitShp.ParseRelativeCopy` | packages/rctoolkit/src/shp.rs:116-127 | `0cccpppp pppppppp` copies `ccc + 3` bytes from `p` back, relative whatever the stream's mode. A `p` of 1 repeats the last byte. |
| `ToolkitShp.ParseFill` | packages/rctoolkit/src/shp.rs:128-135 | `0xfe` reads a u16 count and a value byte: a run of the value. |
| `ToolkitShp.ParseLongCopy` | packages/rctoolkit/src/shp.rs:136-143 | `0xff` reads a u16 count and a u16 position, copied in the stream's mode. |
| `ToolkitShp.ParseMediumCopy` | packages/rctoolkit/src/shp.rs:144-151 | `11cccccc` with a u16 position copies `cccccc + 3` bytes in the stream's mode. |
| `ToolkitShp.Execute` | packages/rctoolkit/src/shp.rs:105-151 | What each command appends: a literal appends its bytes; a fill appends `count` copies of the value; a repeat appends the last byte and panics on an empty output; a copy is `copy_block`. The output is only ever extended. |
| `ToolkitShp.InflateLcw` | packages/rctoolkit/src/shp.rs:105-152 | The command loop succeeds only by consuming a `0x80` byte, moving strictly forward in the same data. It fails only with a panic or an end of file. |
| `ToolkitShp.InflateLcwExtends` | packages/rctoolkit/src/shp.rs:105-152 | The loop only appends: the output it started with is kept as a prefix. |
| `ToolkitShp.InflateLcwData` | packages/rctoolkit/src/shp.rs:95-104 | A leading 0 selects relative copies and is consumed. Any other first byte is read as a command in absolute mode. An empty stream panics. |
| `ToolkitShp.LiteralsRoundTrip` | packages/rctoolkit/src/shp.rs:95-155 | A stream of literal runs closed by `0x80` decompresses to its bytes and stops right after the end marker, whatever follows. |
| `ToolkitShp.ReadFrameHeader` | packages/rctoolkit/src/shp.rs:186-206 | The header read fails exactly when the two flag bytes are missing, since `read_exact` needs them. With ten bytes the header is the fields at their offsets; after a short read the missing fields are 0. |
| `ToolkitShp.ReadRemapTable` | packages/rctoolkit/src/shp.rs:208-216 | There is no table without flag bit 0. Without bit 2 the table has 16 entries; with it, as many as the count byte says. |
| `ToolkitShp.DecodePayload` | packages/rctoolkit/src/shp.rs:218-228 | A stored frame (flag bit 1) reads `rle_data_size` bytes with `read_exact` and zero-run expands them. Any other frame is LCW-decompressed, then expanded. |
| `ToolkitShp.Remap` | packages/rctoolkit/src/shp.rs:230-234 | Remapping succeeds exactly when every byte indexes the table, and then replaces each byte with its table entry. |
| `ToolkitShp.ReadFrameBody` | packages/rctoolkit/src/shp.rs:192-242 | Two errors are checked first: slices differing from height is an error naming both, and a frame size differing from the table's size is an error naming both. A frame read keeps the header's width and height. With a remap table, every pixel is a table entry. |
| `ToolkitShp.ReadFrame` | packages/rctoolkit/src/shp.rs:177-243 | Seeking to `offset` with fewer than two bytes left is `UnexpectedEof`. With a whole header, the frame is the body read from right after the 10 header bytes. |
| `ToolkitShp.RawFrameRoundTrip` | packages/rctoolkit/src/shp.rs:177-243 | An encoded stored frame, wherever it sits in a file, reads back as its size and pixels. |
| `ToolkitShp.ReadStoredFrame` | packages/rctoolkit/src/shp.rs:218-228 | A stored frame with consistent sizes reads as the zero-run expansion of the `rle_data_size` bytes after its header. |
| `ToolkitShp.ReadFrames` | packages/rctoolkit/src/shp.rs:246-264 | `read_tiles_from_reader` fails on a file shorter than its 6-byte header. Otherwise it gives as many tiles as the frame count says. |
| `ToolkitShp.ReadFramesAt` | packages/rctoolkit/src/shp.rs:254-261 | One tile per table entry, in order, each the frame read at its offset and size. |
| `Dune2Shp.ReadInteger` | packages/dune2/src/shp.rs:133-154 | Reading a `size`-byte integer succeeds exactly when that many bytes remain. It gives a value below 256^size and moves the cursor by `size`. |
| `Dune2Shp.ReadIntegerBytewise` | packages/dune2/src/shp.rs:133-154 | The byte-by-byte loop fails with `NotEnoughBytes` naming the bytes remaining and the size asked for. Its value is the little-endian value of the bytes read. |
| `Dune2Shp.ReadIntegerRoundTrip` | packages/dune2/src/shp.rs:133-154 | The little-endian bytes of a value, followed by anything, read back as that value. |
| `Dune2Shp.ParseSliceCommand` | packages/dune2/src/shp.rs:169-211 | An exhausted slice ends the loop. A short command is `NotEnoughBytes`. A parsed command always consumes input. |
| `Dune2Shp.InflateSlice` | packages/dune2/src/shp.rs:169-212 | The command loop over a slice only appends to its output. It fails only with a panic or `NotEnoughBytes`. |
| `Dune2Shp.InflateLcwSlice` | packages/dune2/src/shp.rs:163-168 | An empty stream panics on its first byte. The errors are panics and `NotEnoughBytes`. |
| `Dune2Shp.SliceStops` | packages/dune2/src/shp.rs:169-172 | The loop stops, keeping its output, at the end of the slice or at `0x80`. |
| `Dune2Shp.SliceLiteralTruncated` | packages/dune2/src/shp.rs:173-178 | A literal longer than the rest of the slice copies what is left and succeeds, where the `Read`-based decoder reports end of file. |
| `Dune2Shp.SliceFill` | packages/dune2/src/shp.rs:190-196 | `0xfe` with its four bytes appends `count` copies of the value and continues after them. |
| `Dune2Shp.SliceFillShort` | packages/dune2/src/shp.rs:190-196 | A `0xfe` cut short fails with the `NotEnoughBytes` of the field that is missing. |
| `Dune2Shp.SliceLiteralStep` | packages/dune2/src/shp.rs:173-178 | A whole literal appends its bytes and continues after them. |
| `Dune2Shp.LiteralsSliceRoundTrip` | packages/dune2/src/shp.rs:163-215 | A stream of literal runs closed by `0x80` decompresses to its bytes over a slice too, whatever follows. |
| `Dune2Shp.ParseFrameHeader` | packages/dune2/src/shp.rs:243-262 | A successful header has the frame's flags, its u16 width, its byte height and the remap table. The u16 frame size must equal the size from the offset table; otherwise it is `FrameSizeMismatch` naming both. |
| `Dune2Shp.DecodePayload` | packages/dune2/src/shp.rs:266-275 | A payload starting past the end of the frame's slice panics. |
| `Dune2Shp.ReadFrameAsWritten` | packages/dune2/src/shp.rs:228-283 | `shp_read_frame` as written: a frame whose slice runs past the end of the file is `UnexpectedEof`. |
| `Dune2Shp.ReadFrame` | packages/dune2/src/shp.rs:228-283 | The same read with the payload starting after the remap table: the same end-of-file error. |
| `Dune2Shp.ReadFrameAsWrittenAgrees` | packages/dune2/src/shp.rs:255-264 | The two reads differ only on frames with a custom-sized remap table. Those are the frames where the payload offset as written lands inside the table. |
| `Dune2Shp.PayloadOffsetCounterexample` | packages/dune2/src/shp.rs:264 | A one-pixel frame whose remap table has one entry: as written its pixels are `[5, 1]`, since the table byte is read as payload. The intended read gives `[1]`. |
| `Dune2Shp.EncodedFrameHeader` | packages/dune2/src/shp.rs:243-262 | The header of an encoded frame parses back to its flags, width, height and table. The payload starts after the table. |
| `Dune2Shp.EncodedFramePayload` | packages/dune2/src/shp.rs:266-275 | The payload of an encoded frame decodes back to its pixels, whether stored or LCW-compressed. |
| `Dune2Shp.PayloadDecodes` | packages/dune2/src/shp.rs:266-275 | Any buffer whose tail from `start` is an encoded payload decodes to its pixels. |
| `Dune2Shp.FrameRoundTrip` | packages/dune2/src/shp.rs:228-283 | An encoded frame, anywhere in a file, reads back as its width, height, pixels and remap table. |
| `Dune2Shp.ReadShp` | packages/dune2/src/shp.rs:286-299 | `SHP::from_reader` as written: a file shorter than 6 bytes is `UnexpectedEof`. A file read whole has as many frames as its u16 count. |
| `Dune2Shp.ReadFramesAt` | packages/dune2/src/shp.rs:292-297 | Every frame of the table read as written, in order. It fails exactly when some frame fails. |
| `Dune2Shp.ReadShpIntended` | packages/dune2/src/shp.rs:286-299 | `SHP::from_reader` with the intended frame read: the same error for short files and the same frame count. |
| `Dune2Shp.ReadFramesAtIntended` | packages/dune2/src/shp.rs:292-297 | Every frame read with the intended payload offset, in order. It fails exactly when some frame fails. |
| `Dune2Shp.ReadFramesAtAgrees` | packages/dune2/src/shp.rs:264 | The whole-file reads differ only because of a frame whose two reads differ. |
| `Dune2Shp.ShpFileCounterexample` | packages/dune2/src/shp.rs:286-299 | A 19-byte file with one frame: as written its pixels are `[5, 1]`; intended, `[1]`. |
| `Dune2Shp.FrameColor` | packages/dune2/src/shp.rs:43-53 | A pixel's colour, when there is one, is a palette entry. The errors are panics. |
| `Dune2Shp.FrameColorSpec` | packages/dune2/src/shp.rs:43-53 | Without a remap table, a pixel shows the palette entry it indexes and panics past the palette. With a table, it shows the entry its table value names after the faction remap, and panics if either index misses. The faction matters only for table values in the faction colour band. |
| `Dune2Shp.FrameColors` | packages/dune2/src/shp.rs:43-53 | All colours of a frame: success exactly when every pixel has a colour, and then the colours in pixel order. |
| `Dune2Shp.FramePointWraps` | packages/dune2/src/shp.rs:40-41 | In a 300-pixel-wide frame, pixel 65536 is placed at (0, 0) as written, over pixel 0; intended, at (136, 218). |
| `Dune2Shp.FramePointSpec` | packages/dune2/src/shp.rs:40-41 | In a frame below 2^32 pixels, pixel `i` is placed inside the frame at the point whose row-major index is `i`. |
| `Dune2Shp.FramePointInjective` | packages/dune2/src/shp.rs:40-41 | Two different pixels of a frame go to different points. |
| `Dune2Shp.DrawPixels` | packages/dune2/src/shp.rs:37-58 | The intended drawing loop succeeds exactly when a zero-width frame has no pixels and the pixels fit the frame; otherwise it panics. Pixel `i` is shown at index `i` and the rest stay black. |
| `Dune2Shp.DrawPixelsAsWritten` | packages/dune2/src/shp.rs:37-58 | The loop as written only needs the first 65536 pixels to fit, since positions wrap with `i as u16`. Each of those positions shows the last pixel sent to it; the rest stay black. |
| `Dune2Shp.DrawAgrees` | packages/dune2/src/shp.rs:40-41 | Up to 65536 pixels the two loops succeed together and draw the same surface. |
| `Dune2Shp.WrapCounterexample` | packages/dune2/src/shp.rs:40-41 | In a 300 by 255 frame, 80000 pixels succeed as written where the intended loop panics. With 76500 pixels, pixel 65536 overwrites pixel 0. |
| `Dune2Shp.CornerIndices` | packages/dune2/src/surface.rs:12-16 | The pixel index of (0, 0) is 0 and that of (136, 218) in a 300-wide surface is 65536. |
| `Dune2Shp.FrameSurface` | packages/dune2/src/shp.rs:27-60 | `SHPFrame::surface` succeeds exactly when every pixel has a colour and the drawing as written succeeds. It then draws those colours as written. |
| `Dune2Shp.FrameSurfaceIntended` | packages/dune2/src/shp.rs:27-60 | `SHPFrame::surface` with intended positions: the colours drawn at their own indices. |
| `Dune2Shp.PutPixelTwice` | packages/dune2/src/shp.rs:55-56 | Putting the same pixel twice is putting it once. |
| `Dune2Shp.DrawnPixels` | packages/dune2/src/shp.rs:37-58 | On a surface drawn by the intended loop, pixel `i` is at `FramePoint(i)`, and every point past the pixels is black. |
| `Icn.CheckChunkIdSpec` | packages/dune2/src/icn.rs:11-21 | With enough bytes, a chunk id check passes exactly when the next bytes are the tag, and moves past them. Too few bytes fail for every tag, since the zero fill never matches a tag without zero bytes. Its only error is `InvalidChunkId`. |
| `Icn.TagsHaveNoZeroByte` | packages/dune2/src/icn.rs:164-173 | None of the six chunk tags has a zero byte, so a short read can never pass as one. |
| `Icn.ReadInfoRejectsSize` | packages/dune2/src/icn.rs:37-42 | A `SINF` chunk whose size field is not 4 is an error naming that size. |
| `Icn.SizesSpec` | packages/dune2/src/icn.rs:56-62 | The tile size is defined exactly when width·height and width·height·bpp fit a u16, and is then the bit count divided by 8, rounded down. The palette size is defined exactly when `bpp` is below 64, and is then 2^bpp. |
| `Icn.ReadChunks` | packages/dune2/src/icn.rs:80-85 | `count` chunks read with `read_exact` give `count` chunks. The only error is `UnexpectedEof`. |
| `Icn.ReadChunksSpec` | packages/dune2/src/icn.rs:80-85 | The read succeeds exactly when `count·n` bytes remain. It then moves past them, and each chunk has `n` bytes. |
| `Icn.ReadChunksSlice` | packages/dune2/src/icn.rs:80-85 | Chunk `i` is the `n` bytes at `i·n` from where the read started. |
| `Icn.Field` | packages/dune2/src/icn.rs:186 | The `k`-th field of a byte is below 2^bpp. |
| `Icn.UnpackByte` | packages/dune2/src/icn.rs:185-188 | A byte gives `8 / bpp` pixels. The errors are panics. |
| `Icn.UnpackTile` | packages/dune2/src/icn.rs:184-189 | Unpacking a tile fails only by panicking. |
| `Icn.UnpackTileSpec` | packages/dune2/src/icn.rs:184-189 | An unpacked tile has `8 / bpp` pixels per byte. The pixel for field `k` of byte `j` is the palette row's entry for that field, and the most significant field comes first. |
| `Icn.FourBitFields` | packages/dune2/src/icn.rs:185-186 | At 4 bits per pixel a byte is its high nibble, then its low nibble. |
| `Icn.UnpackTiles` | packages/dune2/src/icn.rs:179-196 | One tile per `SSET` entry with the header's width and height. Each tile's pixels are its entry unpacked through the palette row `RTBL` names. |
| `Icn.TileColors` | packages/dune2/src/icn.rs:147 | A tile's colours exist exactly when every pixel indexes the palette, and are then those entries in order. |
| `Icn.TileSurface` | packages/dune2/src/icn.rs:135-153 | `ICNTile::surface` succeeds exactly when the colours exist and the drawing as written succeeds, with the same `i as u16` wrap as sprites. |
| `Icn.TileSurfaceIntended` | packages/dune2/src/icn.rs:135-153 | `ICNTile::surface` with intended positions: each colour at its own index. |
| `Icn.DecodeIcnNeedsForm` | packages/dune2/src/icn.rs:164 | A file that decodes starts with `FORM`. |
| `Icn.DecodeIcnRoundTrip` | packages/dune2/src/icn.rs:161-199 | An ICN file built from a header, tiles, palette rows and a table decodes to those tiles, whatever the FORM size field holds and whatever follows. If `SSET` and `RTBL` differ in length, it is an error naming both. |
| `Maps.ShapeFromIndex` | packages/dune2/src/map.rs:14-38 | Icon group shapes: groups 10 and 19 are 3×3; 12, 13, 20 and 21 are 2×3; 11, 14-18, 24 and 25 are 2×2. Every other group is a single tile. |
| `Maps.ReadWords` | packages/dune2/src/map.rs:56-62 | A file splits into u16 words exactly when its length is even. An odd byte is `UnexpectedEndOfFile`. |
| `Maps.ReadWordsValues` | packages/dune2/src/map.rs:56-62 | Word `i` is the little-endian u16 at byte `2i`. |
| `Maps.ReadWordsRoundTrip` | packages/dune2/src/map.rs:56-62 | The bytes of any words read back as those words. One byte more is an error. |
| `Maps.GroupIconsAsWritten` | packages/dune2/src/map.rs:76-99 | As written, a group whose shape has no tiles panics dividing by zero. |
| `Maps.EmptySingleTileGroupPanics` | packages/dune2/src/map.rs:81-86 | An empty single-tile group panics as written; the intended reading gives no icons. |
| `Maps.GroupIcons` | packages/dune2/src/map.rs:76-99 | The intended group reading: an empty group has no icons, and a backwards range panics. Every non-empty group reads as written. |
| `Maps.GroupIconsOk` | packages/dune2/src/map.rs:88-97 | A non-empty group reads exactly when it is smaller than one icon, or its whole icons lie within the words. |
| `Maps.GroupIconsContent` | packages/dune2/src/map.rs:88-97 | A group gives `count / size` icons of its shape. Icon `k` holds the `size` words starting at `start + k·size`, so a partial trailing icon is dropped. |
| `Maps.SingleTileGroup` | packages/dune2/src/map.rs:81-86 | A single-tile group becomes one icon, one row high and as wide as the group, holding all its words. |
| `Maps.GroupTotal` | packages/dune2/src/map.rs:64-74 | The number of groups is one less than the first word, cut short by the words that are there. |
| `Maps.GroupSpan` | packages/dune2/src/map.rs:65-74 | Group `i` runs from its start word to the next group's start, or to the end of the file when that word is 0. |
| `Maps.GroupsFrom` | packages/dune2/src/map.rs:76-99 | Reading the groups in order fails only by panicking. |
| `Maps.GroupsFromSpec` | packages/dune2/src/map.rs:76-99 | The groups read exactly when each one does, and every icon read is well formed. |
| `Maps.GroupsFromAgree` | packages/dune2/src/map.rs:81-86 | Whenever the groups read as written, the intended reading gives the same icons. The two differ only when some group is empty. |
| `Maps.FromWords` | packages/dune2/src/map.rs:64 | A file without words, or whose first word is 0, panics. |
| `Maps.FromReader` | packages/dune2/src/map.rs:51-104 | `Map::from_reader` as written: an odd length is `UnexpectedEndOfFile`, and fewer than two bytes fail. |
| `Maps.FromReaderIntended` | packages/dune2/src/map.rs:51-104 | The intended reading fails on the same short and odd files. |
| `Maps.FromReaderSpec` | packages/dune2/src/map.rs:51-104 | A map reads exactly when the file is whole words, the first word is positive and every group reads. Every icon of the map is then well formed. |
| `Maps.FromReaderAgrees` | packages/dune2/src/map.rs:51-104 | Whenever the file reads as written, the intended reading gives the same map. |
| `Maps.EmptyGroupFileCounterexample` | packages/dune2/src/map.rs:81-86 | The 6-byte file `02 00 03 00 03 00` panics as written; intended, it is a map with no icons. |
| `Maps.FromReaderOfWords` | packages/dune2/src/map.rs:56-62 | Reading the bytes of any words is reading the words. |
| `Unpak.ReadOffset` | packages/unpak/src/command.rs:14-33 | A table offset, when read, leaves the data unchanged and always consumes input. |
| `Unpak.ReadOffsetSpec` | packages/unpak/src/command.rs:14-33 | An offset is read exactly when 4 bytes remain. A non-zero u32 is the offset. A 0 stands for the length of the archive, and the reader is left at its end. |
| `Unpak.ReadCString` | packages/unpak/src/command.rs:35-51 | A name read leaves the data unchanged and never moves backwards. |
| `Unpak.ReadCStringSpec` | packages/unpak/src/command.rs:35-51 | At the end of the data the name is empty. Otherwise it is the bytes up to the next 0, which is consumed. Without a 0 it is the rest of the data less its last byte, which `pop` removes. The name never holds a 0. |
| `Unpak.ReadName` | packages/unpak/src/command.rs:35-51 | A stored name followed by its 0 reads back as that name and moves past the 0. |
| `Unpak.ReadEntry` | packages/unpak/src/command.rs:65-77 | A stored entry reads back as its offset and name. |
| `Unpak.ReadTable` | packages/unpak/src/command.rs:65-77 | A table of stored entries reads back as those entries, followed by whatever the bytes after it read as. |
| `Unpak.EndMarker` | packages/unpak/src/command.rs:25-26 | A zero offset in the table gives a last entry at the end of the archive with an empty name. |
| `Unpak.ShortTail` | packages/unpak/src/command.rs:21-31 | Fewer than 4 bytes left end the table. |
| `Unpak.EntrySizes` | packages/unpak/src/command.rs:106-110 | Entry sizes fail only by panicking. |
| `Unpak.SizesFromSpec` | packages/unpak/src/command.rs:106-110 | The sizes exist exactly when the offsets never decrease; a decrease underflows. Entry `i`'s size is the next offset less its own. |
| `Unpak.SizesTelescope` | packages/unpak/src/command.rs:106-110 | The sizes add up to the last offset less the first. |
| `Unpak.ShortArchivePanics` | packages/unpak/src/command.rs:106 | An archive under 4 bytes has no entries, and `len() - 1` underflows. |
| `Unpak.Resize` | packages/unpak/src/command.rs:118 | `resize` keeps the buffer's first bytes and pads with zeros up to the new size. |
| `Unpak.ReadInto` | packages/unpak/src/command.rs:119-120 | A single `read` at an offset overwrites the buffer with the archive's bytes as far as the archive goes. It keeps the old bytes beyond that. |
| `Unpak.ExtractSpec` | packages/unpak/src/command.rs:106-139 | The intended extraction succeeds exactly when the sizes do. File `i` is then entry `i`'s name with the archive bytes between its offset and the next. |
| `Unpak.ExtractSizes` | packages/unpak/src/command.rs:106-120 | An extracted entry that lies inside the archive has as many bytes as its size. |
| `Unpak.AsWrittenAgrees` | packages/unpak/src/command.rs:118-120 | The extraction as written fails on the same tables. When every entry lies inside the archive, it extracts the same files. |
| `Unpak.StaleBytes` | packages/unpak/src/command.rs:118-120 | An archive whose last entry runs past its end: as written that file holds bytes of the previous entry after the archive's tail. The intended extraction gives just the tail. |
| `Unpak.PackedEntries` | packages/unpak/src/command.rs:65-77 | The table of a packed archive reads back as one entry per file, then the end entry. |
| `Unpak.PackedExtract` | packages/unpak/src/command.rs:106-139 | Extracting a packed archive along its table gives back its files. |
| `Unpak.UnpackPack` | packages/unpak/src/command.rs:96-142 | Unpacking an archive packed from files with 0-free names and under 4 GiB gives those files back, in order. This holds both for `run` as written, with its reused buffer, and for the intended extraction. |
| `Unpak.UnpackAgrees` | packages/unpak/src/command.rs:96-142 | `run` as written fails on exactly the archives the intended extraction fails on. When it succeeds and the last entry ends inside the archive, it writes the same files. |
| `Unpak.UnpackStale` | packages/unpak/src/command.rs:118-120 | On a whole archive whose last entry runs past its end, `run` as written writes an 89-byte second file, where the intended extraction writes the 6 bytes the archive holds for it. |
| `Bitmaps.CollectAsWrittenFrom` | packages/bitmap/src/lib.rs:160-175 | The iterator as written, from any point of a row: the rest of that row, then whole rows, stopping before the bottom row. |
| `Bitmaps.PointsAsWrittenSpec` | packages/bitmap/src/lib.rs:143-175 | `Rect::iter` as written yields the rows of the rect except the bottom one, in row-major order. A point is yielded exactly when the rect contains it and it is not on the bottom row. |
| `Bitmaps.ZeroWidthAsWritten` | packages/bitmap/src/lib.rs:160-175 | On a zero-width rect the iterator as written yields the left column, which the rect does not contain, for all rows but the bottom one. |
| `Bitmaps.PointsSpec` | packages/bitmap/src/lib.rs:143-175 | The intended iterator yields every point of the rect exactly once, row by row. |
| `Bitmaps.New` | packages/bitmap/src/lib.rs:189-195 | `Bitmap::new` has the given size and one pixel per point. The u32 product panics on overflow. |
| `Bitmaps.Pixel` | packages/bitmap/src/lib.rs:223-226 | `pixel` succeeds exactly when `y·width + x` indexes the pixels, and otherwise panics. |
| `Bitmaps.PutPixel` | packages/bitmap/src/lib.rs:228-232 | `put_pixel` succeeds under the same condition as `pixel`, keeping the size. |
| `Bitmaps.IndexInside` | packages/bitmap/src/lib.rs:197-199 | Points of a bitmap have indices inside the pixels, and different points different indices. |
| `Bitmaps.NewSpec` | packages/bitmap/src/lib.rs:189-195 | A new bitmap is black. |
| `Bitmaps.PutThenPixel` | packages/bitmap/src/lib.rs:223-232 | After `put_pixel`, the point shows the new colour and every other point is unchanged. |
| `Bitmaps.Paint` | packages/bitmap/src/lib.rs:235-237 | Putting a sequence of points keeps the bitmap's size. It fails only by panicking. |
| `Bitmaps.PaintOk` | packages/bitmap/src/lib.rs:235-237 | Putting a sequence of points succeeds exactly when every point is addressable. |
| `Bitmaps.PaintSpec` | packages/bitmap/src/lib.rs:235-237 | After putting points of the bitmap, those points show their colours and all others are unchanged. |
| `Bitmaps.FillRectAsWrittenSpec` | packages/bitmap/src/lib.rs:234-239 | `fill_rect` as written on a rect inside the bitmap colours the rect without its bottom row and changes nothing else. |
| `Bitmaps.FillRectSpec` | packages/bitmap/src/lib.rs:234-239 | The intended `fill_rect` colours exactly the points of the rect. |
| `Bitmaps.ClearMissesBottomRow` | packages/bitmap/src/lib.rs:241-243 | `clear` as written leaves the bottom row of the bitmap as it was. |
| `Bitmaps.ClearOneByOne` | packages/bitmap/src/lib.rs:241-243 | Clearing a 1×1 bitmap to white as written leaves it black. |
| `Bitmaps.ClearFills` | packages/bitmap/src/lib.rs:241-243 | The intended `clear` gives every pixel the colour. |
| `Bitmaps.CopyPairs` | packages/bitmap/src/lib.rs:271-273 | The copy loop of `blit` fails only by panicking. |
| `Bitmaps.BlitAsWritten` | packages/bitmap/src/lib.rs:245-276 | `blit` as written fails only by panicking. |
| `Bitmaps.Blit` | packages/bitmap/src/lib.rs:245-276 | The intended `blit` fails only by panicking. |
| `Bitmaps.BlitSpec` | packages/bitmap/src/lib.rs:245-276 | The intended `blit` always succeeds. It copies the source point, offset by the clipped corners, to each point of the window: the clipped destination cut to the common size. Every other point is unchanged. |
| `Bitmaps.BlitAsWrittenSpec` | packages/bitmap/src/lib.rs:245-276 | `blit` as written always succeeds, copies the window without its bottom row and changes nothing else. |
| `Bitmaps.SwappedBytes` | packages/bitmap/src/lib.rs:304-305 | The resolution is written with `to_be_bytes`, so a reader of the little-endian field sees the byte-swapped value. |
| `Bitmaps.RowSize24` | packages/bitmap/src/lib.rs:317-318 | A 24-bit row is the smallest multiple of 4 that holds `3·width` bytes. |
| `Bitmaps.RowSize24Agrees` | packages/bitmap/src/lib.rs:317-318 | This row size is the one the palette writer computes for 24 bits per pixel. |
| `Bitmaps.WriteOk` | packages/bitmap/src/lib.rs:317-318 | Writing succeeds whenever `3·width + 4` fits a u32. It panics when `3·width` overflows. |
| `Bitmaps.WriteLayout` | packages/bitmap/src/lib.rs:278-347 | The written file is the 54-byte header for its size, then `height` padded rows. |
| `Bitmaps.WriteRow` | packages/bitmap/src/lib.rs:319-334 | Row `y` is written bottom-up, at `height - 1 - y` row sizes past the header. |
| `Bitmaps.WriteHeader` | packages/bitmap/src/lib.rs:284-313 | The file starts with `BM`, and every header field holds its value: the file size, the pixel offset 54, width, height, 24 bits and the resolution. |
| `Bitmaps.WritePixel` | packages/bitmap/src/lib.rs:319-328 | Every pixel is written as blue, green, red at its place in its row. |
| `Bitmaps.WritePadding` | packages/bitmap/src/lib.rs:330-333 | Each row is padded with fewer than 4 zero bytes. |
| `Bitmaps.ResolutionAsWritten` | packages/bitmap/src/lib.rs:304-305 | As written, the resolution field reads `0x9D040000`. Written little-endian it reads the intended 1181 pixels per metre. |
| `LegacyBitmaps.PointsWideSpec` | bitmap/src/lib.rs:165-184 | The old iterator yields one column past the right edge: every point from the left edge to the right edge inclusive, on every row. |
| `LegacyBitmaps.FillRectWide` | bitmap/src/lib.rs:238-243 | `fill_rect` keeps the bitmap's size. |
| `LegacyBitmaps.FillRectWideSpec` | bitmap/src/lib.rs:238-243 | When the extra column is inside the bitmap, `fill_rect` colours the rect and that column and nothing else. |
| `LegacyBitmaps.ClearWide` | bitmap/src/lib.rs:245-247 | `clear` keeps the bitmap's size when it succeeds. |
| `LegacyBitmaps.ClearPanics` | bitmap/src/lib.rs:245-247 | `clear` on any non-empty bitmap panics: the extra column of the last row lies past the pixel vector. |
| `LegacyBitmaps.ClearOneByOnePanics` | bitmap/src/lib.rs:245-247 | Clearing a 1×1 bitmap panics. |
| `LegacyBitmaps.BlitWide` | bitmap/src/lib.rs:249-280 | The old `blit` fails only by panicking. |
| `LegacyBitmaps.BlitWideSpec` | bitmap/src/lib.rs:249-280 | When the extra column fits both bitmaps, the old `blit` copies the window and that column, and nothing else. |
| `Surfaces.New` | packages/dune2/src/surface.rs:19-24 | A new surface has the given size and one pixel per point. Every point shows the default colour, black. |
| `Surfaces.PutPixel` | packages/dune2/src/surface.rs:45-49 | `put_pixel` keeps the size and the number of pixels. |
| `Surfaces.ProductValid` | packages/dune2/src/surface.rs:19-24 | A pixel vector of `width·height` entries below 2^32 is a valid surface. |
| `Surfaces.IndexInjective` | packages/dune2/src/surface.rs:12-16 | Different points of a surface have different indices. |
| `Surfaces.PutThenGet` | packages/dune2/src/surface.rs:38-49 | After `put_pixel`, the point shows the new colour and every other point is unchanged. |
| `Surfaces.Extensional` | packages/dune2/src/surface.rs:38-41 | Two valid surfaces of one size that show the same colour at every point are equal. |
| `Surfaces.Paint` | packages/dune2/src/bitmap.rs:36-40 | The row-by-row loop over a rect inside the surface colours exactly the rect's points and keeps every other point. |
| `Surfaces.FillRect` | packages/dune2/src/bitmap.rs:30-42 | `fill_rect` clips the rect to the surface. It colours exactly the points of the rect that lie in the surface and keeps every other point. |
| `Surfaces.Clear` | packages/dune2/src/bitmap.rs:44-49 | `clear` gives every pixel the colour. |
| `Surfaces.MapRangeSpec` | packages/dune2/src/bitmap.rs:56-68 | The range mapper sends the input range into the output range. An empty output range maps to its start. Ranges of equal length map by translation. |
| `Surfaces.BlitSourceInside` | packages/dune2/src/bitmap.rs:93-109 | Each destination point of `blit` reads a source point inside the clipped source rect, or the origin when the source rect misses the source. |
| `Surfaces.BlitSourceUnscaled` | packages/dune2/src/bitmap.rs:93-109 | When the clipped rects have the same size, the source point is the destination point moved by the offset between their corners. |
| `Surfaces.Blit` | packages/dune2/src/bitmap.rs:70-113 | `blit` panics exactly when the destination clip is non-empty and the source rect misses an empty source, since `get_pixel` then indexes an empty vector. Otherwise it keeps the size. Each point of the destination clip shows its mapped source pixel; every other point is unchanged. |
| `Surfaces.PointToIndex` | packages/dune2/src/bitmap.rs:116-124 | The unsigned `point_to_index` is `None` exactly when the point lies right of or below the size. |
| `Surfaces.PointToIndexInverse` | packages/dune2/src/bitmap.rs:116-124 | An index from `point_to_index` is below `width·height`, and its remainder and quotient by the width give back the point. |
| `Surfaces.PointToIndexSigned` | packages/dune2/src/utils.rs:8-19 | The signed `point_to_index` gives `None` exactly when one of its guards fires. Without overflow the index fits a u32. |
| `Surfaces.PointToIndexSignedSpec` | packages/dune2/src/utils.rs:8-19 | The signed `point_to_index` rejects negative coordinates of an i32-sized surface. A point with no negative coordinate gets `y·width + x`. Inside the surface it agrees with the unsigned version. |
| `Surfaces.PointToIndexSignedPastEdge` | packages/dune2/src/utils.rs:12-18 | A point just past the right edge is not rejected and gets the index of the next row's first pixel. The unsigned version rejects it. |
| `Rects.FromPoints` | packages/dune2/src/rect.rs:35-55 | The rect spanned by two points runs from their smaller to their larger coordinate on each axis. |
| `Rects.FromPointsNormalises` | packages/dune2/src/rect.rs:35-55 | The points' order does not matter, and any two opposite corners give back the rect. |
| `Rects.Intersected` | packages/dune2/src/rect.rs:110-122 | `intersected` is `Some` exactly when the overlap has positive width and height. The overlap's edges are the inner edges. |
| `Rects.IntersectedSpec` | packages/dune2/src/rect.rs:110-122 | Intersection is symmetric. A point lies in the intersection exactly when it lies in both rects, and with `None` no point does. |
| `Rects.IntersectedNoneIffDisjoint` | packages/dune2/src/rect.rs:110-122 | `intersected` is `None` exactly when no point lies in both rects. |
| `Rects.Next` | packages/dune2/src/rect.rs:142-151 | A step of the iterator advances its counter by one. |
| `Rects.CollectSpec` | packages/dune2/src/rect.rs:139-151 | The points left in the iterator are the points for the remaining counter values, in counter order. |
| `Rects.IterSpec` | packages/dune2/src/rect.rs:124-151 | `iter` yields `width·height` points: counter `k` gives `(left + k mod width, top + k div width)`. The zero rect yields nothing. |
| `Rects.IterCovers` | packages/dune2/src/rect.rs:124-151 | A point is yielded exactly when the rect contains it. |
| `Tiles.Half` | packages/dune2/src/tile.rs:43 | i32 division by 2 truncates toward zero. |
| `Tiles.ToPositionAligns` | packages/dune2/src/tile.rs:29-67 | A fixed position is kept. Left and top anchors give 0; right and bottom anchors align the far edges; centre anchors give half the difference, truncated toward zero. |
| `Tiles.MirrorLaws` | packages/dune2/src/tile.rs:161-177 | Each mirror keeps points inside the tile and is its own inverse. Flipping both ways is flipping vertically, then horizontally. |
| `Tiles.Transform` | packages/dune2/src/tile.rs:161-177 | `transform` keeps the tile's size and gives one pixel per point. |
| `Tiles.TransformSpec` | packages/dune2/src/tile.rs:161-177 | After `transform`, each point shows the pixel of its mirror image. |
| `Tiles.TransformInvolution` | packages/dune2/src/tile.rs:161-177 | No transform is the identity, and applying a transform twice gives back the tile. |
| `Tiles.TransformFlipXY` | packages/dune2/src/tile.rs:161-177 | Flipping both ways equals flipping vertically, then horizontally. |
| `Tiles.AxisSpan` | packages/dune2/src/tile.rs:193-223 | On one axis, the copied span is offset by the anchor position and fits both lengths. It is undefined exactly at offset `i32::MIN`, where `abs` overflows. |
| `Tiles.AxisSpanCovers` | packages/dune2/src/tile.rs:193-223 | A destination coordinate lies in the span exactly when it lies in the destination and its source coordinate lies in the tile. |
| `Tiles.Resize` | packages/dune2/src/tile.rs:179-254 | `resize` returns the tile unchanged when the size is the same. Otherwise it panics exactly when `abs` overflows or the new pixel count overflows a u32. A resized tile has the new size, with each point showing the tile pixel at the point less the anchor position, or 0 outside the tile. |
| `Tiles.WindowShift` | packages/dune2/src/tile.rs:225-233 | The destination rect holds exactly the points whose shifted source lies in the tile. |
| `Tiles.ResizeZip` | packages/dune2/src/tile.rs:238-248 | The zipped iterators pair each destination point with its source point, shifted by the anchor position. |
| `Tiles.TileBitmapPixel` | packages/dune2/src/tile.rs:300-318 | A tile bitmap's colour, when there is one, is a palette entry. |
| `Tiles.TileBitmapPixelSpec` | packages/dune2/src/tile.rs:300-318 | Negative coordinates give no colour. A point inside the tile shows the palette entry of its faction-remapped index, and panics when that index is past the palette. |
| `Tilesets.New` | packages/dune2/src/tileset.rs:42-52 | A new tileset has its id and tile size and no tiles. |
| `Tilesets.Add` | packages/dune2/src/tileset.rs:54-69 | `add` succeeds exactly when the tile has the tileset's size, appending it. Otherwise it is `TilesetInvalidTileSize` naming the id and the tile's size. |
| `Tilesets.AddKeepsSized` | packages/dune2/src/tileset.rs:54-69 | Adding keeps every tile of the tileset at the tile size. |
| `Tilesets.TileAt` | packages/dune2/src/tileset.rs:75-85 | `tile_at` succeeds exactly for indices below the tile count, giving that tile. Otherwise it is `TilesetInvalidTileIndex` naming the id and index. |
| `Tilesets.AddThenTileAt` | packages/dune2/src/tileset.rs:54-85 | After `add`, the new tile is at the old count and the earlier tiles are where they were. |
| `Tilemaps.FirstOutOfRange` | packages/dune2/src/tilemap.rs:84-103 | When some index is out of range, the first such index is the one reported. |
| `Tilemaps.CollectBitmaps` | packages/dune2/src/tilemap.rs:92-100 | The tile bitmaps are collected exactly when every index is in range, one per index in order. Otherwise the first bad index is reported. |
| `Tilemaps.TryWithResources` | packages/dune2/src/tilemap.rs:84-103 | A missing tileset is `TilesetInvalidId`; a bad tile index is `TilesetInvalidTileIndex` for the first one. Otherwise the result has the tilemap's shape, the tileset's tile size and one bitmap per tile. |
| `Tilemaps.Width` | packages/dune2/src/tilemap.rs:107-110 | The width is the column count times the first tile's width. A tilemap without tiles panics, and so does a u32 overflow. |
| `Tilemaps.Height` | packages/dune2/src/tilemap.rs:111-113 | The height is the row count times the first tile's height, with the same panics. |
| `Tilemaps.ExtentOfSized` | packages/dune2/src/tilemap.rs:107-113 | With every tile at the tileset's size, the extent is the shape times the tile size. |
| `Tilemaps.GetPixelByCell` | packages/dune2/src/tilemap.rs:117-136 | A pixel of the tilemap is the pixel of the tile at its cell, at the same place within the tile. |
| `Tilemaps.CellOf` | packages/dune2/src/tilemap.rs:117-136 | Every point with no negative coordinate splits into a cell and a position inside the tile. |
| `AssetStore.GetTileset` | packages/dune2/src/assets.rs:34-41 | `get_tileset` finds the tileset by id. A missing id is `TilesetInvalidId`. |
| `AssetStore.GetTileBitmap` | packages/dune2/src/assets.rs:43-53 | `get_tile_bitmap` succeeds exactly when the tileset exists and the index is in range. It gives that tile with the bundle's palette and the faction, and otherwise reports the missing id or the bad index. |
| `AssetStore.GetTileBitmapSized` | packages/dune2/src/assets.rs:43-53 | A tile bitmap from a bundle of sized tilesets has the tileset's tile size. |
| `TilesetCheck.Indices` | packages/rctoolkit/src/check.rs:13 | The starting set holds exactly the indices below the tile count. |
| `TilesetCheck.RemoveTilesSpec` | packages/rctoolkit/src/check.rs:17-21 | Removing a tilemap's indices keeps exactly the indices it does not hold. |
| `TilesetCheck.RemoveUsedSpec` | packages/rctoolkit/src/check.rs:15-23 | The outer loop keeps exactly the indices no tilemap of the tileset uses. |
| `TilesetCheck.UnusedTilesSpec` | packages/rctoolkit/src/check.rs:8-28 | An index is reported exactly when it numbers a tile reference of the tileset and no tilemap drawn with that tileset uses it. |
| `TilesetCheck.UnusedTilesIgnores` | packages/rctoolkit/src/check.rs:15-23 | A tilemap of another tileset, or one using only indices past the references, changes nothing. |
| `TilesetCheck.CheckTileset` | packages/rctoolkit/src/check.rs:8-28 | The loops compute exactly the unused indices. |
| `TilesetCheck.ReportsAll` | packages/rctoolkit/src/check.rs:43-57 | Without an id, every tileset is checked, in order. |
| `TilesetCheck.ReportsOnly` | packages/rctoolkit/src/check.rs:43-57 | With an id, exactly the tilesets with that id are checked. |
| `TilesetCheck.ExampleReport` | packages/rctoolkit/src/check.rs:8-28 | A one-cell map using index 1 of a three-tile tileset leaves 0 and 2 unused. |
| `Colors.ScaleMonotone` | packages/dune2/src/color.rs:25-41 | A smaller factor fits whenever a larger one does, and gives channels no larger. `k * color` equals `color * k`. |
| `Colors.ScaleComposes` | packages/dune2/src/color.rs:25-34 | Scaling by `a`, then by `b`, is scaling by `a·b`. |
| `Colors.ScaleByFourInvertible` | packages/dune2/src/color.rs:96-98 | Scaling by 1 changes nothing. Scaling a 6-bit colour by 4 loses nothing: dividing each channel by 4 gives it back. |
| `Colors.Push` | packages/dune2/src/color.rs:104-109 | `push` appends the colour and returns its position, the old length. It keeps the index consistent with the colours. |
| `Colors.ColorAt` | packages/dune2/src/color.rs:119-121 | `color_at` returns a colour of the palette. |
| `Colors.ColorIndex` | packages/dune2/src/color.rs:115-117 | `color_index` finds a colour exactly when the palette holds it, at a position holding that colour. |
| `Colors.Iter` | packages/dune2/src/color.rs:111-113 | `iter` gives each position with its colour, in order. |
| `Colors.ColorIndexIsLastPush` | packages/dune2/src/color.rs:104-117 | Since `push` overwrites the map entry, `color_index` gives the last position a colour was pushed at. |
| `Colors.PushThenLookup` | packages/dune2/src/color.rs:104-125 | After `push`, the returned position holds the colour and is what `color_index` finds. The length grows by one and the earlier colours are unchanged. |
| `Colors.ReadPal` | packages/dune2/src/color.rs:90-99 | The read loop fails only on a partial colour or a channel overflow. It appends one colour per three bytes and keeps the colours it had. |
| `Colors.FromPal` | packages/dune2/src/color.rs:84-102 | A palette read from a `.pal` file is consistent. |
| `Colors.ReadPalAccepts` | packages/dune2/src/color.rs:90-99 | The read loop succeeds exactly when the bytes are whole colours of 6-bit channels. With 6-bit channels, the only error is "Invalid palette file". |
| `Colors.ReadPalColors` | packages/dune2/src/color.rs:90-99 | Each appended colour is the next three bytes times 4. |
| `Colors.FromPalSpec` | packages/dune2/src/color.rs:84-102 | `from_pal_reader` succeeds exactly when the file is whole 6-bit colours, and then holds one colour per three bytes, each scaled by 4. |
| `Colors.FromPalAccepts` | packages/rctoolkit/src/pal.rs:13-31 | `read_palette_from_reader` accepts exactly files of whole 6-bit colours. A partial colour is "Invalid palette file"; a channel of 64 or more overflows. |
| `Colors.FromPalColors` | packages/rctoolkit/src/pal.rs:13-31 | An accepted file gives one colour per three bytes, in order, each channel times 4. |
| `DedupPalettes.ValidDistinct` | packages/bitmap/src/color.rs:29-39 | A consistent palette never holds a colour twice. |
| `DedupPalettes.Add` | packages/bitmap/src/color.rs:29-39 | `add` of a colour already present returns its position and changes nothing. A new colour is appended at the old length. Consistency is kept. |
| `DedupPalettes.Iter` | packages/bitmap/src/color.rs:41-43 | `iter` gives the colours in position order. |
| `DedupPalettes.IterDistinct` | packages/bitmap/src/color.rs:41-47 | The colours iterated are distinct, and a colour is among them exactly when `color_index` finds it. |
| `DedupPalettes.ColorIndex` | packages/bitmap/src/color.rs:45-47 | `color_index` finds a colour exactly when the palette holds it, at its position. |
| `DedupPalettes.ColorAt` | packages/bitmap/src/color.rs:49-51 | `color_at` and `color_index` are inverse: the colour at `i` is found at `i`. |
| `DedupPalettes.AddThenLookup` | packages/bitmap/src/color.rs:29-55 | After `add`, the returned position holds the colour and `color_index` finds it there. The length grows only for a new colour, and earlier positions are unchanged. |
| `DedupPalettes.AddIdempotent` | packages/bitmap/src/color.rs:29-39 | Adding the same colour twice is adding it once. |
| `DedupPalettes.AddAllSpec` | packages/bitmap/src/color.rs:29-39 | Adding a sequence of colours to an empty palette keeps their first occurrences, in order. The returned positions encode the sequence. |
| `DedupPalettes.AddAllRoundTrip` | packages/bitmap/src/color.rs:29-51 | Looking up each returned position gives back the colour added there. |
| `DedupPalettes.AddAllLen` | packages/bitmap/src/color.rs:29-55 | The palette ends with as many colours as there are distinct colours in the sequence. |
| `Factions.Ordinal` | packages/dune2/src/constants.rs:18-26 | The six factions are numbered 0 to 5. |
| `Factions.OrdinalBijective` | packages/dune2/src/constants.rs:18-26 | The numbering is a bijection between the factions and 0 to 5. |
| `Factions.ColorBands` | packages/dune2/src/constants.rs:10-15 | The faction colour bands start 16 apart from `COLOR_HARKONNEN`. |
| `Factions.PaletteOffset` | packages/dune2/src/shp.rs:37 | A faction's palette offset is 16 times its ordinal: a multiple of 16, at most 80. |
| `Factions.RemapIndex` | packages/dune2/src/tile.rs:307-314 | The remap never lowers an index. |
| `Factions.RemapSpec` | packages/dune2/src/tile.rs:307-314 | Without a faction, or outside the 7-entry band, the index is kept. Inside it, the index moves by the faction's offset. The index changes exactly for a band index and a faction other than Atreides, whose offset is 0. |
| `Factions.RemapBandOfFaction` | packages/dune2/src/constants.rs:10-26 | The shift lands on the faction's own band only for Ordos and Fremen. Harkonnen's pixels go to the Atreides band and Atreides' stay in Harkonnen's: the enum order differs from the band order. |
| `Factions.ToLower` | packages/dune2/src/constants.rs:31 | Lower-casing maps each character, keeping the length. |
| `Factions.TryFromStr` | packages/dune2/src/constants.rs:29-53 | A name is accepted exactly when its lower-case form is a faction's name. Otherwise it is `FactionInvalidString` with the input. |
| `Factions.TryFromStrRoundTrip` | packages/dune2/src/constants.rs:29-53 | Every faction's name, in lower or upper case, parses back to the faction. |
| `Factions.TryFromStrCaseInsensitive` | packages/dune2/src/constants.rs:29-53 | Strings with the same lower-case form parse alike. |
| `Factions.KelvinSignParses` | packages/dune2/src/constants.rs:31 | The Kelvin sign lower-cases to `k`, so "HAR\u{212A}ONNEN" parses as Harkonnen. |
| `Geometry.PointAddLaws` | packages/dune2/src/point.rs:15-33 | Point addition has the origin as identity and is commutative. Subtraction undoes it. |
| `Geometry.PointScaleLaws` | packages/dune2/src/point.rs:35-50 | Scaling multiplies both coordinates, on either side. 1 is the identity and 0 gives the origin. |
| `Geometry.ShapeScaleLaws` | packages/dune2/src/shape.rs:23-60 | Scaling a shape multiplies both dimensions, by a u32, u8 or u16 factor alike. 1 is the identity. |
| `Geometry.Decimal` | packages/dune2/src/shape.rs:17-21 | A number's decimal form is a non-empty string of digits. |
| `Geometry.ShapeDisplayInjective` | packages/dune2/src/shape.rs:17-21 | Different shapes display differently. |
| `Geometry.ShapeDisplayShows` | packages/dune2/src/shape.rs:17-21 | The display is `{columns=<c>, rows=<r>}`, whose digits read back as the column and row counts. |
| `BmpWriters.RowSizeSpec` | packages/dune2/src/bmp_writers.rs:64 | A row is the smallest multiple of 4 bytes that holds its pixels. |
| `BmpWriters.RowPadSpec` | packages/dune2/src/bmp_writers.rs:64-65 | The padding fills the row up to a multiple of 4 with fewer than 4 bytes. |
| `BmpWriters.FieldDecodes` | packages/dune2/src/bmp_writers.rs:39-49 | Every header field decodes, little-endian, to its value. |
| `BmpWriters.FieldOffsets` | packages/dune2/src/bmp_writers.rs:27-49 | The header fields sit at the offsets of the BMP format. |
| `BmpWriters.HeaderValues` | packages/dune2/src/bmp_writers.rs:27-49 | A header starts with `BM`, and each field can be read back at its offset. |
| `BmpWriters.PaletteBytes` | packages/dune2/src/bmp_writers.rs:52-54 | The colour table has 4 bytes per colour. |
| `BmpWriters.PaletteBytesAt` | packages/dune2/src/bmp_writers.rs:52-54 | Colour `i` is written as blue, green, red, 0 at `4i`. |
| `BmpWriters.PixelBytes` | packages/dune2/src/bmp_writers.rs:69-76 | A pixel is one byte at 8 bits, three at 24. The errors are panics. |
| `BmpWriters.WriteBmpWithPalette` | packages/dune2/src/bmp_writers.rs:14-96 | Writing fails only by panicking. |
| `BmpWriters.WriteBmpOk` | packages/dune2/src/bmp_writers.rs:14-96 | Writing succeeds exactly when `bpp·width + 31` fits a u32, every pixel is addressable and, at 8 bits, every colour is in the palette. |
| `BmpWriters.PixelArrayAt` | packages/dune2/src/bmp_writers.rs:56-90 | The file is the headers, the colour table, then `height` rows of the row size. |
| `BmpWriters.WriteBmpHeader` | packages/dune2/src/bmp_writers.rs:27-61 | The header records the file size, the pixel array offset, width, height, depth, the palette size and the resolution. |
| `BmpWriters.ArrayRow` | packages/dune2/src/bmp_writers.rs:67-83 | Row `y` is stored bottom-up, at `height - 1 - y` row sizes. |
| `BmpWriters.ArrayPixel` | packages/dune2/src/bmp_writers.rs:68-77 | Each pixel's bytes are at its place in its row. |
| `BmpWriters.ArrayPadding` | packages/dune2/src/bmp_writers.rs:79-82 | Each row ends with fewer than 4 zero bytes, reaching a multiple of 4. |
| `BmpWriters.ArrayColor` | packages/dune2/src/bmp_writers.rs:70-71 | At 8 bits each pixel byte indexes the palette entry of the pixel's colour. |
| `BmpWriters.RowsAt` | packages/dune2/src/bmp_writers.rs:67-83 | When the rows are written, each row lands at `n - 1 - y` row lengths, and the array has `n` of them. |
| `BmpWriters.RowsStack` | packages/dune2/src/bmp_writers.rs:67-83 | The rows are written bottom row first. |

## Left out

- File and stream I/O is not modelled: opening files, stdin, `seek`, `flush`, and the write calls of the BMP writers. The readers work on a byte sequence with a position, and the writers return the bytes they would write.
- Serialisation is not modelled: the serde derives, `Assets` reading and writing, `Config::try_read_from_file`. Command-line parsing (clap) and the wasm bindings are left out too. None of them carries logic of its own.
- Printing is not modelled: `print!`/`println!` in `check`, `unpak --list` and `--verbose`. The model returns what would be printed, such as the set of unused indices and the entry sizes.
- `TilesetCheck.CheckTileset`: the report is a set, because the order in which `HashSet` iterates is not fixed.
- `Unpak.ReadCString`: names stay bytes. `String::from_utf8_lossy` would turn invalid UTF-8 into U+FFFD, and that conversion is not modelled.
- `Unpak.Unpack`: the output directory (`create_dir_all`), the `AlreadyExists` check when `--overwrite` is absent, and the file writes are left out. Extraction returns the list of named files.
- `Icn.DecodeIcn`: packages/dune2/src/icn.rs calls `try_read_from::<MSB>`, which packages/dune2/src/io.rs does not define. The model uses the rctoolkit reader of that name for both copies.
- `AssetStore.GetTileBitmap`: packages/dune2/src/assets.rs:52 calls `TileBitmap::with_assets`, which tile.rs does not define. It is modelled as `with_palette` with the bundle's palette.
- `Surfaces.Blit`: packages/dune2/src/bitmap.rs:110 unwraps `get_pixel`, but surface.rs returns a bare `Color`. The model reads the pixel and panics where indexing would.
- `Surfaces.New`: the u32 product `width * height` is required to fit, rather than modelled as a panic.
- `Surfaces.PointToIndex`: an in-bounds point must have an index below 2^32; the u32 overflow panic is not modelled.
- `Surfaces.GetPixel` and `Surfaces.PutPixel` require the index to land in the pixel vector. Every caller in the model proves it; the index panic is not modelled.
- `Tiles.Transform` requires a tile with width or no rows. On a zero-width tile with rows, `width - current_x - 1` underflows and panics (packages/dune2/src/tile.rs:118).
- `Tiles.Transform` also requires the data to hold exactly `width·height` pixels, which `Tile::new` (packages/dune2/src/tile.rs:145-153) does not check. With fewer, the program's iterator indexes past the data and panics (tile.rs:130). With more, a transform keeps only the first `width·height` pixels, rearranged, and `None` keeps all of them. Neither case is modelled.
- `Tiles.Resize` requires the same data length. With fewer pixels, the copy `data[dst_off] = self.data[src_off]` panics (packages/dune2/src/tile.rs:244) once a source index is past the data. Tiles whose data length does not match their size are not modelled.
- `Tiles.ToPosition`, `Tiles.Placement` and `Tiles.Resize` require sizes below 2^31. The `as i32` casts of larger u32 sizes wrap, and that is not modelled.
- `Geometry.Add`, `Geometry.Sub` and `Geometry.Scale` require the u32 result to fit. Overflow and underflow would panic, and are preconditions here; the same holds for `ScaleLeft` and the `ShapeScale` family.
- `Colors.Scale` requires every channel product to fit a u8. The `.pal` readers do model the overflow, as a panic.
- `Colors.ColorAt` and `DedupPalettes.ColorAt` require an index below the length; the indexing panic is a precondition.
- `Rects.FromPoints` takes coordinate differences as exact integers. The i32 subtraction at rect.rs:50-51 would overflow for points 2^31 or more apart, and that is not modelled.
- `Rects.Iter` requires `width * height` to fit a u32. The overflow panic at rect.rs:134 is not modelled.
- `Tilemaps.GetPixel` requires its coordinates to lie in the i32 range of the source's `Point`. The u32 entry arithmetic `row * columns + col` (packages/dune2/src/tilemap.rs:127) is modelled, and its overflow is a panic.
- Rect edges, bitmap indices and sizes cast to i32 are unbounded integers here. The source's i32 additions overflow and panic near ±2^31, and its `as i32` casts of u32 sizes of 2^31 or more wrap. Neither is modelled. The members this affects follow.
- `Rects.Intersected` (packages/dune2/src/rect.rs:110-122) computes `right()` and `bottom()` (rect.rs:100-106) without overflow. In the program, a rect with `left + width` or `top + height` beyond `i32::MAX` panics there, for example one at x = `i32::MAX` of width 1.
- `Surfaces.FillRect` (packages/dune2/src/bitmap.rs:30-42) intersects through `Rects.Intersected`, so the same rect at x = `i32::MAX` leaves the surface unchanged in the model, where the program panics.
- `Surfaces.Clear` (packages/dune2/src/bitmap.rs:44-49) colours every pixel. For a surface 2^31 or more wide, the program's `width as i32` wraps to a negative width, and its clear paints nothing.
- `Bitmaps.Pixel` computes the index `y·width + x` of packages/bitmap/src/lib.rs:197-199 without i32 overflow. For example, point (-2^31 + 5, 2^30) of a 2×3 bitmap reads pixel 5 in the model, where the program overflows and panics.
- `Bitmaps.PutPixel` uses the same index (packages/bitmap/src/lib.rs:228-232), so it writes pixel 5 at that point, where the program panics.
- `Bitmaps.WriteOk` also relies on the index of `Bitmaps.Pixel`: for a bitmap 1 wide and 2^31 + 1 high, `row as i32` at packages/bitmap/src/lib.rs:320 wraps and the program panics, where the model writes the file.
- `Bitmaps.FillRectAsWritten` and `Bitmaps.FillRectAsWrittenSpec` compute `bottom() - 1` (packages/bitmap/src/lib.rs:161) without overflow, so a rect at y = `i32::MIN` of height 0 succeeds in the model, where the program panics.
- `LegacyBitmaps.PointsWide` reuses the i32 rects and bitmaps of packages/bitmap for the older crate, whose points are u32. Its `right()`/`bottom()` (bitmap/src/lib.rs:123-133) and `index` (bitmap/src/lib.rs:201-203) wrap or panic on u32 overflow, and that is not modelled.
- `Surfaces.MapRange` computes the range mapper of packages/dune2/src/bitmap.rs:56-68 in exact arithmetic, where the source uses f32. In f32 a 22-wide same-size blit maps x = 13 to 12, since 13/22·22 rounds to 12.999999. So `Surfaces.BlitSourceUnscaled` holds of the model but not of the program.
- `Surfaces.Blit` is weaker than the program's behaviour in this way: its pixels follow the exact mapper, not the f32 one.
- `Bitmaps.RowSize24` is the exact `4·ceil(3·width/4)`; the source computes it in f32 (packages/bitmap/src/lib.rs:317-318). At width 16777217 the f32 row size is 50331648, below `3·width`. `pad_size` then underflows and the program panics, where the model writes the file.
- `Bitmaps.WriteOk` promises success whenever `3·width + 4` fits a u32. This follows the exact row size, so it does not hold of the program: at width 16777217 the f32 row size makes the program panic, where the model writes the file.
- `BmpWriters.PixelsPerMeter`: `ppi2ppm(300)` is computed in f32. The model takes its value, 1181, as a constant.
- `Factions.ToLower` lower-cases ASCII letters and the Kelvin sign (U+212A). Other Unicode lower-casing is not modelled. No other single character lower-cases to an ASCII letter, so which strings are accepted is unchanged.
- Frames are kept as decoded pixel data. Turning them into rctoolkit `Tile` values (packages/rctoolkit/src/shp.rs:246-264, packages/rctoolkit/src/icn.rs:138-177) only copies width, height and data, and is not modelled separately.

## Findings

| source | as written | input that shows it | evidently intended | confidence | as-written member | corrected member |
|---|---|---|---|---|---|---|
| packages/dune2/src/shp.rs:264 | The payload starts at `10 + remap_table_size`, which does not count the table-size byte of a custom-sized table. The last table byte is decoded as payload. | The frame `07 00 01 01 00 01 0D 00 01 00 01 05 01` decodes to pixels `[5, 1]`, as does the 19-byte file holding it. | The payload starts after the table, at `11 + remap_table_size`, as packages/rctoolkit/src/shp.rs reads it; the frame is then `[1]`. | high, not executed | `Dune2Shp.ReadShp`, `Dune2Shp.ReadFrameAsWritten`, `Dune2Shp.PayloadOffsetCounterexample`, `Dune2Shp.ShpFileCounterexample` | `Dune2Shp.ReadShpIntended`, `Dune2Shp.ReadFrame`, `Dune2Shp.FrameRoundTrip` |
| packages/dune2/src/shp.rs:40-41 | Pixel positions come from `i as u16`, so pixel 65536 lands on pixel 0. The same code is at packages/dune2/src/icn.rs:145-146. | A 300 by 255 frame with 76500 pixels shows pixel 65536 at (0, 0). With 80000 pixels it does not panic. | Position `i % width`, `i / width` without the cast. | high, not executed | `Dune2Shp.FrameSurface`, `Dune2Shp.DrawPixelsAsWritten`, `Dune2Shp.WrapCounterexample`, `Icn.TileSurface` | `Dune2Shp.FrameSurfaceIntended`, `Dune2Shp.DrawPixels`, `Dune2Shp.DrawnPixels`, `Icn.TileSurfaceIntended` |
| packages/dune2/src/map.rs:81-86 | An empty group of a single-tile shape divides by its shape size, 0, and panics. | The map file `02 00 03 00 03 00`. | An empty group has no icons. | medium, not executed | `Maps.FromReader`, `Maps.GroupIconsAsWritten`, `Maps.EmptyGroupFileCounterexample` | `Maps.FromReaderIntended`, `Maps.GroupIcons`, `Maps.FromReaderSpec` |
| packages/unpak/src/command.rs:118-120 | An entry is read with a single `read` into a buffer reused from the previous entry. An entry that runs past the archive keeps the previous entry's bytes after the archive's tail. | The archive of `Unpak.StaleBytes`: its second file holds 89 bytes. Only the first 6 come from its own slice; byte 9 is the 100 left in the buffer by the first file. | Each file is exactly the archive bytes between its offset and the next. | medium, not executed | `Unpak.UnpackStale`, `Unpak.StaleBytes`, `Unpak.Unpack`, `Unpak.ExtractAsWritten` | `Unpak.UnpackPack`, `Unpak.UnpackIntended`, `Unpak.ExtractSpec` |
| packages/bitmap/src/lib.rs:161-163 | The rect iterator stops at `bottom() - 1` and turns at `right() - 1`, so it skips the bottom row. `fill_rect`, `clear` and `blit` never touch it. | Clearing a 1×1 bitmap to white leaves it black. | The iterator yields every point of the rect. | high, not executed | `Bitmaps.PointsAsWrittenSpec`, `Bitmaps.ClearOneByOne`, `Bitmaps.BlitAsWrittenSpec` | `Bitmaps.PointsSpec`, `Bitmaps.ClearFills`, `Bitmaps.BlitSpec` |
| bitmap/src/lib.rs:169-171 | The older iterator compares with `right()` rather than `right() - 1`, so it yields one column past the right edge. `clear` writes past the pixel vector. | Clearing a 1×1 bitmap panics. | Every point of the rect, and no other. | high, not executed | `LegacyBitmaps.ClearPanics`, `LegacyBitmaps.ClearOneByOnePanics` | `Bitmaps.ClearFills` |
| packages/bitmap/src/lib.rs:304-305 | The resolution is written with `to_be_bytes` into a little-endian field. | Every written file: the field reads `0x9D040000` rather than 1181. | `to_le_bytes`, as packages/dune2/src/bmp_writers.rs:46-47 writes it. | high, not executed | `Bitmaps.ResolutionAsWritten`, `Bitmaps.SwappedBytes` | `Bitmaps.WriteHeader` |
| packages/dune2/src/utils.rs:12-17 | The guards combine `p.x < 0` and `p.x as u32 >= width` with `&&`. A point right of or below the surface is let through. | Point `(width, y)` gets index `(y + 1)·width`, the first pixel of the next row. | Reject a coordinate that is negative or past the size (`\|\|`), as packages/dune2/src/bitmap.rs:116-124 does. | plausible, not executed | `Surfaces.PointToIndexSignedPastEdge` | `Surfaces.PointToIndex`, `Surfaces.PointToIndexInverse` |

=== FILE: assets.dfy ===
/** The asset bundle of packages/dune2/src/assets.rs: the palette, the
    tilesets by id and the tilemaps, with the lookups that turn a tileset id
    and a tile index into a drawable tile.  The `Resources` record that
    tilemap.rs reads from holds the same three fields (plus sprites, which
    nothing here reads), so it is modelled by this record too. */
module AssetStore {
  import opened Common
  import opened Geometry
  import Colors
  import opened Factions
  import opened Tiles
  import opened Tilesets

  /** `Tilemap`: a class name (`class`), a shape in tiles, one tile index per cell
      (row after row) and the id of the tileset the indices refer to. */
  datatype Tilemap = Tilemap(className: string, shape: Shape, tiles: seq<nat>, tileset: string)

  datatype Assets = Assets(palette: Colors.Palette, tilesets: map<string, Tileset>, tilemaps: seq<Tilemap>)

  /** `get_tileset`: the tileset stored under the id, or an error naming
      the id. */
  function GetTileset(a: Assets, id: string): (r: Result<Tileset>)
    ensures r.Ok? <==> id in a.tilesets
    ensures r.Ok? ==> r.value == a.tilesets[id]
    ensures r.Err? ==> r.error == TilesetInvalidId(id)
  {
    if id in a.tilesets then Ok(a.tilesets[id]) else Err(TilesetInvalidId(id))
  }

  /** `get_tile_bitmap`: the tile read through the bundle's palette.  An
      unknown id fails first; an index past the tile count fails with the
      id the tileset itself carries. */
  function GetTileBitmap(a: Assets, id: string, index: nat, faction: Option<Faction>): (r: Result<TileBitmap>)
    ensures r.Ok? <==> id in a.tilesets && index < |a.tilesets[id].tiles|
    ensures r.Ok? ==> r.value == TileBitmap(a.tilesets[id].tiles[index], a.palette, faction)
    ensures r.Err? ==> r.error == (if id !in a.tilesets then TilesetInvalidId(id)
                                   else TilesetInvalidTileIndex(a.tilesets[id].id, index))
  {
    var tileset :- GetTileset(a, id);
    var tile :- TileAt(tileset, index);
    Ok(TileBitmap(tile, a.palette, faction))
  }

  /** In a bundle whose tilesets are all sized, a tile bitmap has the
      tile size of its tileset. */
  lemma GetTileBitmapSized(a: Assets, id: string, index: nat, faction: Option<Faction>)
    requires forall k :: k in a.tilesets ==> Sized(a.tilesets[k])
    ensures GetTileBitmap(a, id, index, faction).Ok? ==>
      var b := GetTileBitmap(a, id, index, faction).value;
      TileBitmapWidth(b) == a.tilesets[id].tileSize.width && TileBitmapHeight(b) == a.tilesets[id].tileSize.height
  {
  }
}

=== FILE: bmp.dfy ===
/** `write_bmp_with_palette` of packages/dune2/src/bmp_writers.rs: a
    surface written as a Windows BMP file with a BITMAPINFOHEADER, the
    palette as a colour table, and 8-bit palette indices when the palette
    has at most 256 colours, 24-bit blue-green-red pixels otherwise.  The
    writer is a byte sequence that starts empty, so the positions the code
    seeks to are offsets in the result. */
module BmpWriters {
  import opened Common
  import opened Bytes
  import opened Reader
  import opened Rects
  import Colors
  import Surfaces

  /** `ppi2ppm(300)`: 300 pixels per inch in pixels per metre, 1181.1
      truncated. */
  const PixelsPerMeter: uint32 := 1181

  /** The size of the file header plus the DIB header. */
  const HeadersSize := 54

  /** 8 bits per pixel for a palette of at most 256 colours, else 24. */
  function BitsPerPixel(paletteSize: uint32): (bpp: uint16)
  {
    if paletteSize <= 256 then 8 else 24
  }

  /** The length of a pixel row: `bpp * width` bits rounded up to whole
      32-bit words. */
  function RowSize(bpp: nat, width: nat): nat
  {
    4 * Div(Mul(bpp, width) + 31, 32)
  }

  /** A row is a whole number of 4-byte words, long enough for its pixels
      and padded by fewer than four bytes. */
  lemma RowSizeSpec(k: nat, width: nat)
    ensures RowSize(8 * k, width) % 4 == 0
    ensures Mul(width, k) <= RowSize(8 * k, width) < Mul(width, k) + 4
  {
    EightTimes(k, width);
    WordsOf(8 * Mul(width, k) + 31);
  }

  /** `Div(a, 32)` is the number of whole 32-bit words in `a` bits. */
  lemma {:induction false} WordsOf(a: nat)
    ensures 32 * Div(a, 32) <= a < 32 * Div(a, 32) + 32
    decreases a
  {
    if a >= 32 {
      WordsOf(a - 32);
    }
  }

  lemma EightTimes(k: nat, width: nat)
    ensures Mul(8 * k, width) == 8 * Mul(width, k)
  {
    MulIsProduct(8 * k, width);
    MulIsProduct(width, k);
    assert (8 * k) * width == 8 * (width * k);
  }

  /** The values a writer puts in the headers; `resolution` is the u32
      whose little-endian bytes fill both pixels-per-metre fields. */
  datatype HeaderInfo = HeaderInfo(fileSize: uint32, offset: uint32, width: uint32, height: uint32, bpp: uint16, paletteSize: uint32, resolution: uint32)

  /** The number of header fields after "BM". */
  const FieldCount := 14

  /** The planes and depth fields are u16; every other field is u32. */
  function FieldWidth(i: nat): nat
  {
    if i == 6 || i == 7 then 2 else 4
  }

  /** The value of header field `i` after "BM": the file size, the
      reserved word and the pixel array offset of the file header, then
      the DIB header: its size 40, the dimensions, one plane, the depth, no
      compression, no image size, the resolution both ways, the palette
      size and no important colours. */
  function FieldValue(info: HeaderInfo, i: nat): nat
    requires i < FieldCount
  {
    match i
    case 0 => info.fileSize
    case 2 => info.offset
    case 3 => 40
    case 4 => info.width
    case 5 => info.height
    case 6 => 1
    case 7 => info.bpp
    case 10 => info.resolution
    case 11 => info.resolution
    case 12 => info.paletteSize
    case _ => 0
  }

  /** Header field `i` as the writer emits it: the `to_le_bytes` of its
      value, the reserved and zero fields as runs of zero bytes. */
  function HeaderField(info: HeaderInfo, i: nat): (r: seq<uint8>)
    requires i < FieldCount
    ensures |r| == FieldWidth(i)
  {
    LeBytes(FieldValue(info, i), FieldWidth(i))
  }

  /** Every field decodes, little-endian, to its value. */
  lemma FieldDecodes(info: HeaderInfo, i: nat)
    requires i < FieldCount
    ensures LeValue(HeaderField(info, i)) == FieldValue(info, i)
  {
    Pow256Values();
    LeRoundTrip(FieldValue(info, i), FieldWidth(i));
  }

  /** Where field `i` starts: the bytes fields `0` to `i - 1` take. */
  function Offset(i: nat): nat
  {
    if i == 0 then 0 else Offset(i - 1) + FieldWidth(i - 1)
  }

  /** Fields `0` to `n - 1` written one after the other. */
  function Fields(info: HeaderInfo, n: nat): (r: seq<uint8>)
    requires n <= FieldCount
    ensures |r| == Offset(n)
  {
    if n == 0 then [] else Fields(info, n - 1) + HeaderField(info, n - 1)
  }

  /** Field `i` lies after the fields before it. */
  lemma {:induction false} FieldAt(info: HeaderInfo, n: nat, i: nat)
    requires i < n <= FieldCount
    ensures SliceAt(Fields(info, n), Offset(i), HeaderField(info, i))
  {
    if i == n - 1 {
      SliceAtConcat(Fields(info, n - 1), HeaderField(info, n - 1), 0, HeaderField(info, n - 1));
    } else {
      FieldAt(info, n - 1, i);
      SliceAtConcat(Fields(info, n - 1), HeaderField(info, n - 1), Offset(i), HeaderField(info, i));
    }
  }

  /** "BM" and the header fields: the 14-byte file header and the 40-byte
      DIB header. */
  function Header(info: HeaderInfo): (r: seq<uint8>)
    ensures |r| == HeadersSize
  {
    FieldOffsets();
    [0x42, 0x4D] + Fields(info, FieldCount)
  }

  /** The header fields start at offsets 2, 6, 10, 14, 18, 22, 26, 28, 30,
      34, 38, 42, 46 and 50 of the file. */
  lemma FieldOffsets()
    ensures Offset(1) == 4 && Offset(2) == 8 && Offset(3) == 12 && Offset(4) == 16 && Offset(5) == 20
    ensures Offset(6) == 24 && Offset(7) == 26 && Offset(8) == 28 && Offset(9) == 32 && Offset(10) == 36
    ensures Offset(11) == 40 && Offset(12) == 44 && Offset(13) == 48 && Offset(14) == 52
  {
  }

  /** A BMP reader decoding field `i` at `2 + Offset(i)` gets its value. */
  lemma HeaderValues(info: HeaderInfo, i: nat)
    requires i < FieldCount
    ensures var h := Header(info);
      h[0] == 0x42 && h[1] == 0x4D && 2 + Offset(i) + FieldWidth(i) <= |h| &&
      LeValue(h[2 + Offset(i)..2 + Offset(i) + FieldWidth(i)]) == FieldValue(info, i)
  {
    FieldAt(info, FieldCount, i);
    SliceAtConcat([0x42, 0x4D], Fields(info, FieldCount), Offset(i), HeaderField(info, i));
    FieldDecodes(info, i);
  }

  // -----------------------------------------------------------------------
  // Colour table
  // -----------------------------------------------------------------------

  /** Every palette colour as blue, green, red and a zero byte, in
      insertion order. */
  function PaletteBytes(colors: seq<Colors.Color>): (r: seq<uint8>)
    ensures |r| == 4 * |colors|
  {
    if |colors| == 0 then []
    else [colors[0].blue, colors[0].green, colors[0].red, 0] + PaletteBytes(colors[1..])
  }

  /** Entry `i` of the colour table is colour `i` of the palette. */
  lemma {:induction false} PaletteBytesAt(colors: seq<Colors.Color>)
    ensures forall i :: 0 <= i < |colors| ==>
      PaletteBytes(colors)[4 * i..4 * i + 4] == [colors[i].blue, colors[i].green, colors[i].red, 0]
  {
    if |colors| > 0 {
      var r := PaletteBytes(colors);
      var rest := PaletteBytes(colors[1..]);
      PaletteBytesAt(colors[1..]);
      assert r == [colors[0].blue, colors[0].green, colors[0].red, 0] + rest;
      forall i | 1 <= i < |colors|
        ensures r[4 * i..4 * i + 4] == [colors[i].blue, colors[i].green, colors[i].red, 0]
      {
        assert r[4 * i..4 * i + 4] == rest[4 * (i - 1)..4 * (i - 1) + 4];
        assert colors[1..][i - 1] == colors[i];
      }
    }
  }

  // -----------------------------------------------------------------------
  // Pixel array
  // -----------------------------------------------------------------------

  /** The bytes of pixel `p`: its palette index as a u8 at 8 bits per
      pixel, which panics for a colour the palette does not hold; blue,
      green and red at 24.  Reading a pixel outside the pixel vector
      panics. */
  function PixelBytes(s: Surfaces.Surface<Colors.Color>, palette: Colors.Palette, bpp: nat, p: IPoint): (r: Result<seq<uint8>>)
    requires bpp == 8 || bpp == 24
    ensures r.Ok? ==> |r.value| == bpp / 8
    ensures r.Err? ==> r.error == Panic
  {
    if !Surfaces.Addressable(s, p) then Err(Panic)
    else
      var c := Surfaces.GetPixel(s, p);
      if bpp == 8 then
        match Colors.ColorIndex(palette, c)
        case None => Err(Panic)
        case Some(i) => Ok([i % 256])
      else Ok([c.blue, c.green, c.red])
  }

  /** Pixels `x` to the end of row `y`, left to right. */
  function RowFrom(s: Surfaces.Surface<Colors.Color>, palette: Colors.Palette, bpp: nat, y: nat, x: nat): (r: Result<seq<uint8>>)
    requires bpp == 8 || bpp == 24
    ensures r.Err? ==> r.error == Panic
    decreases s.size.width - x
  {
    if x >= s.size.width then Ok([])
    else
      var b :- PixelBytes(s, palette, bpp, IPoint(x, y));
      var rest :- RowFrom(s, palette, bpp, y, x + 1);
      Ok(b + rest)
  }

  /** Row `y` as written: its pixels, then `pad` zero bytes. */
  function Row(s: Surfaces.Surface<Colors.Color>, palette: Colors.Palette, bpp: nat, pad: nat, y: nat): (r: Result<seq<uint8>>)
    requires bpp == 8 || bpp == 24
    ensures r.Err? ==> r.error == Panic
  {
    var pixels :- RowFrom(s, palette, bpp, y, 0);
    Ok(pixels + Zeros(pad))
  }

  /** Rows `n - 1` down to 0: the pixel array is stored bottom-up. */
  function Rows(s: Surfaces.Surface<Colors.Color>, palette: Colors.Palette, bpp: nat, pad: nat, n: nat): (r: Result<seq<uint8>>)
    requires bpp == 8 || bpp == 24
    ensures r.Err? ==> r.error == Panic
    decreases n
  {
    if n == 0 then Ok([])
    else
      var row :- Row(s, palette, bpp, pad, n - 1);
      var rest :- Rows(s, palette, bpp, pad, n - 1);
      Ok(row + rest)
  }

  /** The zero bytes that complete a row of `width` pixels. */
  function RowPad(bpp: nat, width: nat): nat
    requires bpp == 8 || bpp == 24
  {
    var rowSize := RowSize(bpp, width);
    var pixels := Mul(width, bpp / 8);
    if pixels <= rowSize then rowSize - pixels else 0
  }

  /** The u32 subtraction of the padding never underflows: a row is its
      pixels and fewer than four zero bytes, a whole number of words. */
  lemma RowPadSpec(bpp: nat, width: nat)
    requires bpp == 8 || bpp == 24
    ensures Mul(width, bpp / 8) <= RowSize(bpp, width)
    ensures RowPad(bpp, width) == RowSize(bpp, width) - Mul(width, bpp / 8) < 4
    ensures RowSize(bpp, width) % 4 == 0
  {
    RowSizeSpec(bpp / 8, width);
  }

  /** `write_bmp_with_palette`: the headers, the colour table and the pixel
      array, with the file size and the pixel array offset patched in as
      u32.  `bpp * width + 31` is computed in u32 and panics when it
      overflows. */
  function WriteBmpWithPalette(s: Surfaces.Surface<Colors.Color>, palette: Colors.Palette): (r: Result<seq<uint8>>)
    ensures r.Err? ==> r.error == Panic
  {
    var bpp := Depth(palette);
    var w := s.size.width;
    if Mul(bpp, w) + 31 >= 0x1_0000_0000 then Err(Panic)
    else
      var pixels :- PixelArray(s, palette);
      Ok(Front(s, palette, |pixels|) + pixels)
  }

  /** The pixel array: the rows of the surface, bottom row first, each
      padded to whole words. */
  function PixelArray(s: Surfaces.Surface<Colors.Color>, palette: Colors.Palette): (r: Result<seq<uint8>>)
    ensures r.Err? ==> r.error == Panic
  {
    Rows(s, palette, Depth(palette), RowPad(Depth(palette), s.size.width), s.size.height)
  }

  /** The depth `write_bmp_with_palette` chooses for `palette`. */
  function Depth(palette: Colors.Palette): (bpp: nat)
    ensures bpp == 8 || bpp == 24
  {
    BitsPerPixel(AsU32(|palette.colors|))
  }

  /** The headers and the colour table in front of a pixel array of
      `count` bytes: the file size and the pixel array offset are patched
      in as u32. */
  function Front(s: Surfaces.Surface<Colors.Color>, palette: Colors.Palette, count: nat): (r: seq<uint8>)
    ensures |r| == HeadersSize + 4 * |palette.colors|
  {
    var n := |palette.colors|;
    Header(HeaderInfo(AsU32(HeadersSize + 4 * n + count), AsU32(HeadersSize + 4 * n), s.size.width, s.size.height, Depth(palette), AsU32(n), PixelsPerMeter)) +
    PaletteBytes(palette.colors)
  }

  // -----------------------------------------------------------------------
  // What the written file holds
  // -----------------------------------------------------------------------

  /** Pixels `x` to the end of row `y` are written exactly when each of
      them can be. */
  lemma {:induction false} RowFromOk(s: Surfaces.Surface<Colors.Color>, palette: Colors.Palette, bpp: nat, y: nat, x: nat)
    requires bpp == 8 || bpp == 24
    ensures RowFrom(s, palette, bpp, y, x).Ok? <==>
      forall x' :: x <= x' < s.size.width ==> PixelBytes(s, palette, bpp, IPoint(x', y)).Ok?
    decreases s.size.width - x
  {
    if x < s.size.width {
      RowFromOk(s, palette, bpp, y, x + 1);
    }
  }

  /** Written, pixels `x` to the end of row `y` take `bpp / 8` bytes each,
      pixel `x'` lying `(x' - x) * bpp / 8` bytes in. */
  lemma {:induction false} RowFromAt(s: Surfaces.Surface<Colors.Color>, palette: Colors.Palette, bpp: nat, y: nat, x: nat)
    requires bpp == 8 || bpp == 24
    requires x <= s.size.width && RowFrom(s, palette, bpp, y, x).Ok?
    ensures |RowFrom(s, palette, bpp, y, x).value| == Mul(s.size.width - x, bpp / 8)
    ensures forall x' :: x <= x' < s.size.width ==>
      PixelBytes(s, palette, bpp, IPoint(x', y)).Ok? &&
      SliceAt(RowFrom(s, palette, bpp, y, x).value, Mul(x' - x, bpp / 8), PixelBytes(s, palette, bpp, IPoint(x', y)).value)
    decreases s.size.width - x
  {
    if x < s.size.width {
      var k := bpp / 8;
      RowFromAt(s, palette, bpp, y, x + 1);
      var b := PixelBytes(s, palette, bpp, IPoint(x, y)).value;
      var rest := RowFrom(s, palette, bpp, y, x + 1).value;
      var r := RowFrom(s, palette, bpp, y, x).value;
      assert r == b + rest;
      forall x' | x <= x' < s.size.width
        ensures PixelBytes(s, palette, bpp, IPoint(x', y)).Ok? &&
          SliceAt(r, Mul(x' - x, k), PixelBytes(s, palette, bpp, IPoint(x', y)).value)
      {
        if x' == x {
          SliceAtConcat(b, rest, 0, b);
        } else {
          ConsAt(b, rest, r, k, x' - x, PixelBytes(s, palette, bpp, IPoint(x', y)).value);
        }
      }
    }
  }

  /** In `b + rest`, with `b` of `k` items, what lies `(j - 1) * k` items
      into `rest` lies `j * k` items into the whole. */
  lemma ConsAt(b: seq<uint8>, rest: seq<uint8>, r: seq<uint8>, k: nat, j: nat, t: seq<uint8>)
    requires |b| == k && r == b + rest && j > 0 && SliceAt(rest, Mul(j - 1, k), t)
    ensures SliceAt(r, Mul(j, k), t)
  {
    SliceAtConcat(b, rest, Mul(j - 1, k), t);
  }

  /** Rows `n - 1` down to 0 are written exactly when each row can be. */
  lemma {:induction false} RowsOk(s: Surfaces.Surface<Colors.Color>, palette: Colors.Palette, bpp: nat, pad: nat, n: nat)
    requires bpp == 8 || bpp == 24
    ensures Rows(s, palette, bpp, pad, n).Ok? <==> forall y :: 0 <= y < n ==> Row(s, palette, bpp, pad, y).Ok?
    decreases n
  {
    if n > 0 {
      RowsOk(s, palette, bpp, pad, n - 1);
    }
  }

  /** `rows[n - 1]`, ..., `rows[0]` one after another. */
  function Stack(rows: seq<seq<uint8>>): (r: seq<uint8>)
    decreases |rows|
  {
    if |rows| == 0 then [] else rows[|rows| - 1] + Stack(rows[..|rows| - 1])
  }

  /** In a stack of rows of `rowLen` bytes, row `y` lies `n - 1 - y` row
      lengths in. */
  lemma {:induction false} StackAt(rows: seq<seq<uint8>>, rowLen: nat)
    requires forall y :: 0 <= y < |rows| ==> |rows[y]| == rowLen
    ensures |Stack(rows)| == Mul(|rows|, rowLen)
    ensures forall y :: 0 <= y < |rows| ==> SliceAt(Stack(rows), Mul(|rows| - 1 - y, rowLen), rows[y])
    decreases |rows|
  {
    var n := |rows|;
    if n > 0 {
      var front := rows[..n - 1];
      StackAt(front, rowLen);
      var rest := Stack(front);
      var r := Stack(rows);
      assert r == rows[n - 1] + rest;
      forall y | 0 <= y < n
        ensures SliceAt(r, Mul(n - 1 - y, rowLen), rows[y])
      {
        if y == n - 1 {
          SliceAtConcat(rows[n - 1], rest, 0, rows[n - 1]);
        } else {
          assert front[y] == rows[y];
          ConsAt(rows[n - 1], rest, r, rowLen, n - 1 - y, rows[y]);
        }
      }
    }
  }

  /** The bytes of row `y`, or nothing when it cannot be written. */
  function RowValue(s: Surfaces.Surface<Colors.Color>, palette: Colors.Palette, bpp: nat, pad: nat, y: nat): seq<uint8>
    requires bpp == 8 || bpp == 24
  {
    match Row(s, palette, bpp, pad, y)
    case Ok(v) => v
    case Err(_) => []
  }

  /** The values of rows `0` to `n - 1`. */
  function RowValues(s: Surfaces.Surface<Colors.Color>, palette: Colors.Palette, bpp: nat, pad: nat, n: nat): (r: seq<seq<uint8>>)
    requires bpp == 8 || bpp == 24
    ensures |r| == n
    ensures forall y :: 0 <= y < n ==> r[y] == RowValue(s, palette, bpp, pad, y)
    decreases n
  {
    if n == 0 then [] else RowValues(s, palette, bpp, pad, n - 1) + [RowValue(s, palette, bpp, pad, n - 1)]
  }

  /** Written, rows `n - 1` down to 0 are the stack of the rows' values. */
  lemma {:induction false} RowsStack(s: Surfaces.Surface<Colors.Color>, palette: Colors.Palette, bpp: nat, pad: nat, n: nat, out: seq<uint8>)
    requires bpp == 8 || bpp == 24
    requires Rows(s, palette, bpp, pad, n) == Ok(out)
    ensures out == Stack(RowValues(s, palette, bpp, pad, n))
    decreases n
  {
    if n > 0 {
      var row := Row(s, palette, bpp, pad, n - 1).value;
      var rest := Rows(s, palette, bpp, pad, n - 1).value;
      assert out == row + rest;
      RowsStack(s, palette, bpp, pad, n - 1, rest);
      var front := RowValues(s, palette, bpp, pad, n - 1);
      assert RowValues(s, palette, bpp, pad, n) == front + [row];
      StackPush(front, row, rest, out);
    }
  }

  /** A row written in front of a stack is the stack with that row put on
      it. */
  lemma StackPush(front: seq<seq<uint8>>, row: seq<uint8>, rest: seq<uint8>, out: seq<uint8>)
    requires rest == Stack(front) && out == row + rest
    ensures out == Stack(front + [row])
  {
    assert Stack(front + [row]) == row + Stack((front + [row])[..|front|]);
    assert (front + [row])[..|front|] == front;
  }

  /** Written, rows `n - 1` down to 0 of `rowLen` bytes each hold row `y`
      `n - 1 - y` row lengths in. */
  lemma RowsAt(s: Surfaces.Surface<Colors.Color>, palette: Colors.Palette, bpp: nat, pad: nat, n: nat, rowLen: nat)
    requires bpp == 8 || bpp == 24
    requires Rows(s, palette, bpp, pad, n).Ok?
    requires forall y :: 0 <= y < n && Row(s, palette, bpp, pad, y).Ok? ==> |Row(s, palette, bpp, pad, y).value| == rowLen
    ensures |Rows(s, palette, bpp, pad, n).value| == Mul(n, rowLen)
    ensures forall y :: 0 <= y < n ==>
      Row(s, palette, bpp, pad, y).Ok? &&
      SliceAt(Rows(s, palette, bpp, pad, n).value, Mul(n - 1 - y, rowLen), Row(s, palette, bpp, pad, y).value)
  {
    RowsOut(s, palette, bpp, pad, n, rowLen, Rows(s, palette, bpp, pad, n).value);
  }

  lemma RowsOut(s: Surfaces.Surface<Colors.Color>, palette: Colors.Palette, bpp: nat, pad: nat, n: nat, rowLen: nat, out: seq<uint8>)
    requires bpp == 8 || bpp == 24
    requires Rows(s, palette, bpp, pad, n) == Ok(out)
    requires forall y :: 0 <= y < n && Row(s, palette, bpp, pad, y).Ok? ==> |Row(s, palette, bpp, pad, y).value| == rowLen
    ensures |out| == Mul(n, rowLen)
    ensures forall y :: 0 <= y < n ==> Row(s, palette, bpp, pad, y).Ok? && SliceAt(out, Mul(n - 1 - y, rowLen), Row(s, palette, bpp, pad, y).value)
  {
    RowsOk(s, palette, bpp, pad, n);
    RowsStack(s, palette, bpp, pad, n, out);
    var rows := RowValues(s, palette, bpp, pad, n);
    forall y | 0 <= y < n
      ensures rows[y] == Row(s, palette, bpp, pad, y).value
    {
      assert Row(s, palette, bpp, pad, y).Ok?;
    }
    StackAt(rows, rowLen);
  }

  /** A written row is its pixels and its padding. */
  lemma RowLayout(s: Surfaces.Surface<Colors.Color>, palette: Colors.Palette, bpp: nat, pad: nat, y: nat)
    requires bpp == 8 || bpp == 24
    requires Row(s, palette, bpp, pad, y).Ok?
    ensures |Row(s, palette, bpp, pad, y).value| == Mul(s.size.width, bpp / 8) + pad
    ensures SliceAt(Row(s, palette, bpp, pad, y).value, Mul(s.size.width, bpp / 8), Zeros(pad))
  {
    var pixels := RowFrom(s, palette, bpp, y, 0).value;
    RowFromAt(s, palette, bpp, y, 0);
    assert |pixels| == Mul(s.size.width, bpp / 8);
    assert Row(s, palette, bpp, pad, y).value == pixels + Zeros(pad);
    SliceAtConcat(pixels, Zeros(pad), 0, Zeros(pad));
  }

  /** Pixel `x` of a written row lies `x * bpp / 8` bytes in. */
  lemma RowPixels(s: Surfaces.Surface<Colors.Color>, palette: Colors.Palette, bpp: nat, pad: nat, y: nat)
    requires bpp == 8 || bpp == 24
    requires Row(s, palette, bpp, pad, y).Ok?
    ensures forall x :: 0 <= x < s.size.width ==>
      PixelBytes(s, palette, bpp, IPoint(x, y)).Ok? &&
      SliceAt(Row(s, palette, bpp, pad, y).value, Mul(x, bpp / 8), PixelBytes(s, palette, bpp, IPoint(x, y)).value)
  {
    var k := bpp / 8;
    var pixels := RowFrom(s, palette, bpp, y, 0).value;
    var row := Row(s, palette, bpp, pad, y).value;
    RowFromAt(s, palette, bpp, y, 0);
    assert row == pixels + Zeros(pad);
    forall x | 0 <= x < s.size.width
      ensures PixelBytes(s, palette, bpp, IPoint(x, y)).Ok? &&
        SliceAt(row, Mul(x, k), PixelBytes(s, palette, bpp, IPoint(x, y)).value)
    {
      assert SliceAt(pixels, Mul(x - 0, k), PixelBytes(s, palette, bpp, IPoint(x, y)).value);
      SliceAtConcat(pixels, Zeros(pad), Mul(x, k), PixelBytes(s, palette, bpp, IPoint(x, y)).value);
    }
  }

  // -----------------------------------------------------------------------
  // The written file
  // -----------------------------------------------------------------------

  /** A pixel can be written when it lies in the pixel vector and, at 8
      bits per pixel, its colour is in the palette. */
  lemma PixelBytesOk(s: Surfaces.Surface<Colors.Color>, palette: Colors.Palette, bpp: nat, p: IPoint)
    requires bpp == 8 || bpp == 24
    ensures PixelBytes(s, palette, bpp, p).Ok? <==>
      Surfaces.Addressable(s, p) && (bpp == 8 ==> Colors.ColorIndex(palette, Surfaces.GetPixel(s, p)).Some?)
  {
  }

  /** Every row can be written exactly when every pixel can. */
  lemma AllRowsOk(s: Surfaces.Surface<Colors.Color>, palette: Colors.Palette, bpp: nat, pad: nat)
    requires bpp == 8 || bpp == 24
    ensures (forall y :: 0 <= y < s.size.height ==> Row(s, palette, bpp, pad, y).Ok?) <==>
      forall x, y :: 0 <= x < s.size.width && 0 <= y < s.size.height ==> PixelBytes(s, palette, bpp, IPoint(x, y)).Ok?
  {
    if forall y :: 0 <= y < s.size.height ==> Row(s, palette, bpp, pad, y).Ok? {
      forall x, y | 0 <= x < s.size.width && 0 <= y < s.size.height
        ensures PixelBytes(s, palette, bpp, IPoint(x, y)).Ok?
      {
        assert Row(s, palette, bpp, pad, y).Ok?;
        RowFromOk(s, palette, bpp, y, 0);
      }
    }
    if forall x, y :: 0 <= x < s.size.width && 0 <= y < s.size.height ==> PixelBytes(s, palette, bpp, IPoint(x, y)).Ok? {
      forall y | 0 <= y < s.size.height
        ensures Row(s, palette, bpp, pad, y).Ok?
      {
        RowFromOk(s, palette, bpp, y, 0);
      }
    }
  }

  /** The file is written exactly when `bpp * width + 31` fits in a u32
      and every pixel can be written: it lies in the pixel vector and, at
      8 bits per pixel, its colour is in the palette. */
  lemma WriteBmpOk(s: Surfaces.Surface<Colors.Color>, palette: Colors.Palette)
    ensures WriteBmpWithPalette(s, palette).Ok? <==>
      Depth(palette) * s.size.width + 31 < 0x1_0000_0000 &&
      forall x, y :: 0 <= x < s.size.width && 0 <= y < s.size.height ==>
        Surfaces.Addressable(s, IPoint(x, y)) &&
        (Depth(palette) == 8 ==> Colors.ColorIndex(palette, Surfaces.GetPixel(s, IPoint(x, y))).Some?)
  {
    var bpp := Depth(palette);
    var w := s.size.width;
    MulIsProduct(bpp, w);
    if bpp * w + 31 < 0x1_0000_0000 {
      var pad := RowPad(bpp, w);
      RowsOk(s, palette, bpp, pad, s.size.height);
      AllRowsOk(s, palette, bpp, pad);
      forall x, y | 0 <= x < w && 0 <= y < s.size.height
        ensures PixelBytes(s, palette, bpp, IPoint(x, y)).Ok? <==>
          Surfaces.Addressable(s, IPoint(x, y)) && (bpp == 8 ==> Colors.ColorIndex(palette, Surfaces.GetPixel(s, IPoint(x, y))).Some?)
      {
        PixelBytesOk(s, palette, bpp, IPoint(x, y));
      }
    }
  }

  /** A written file is the headers and colour table, then the pixel
      array. */
  lemma WriteBmpParts(s: Surfaces.Surface<Colors.Color>, palette: Colors.Palette)
    requires WriteBmpWithPalette(s, palette).Ok?
    ensures PixelArray(s, palette).Ok?
    ensures WriteBmpWithPalette(s, palette).value == Front(s, palette, |PixelArray(s, palette).value|) + PixelArray(s, palette).value
  {
  }

  /** The pixel array is `height * row size` bytes long. */
  lemma PixelArrayLength(s: Surfaces.Surface<Colors.Color>, palette: Colors.Palette)
    requires PixelArray(s, palette).Ok?
    ensures |PixelArray(s, palette).value| == Mul(s.size.height, RowSize(Depth(palette), s.size.width))
  {
    var bpp := Depth(palette);
    var pad := RowPad(bpp, s.size.width);
    RowLengths(s, palette, bpp, pad);
    RowsAt(s, palette, bpp, pad, s.size.height, RowSize(bpp, s.size.width));
  }

  /** The written file is `54 + 4 * palette length + height * row size`
      bytes long, and the pixel array starts right after the colour
      table. */
  lemma PixelArrayAt(s: Surfaces.Surface<Colors.Color>, palette: Colors.Palette)
    requires WriteBmpWithPalette(s, palette).Ok?
    ensures var out := WriteBmpWithPalette(s, palette).value;
      PixelArray(s, palette).Ok? &&
      |out| == HeadersSize + 4 * |palette.colors| + Mul(s.size.height, RowSize(Depth(palette), s.size.width)) &&
      SliceAt(out, HeadersSize + 4 * |palette.colors|, PixelArray(s, palette).value)
  {
    var pixels := PixelArray(s, palette).value;
    WriteBmpParts(s, palette);
    PixelArrayLength(s, palette);
    SliceAtConcat(Front(s, palette, |pixels|), pixels, 0, pixels);
  }

  /** The written file starts with the headers, holding the number of bytes
      written and the pixel array offset as u32, then the colour table. */
  lemma WriteBmpFront(s: Surfaces.Surface<Colors.Color>, palette: Colors.Palette)
    requires WriteBmpWithPalette(s, palette).Ok?
    ensures var out := WriteBmpWithPalette(s, palette).value;
      var n := |palette.colors|;
      var offset := HeadersSize + 4 * n;
      |out| >= offset &&
      out[..HeadersSize] == Header(HeaderInfo(AsU32(|out|), AsU32(offset), s.size.width, s.size.height, Depth(palette), AsU32(n), PixelsPerMeter)) &&
      out[HeadersSize..offset] == PaletteBytes(palette.colors)
  {
    var n := |palette.colors|;
    var pixels := PixelArray(s, palette).value;
    var out := WriteBmpWithPalette(s, palette).value;
    WriteBmpParts(s, palette);
    var info := HeaderInfo(AsU32(HeadersSize + 4 * n + |pixels|), AsU32(HeadersSize + 4 * n), s.size.width, s.size.height, Depth(palette), AsU32(n), PixelsPerMeter);
    assert |out| == HeadersSize + 4 * n + |pixels|;
    Prefixes(Header(info), PaletteBytes(palette.colors), pixels);
  }

  /** In `a + b + c`, `a` and `b` are where they were put. */
  lemma Prefixes(a: seq<uint8>, b: seq<uint8>, c: seq<uint8>)
    ensures (a + b + c)[..|a|] == a && (a + b + c)[|a|..|a| + |b|] == b
  {
  }

  /** A reader of the written headers finds "BM" and, decoding field `i`
      at `2 + Offset(i)`, the number of bytes written as the file size,
      the pixel array right after the colour table as its offset, a 40-byte
      DIB header, the surface's dimensions, one plane, the depth, no
      compression, 1181 pixels per metre both ways and the palette
      length. */
  lemma WriteBmpHeader(s: Surfaces.Surface<Colors.Color>, palette: Colors.Palette, i: nat)
    requires WriteBmpWithPalette(s, palette).Ok?
    requires i < FieldCount
    ensures var out := WriteBmpWithPalette(s, palette).value;
      var n := |palette.colors|;
      var info := HeaderInfo(AsU32(|out|), AsU32(HeadersSize + 4 * n), s.size.width, s.size.height, Depth(palette), AsU32(n), PixelsPerMeter);
      |out| >= HeadersSize && out[0] == 0x42 && out[1] == 0x4D &&
      LeValue(out[2 + Offset(i)..2 + Offset(i) + FieldWidth(i)]) == FieldValue(info, i)
  {
    var out := WriteBmpWithPalette(s, palette).value;
    var n := |palette.colors|;
    WriteBmpFront(s, palette);
    ReadHeaderField(out, HeaderInfo(AsU32(|out|), AsU32(HeadersSize + 4 * n), s.size.width, s.size.height, Depth(palette), AsU32(n), PixelsPerMeter), i);
  }

  /** A file that starts with the headers of `info` holds field `i` at
      `2 + Offset(i)`. */
  lemma ReadHeaderField(out: seq<uint8>, info: HeaderInfo, i: nat)
    requires |out| >= HeadersSize && out[..HeadersSize] == Header(info)
    requires i < FieldCount
    ensures out[0] == 0x42 && out[1] == 0x4D && 2 + Offset(i) + FieldWidth(i) <= |out| &&
      LeValue(out[2 + Offset(i)..2 + Offset(i) + FieldWidth(i)]) == FieldValue(info, i)
  {
    HeaderValues(info, i);
    PrefixSlice(out, Header(info), 2 + Offset(i), 2 + Offset(i) + FieldWidth(i));
  }

  /** What lies in a prefix lies in the whole. */
  lemma PrefixSlice(out: seq<uint8>, h: seq<uint8>, lo: nat, hi: nat)
    requires 2 <= |h| <= |out| && lo <= hi <= |h| && out[..|h|] == h
    ensures out[lo..hi] == h[lo..hi] && out[0] == h[0] && out[1] == h[1]
  {
    forall k | lo <= k < hi
      ensures out[k] == h[k]
    {
      assert out[..|h|][k] == out[k];
    }
  }

  /** Every written row is `RowSize` bytes long. */
  lemma RowLengths(s: Surfaces.Surface<Colors.Color>, palette: Colors.Palette, bpp: nat, pad: nat)
    requires bpp == 8 || bpp == 24
    requires pad == RowPad(bpp, s.size.width)
    ensures forall y :: 0 <= y < s.size.height && Row(s, palette, bpp, pad, y).Ok? ==>
      |Row(s, palette, bpp, pad, y).value| == RowSize(bpp, s.size.width)
  {
    RowPadSpec(bpp, s.size.width);
    forall y | 0 <= y < s.size.height && Row(s, palette, bpp, pad, y).Ok?
      ensures |Row(s, palette, bpp, pad, y).value| == RowSize(bpp, s.size.width)
    {
      RowLayout(s, palette, bpp, pad, y);
    }
  }

  /** Row `y` of the surface lies `height - 1 - y` rows into the pixel
      array. */
  lemma ArrayRow(s: Surfaces.Surface<Colors.Color>, palette: Colors.Palette, y: nat)
    requires PixelArray(s, palette).Ok?
    requires y < s.size.height
    ensures var bpp := Depth(palette);
      var pad := RowPad(bpp, s.size.width);
      Row(s, palette, bpp, pad, y).Ok? &&
      SliceAt(PixelArray(s, palette).value, Mul(s.size.height - 1 - y, RowSize(bpp, s.size.width)), Row(s, palette, bpp, pad, y).value)
  {
    var bpp := Depth(palette);
    var pad := RowPad(bpp, s.size.width);
    RowLengths(s, palette, bpp, pad);
    RowsAt(s, palette, bpp, pad, s.size.height, RowSize(bpp, s.size.width));
  }

  /** Pixel `(x, y)` of the surface lies `height - 1 - y` rows and `x`
      pixels into the pixel array. */
  lemma ArrayPixel(s: Surfaces.Surface<Colors.Color>, palette: Colors.Palette, x: nat, y: nat)
    requires PixelArray(s, palette).Ok?
    requires x < s.size.width && y < s.size.height
    ensures var bpp := Depth(palette);
      var rowStart := Mul(s.size.height - 1 - y, RowSize(bpp, s.size.width));
      PixelBytes(s, palette, bpp, IPoint(x, y)).Ok? &&
      SliceAt(PixelArray(s, palette).value, rowStart + Mul(x, bpp / 8), PixelBytes(s, palette, bpp, IPoint(x, y)).value)
  {
    var bpp := Depth(palette);
    var pad := RowPad(bpp, s.size.width);
    var rowStart := Mul(s.size.height - 1 - y, RowSize(bpp, s.size.width));
    ArrayRow(s, palette, y);
    RowPixels(s, palette, bpp, pad, y);
    SliceAtNested(PixelArray(s, palette).value, rowStart, Row(s, palette, bpp, pad, y).value,
      Mul(x, bpp / 8), PixelBytes(s, palette, bpp, IPoint(x, y)).value);
  }

  /** Each row of the pixel array ends in its zero padding, fewer than
      four bytes that bring the row to a whole number of words. */
  lemma ArrayPadding(s: Surfaces.Surface<Colors.Color>, palette: Colors.Palette, y: nat)
    requires PixelArray(s, palette).Ok?
    requires y < s.size.height
    ensures var bpp := Depth(palette);
      var rowStart := Mul(s.size.height - 1 - y, RowSize(bpp, s.size.width));
      var pad := RowPad(bpp, s.size.width);
      pad < 4 && (Mul(s.size.width, bpp / 8) + pad) % 4 == 0 &&
      SliceAt(PixelArray(s, palette).value, rowStart + Mul(s.size.width, bpp / 8), Zeros(pad))
  {
    var bpp := Depth(palette);
    var pad := RowPad(bpp, s.size.width);
    var rowStart := Mul(s.size.height - 1 - y, RowSize(bpp, s.size.width));
    RowPadSpec(bpp, s.size.width);
    ArrayRow(s, palette, y);
    RowLayout(s, palette, bpp, pad, y);
    SliceAtNested(PixelArray(s, palette).value, rowStart, Row(s, palette, bpp, pad, y).value,
      Mul(s.size.width, bpp / 8), Zeros(pad));
  }

  /** The bytes of a pixel: blue, green and red at 24 bits per pixel; at 8
      its palette index, which for a consistent palette of at most 256
      colours names the pixel's colour in the colour table. */
  lemma PixelBytesValue(s: Surfaces.Surface<Colors.Color>, palette: Colors.Palette, bpp: nat, p: IPoint)
    requires bpp == 8 || bpp == 24
    requires PixelBytes(s, palette, bpp, p).Ok?
    ensures Surfaces.Addressable(s, p)
    ensures var b := PixelBytes(s, palette, bpp, p).value;
      var c := Surfaces.GetPixel(s, p);
      (bpp == 24 ==> b == [c.blue, c.green, c.red]) &&
      (bpp == 8 ==> Colors.ColorIndex(palette, c).Some? && b == [Colors.ColorIndex(palette, c).value % 256]) &&
      (bpp == 8 && Colors.Valid(palette) && |palette.colors| <= 256 ==> b[0] < |palette.colors| && palette.colors[b[0]] == c)
  {
  }

  /** With a consistent palette of at most 256 colours the pixels are
      written at 8 bits, and looking the byte written for a pixel up in the
      colour table gives the pixel's colour back. */
  lemma ArrayColor(s: Surfaces.Surface<Colors.Color>, palette: Colors.Palette, x: nat, y: nat)
    requires PixelArray(s, palette).Ok?
    requires x < s.size.width && y < s.size.height
    requires |palette.colors| <= 256 && Colors.Valid(palette)
    ensures Depth(palette) == 8
    ensures var at := Mul(s.size.height - 1 - y, RowSize(8, s.size.width)) + x;
      var pixels := PixelArray(s, palette).value;
      at < |pixels| && Surfaces.Addressable(s, IPoint(x, y)) && pixels[at] < |palette.colors| &&
      palette.colors[pixels[at]] == Surfaces.GetPixel(s, IPoint(x, y))
  {
    var at := Mul(s.size.height - 1 - y, RowSize(8, s.size.width)) + x;
    ArrayPixel(s, palette, x, y);
    MulIsProduct(x, 1);
    PixelBytesValue(s, palette, 8, IPoint(x, y));
    var b := PixelBytes(s, palette, 8, IPoint(x, y)).value;
    assert SliceAt(PixelArray(s, palette).value, at, b);
    assert PixelArray(s, palette).value[at] == b[0];
  }
}

=== FILE: bytes.dfy ===
/** Little- and big-endian integer encodings over byte sequences, as used by
    Rust's `from_le_bytes`, `from_be_bytes` and `to_le_bytes`. */
module Bytes {
  import opened Common

  function Pow256(n: nat): (r: nat)
    ensures r >= 1
  {
    if n == 0 then 1 else 256 * Pow256(n - 1)
  }

  /** Unsigned value of `bs` read least significant byte first. */
  function LeValue(bs: seq<uint8>): nat
  {
    if |bs| == 0 then 0 else bs[0] + 256 * LeValue(bs[1..])
  }

  /** Unsigned value of `bs` read most significant byte first. */
  function BeValue(bs: seq<uint8>): nat
  {
    if |bs| == 0 then 0 else 256 * BeValue(bs[..|bs| - 1]) + bs[|bs| - 1]
  }

  /** `n` bytes holding `v` least significant byte first (`to_le_bytes`). */
  function LeBytes(v: nat, n: nat): (r: seq<uint8>)
    ensures |r| == n
  {
    if n == 0 then [] else [v % 256] + LeBytes(v / 256, n - 1)
  }

  function Reverse(bs: seq<uint8>): (r: seq<uint8>)
    ensures |r| == |bs|
    ensures forall i :: 0 <= i < |bs| ==> r[i] == bs[|bs| - 1 - i]
  {
    if |bs| == 0 then [] else Reverse(bs[1..]) + [bs[0]]
  }

  /** Two's-complement reading of an `n`-byte unsigned value. */
  function ToSigned(u: nat, n: nat): int
  {
    if 2 * u >= Pow256(n) then u - Pow256(n) else u
  }

  lemma {:induction false} LeValueBound(bs: seq<uint8>)
    ensures LeValue(bs) < Pow256(|bs|)
  {
    if |bs| > 0 {
      LeValueBound(bs[1..]);
    }
  }

  /** Decoding what `LeBytes` encoded gives the value back. */
  lemma {:induction false} LeRoundTrip(v: nat, n: nat)
    requires v < Pow256(n)
    ensures LeValue(LeBytes(v, n)) == v
  {
    if n > 0 {
      var bs := LeBytes(v, n);
      assert bs[1..] == LeBytes(v / 256, n - 1);
      LeRoundTrip(v / 256, n - 1);
    }
  }

  /** Encoding a decoded byte sequence gives the bytes back. */
  lemma {:induction false} LeBytesOfValue(bs: seq<uint8>)
    ensures LeBytes(LeValue(bs), |bs|) == bs
  {
    if |bs| > 0 {
      var v := LeValue(bs);
      assert v % 256 == bs[0];
      assert v / 256 == LeValue(bs[1..]);
      LeBytesOfValue(bs[1..]);
      assert bs == [bs[0]] + bs[1..];
    }
  }

  /** Big-endian decoding is little-endian decoding of the reversed bytes. */
  lemma {:induction false} BeIsReversedLe(bs: seq<uint8>)
    ensures BeValue(bs) == LeValue(Reverse(bs))
  {
    if |bs| > 0 {
      var init := bs[..|bs| - 1];
      var r := Reverse(bs);
      assert r[0] == bs[|bs| - 1];
      assert r[1..] == Reverse(init);
      BeIsReversedLe(init);
    }
  }

  /** The two- and four-byte cases spelled out. */
  lemma LeValue2(bs: seq<uint8>)
    requires |bs| == 2
    ensures LeValue(bs) == bs[0] as int + 256 * (bs[1] as int)
  {
    assert bs[1..][1..] == [];
    assert LeValue(bs[1..]) == bs[1] as int + 256 * LeValue(bs[1..][1..]);
  }

  lemma LeValue4(bs: seq<uint8>)
    requires |bs| == 4
    ensures LeValue(bs) == bs[0] as int + 256 * (bs[1] as int) + 65536 * (bs[2] as int) + 16777216 * (bs[3] as int)
  {
    assert bs[1..][1..] == bs[2..];
    assert bs[2..][1..] == bs[3..];
    assert bs[3..][1..] == [];
    assert LeValue(bs[3..]) == bs[3] as int;
    assert LeValue(bs[2..]) == bs[2] as int + 256 * LeValue(bs[3..]);
    assert LeValue(bs[1..]) == bs[1] as int + 256 * LeValue(bs[2..]);
  }

  lemma BeValue4(bs: seq<uint8>)
    requires |bs| == 4
    ensures BeValue(bs) == 0x100_0000 * (bs[0] as int) + 0x1_0000 * (bs[1] as int) + 0x100 * (bs[2] as int) + bs[3] as int
  {
    assert bs[..3][..2] == bs[..2];
    assert bs[..2][..1] == bs[..1];
    assert bs[..1][..0] == [];
    assert BeValue(bs[..1]) == bs[0] as int;
    assert BeValue(bs[..2]) == 256 * BeValue(bs[..1]) + bs[1] as int;
    assert BeValue(bs[..3]) == 256 * BeValue(bs[..2]) + bs[2] as int;
  }

  /** The u16 stored little-endian at `data[p..p + 2]`. */
  function U16At(data: seq<uint8>, p: nat): nat
    requires p + 2 <= |data|
  {
    data[p] as int + 256 * (data[p + 1] as int)
  }

  lemma Pow256Values()
    ensures Pow256(1) == 0x100 && Pow256(2) == 0x1_0000 && Pow256(4) == 0x1_0000_0000
  {
    assert Pow256(1) == 256 * Pow256(0);
    assert Pow256(2) == 256 * Pow256(1);
    assert Pow256(3) == 256 * Pow256(2);
    assert Pow256(4) == 256 * Pow256(3);
  }
}

=== FILE: check.dfy ===
/** The `check` command of packages/rctoolkit/src/check.rs: for a tileset
    of the configuration, the indices of its tile references that no
    tilemap drawn with that tileset uses.  The printing is left out: the
    report is the set of unused indices, whose print order a `HashSet`
    does not fix. */
module TilesetCheck {
  import opened Common
  import opened AssetStore

  /** `TilesetConfig`: an id and the tile references; of a reference only
      its source index is kept, its transform and anchor play no part in
      the check. */
  datatype TilesetConfig = TilesetConfig(id: string, tileRefs: seq<nat>)

  /** `Config`: the tilesets and the tilemaps it declares (the palette and
      source paths are not read by the check). */
  datatype Config = Config(tilesets: seq<TilesetConfig>, tilemaps: seq<Tilemap>)

  /** `HashSet::from_iter(0..n)` */
  function Indices(n: nat): (r: set<nat>)
    ensures forall i: nat :: i in r <==> i < n
    decreases n
  {
    if n == 0 then {} else Indices(n - 1) + {n - 1}
  }

  /** The inner loop: `remove` of every index of a tilemap, in order. */
  function RemoveTiles(indexes: set<nat>, tiles: seq<nat>): set<nat>
    decreases |tiles|
  {
    if |tiles| == 0 then indexes else RemoveTiles(indexes - {tiles[0]}, tiles[1..])
  }

  /** The outer loop: only tilemaps whose tileset is `id` remove their
      indices. */
  function RemoveUsed(indexes: set<nat>, tilemaps: seq<Tilemap>, id: string): set<nat>
    decreases |tilemaps|
  {
    if |tilemaps| == 0 then indexes
    else
      var rest := if tilemaps[0].tileset == id then RemoveTiles(indexes, tilemaps[0].tiles) else indexes;
      RemoveUsed(rest, tilemaps[1..], id)
  }

  /** `check_tileset`: the indices it prints. */
  function UnusedTiles(config: Config, tileset: TilesetConfig): set<nat>
  {
    RemoveUsed(Indices(|tileset.tileRefs|), config.tilemaps, tileset.id)
  }

  /** Some tilemap drawn with tileset `id` uses index `i`. */
  predicate UsedBy(tilemaps: seq<Tilemap>, id: string, i: nat)
  {
    exists k :: 0 <= k < |tilemaps| && tilemaps[k].tileset == id && i in tilemaps[k].tiles
  }

  /** Removing a tilemap's indices keeps exactly those it does not hold. */
  lemma {:induction false} RemoveTilesSpec(indexes: set<nat>, tiles: seq<nat>, i: nat)
    ensures i in RemoveTiles(indexes, tiles) <==> i in indexes && i !in tiles
    decreases |tiles|
  {
    if |tiles| > 0 {
      RemoveTilesSpec(indexes - {tiles[0]}, tiles[1..], i);
      assert tiles == [tiles[0]] + tiles[1..];
    }
  }

  /** The outer loop keeps exactly the indices no tilemap of the tileset
      uses. */
  lemma {:induction false} RemoveUsedSpec(indexes: set<nat>, tilemaps: seq<Tilemap>, id: string, i: nat)
    ensures i in RemoveUsed(indexes, tilemaps, id) <==> i in indexes && !UsedBy(tilemaps, id, i)
    decreases |tilemaps|
  {
    if |tilemaps| > 0 {
      var rest := if tilemaps[0].tileset == id then RemoveTiles(indexes, tilemaps[0].tiles) else indexes;
      RemoveUsedSpec(rest, tilemaps[1..], id, i);
      RemoveTilesSpec(indexes, tilemaps[0].tiles, i);
      if UsedBy(tilemaps, id, i) {
        var k :| 0 <= k < |tilemaps| && tilemaps[k].tileset == id && i in tilemaps[k].tiles;
        if k > 0 {
          assert tilemaps[1..][k - 1] == tilemaps[k];
        }
      }
      if UsedBy(tilemaps[1..], id, i) {
        var k :| 0 <= k < |tilemaps[1..]| && tilemaps[1..][k].tileset == id && i in tilemaps[1..][k].tiles;
        assert tilemaps[k + 1] == tilemaps[1..][k];
      }
    }
  }

  /** An index is reported unused exactly when it numbers a tile
      reference of the tileset and no tilemap drawn with the tileset uses
      it. */
  lemma UnusedTilesSpec(config: Config, tileset: TilesetConfig, i: nat)
    ensures i in UnusedTiles(config, tileset) <==>
      i < |tileset.tileRefs| && !UsedBy(config.tilemaps, tileset.id, i)
  {
    RemoveUsedSpec(Indices(|tileset.tileRefs|), config.tilemaps, tileset.id, i);
  }

  /** Tilemaps of other tilesets, and indices past the tile references,
      change nothing in the report. */
  lemma UnusedTilesIgnores(config: Config, tileset: TilesetConfig, m: Tilemap)
    requires m.tileset != tileset.id || forall j :: 0 <= j < |m.tiles| ==> m.tiles[j] >= |tileset.tileRefs|
    ensures UnusedTiles(config.(tilemaps := config.tilemaps + [m]), tileset) == UnusedTiles(config, tileset)
  {
    var more := config.(tilemaps := config.tilemaps + [m]);
    forall i: nat
      ensures i in UnusedTiles(more, tileset) <==> i in UnusedTiles(config, tileset)
    {
      UnusedTilesSpec(more, tileset, i);
      UnusedTilesSpec(config, tileset, i);
      if i < |tileset.tileRefs| && UsedBy(more.tilemaps, tileset.id, i) {
        var k :| 0 <= k < |more.tilemaps| && more.tilemaps[k].tileset == tileset.id && i in more.tilemaps[k].tiles;
        assert k < |config.tilemaps| && config.tilemaps[k] == more.tilemaps[k];
      }
      if UsedBy(config.tilemaps, tileset.id, i) {
        var k :| 0 <= k < |config.tilemaps| && config.tilemaps[k].tileset == tileset.id && i in config.tilemaps[k].tiles;
        assert more.tilemaps[k] == config.tilemaps[k];
      }
    }
  }

  /** `check_tileset` with its loops: the set starts as all indices and
      loses every index a tilemap of the tileset holds. */
  method CheckTileset(config: Config, tileset: TilesetConfig) returns (unused: set<nat>)
    ensures forall i: nat :: i in unused <==> i < |tileset.tileRefs| && !UsedBy(config.tilemaps, tileset.id, i)
  {
    unused := Indices(|tileset.tileRefs|);
    var k := 0;
    while k < |config.tilemaps|
      invariant 0 <= k <= |config.tilemaps|
      invariant forall i: nat :: i in unused <==> i < |tileset.tileRefs| && !UsedBy(config.tilemaps[..k], tileset.id, i)
    {
      var m := config.tilemaps[k];
      if m.tileset == tileset.id {
        var j := 0;
        ghost var before := unused;
        while j < |m.tiles|
          invariant 0 <= j <= |m.tiles|
          invariant forall i: nat :: i in unused <==> i in before && i !in m.tiles[..j]
        {
          unused := unused - {m.tiles[j]};
          assert m.tiles[..j + 1] == m.tiles[..j] + [m.tiles[j]];
          j := j + 1;
        }
        assert m.tiles[..j] == m.tiles;
      }
      forall i: nat
        ensures UsedBy(config.tilemaps[..k + 1], tileset.id, i) <==>
          UsedBy(config.tilemaps[..k], tileset.id, i) || (m.tileset == tileset.id && i in m.tiles)
      {
        UsedByPush(config.tilemaps[..k], m, tileset.id, i);
        assert config.tilemaps[..k + 1] == config.tilemaps[..k] + [m];
      }
      k := k + 1;
    }
    assert config.tilemaps[..k] == config.tilemaps;
  }

  /** One more tilemap uses an index when the earlier ones do or it does. */
  lemma UsedByPush(tilemaps: seq<Tilemap>, m: Tilemap, id: string, i: nat)
    ensures UsedBy(tilemaps + [m], id, i) <==> UsedBy(tilemaps, id, i) || (m.tileset == id && i in m.tiles)
  {
    var more := tilemaps + [m];
    if UsedBy(tilemaps, id, i) {
      var k :| 0 <= k < |tilemaps| && tilemaps[k].tileset == id && i in tilemaps[k].tiles;
      assert more[k] == tilemaps[k];
    }
    if m.tileset == id && i in m.tiles {
      assert more[|tilemaps|] == m;
    }
  }

  /** `run`: the tilesets checked, in order, with what each reports; all of
      them, or only those whose id is the one asked for. */
  function Run(config: Config, only: Option<string>): seq<(string, set<nat>)>
  {
    Reports(config, config.tilesets, only)
  }

  function Reports(config: Config, tilesets: seq<TilesetConfig>, only: Option<string>): seq<(string, set<nat>)>
    decreases |tilesets|
  {
    if |tilesets| == 0 then []
    else
      var rest := Reports(config, tilesets[1..], only);
      if only.None? || only.value == tilesets[0].id then [(tilesets[0].id, UnusedTiles(config, tilesets[0]))] + rest
      else rest
  }

  /** Without an id every tileset is reported, in order. */
  lemma {:induction false} ReportsAll(config: Config, tilesets: seq<TilesetConfig>)
    ensures |Reports(config, tilesets, None)| == |tilesets|
    ensures forall k :: 0 <= k < |tilesets| ==>
      Reports(config, tilesets, None)[k] == (tilesets[k].id, UnusedTiles(config, tilesets[k]))
    decreases |tilesets|
  {
    if |tilesets| > 0 {
      ReportsAll(config, tilesets[1..]);
    }
  }

  /** With an id, every report is about a tileset with that id, and there
      are as many as there are such tilesets. */
  lemma {:induction false} ReportsOnly(config: Config, tilesets: seq<TilesetConfig>, id: string)
    ensures forall k :: 0 <= k < |Reports(config, tilesets, Some(id))| ==> Reports(config, tilesets, Some(id))[k].0 == id
    ensures |Reports(config, tilesets, Some(id))| == Count(tilesets, id)
    decreases |tilesets|
  {
    if |tilesets| > 0 {
      ReportsOnly(config, tilesets[1..], id);
    }
  }

  /** The number of tilesets with id `id`. */
  function Count(tilesets: seq<TilesetConfig>, id: string): nat
    decreases |tilesets|
  {
    if |tilesets| == 0 then 0 else (if tilesets[0].id == id then 1 else 0) + Count(tilesets[1..], id)
  }

  /** Checking the tilemaps of a one-cell map against a tileset of three
      references reports the two it does not use. */
  lemma ExampleReport()
    ensures UnusedTiles(Config([], [Tilemap("a", Geometry.Shape(1, 1), [1], "t")]), TilesetConfig("t", [7, 8, 9])) == {0, 2}
  {
    var config := Config([], [Tilemap("a", Geometry.Shape(1, 1), [1], "t")]);
    var tileset := TilesetConfig("t", [7, 8, 9]);
    forall i: nat
      ensures i in UnusedTiles(config, tileset) <==> i in {0, 2}
    {
      UnusedTilesSpec(config, tileset, i);
      if i == 1 {
        assert config.tilemaps[0].tileset == "t" && 1 in config.tilemaps[0].tiles;
      }
    }
  }
}

=== FILE: color.dfy ===
/** Colours and the append-only palette of packages/dune2/src/color.rs,
    together with the `.pal` reader it shares, line for line, with
    packages/rctoolkit/src/pal.rs. */
module Colors {
  import opened Common

  datatype Color = Color(red: uint8, green: uint8, blue: uint8)

  /** `Color::default()` */
  const Black := Color(0, 0, 0)

  // -----------------------------------------------------------------------
  // Scalar multiplication
  // -----------------------------------------------------------------------

  /** Whether `k * channel` fits in a u8 for every channel; otherwise the
      debug build panics on the overflow. */
  predicate ScaleFits(c: Color, k: uint8)
  {
    k * c.red < 0x100 && k * c.green < 0x100 && k * c.blue < 0x100
  }

  /** `color * k` */
  function Scale(c: Color, k: uint8): (r: Color)
    requires ScaleFits(c, k)
  {
    Color(k * c.red, k * c.green, k * c.blue)
  }

  /** `k * color`, which the source defines as `color * k`. */
  function ScaleLeft(k: uint8, c: Color): (r: Color)
    requires ScaleFits(c, k)
  {
    Scale(c, k)
  }

  /** Multiplying on the left is multiplying on the right, and a smaller
      factor fits whenever a larger one does, giving channels no larger. */
  lemma ScaleMonotone(c: Color, k: uint8, m: uint8)
    requires k <= m && ScaleFits(c, m)
    ensures ScaleFits(c, k)
    ensures ScaleLeft(k, c) == Scale(c, k)
    ensures Scale(c, k).red <= Scale(c, m).red && Scale(c, k).green <= Scale(c, m).green &&
      Scale(c, k).blue <= Scale(c, m).blue
  {
    ChannelMono(k, m, c.red);
    ChannelMono(k, m, c.green);
    ChannelMono(k, m, c.blue);
  }

  lemma ChannelMono(k: nat, m: nat, x: nat)
    requires k <= m
    ensures k * x <= m * x
  {
    var d := m - k;
    assert m * x == k * x + d * x;
  }

  /** Scaling twice is scaling once by the product of the factors. */
  lemma ScaleComposes(c: Color, a: uint8, b: uint8)
    requires a * b < 0x100 && ScaleFits(c, a) && ScaleFits(Scale(c, a), b)
    ensures ScaleFits(c, a * b) && Scale(Scale(c, a), b) == Scale(c, a * b)
  {
    assert b * (a * c.red) == (a * b) * c.red;
    assert b * (a * c.green) == (a * b) * c.green;
    assert b * (a * c.blue) == (a * b) * c.blue;
  }

  /** Scaling by 1 changes nothing, and scaling by 4 is undone by `/ 4`. */
  lemma ScaleByFourInvertible(c: Color)
    requires ScaleFits(c, 4)
    ensures Scale(c, 1) == c
    ensures Scale(c, 4).red / 4 == c.red && Scale(c, 4).green / 4 == c.green && Scale(c, 4).blue / 4 == c.blue
  {
  }

  // -----------------------------------------------------------------------
  // Palette
  // -----------------------------------------------------------------------

  /** `Palette`: the colours in insertion order and a hash map from each
      colour to the position it was last pushed at. */
  datatype Palette = Palette(index: map<Color, nat>, colors: seq<Color>)

  /** `Palette::new()` */
  const EmptyPalette := Palette(map[], [])

  /** The map points every stored colour at its last occurrence. */
  ghost predicate Valid(p: Palette)
  {
    (forall c :: c in p.index ==>
       p.index[c] < |p.colors| && p.colors[p.index[c]] == c &&
       forall j :: p.index[c] < j < |p.colors| ==> p.colors[j] != c) &&
    (forall i :: 0 <= i < |p.colors| ==> p.colors[i] in p.index)
  }

  lemma EmptyPaletteValid()
    ensures Valid(EmptyPalette) && |EmptyPalette.colors| == 0
  {
  }

  /** `push`: appends the colour, records it in the map, and returns the old
      length as its index. */
  function Push(p: Palette, c: Color): (r: (Palette, nat))
    ensures r.1 == |p.colors|
    ensures r.0.colors == p.colors + [c]
    ensures Valid(p) ==> Valid(r.0)
  {
    var q := Palette(p.index[c := |p.colors|], p.colors + [c]);
    assert Valid(p) ==> Valid(q) by {
      if Valid(p) {
        forall d | d in q.index
          ensures q.index[d] < |q.colors| && q.colors[q.index[d]] == d
          ensures forall j :: q.index[d] < j < |q.colors| ==> q.colors[j] != d
        {
          if d != c {
            assert q.index[d] == p.index[d];
          }
        }
      }
    }
    (q, |p.colors|)
  }

  function Len(p: Palette): (n: nat)
    ensures n == |p.colors|
  {
    |p.colors|
  }

  /** `color_at`: indexing the vector, which panics past the end. */
  function ColorAt(p: Palette, i: nat): (c: Color)
    requires i < |p.colors|
    ensures c in p.colors
  {
    p.colors[i]
  }

  /** `color_index`: the map lookup. */
  function ColorIndex(p: Palette, c: Color): (r: Option<nat>)
    ensures Valid(p) && r.Some? ==> r.value < |p.colors| && p.colors[r.value] == c
    ensures Valid(p) ==> (r.None? <==> c !in p.colors)
  {
    if c in p.index then Some(p.index[c]) else None
  }

  /** `iter`: (position, colour) pairs in insertion order. */
  function Iter(p: Palette): (r: seq<(nat, Color)>)
    ensures |r| == |p.colors|
    ensures forall i :: 0 <= i < |r| ==> r[i] == (i, p.colors[i])
  {
    seq(|p.colors|, i requires 0 <= i < |p.colors| => (i, p.colors[i]))
  }

  /** Reference meaning of the lookup: the last position holding `c`. */
  function LastIndexOf(s: seq<Color>, c: Color): (r: Option<nat>)
    decreases |s|
  {
    if |s| == 0 then None
    else if s[|s| - 1] == c then Some(|s| - 1)
    else LastIndexOf(s[..|s| - 1], c)
  }

  lemma {:induction false} LastIndexOfSpec(s: seq<Color>, c: Color)
    ensures var r := LastIndexOf(s, c);
      (r.None? <==> c !in s) &&
      (r.Some? ==> r.value < |s| && s[r.value] == c && forall j :: r.value < j < |s| ==> s[j] != c)
    decreases |s|
  {
    if |s| > 0 && s[|s| - 1] != c {
      var init := s[..|s| - 1];
      LastIndexOfSpec(init, c);
      assert s == init + [s[|s| - 1]];
    }
  }

  /** On a palette built by pushes, `color_index` finds the most recent push
      of the colour: there is no deduplication. */
  lemma ColorIndexIsLastPush(p: Palette, c: Color)
    requires Valid(p)
    ensures ColorIndex(p, c) == LastIndexOf(p.colors, c)
  {
    LastIndexOfSpec(p.colors, c);
  }

  /** What a push makes visible: the pushed colour at the returned index,
      found by `color_index`, and every earlier colour unchanged. */
  lemma PushThenLookup(p: Palette, c: Color)
    requires Valid(p)
    ensures var (q, i) := Push(p, c);
      i < Len(q) && ColorAt(q, i) == c && ColorIndex(q, c) == Some(i) && Len(q) == Len(p) + 1 &&
      forall j :: 0 <= j < Len(p) ==> ColorAt(q, j) == ColorAt(p, j)
  {
  }

  // -----------------------------------------------------------------------
  // .pal files
  // -----------------------------------------------------------------------

  /** The loop of `from_pal_reader` / `read_palette_from_reader` over the
      unread bytes `rest`: a `read` into the 3-byte buffer returns what is
      left up to 3 bytes; 0 ends the file, a partial group is an error, and
      each channel is multiplied by 4 (6-bit VGA values), which overflows a
      u8 for a channel of 64 or more. */
  function ReadPal(rest: seq<uint8>, p: Palette): (r: Result<Palette>)
    ensures r.Err? ==> r.error == InvalidPaletteFile || r.error == Panic
    ensures r.Ok? ==> |r.value.colors| == |p.colors| + |rest| / 3 && r.value.colors[..|p.colors|] == p.colors
    ensures r.Ok? && Valid(p) ==> Valid(r.value)
    decreases |rest|
  {
    if |rest| == 0 then Ok(p)
    else if |rest| < 3 then Err(InvalidPaletteFile)
    else
      var color := Color(rest[0], rest[1], rest[2]);
      if !ScaleFits(color, 4) then Err(Panic)
      else
        var r := ReadPal(rest[3..], Push(p, Scale(color, 4)).0);
        assert r.Ok? ==> r.value.colors[..|p.colors|] == r.value.colors[..|p.colors| + 1][..|p.colors|];
        r
  }

  /** `from_pal_reader` on the whole file. */
  function FromPal(data: seq<uint8>): (r: Result<Palette>)
    ensures r.Ok? ==> Valid(r.value)
  {
    EmptyPaletteValid();
    ReadPal(data, EmptyPalette)
  }

  /** Whether every byte is a 6-bit channel value. */
  predicate SixBit(data: seq<uint8>)
  {
    forall i :: 0 <= i < |data| ==> data[i] < 64
  }

  /** The colour the `i`-th group of a `.pal` file stands for. */
  function PalColor(data: seq<uint8>, i: nat): Color
    requires 3 * i + 3 <= |data| && SixBit(data)
  {
    Color(4 * data[3 * i], 4 * data[3 * i + 1], 4 * data[3 * i + 2])
  }

  /** The 6-bit condition splits at the first group. */
  lemma SixBitCons(rest: seq<uint8>)
    requires |rest| >= 3
    ensures SixBit(rest) <==> rest[0] < 64 && rest[1] < 64 && rest[2] < 64 && SixBit(rest[3..])
  {
    var tail := rest[3..];
    if rest[0] < 64 && rest[1] < 64 && rest[2] < 64 && SixBit(tail) {
      forall i | 0 <= i < |rest|
        ensures rest[i] < 64
      {
        if i >= 3 {
          assert rest[i] == tail[i - 3];
        }
      }
    }
  }

  lemma PalColorShift(rest: seq<uint8>, i: nat)
    requires 1 <= i && 3 * i + 3 <= |rest| && SixBit(rest) && SixBit(rest[3..])
    ensures PalColor(rest, i) == PalColor(rest[3..], i - 1)
  {
    var tail := rest[3..];
    assert tail[3 * (i - 1)] == rest[3 * i];
    assert tail[3 * (i - 1) + 1] == rest[3 * i + 1];
    assert tail[3 * (i - 1) + 2] == rest[3 * i + 2];
  }

  /** Which inputs the loop accepts, and why it rejects the others. */
  lemma {:induction false} ReadPalAccepts(rest: seq<uint8>, p: Palette)
    ensures var r := ReadPal(rest, p);
      (r.Ok? <==> |rest| % 3 == 0 && SixBit(rest)) &&
      (r.Err? && SixBit(rest) ==> r.error == InvalidPaletteFile)
    decreases |rest|
  {
    if |rest| >= 3 {
      SixBitCons(rest);
      var color := Color(rest[0], rest[1], rest[2]);
      if ScaleFits(color, 4) {
        ReadPalAccepts(rest[3..], Push(p, Scale(color, 4)).0);
      }
    }
  }

  /** The colours the loop appends, one per group. */
  lemma {:induction false} ReadPalColors(rest: seq<uint8>, p: Palette)
    requires |rest| % 3 == 0 && SixBit(rest)
    ensures var r := ReadPal(rest, p);
      r.Ok? && forall i :: 0 <= i < |rest| / 3 ==> r.value.colors[|p.colors| + i] == PalColor(rest, i)
    decreases |rest|
  {
    ReadPalAccepts(rest, p);
    if |rest| >= 3 {
      SixBitCons(rest);
      var color := Color(rest[0], rest[1], rest[2]);
      var tail := rest[3..];
      var q := Push(p, Scale(color, 4)).0;
      ReadPalColors(tail, q);
      var r := ReadPal(tail, q);
      assert ReadPal(rest, p) == r;
      forall i | 0 <= i < |rest| / 3
        ensures r.value.colors[|p.colors| + i] == PalColor(rest, i)
      {
        if i == 0 {
          assert q.colors[|p.colors|] == Scale(color, 4);
          assert r.value.colors[..|q.colors|][|p.colors|] == Scale(color, 4);
        } else {
          assert r.value.colors[|q.colors| + (i - 1)] == PalColor(tail, i - 1);
          PalColorShift(rest, i);
        }
      }
    }
  }

  /** A `.pal` file parses exactly when it is whole 3-byte groups of 6-bit
      values; the palette then holds one colour per group, in file order,
      each channel times 4.  An empty file gives an empty palette. */
  lemma FromPalSpec(data: seq<uint8>)
    ensures var r := FromPal(data);
      (r.Ok? <==> |data| % 3 == 0 && SixBit(data)) &&
      (r.Err? && SixBit(data) ==> r.error == InvalidPaletteFile) &&
      (r.Ok? ==> (|r.value.colors| == |data| / 3 &&
                  forall i :: 0 <= i < |data| / 3 ==> r.value.colors[i] == PalColor(data, i)))
  {
    FromPalAccepts(data);
    if FromPal(data).Ok? {
      FromPalColors(data);
    }
  }

  /** Which files parse, and the error of the others. */
  lemma FromPalAccepts(data: seq<uint8>)
    ensures FromPal(data).Ok? <==> |data| % 3 == 0 && SixBit(data)
    ensures FromPal(data).Err? && SixBit(data) ==> FromPal(data).error == InvalidPaletteFile
  {
    assert FromPal(data) == ReadPal(data, EmptyPalette);
    ReadPalAccepts(data, EmptyPalette);
  }

  /** The colours of a file of whole 6-bit groups. */
  lemma FromPalColors(data: seq<uint8>)
    requires |data| % 3 == 0 && SixBit(data)
    ensures FromPal(data).Ok? && |FromPal(data).value.colors| == |data| / 3
    ensures forall i :: 0 <= i < |data| / 3 ==> FromPal(data).value.colors[i] == PalColor(data, i)
  {
    FromPalAccepts(data);
    var r := ReadPal(data, EmptyPalette);
    assert FromPal(data) == r;
    ReadPalColors(data, EmptyPalette);
    forall i | 0 <= i < |data| / 3
      ensures r.value.colors[i] == PalColor(data, i)
    {
      assert r.value.colors[|EmptyPalette.colors| + i] == PalColor(data, i);
    }
  }
}

=== FILE: common.dfy ===
/** Shared vocabulary of the model: fixed-width integer ranges, the error
    kinds the Rust code reports (or panics with), and a failure-compatible
    Result type. */
module Common {

  type uint8 = x: int | 0 <= x < 0x100
  type uint16 = x: int | 0 <= x < 0x1_0000
  type uint32 = x: int | 0 <= x < 0x1_0000_0000
  type int32 = x: int | -0x8000_0000 <= x < 0x8000_0000

  /** Every way an operation of the core can fail.  `Panic` stands for the
      places where the Rust code would abort instead of returning an error:
      an index out of bounds, `unwrap` of `None`, a debug-build arithmetic
      overflow or a division by zero. */
  datatype Error =
    | Panic
    | UnexpectedEof
    | NotEnoughBytes(available: nat, needed: nat)
    | SlicesMismatch(slices: nat, height: nat)
    | FrameSizeMismatch(frameSize: nat, expectedSize: nat)
    | InvalidChunkId(expected: seq<uint8>, found: seq<uint8>)
    | InvalidSinfChunkSize(size: nat)
    | SsetRtblSizeMismatch(ssetCount: nat, rtblCount: nat)
    | InvalidPaletteFile
    | UnexpectedEndOfFile
    | FactionInvalidString(input: string)
    | TilesetInvalidTileSize(tilesetId: string, width: nat, height: nat)
    | TilesetInvalidTileIndex(tilesetId: string, index: nat)
    | TilesetInvalidId(tilesetId: string)

  datatype Result<+T> = Ok(value: T) | Err(error: Error) {
    predicate IsFailure() {
      Err?
    }

    function PropagateFailure<U>(): Result<U>
      requires Err?
    {
      Err(error)
    }

    function Extract(): T
      requires Ok?
    {
      value
    }
  }

  datatype Option<+T> = None | Some(value: T)

  function Min(a: int, b: int): int {
    if a <= b then a else b
  }

  function Max(a: int, b: int): int {
    if a <= b then b else a
  }

  function Pow2(n: nat): (r: nat)
    ensures r >= 1
  {
    if n == 0 then 1 else 2 * Pow2(n - 1)
  }

  /** `a * b`, defined by repeated addition so that the solver treats it as
      an ordinary function; `MulIsProduct` connects it to `*` where a proof
      needs that. */
  function Mul(a: nat, b: nat): nat
  {
    if a == 0 then 0 else Mul(a - 1, b) + b
  }

  lemma {:induction false} MulIsProduct(a: nat, b: nat)
    ensures Mul(a, b) == a * b
  {
    if a > 0 {
      MulIsProduct(a - 1, b);
      assert (a - 1) * b + b == a * b;
    }
  }

  /** `a / b` for a positive divisor, by repeated subtraction, so that the
      solver sees no division by a variable; `DivIsQuotient` connects it to
      `/`. */
  function Div(a: nat, b: nat): nat
    requires b > 0
    decreases a
  {
    if a < b then 0 else 1 + Div(a - b, b)
  }

  lemma {:induction false} DivIsQuotient(a: nat, b: nat)
    requires b > 0
    ensures Div(a, b) == a / b
    decreases a
  {
    if a >= b {
      DivIsQuotient(a - b, b);
      var q := (a - b) / b;
      var r := (a - b) % b;
      assert a == (q + 1) * b + r;
      DivModUnique(a, b, q + 1, r);
    }
  }

  lemma MulAtLeast(a: int, w: nat)
    requires a >= 1
    ensures a * w >= w
  {
    var b: nat := a - 1;
    assert a * w == b * w + w;
  }

  /** Euclidean division has one quotient and one remainder. */
  lemma DivModUnique(n: int, w: nat, q: int, r: int)
    requires w > 0 && 0 <= r < w && n == q * w + r
    ensures n / w == q && n % w == r
  {
    var q' := n / w;
    var r' := n % w;
    assert n == q' * w + r';
    if q > q' {
      MulAtLeast(q - q', w);
    } else if q < q' {
      MulAtLeast(q' - q, w);
    }
  }

  /** The whole multiples of `b` in `a` make up `a` less its remainder. */
  lemma DivRemainder(a: nat, b: nat)
    requires b > 0
    ensures Div(a, b) == a / b && Mul(Div(a, b), b) == a - a % b
  {
    DivIsQuotient(a, b);
    MulIsProduct(Div(a, b), b);
    assert a == (a / b) * b + a % b;
  }

  /** Dividing a multiple by its factor gives the other factor back. */
  lemma {:induction false} DivMul(k: nat, n: nat)
    requires n > 0
    ensures Div(Mul(k, n), n) == k
    decreases k
  {
    if k > 0 {
      DivMul(k - 1, n);
    }
  }

  /** The value of `x as u32` for an integer `x` that fits in an i64. */
  function AsU32(x: int): (r: uint32)
    ensures 0 <= x < 0x1_0000_0000 ==> r == x
    ensures -0x1_0000_0000 <= x < 0 ==> r == x + 0x1_0000_0000
  {
    x % 0x1_0000_0000
  }

  /** `iter::repeat(value).take(count)` */
  function Repeat<T>(value: T, count: nat): (r: seq<T>)
    ensures |r| == count
    ensures forall i :: 0 <= i < count ==> r[i] == value
  {
    seq(count, _ => value)
  }

  /** Appending a sequence in two parts appends the whole. */
  lemma AppendSplit<T>(out: seq<T>, data: seq<T>, n: nat)
    requires n <= |data|
    ensures out + data[..n] + data[n..] == out + data
  {
    assert data == data[..n] + data[n..];
  }

  /** A slice of a slice is a slice of the whole. */
  lemma SubSlice<T>(s: seq<T>, p: nat, q: nat, a: nat, b: nat)
    requires p <= q <= |s| && a <= b <= q - p
    ensures s[p..q][a..b] == s[p + a..p + b]
  {
    var x := s[p..q][a..b];
    var y := s[p + a..p + b];
    assert |x| == |y|;
    forall i | 0 <= i < |x|
      ensures x[i] == y[i]
    {
      assert x[i] == s[p..q][a + i] == s[p + a + i];
    }
  }

  /** Where the parts of `[x] + head + tail` sit when it occurs in `s` at
      `p`. */
  lemma Chunk<T>(s: seq<T>, p: nat, x: T, head: seq<T>, tail: seq<T>)
    requires p + 1 + |head| + |tail| <= |s| && s[p..p + 1 + |head| + |tail|] == [x] + head + tail
    ensures s[p] == x && s[p + 1..p + 1 + |head|] == head && s[p + 1 + |head|..p + 1 + |head| + |tail|] == tail
  {
    var e := [x] + head + tail;
    assert s[p] == e[0];
    SubSlice(s, p, p + |e|, 1, 1 + |head|);
    assert e[1..1 + |head|] == head;
    SubSlice(s, p, p + |e|, 1 + |head|, |e|);
    assert e[1 + |head|..] == tail;
  }

  /** Where the parts of `e == head + tail` sit when `e` occurs in `s` at
      `p`. */
  lemma Split<T>(s: seq<T>, p: nat, e: seq<T>, head: seq<T>, tail: seq<T>)
    requires e == head + tail
    requires p + |e| <= |s| && s[p..p + |e|] == e
    ensures s[p..p + |head|] == head && s[p + |head|..p + |e|] == tail
  {
    SubSlice(s, p, p + |e|, 0, |head|);
    assert e[..|head|] == head;
    SubSlice(s, p, p + |e|, |head|, |e|);
    assert e[|head|..] == tail;
  }

  /** A sequence sits at its own offset inside a concatenation. */
  lemma Middle<T>(pre: seq<T>, f: seq<T>, rest: seq<T>)
    ensures (pre + f + rest)[|pre|..|pre| + |f|] == f
  {
  }

  /** `t` occurs in `s` from position `p` on. */
  predicate SliceAt<T(==)>(s: seq<T>, p: nat, t: seq<T>)
  {
    p + |t| <= |s| && s[p..p + |t|] == t
  }

  /** What occurs in a suffix of `s` occurs in `s`, further on. */
  lemma SliceAtShift<T>(s: seq<T>, d: nat, p: nat, t: seq<T>)
    requires d <= |s| && SliceAt(s[d..], p, t)
    ensures SliceAt(s, d + p, t)
  {
    SubSlice(s, d, |s|, p, p + |t|);
  }

  /** What occurs in a part of a concatenation occurs in the whole. */
  lemma SliceAtConcat<T>(a: seq<T>, b: seq<T>, p: nat, t: seq<T>)
    ensures SliceAt(a, p, t) ==> SliceAt(a + b, p, t)
    ensures SliceAt(b, p, t) ==> SliceAt(a + b, |a| + p, t)
  {
    if SliceAt(a, p, t) {
      assert (a + b)[p..p + |t|] == a[p..p + |t|];
    }
    if SliceAt(b, p, t) {
      assert (a + b)[|a| + p..|a| + p + |t|] == b[p..p + |t|];
    }
  }

  /** What occurs in an occurrence occurs in the whole. */
  lemma SliceAtNested<T>(a: seq<T>, p: nat, b: seq<T>, q: nat, t: seq<T>)
    requires SliceAt(a, p, b) && SliceAt(b, q, t)
    ensures SliceAt(a, p + q, t)
  {
    SubSlice(a, p, p + |b|, q, q + |t|);
  }
}

=== FILE: dune2_shp.dfy ===
/** The SHP sprite decoder of packages/dune2/src/shp.rs.  The file layout
    (version, offset table) and the two decompression stages' building
    blocks are those of the rctoolkit decoder and are reused from
    `ToolkitShp` and `Lcw`; what differs is here: the iterator-based
    `read_integer`, an LCW decoder that runs over a slice and stops quietly
    when the slice runs out, the frame header, and the conversion of a frame
    to a surface of colours. */
module Dune2Shp {
  import opened Common
  import opened Bytes
  import opened Reader
  import opened Lcw
  import opened Geometry
  import opened Rects
  import opened Factions
  import opened Surfaces
  import Colors
  import ToolkitShp

  // -----------------------------------------------------------------------
  // read_integer
  // -----------------------------------------------------------------------

  /** `read_integer::<T>` with `size_of::<T>() == size`, over the bytes
      from the cursor on: the next `size` bytes, least significant first.
      When the iterator runs dry the error reports how many bytes it gave.
      Every `T` it is used with (u8, u16) has a non-zero size. */
  function ReadInteger(c: Cursor, size: nat): (r: Result<(nat, Cursor)>)
    requires size > 0
    ensures r.Ok? <==> size <= Remaining(c)
    ensures r.Ok? ==> r.value.0 < Pow256(size) && r.value.1 == Cursor(c.data, c.pos + size)
    ensures r.Ok? ==> r.value.1.pos <= |c.data|
  {
    if size <= Remaining(c) then
      var bs := c.data[c.pos..c.pos + size];
      LeValueBound(bs);
      Ok((LeValue(bs), Cursor(c.data, c.pos + size)))
    else Err(NotEnoughBytes(Remaining(c), size))
  }

  /** Appending a byte adds it at the next power of 256. */
  lemma {:induction false} LeValueSnoc(bs: seq<uint8>, b: uint8)
    ensures LeValue(bs + [b]) == LeValue(bs) + b * Pow256(|bs|)
    decreases |bs|
  {
    if |bs| > 0 {
      assert (bs + [b])[1..] == bs[1..] + [b];
      LeValueSnoc(bs[1..], b);
    }
  }

  /** The loop of `read_integer`: byte `i` is or-ed in shifted by `8 * i`.
      The bits already set lie below `8 * i`, so the or is an addition. */
  method ReadIntegerBytewise(c: Cursor, size: nat) returns (r: Result<(nat, Cursor)>)
    requires size > 0
    ensures r.Ok? <==> size <= Remaining(c)
    ensures r.Err? ==> r.error == NotEnoughBytes(Remaining(c), size)
    ensures r.Ok? ==> r.value.1 == Cursor(c.data, c.pos + size)
    ensures r.Ok? ==> r.value.0 == LeValue(c.data[c.pos..c.pos + size])
  {
    var num := 0;
    var i := 0;
    while i < size
      invariant i <= size && i <= Remaining(c)
      invariant i == 0 ==> num == 0
      invariant i > 0 ==> num == LeValue(c.data[c.pos..c.pos + i])
    {
      if i == Remaining(c) {
        return Err(NotEnoughBytes(i, size));
      }
      var b := c.data[c.pos + i];
      assert i == 0 ==> LeValue(c.data[c.pos..c.pos + i]) == 0;
      assert c.data[c.pos..c.pos + i + 1] == c.data[c.pos..c.pos + i] + [b];
      LeValueSnoc(c.data[c.pos..c.pos + i], b);
      num := num + b * Pow256(i);
      i := i + 1;
    }
    r := Ok((num, Cursor(c.data, c.pos + size)));
  }

  /** Reading back the little-endian bytes of a value gives the value. */
  lemma ReadIntegerRoundTrip(v: nat, size: nat, rest: seq<uint8>)
    requires size > 0 && v < Pow256(size)
    ensures var data := LeBytes(v, size) + rest;
      ReadInteger(Cursor(data, 0), size) == Ok((v, Cursor(data, size)))
  {
    var data := LeBytes(v, size) + rest;
    assert data[0..size] == LeBytes(v, size);
    LeRoundTrip(v, size);
  }

  // -----------------------------------------------------------------------
  // inflate_lcw_data
  // -----------------------------------------------------------------------

  /** What one pass of the `while let Some(cmd) = iter.next()` loop reads:
      nothing when the slice is used up, else a command and where reading
      goes on. */
  datatype Parsed = Exhausted | Parsed(cmd: ToolkitShp.Command, c: Cursor)

  /** The command-reading half of one pass, in a stream whose long copies
      are `relative`.  A literal takes at most what is left of the slice;
      a missing operand of the other commands is a `read_integer` error.
      Bit tests are written arithmetically as in `ToolkitShp.ParseCommand`. */
  function ParseSliceCommand(c: Cursor, relative: bool): (r: Result<Parsed>)
    ensures Remaining(c) == 0 <==> r == Ok(Exhausted)
    ensures r.Err? ==> r.error.NotEnoughBytes?
    ensures r.Ok? && r.value.Parsed? ==>
      r.value.c.data == c.data && r.value.c.pos <= |c.data| && Remaining(r.value.c) < Remaining(c)
  {
    if Remaining(c) == 0 then Ok(Exhausted)
    else
      Pow256Values();
      var cmd := c.data[c.pos];
      var c1 := Cursor(c.data, c.pos + 1);
      if cmd == 0x80 then Ok(Parsed(ToolkitShp.End, c1))
      else if cmd / 64 == 2 then
        var n := Min(cmd % 64, Remaining(c1));
        Ok(Parsed(ToolkitShp.Literal(c.data[c1.pos..c1.pos + n]), Cursor(c.data, c1.pos + n)))
      else if cmd < 0x80 then
        var (lo, c2) :- ReadInteger(c1, 1);
        var count := cmd / 16 + 3;
        var pos := cmd % 16 * 256 + lo;
        if pos == 1 then Ok(Parsed(ToolkitShp.RepeatLast(count), c2))
        else Ok(Parsed(ToolkitShp.Copy(count, pos, true), c2))
      else if cmd == 0xFE then
        var (count, c2) :- ReadInteger(c1, 2);
        var (value, c3) :- ReadInteger(c2, 1);
        Ok(Parsed(ToolkitShp.Fill(count, value), c3))
      else if cmd == 0xFF then
        var (count, c2) :- ReadInteger(c1, 2);
        var (pos, c3) :- ReadInteger(c2, 2);
        Ok(Parsed(ToolkitShp.Copy(count, pos, relative), c3))
      else
        var (pos, c2) :- ReadInteger(c1, 2);
        Ok(Parsed(ToolkitShp.Copy(cmd % 64 + 3, pos, relative), c2))
  }

  /** The loop of `inflate_lcw_data` from cursor `c` with `out` already
      written: it ends at the end marker or when the slice is used up. */
  function InflateSlice(c: Cursor, out: seq<uint8>, relative: bool): (r: Result<seq<uint8>>)
    ensures r.Ok? ==> |out| <= |r.value| && r.value[..|out|] == out
    ensures r.Err? ==> r.error == Panic || r.error.NotEnoughBytes?
    decreases Remaining(c)
  {
    var p :- ParseSliceCommand(c, relative);
    if p.Exhausted? || p.cmd.End? then Ok(out)
    else
      var out' :- ToolkitShp.Execute(p.cmd, out);
      var r :- InflateSlice(p.c, out', relative);
      assert r[..|out|] == r[..|out'|][..|out|];
      Ok(r)
  }

  /** `inflate_lcw_data`: a leading 0 switches the long copies to relative
      mode and is skipped; an empty slice panics on `lcw_data[0]`. */
  function InflateLcwSlice(lcw: seq<uint8>): (r: Result<seq<uint8>>)
    ensures |lcw| == 0 ==> r == Err(Panic)
    ensures r.Err? ==> r.error == Panic || r.error.NotEnoughBytes?
  {
    if |lcw| == 0 then Err(Panic)
    else
      var relative := lcw[0] == 0;
      InflateSlice(Cursor(lcw, if relative then 1 else 0), [], relative)
  }

  /** The loop stops without error at the end marker and when the slice is
      used up, leaving the output as it is. */
  lemma SliceStops(c: Cursor, out: seq<uint8>, relative: bool)
    ensures Remaining(c) == 0 ==> InflateSlice(c, out, relative) == Ok(out)
    ensures Remaining(c) > 0 && c.data[c.pos] == 0x80 ==> InflateSlice(c, out, relative) == Ok(out)
  {
  }

  /** A literal run announced longer than what is left copies the rest of
      the slice and ends the decoding, where the rctoolkit decoder fails. */
  lemma SliceLiteralTruncated(c: Cursor, out: seq<uint8>, relative: bool)
    requires Remaining(c) > 0 && c.data[c.pos] / 64 == 2 && c.data[c.pos] != 0x80
    requires c.data[c.pos] % 64 >= Remaining(c) - 1
    ensures InflateSlice(c, out, relative) == Ok(out + c.data[c.pos + 1..])
  {
    var c' := Cursor(c.data, |c.data|);
    assert Min(c.data[c.pos] % 64, Remaining(Cursor(c.data, c.pos + 1))) == |c.data| - c.pos - 1;
    assert c.data[c.pos + 1..c.pos + 1 + (|c.data| - c.pos - 1)] == c.data[c.pos + 1..];
    assert ParseSliceCommand(c, relative) == Ok(Parsed(ToolkitShp.Literal(c.data[c.pos + 1..]), c'));
    SliceStops(c', out + c.data[c.pos + 1..], relative);
  }

  /** `0xFE c c v` appends `v` exactly `c` times and decoding goes on after
      the four bytes. */
  lemma SliceFill(c: Cursor, out: seq<uint8>, relative: bool)
    requires Remaining(c) >= 4 && c.data[c.pos] == 0xFE
    ensures InflateSlice(c, out, relative)
      == InflateSlice(Cursor(c.data, c.pos + 4), out + Repeat(c.data[c.pos + 3], U16At(c.data, c.pos + 1)), relative)
  {
    Pow256Values();
    var count := U16At(c.data, c.pos + 1);
    LeValue2(c.data[c.pos + 1..c.pos + 3]);
    assert c.data[c.pos + 3..c.pos + 4] == [c.data[c.pos + 3]];
    assert ReadInteger(Cursor(c.data, c.pos + 1), 2) == Ok((count, Cursor(c.data, c.pos + 3)));
    assert ReadInteger(Cursor(c.data, c.pos + 3), 1) == Ok((c.data[c.pos + 3], Cursor(c.data, c.pos + 4)));
    assert ParseSliceCommand(c, relative) == Ok(Parsed(ToolkitShp.Fill(count, c.data[c.pos + 3]), Cursor(c.data, c.pos + 4)));
  }

  /** A fill whose operands are cut off fails, reporting the bytes the
      short read got. */
  lemma SliceFillShort(c: Cursor, out: seq<uint8>, relative: bool)
    requires 0 < Remaining(c) < 4 && c.data[c.pos] == 0xFE
    ensures Remaining(c) < 3 ==> InflateSlice(c, out, relative) == Err(NotEnoughBytes(Remaining(c) - 1, 2))
    ensures Remaining(c) == 3 ==> InflateSlice(c, out, relative) == Err(NotEnoughBytes(0, 1))
  {
  }

  /** A literal run that fits in the slice appends its bytes and decoding
      goes on right after them. */
  lemma SliceLiteralStep(s: seq<uint8>, p: nat, n: nat, out: seq<uint8>, relative: bool)
    requires 1 <= n <= 63 && p + 1 + n <= |s| && s[p] == 0x80 + n
    ensures InflateSlice(Cursor(s, p), out, relative)
      == InflateSlice(Cursor(s, p + 1 + n), out + s[p + 1..p + 1 + n], relative)
  {
    var c' := Cursor(s, p + 1 + n);
    assert ParseSliceCommand(Cursor(s, p), relative) == Ok(Parsed(ToolkitShp.Literal(s[p + 1..p + 1 + n]), c'));
  }

  /** Decoding a stream of literal runs from `p` appends its bytes. */
  lemma {:induction false} SliceLiterals(s: seq<uint8>, p: nat, data: seq<uint8>, out: seq<uint8>, relative: bool)
    requires p + |ToolkitShp.EncodeLiterals(data)| <= |s|
    requires s[p..p + |ToolkitShp.EncodeLiterals(data)|] == ToolkitShp.EncodeLiterals(data)
    ensures InflateSlice(Cursor(s, p), out, relative) == Ok(out + data)
    decreases |data|
  {
    if |data| == 0 {
      assert s[p] == ToolkitShp.EncodeLiterals(data)[0];
      SliceStops(Cursor(s, p), out, relative);
      assert out + data == out;
    } else {
      var n := Min(|data|, 63);
      ToolkitShp.LiteralChunk(s, p, data, data[..n], ToolkitShp.EncodeLiterals(data[n..]));
      var head := s[p + 1..p + 1 + n];
      assert head == data[..n];
      SliceLiteralStep(s, p, n, out, relative);
      SliceLiterals(s, p + 1 + n, data[n..], out + head, relative);
      AppendSplit(out, data, n);
    }
  }

  /** A literal-run stream decodes to its bytes, whatever follows the end
      marker. */
  lemma LiteralsSliceRoundTrip(data: seq<uint8>, rest: seq<uint8>)
    ensures InflateLcwSlice(ToolkitShp.EncodeLiterals(data) + rest) == Ok(data)
  {
    var s := ToolkitShp.EncodeLiterals(data) + rest;
    assert s[0..|ToolkitShp.EncodeLiterals(data)|] == ToolkitShp.EncodeLiterals(data);
    SliceLiterals(s, 0, data, [], false);
  }

  // -----------------------------------------------------------------------
  // shp_read_frame
  // -----------------------------------------------------------------------

  /** `SHPFrame`: the size, the decoded palette indices row after row, and
      the remap table as stored (it is applied when the frame is drawn). */
  datatype ShpFrame = ShpFrame(width: uint16, height: uint16, data: seq<uint8>, remapTable: seq<uint8>)

  /** What the header of a frame buffer says: the first flag byte, the
      size, the remap table's declared size, the table bytes actually
      present, and where the table starts in the buffer. */
  datatype FrameHeader = FrameHeader(
    flags: uint8, width: uint16, height: uint8,
    tableSize: nat, table: seq<uint8>, tableStart: nat)

  /** The remap table's size: absent, the fixed 16 entries, or a count
      byte read right after the header. */
  function ReadTableSize(flags: uint8, c: Cursor): (r: Result<(nat, Cursor)>)
  {
    if ToolkitShp.HasRemapTable(flags) then
      if ToolkitShp.CustomSizeRemap(flags) then ReadInteger(c, 1) else Ok((16, c))
    else Ok((0, c))
  }

  /** The header reads of `shp_read_frame` over the iterator that skips
      the first three bytes of the buffer: width (u16), height (u8), frame
      size (u16, which must equal the size in the offset table), the zero-run
      data size (u16, only a capacity hint), the optional table size, then
      at most that many table bytes. */
  function ParseFrameHeader(buf: seq<uint8>, size: nat): (r: Result<FrameHeader>)
    requires |buf| >= 2
    ensures r.Err? ==> (r.error.NotEnoughBytes? ||
      (|buf| >= 8 && r.error == FrameSizeMismatch(LeValue(buf[6..8]), size)))
    ensures r.Ok? ==> (
      var h := r.value;
      h.flags == buf[0] && |buf| >= 10 && size == LeValue(buf[6..8]) &&
      h.width == LeValue(buf[3..5]) && h.height == buf[5] &&
      h.tableStart == (if ToolkitShp.HasRemapTable(h.flags) && ToolkitShp.CustomSizeRemap(h.flags) then 11 else 10) &&
      h.tableStart <= |buf| && |h.table| == Min(h.tableSize, |buf| - h.tableStart) &&
      h.table == buf[h.tableStart..h.tableStart + |h.table|])
  {
    Pow256Values();
    var flags := buf[0];
    var (width, c1) :- ReadInteger(Cursor(buf, 3), 2);
    var (height, c2) :- ReadInteger(c1, 1);
    var (frameSize, c3) :- ReadInteger(c2, 2);
    if frameSize != size then Err(FrameSizeMismatch(frameSize, size))
    else
      var (_, c4) :- ReadInteger(c3, 2);
      var (tableSize, c5) :- ReadTableSize(flags, c4);
      var n := Min(tableSize, Remaining(c5));
      assert buf[5..6] == [buf[5]];
      Ok(FrameHeader(flags, width, height, tableSize, buf[c5.pos..c5.pos + n], c5.pos))
  }

  /** The two stages after the header, on the bytes from `start` on:
      slicing past the end of the buffer panics; a stored frame is only
      zero-run encoded, the others are LCW compressed on top. */
  function DecodePayload(buf: seq<uint8>, flags: uint8, start: nat): (r: Result<seq<uint8>>)
    ensures start > |buf| ==> r == Err(Panic)
  {
    if start > |buf| then Err(Panic)
    else
      var payload := buf[start..];
      if ToolkitShp.NoLcw(flags) then InflateRleZero(payload)
      else
        var rle :- InflateLcwSlice(payload);
        InflateRleZero(rle)
  }

  /** Everything `shp_read_frame` does after `read_exact`, with the payload
      taken to start right after the remap table.  `buf[0..2]` panics on a
      buffer shorter than two bytes. */
  function DecodeFrame(buf: seq<uint8>, size: nat): (r: Result<ShpFrame>)
  {
    if |buf| < 2 then Err(Panic)
    else
      var h :- ParseFrameHeader(buf, size);
      var data :- DecodePayload(buf, h.flags, h.tableStart + h.tableSize);
      Ok(ShpFrame(h.width, h.height, data, h.table))
  }

  /** The same with the payload offset the source computes,
      `10 + remap_table_size`, which does not count the table-size byte. */
  function DecodeFrameAsWritten(buf: seq<uint8>, size: nat): (r: Result<ShpFrame>)
  {
    if |buf| < 2 then Err(Panic)
    else
      var h :- ParseFrameHeader(buf, size);
      var data :- DecodePayload(buf, h.flags, 10 + h.tableSize);
      Ok(ShpFrame(h.width, h.height, data, h.table))
  }

  /** `shp_read_frame`: `size` bytes read at `offset`, then decoded. */
  function ReadFrame(file: seq<uint8>, offset: nat, size: nat): (r: Result<ShpFrame>)
    ensures size > 0 && offset + size > |file| ==> r == Err(UnexpectedEof)
  {
    var (buf, _) :- ReadExact(Cursor(file, offset), size);
    DecodeFrame(buf, size)
  }

  function ReadFrameAsWritten(file: seq<uint8>, offset: nat, size: nat): (r: Result<ShpFrame>)
    ensures size > 0 && offset + size > |file| ==> r == Err(UnexpectedEof)
  {
    var (buf, _) :- ReadExact(Cursor(file, offset), size);
    DecodeFrameAsWritten(buf, size)
  }

  /** The two offsets differ only for a frame whose remap table carries
      its own size byte; every other frame reads the same either way. */
  lemma ReadFrameAsWrittenAgrees(file: seq<uint8>, offset: nat, size: nat)
    ensures ReadFrame(file, offset, size) != ReadFrameAsWritten(file, offset, size) ==>
      2 <= size && offset + size <= |file| &&
      ToolkitShp.HasRemapTable(file[offset]) && ToolkitShp.CustomSizeRemap(file[offset])
  {
    if offset + size <= |file| && size >= 2 {
      var buf := file[offset..offset + size];
      assert buf[0] == file[offset];
    }
  }

  /** A 13-byte stored frame, 1 by 1, with a one-entry custom remap table
      [5] and the zero-run payload [1].  Read at `10 + remap_table_size`
      the table byte is taken for payload, giving two pixels for a one-pixel
      frame; read after the table it gives the one pixel. */
  lemma PayloadOffsetCounterexample()
    ensures var f := [7, 0, 1, 1, 0, 1, 13, 0, 1, 0, 1, 5, 1];
      ReadFrameAsWritten(f, 0, 13) == Ok(ShpFrame(1, 1, [5, 1], [5])) &&
      ReadFrame(f, 0, 13) == Ok(ShpFrame(1, 1, [1], [5])) &&
      DecodeFrameAsWritten(f, 13) == Ok(ShpFrame(1, 1, [5, 1], [5])) &&
      DecodeFrame(f, 13) == Ok(ShpFrame(1, 1, [1], [5]))
  {
    var f: seq<uint8> := [7, 0, 1, 1, 0, 1, 13, 0, 1, 0, 1, 5, 1];
    CounterexampleHeader(f);
    CounterexamplePayloads(f);
    assert f[0..13] == f;
    assert ReadExact(Cursor(f, 0), 13) == Ok((f, Cursor(f, 13)));
    assert DecodeFrame(f, 13) == Ok(ShpFrame(1, 1, [1], [5]));
    assert DecodeFrameAsWritten(f, 13) == Ok(ShpFrame(1, 1, [5, 1], [5]));
  }

  lemma CounterexamplePayloads(f: seq<uint8>)
    requires f == [7, 0, 1, 1, 0, 1, 13, 0, 1, 0, 1, 5, 1]
    ensures DecodePayload(f, 7, 12) == Ok([1]) && DecodePayload(f, 7, 11) == Ok([5, 1])
  {
    var one: seq<uint8> := [1];
    var two: seq<uint8> := [5, 1];
    assert f[12..] == one && f[11..] == two;
    assert one[1..] == [] && two[1..] == one;
    assert InflateRleZero(one[1..]) == Ok([]);
    assert [one[0]] + [] == one;
    assert InflateRleZero(one) == Ok(one);
    assert [two[0]] + one == two;
    assert InflateRleZero(two) == Ok(two);
  }

  lemma CounterexampleHeader(f: seq<uint8>)
    requires f == [7, 0, 1, 1, 0, 1, 13, 0, 1, 0, 1, 5, 1]
    ensures ParseFrameHeader(f, 13) == Ok(FrameHeader(7, 1, 1, 1, [5], 11))
  {
    Pow256Values();
    LeValue2(f[3..5]);
    LeValue2(f[6..8]);
    LeValue2(f[8..10]);
    assert f[5..6] == [1] && f[10..11] == [1];
    assert ReadInteger(Cursor(f, 3), 2) == Ok((1, Cursor(f, 5)));
    assert ReadInteger(Cursor(f, 5), 1) == Ok((1, Cursor(f, 6)));
    assert ReadInteger(Cursor(f, 6), 2) == Ok((13, Cursor(f, 8)));
    assert ReadInteger(Cursor(f, 10), 1) == Ok((1, Cursor(f, 11)));
    assert ReadTableSize(7, Cursor(f, 10)) == Ok((1, Cursor(f, 11)));
    assert f[11..12] == [5];
  }

  // -----------------------------------------------------------------------
  // Writing a frame back
  // -----------------------------------------------------------------------

  /** The payload of an encoded frame: the zero-run bytes, LCW wrapped as
      literal runs unless the frame is stored. */
  function Payload(pixels: seq<uint8>, lcw: bool): seq<uint8>
  {
    var rle := RleZeroEncode(pixels);
    if lcw then ToolkitShp.EncodeLiterals(rle) else rle
  }

  predicate FrameEncodable(table: seq<uint8>, pixels: seq<uint8>, lcw: bool)
  {
    |table| < 0x100 && 11 + |table| + |Payload(pixels, lcw)| < 0x1_0000 &&
    |RleZeroEncode(pixels)| < 0x1_0000
  }

  /** A frame with a custom-size remap table: flags 5 (LCW) or 7 (stored),
      the header, the table-size byte, the table, the payload. */
  function EncodeFrame(width: uint16, height: uint8, table: seq<uint8>, pixels: seq<uint8>, lcw: bool): (r: seq<uint8>)
    requires FrameEncodable(table, pixels, lcw)
    ensures |r| == 11 + |table| + |Payload(pixels, lcw)|
  {
    var payload := Payload(pixels, lcw);
    [if lcw then 5 else 7, 0, height] + LeBytes(width, 2) + [height] +
    LeBytes(11 + |table| + |payload|, 2) + LeBytes(|RleZeroEncode(pixels)|, 2) +
    [|table|] + table + payload
  }

  /** Where the parts of an encoded frame sit. */
  lemma EncodedFrameLayout(width: uint16, height: uint8, table: seq<uint8>, pixels: seq<uint8>, lcw: bool)
    requires FrameEncodable(table, pixels, lcw)
    ensures var f := EncodeFrame(width, height, table, pixels, lcw);
      f[0] == (if lcw then 5 else 7) && f[5] == height && f[10] == |table| &&
      f[3..5] == LeBytes(width, 2) && f[6..8] == LeBytes(|f|, 2) &&
      f[11..11 + |table|] == table && f[11 + |table|..] == Payload(pixels, lcw)
  {
    var payload := Payload(pixels, lcw);
    var f := EncodeFrame(width, height, table, pixels, lcw);
    var head := [if lcw then 5 else 7, 0, height] + LeBytes(width, 2) + [height] +
      LeBytes(|f|, 2) + LeBytes(|RleZeroEncode(pixels)|, 2) + [|table|];
    assert |head| == 11;
    assert f == head + table + payload;
  }

  /** The header of an encoded frame reads back its size and table. */
  lemma EncodedFrameHeader(width: uint16, height: uint8, table: seq<uint8>, pixels: seq<uint8>, lcw: bool)
    requires FrameEncodable(table, pixels, lcw)
    ensures var f := EncodeFrame(width, height, table, pixels, lcw);
      ParseFrameHeader(f, |f|) == Ok(FrameHeader(f[0], width, height, |table|, table, 11))
  {
    var f := EncodeFrame(width, height, table, pixels, lcw);
    EncodedFrameLayout(width, height, table, pixels, lcw);
    Pow256Values();
    LeRoundTrip(width, 2);
    LeRoundTrip(|f|, 2);
    assert f[10..11] == [f[10]];
    assert f[5..6] == [f[5]];
    var r := ParseFrameHeader(f, |f|);
    assert r.Ok?;
  }

  /** The payload of an encoded frame decodes to its pixels. */
  lemma EncodedFramePayload(width: uint16, height: uint8, table: seq<uint8>, pixels: seq<uint8>, lcw: bool)
    requires FrameEncodable(table, pixels, lcw)
    ensures var f := EncodeFrame(width, height, table, pixels, lcw);
      DecodePayload(f, f[0], 11 + |table|) == Ok(pixels)
  {
    EncodedFrameLayout(width, height, table, pixels, lcw);
    var f := EncodeFrame(width, height, table, pixels, lcw);
    PayloadDecodes(f, 11 + |table|, pixels, lcw);
  }

  /** A payload encoded with the flags' compression decodes to its pixels,
      wherever it sits in the buffer. */
  lemma PayloadDecodes(buf: seq<uint8>, start: nat, pixels: seq<uint8>, lcw: bool)
    requires 0 < start <= |buf| && buf[start..] == Payload(pixels, lcw)
    requires buf[0] == if lcw then 5 else 7
    ensures DecodePayload(buf, buf[0], start) == Ok(pixels)
  {
    var rle := RleZeroEncode(pixels);
    RleZeroRoundTrip(pixels);
    if lcw {
      LiteralsSliceRoundTrip(rle, []);
      assert ToolkitShp.EncodeLiterals(rle) + [] == ToolkitShp.EncodeLiterals(rle);
      assert !ToolkitShp.NoLcw(buf[0]);
    } else {
      assert ToolkitShp.NoLcw(buf[0]);
    }
  }

  /** Reading an encoded frame gives back its size, pixels and remap
      table. */
  lemma FrameRoundTrip(width: uint16, height: uint8, table: seq<uint8>, pixels: seq<uint8>, lcw: bool, pre: seq<uint8>, rest: seq<uint8>)
    requires FrameEncodable(table, pixels, lcw)
    ensures var f := EncodeFrame(width, height, table, pixels, lcw);
      ReadFrame(pre + f + rest, |pre|, |f|) == Ok(ShpFrame(width, height, pixels, table))
  {
    var f := EncodeFrame(width, height, table, pixels, lcw);
    Middle(pre, f, rest);
    EncodedFrameHeader(width, height, table, pixels, lcw);
    EncodedFramePayload(width, height, table, pixels, lcw);
    assert DecodeFrame(f, |f|) == Ok(ShpFrame(width, height, pixels, table));
  }

  // -----------------------------------------------------------------------
  // SHP::from_reader
  // -----------------------------------------------------------------------

  /** `SHP::from_reader`: the version, the offset table, then every frame
      in order; the first failure is the result. */
  function ReadShp(data: seq<uint8>): (r: Result<seq<ShpFrame>>)
    ensures |data| < 6 ==> r == Err(UnexpectedEof)
    ensures r.Ok? ==> |r.value| == data[0] as int + 256 * (data[1] as int)
  {
    var (version, c) :- ToolkitShp.ReadVersion(data);
    var pairs :- ToolkitShp.ReadFrameOffsets(c, version);
    ReadFramesAt(data, pairs)
  }

  /** Every frame of the table, read with the payload offset as written. */
  function ReadFramesAt(data: seq<uint8>, pairs: seq<(nat, nat)>): (r: Result<seq<ShpFrame>>)
    ensures r.Ok? ==> |r.value| == |pairs|
    ensures r.Ok? ==> forall i :: 0 <= i < |pairs| ==> ReadFrameAsWritten(data, pairs[i].0, pairs[i].1) == Ok(r.value[i])
    ensures r.Err? ==> exists i :: 0 <= i < |pairs| && ReadFrameAsWritten(data, pairs[i].0, pairs[i].1).Err?
    decreases |pairs|
  {
    if |pairs| == 0 then Ok([])
    else
      var f :- ReadFrameAsWritten(data, pairs[0].0, pairs[0].1);
      var rest :- ReadFramesAt(data, pairs[1..]);
      Ok([f] + rest)
  }

  /** `SHP::from_reader` with every frame's payload read after its remap
      table. */
  function ReadShpIntended(data: seq<uint8>): (r: Result<seq<ShpFrame>>)
    ensures |data| < 6 ==> r == Err(UnexpectedEof)
    ensures r.Ok? ==> |r.value| == data[0] as int + 256 * (data[1] as int)
  {
    var (version, c) :- ToolkitShp.ReadVersion(data);
    var pairs :- ToolkitShp.ReadFrameOffsets(c, version);
    ReadFramesAtIntended(data, pairs)
  }

  function ReadFramesAtIntended(data: seq<uint8>, pairs: seq<(nat, nat)>): (r: Result<seq<ShpFrame>>)
    ensures r.Ok? ==> |r.value| == |pairs|
    ensures r.Ok? ==> forall i :: 0 <= i < |pairs| ==> ReadFrame(data, pairs[i].0, pairs[i].1) == Ok(r.value[i])
    ensures r.Err? ==> exists i :: 0 <= i < |pairs| && ReadFrame(data, pairs[i].0, pairs[i].1).Err?
    decreases |pairs|
  {
    if |pairs| == 0 then Ok([])
    else
      var f :- ReadFrame(data, pairs[0].0, pairs[0].1);
      var rest :- ReadFramesAtIntended(data, pairs[1..]);
      Ok([f] + rest)
  }

  /** The two readings of a file differ only when some frame of its table
      reads differently, that is (`ReadFrameAsWrittenAgrees`) only when
      some frame carries a remap table with its own size byte. */
  lemma {:induction false} ReadFramesAtAgrees(data: seq<uint8>, pairs: seq<(nat, nat)>)
    ensures ReadFramesAt(data, pairs) != ReadFramesAtIntended(data, pairs) ==>
      exists i :: 0 <= i < |pairs| && ReadFrame(data, pairs[i].0, pairs[i].1) != ReadFrameAsWritten(data, pairs[i].0, pairs[i].1)
    decreases |pairs|
  {
    if |pairs| > 0 && ReadFramesAt(data, pairs) != ReadFramesAtIntended(data, pairs) {
      if ReadFrame(data, pairs[0].0, pairs[0].1) == ReadFrameAsWritten(data, pairs[0].0, pairs[0].1) {
        ReadFramesAtAgrees(data, pairs[1..]);
        var i :| 0 <= i < |pairs[1..]| && ReadFrame(data, pairs[1..][i].0, pairs[1..][i].1) != ReadFrameAsWritten(data, pairs[1..][i].0, pairs[1..][i].1);
        assert pairs[1..][i] == pairs[i + 1];
      }
    }
  }

  /** A whole 1.00 file holding the frame of `PayloadOffsetCounterexample`:
      a count of 1, the offsets 6 and 19, then the 13 frame bytes.  The
      source reads a two-pixel frame out of it, the corrected reader the
      one pixel. */
  lemma ShpFileCounterexample(file: seq<uint8>)
    requires file == [1, 0, 6, 0, 19, 0, 7, 0, 1, 1, 0, 1, 13, 0, 1, 0, 1, 5, 1]
    ensures ReadShp(file) == Ok([ShpFrame(1, 1, [5, 1], [5])])
    ensures ReadShpIntended(file) == Ok([ShpFrame(1, 1, [1], [5])])
  {
    ShpFileTable(file);
    ShpFileFrame(file, file[6..]);
    OneFrame(file, 6, 13, ShpFrame(1, 1, [5, 1], [5]), ShpFrame(1, 1, [1], [5]));
  }

  /** A table of one frame reads as that frame. */
  lemma OneFrame(data: seq<uint8>, offset: nat, size: nat, written: ShpFrame, intended: ShpFrame)
    requires ReadFrameAsWritten(data, offset, size) == Ok(written)
    requires ReadFrame(data, offset, size) == Ok(intended)
    ensures ReadFramesAt(data, [(offset, size)]) == Ok([written])
    ensures ReadFramesAtIntended(data, [(offset, size)]) == Ok([intended])
  {
    var pairs := [(offset, size)];
    assert pairs[0] == (offset, size) && pairs[1..] == [];
    assert ReadFramesAt(data, pairs[1..]) == Ok([]);
    assert ReadFramesAtIntended(data, pairs[1..]) == Ok([]);
    assert [written] + [] == [written] && [intended] + [] == [intended];
  }

  /** The frame of that file, read at offset 6. */
  lemma ShpFileFrame(file: seq<uint8>, f: seq<uint8>)
    requires |file| == 19 && f == file[6..] && f == [7, 0, 1, 1, 0, 1, 13, 0, 1, 0, 1, 5, 1]
    ensures ReadFrame(file, 6, 13) == Ok(ShpFrame(1, 1, [1], [5]))
    ensures ReadFrameAsWritten(file, 6, 13) == Ok(ShpFrame(1, 1, [5, 1], [5]))
  {
    PayloadOffsetCounterexample();
    assert file[6..19] == f;
    assert ReadExact(Cursor(file, 6), 13) == Ok((f, Cursor(file, 19)));
  }

  /** The header and table of that file: version 1.00, one frame of 13
      bytes at offset 6. */
  lemma ShpFileTable(file: seq<uint8>)
    requires |file| == 19 && file[..6] == [1, 0, 6, 0, 19, 0]
    ensures ToolkitShp.ReadVersion(file) == Ok((ToolkitShp.V100, Cursor(file, 0)))
    ensures ToolkitShp.ReadFrameOffsets(Cursor(file, 0), ToolkitShp.V100) == Ok([(6, 13)])
  {
    assert file[0] == 1 && file[1] == 0 && file[4] == 19;
    var count: seq<uint8> := [1, 0];
    assert file[0..2] == count;
    assert ReadExact(Cursor(file, 0), 2) == Ok((count, Cursor(file, 2)));
    LeValue2(count);
    ShpFileOffsets(file);
    ShpFilePairs([6, 19]);
  }

  lemma ShpFileOffsets(file: seq<uint8>)
    requires |file| == 19 && file[..6] == [1, 0, 6, 0, 19, 0]
    ensures ToolkitShp.ReadOffsets(Cursor(file, 2), ToolkitShp.V100, 2) == Ok(([6, 19], Cursor(file, 6)))
  {
    assert file[2] == 6 && file[3] == 0 && file[4] == 19 && file[5] == 0;
    assert ToolkitShp.EncodeOffset(ToolkitShp.V100, 6) == [6, 0];
    assert ToolkitShp.EncodeOffset(ToolkitShp.V100, 19) == [19, 0];
    assert file[2..4] == [6, 0] && file[4..6] == [19, 0];
    ToolkitShp.ReadOffsetAt(file, 2, ToolkitShp.V100, 6);
    ToolkitShp.ReadOffsetAt(file, 4, ToolkitShp.V100, 19);
    ToolkitShp.ReadOffsetsCons(Cursor(file, 4), ToolkitShp.V100, [19], Cursor(file, 6), Cursor(file, 6));
    ToolkitShp.ReadOffsetsCons(Cursor(file, 2), ToolkitShp.V100, [6, 19], Cursor(file, 4), Cursor(file, 6));
  }

  lemma ShpFilePairs(offsets: seq<nat>)
    requires offsets == [6, 19]
    ensures ToolkitShp.FramePairs(offsets) == Ok([(6, 13)])
  {
    assert offsets[1..] == [19];
    assert ToolkitShp.FramePairs(offsets[1..]) == Ok([]);
    var pair: (nat, nat) := (6, 13);
    assert pair == (offsets[0], offsets[1] - offsets[0]);
    assert [pair] + [] == [(6, 13)];
  }

  // -----------------------------------------------------------------------
  // SHPFrame::surface
  // -----------------------------------------------------------------------

  /** The colour of one palette index of a frame: with a remap table the
      index goes through the table (`remap_table[color_index]`, a panic past
      its end) and then the faction remap; without one it is used as it is.
      `color_at` panics past the end of the palette. */
  function FrameColor(f: ShpFrame, palette: Colors.Palette, faction: Faction, colorIndex: uint8): (r: Result<Colors.Color>)
    ensures r.Err? ==> r.error == Panic
    ensures r.Ok? ==> r.value in palette.colors
  {
    if |f.remapTable| > 0 then
      if colorIndex >= |f.remapTable| then Err(Panic)
      else
        var index := RemapIndex(f.remapTable[colorIndex], Some(faction));
        if index < Colors.Len(palette) then Ok(Colors.ColorAt(palette, index)) else Err(Panic)
    else if colorIndex < Colors.Len(palette) then Ok(Colors.ColorAt(palette, colorIndex))
    else Err(Panic)
  }

  /** Which palette entry a frame pixel shows.  The faction matters only
      through a remap table entry in the faction band; a frame without a
      remap table ignores the faction even for indices in that band. */
  lemma FrameColorSpec(f: ShpFrame, palette: Colors.Palette, faction: Faction, other: Faction, colorIndex: uint8)
    ensures |f.remapTable| == 0 ==>
      (FrameColor(f, palette, faction, colorIndex).Ok? <==> colorIndex < |palette.colors|) &&
      (colorIndex < |palette.colors| ==> FrameColor(f, palette, faction, colorIndex) == Ok(palette.colors[colorIndex])) &&
      FrameColor(f, palette, faction, colorIndex) == FrameColor(f, palette, other, colorIndex)
    ensures |f.remapTable| > 0 ==>
      (FrameColor(f, palette, faction, colorIndex).Ok? <==>
        colorIndex < |f.remapTable| && RemapIndex(f.remapTable[colorIndex], Some(faction)) < |palette.colors|)
    ensures |f.remapTable| > colorIndex && FrameColor(f, palette, faction, colorIndex).Ok? ==>
      FrameColor(f, palette, faction, colorIndex).value ==
        palette.colors[RemapIndex(f.remapTable[colorIndex], Some(faction))]
    ensures |f.remapTable| > colorIndex && !IsFactionColored(f.remapTable[colorIndex]) ==>
      FrameColor(f, palette, faction, colorIndex) == FrameColor(f, palette, other, colorIndex)
  {
  }

  /** The colours of all the frame's pixels, or a panic if one fails. */
  function FrameColors(f: ShpFrame, palette: Colors.Palette, faction: Faction): (r: Result<seq<Colors.Color>>)
    ensures r.Ok? <==> forall i :: 0 <= i < |f.data| ==> FrameColor(f, palette, faction, f.data[i]).Ok?
    ensures r.Err? ==> r.error == Panic
    ensures r.Ok? ==> (|r.value| == |f.data| &&
      forall i :: 0 <= i < |f.data| ==> r.value[i] == FrameColor(f, palette, faction, f.data[i]).value)
  {
    if forall i :: 0 <= i < |f.data| ==> FrameColor(f, palette, faction, f.data[i]).Ok? then
      Ok(seq(|f.data|, i requires 0 <= i < |f.data| => FrameColor(f, palette, faction, f.data[i]).value))
    else Err(Panic)
  }

  /** Where the `i`-th pixel of a frame `width` wide goes: column
      `i % width`, row `i / width`. */
  function FramePoint(i: nat, width: nat): IPoint
    requires width > 0
  {
    IPoint(i % width, i / width)
  }

  /** The position the source computes, from `i as u16`: the pixel count
      wraps at 65536. */
  function FramePointAsWritten(i: nat, width: nat): IPoint
    requires width > 0
  {
    var j := i % 0x1_0000;
    IPoint(j % width, j / width)
  }

  /** A 300 by 255 frame has 76500 pixels, yet pixel 65536 is sent to the
      same place as pixel 0, which the intended position keeps apart. */
  lemma FramePointWraps()
    ensures 65536 < 300 * 255
    ensures FramePointAsWritten(65536, 300) == FramePointAsWritten(0, 300) == IPoint(0, 0)
    ensures FramePoint(65536, 300) == IPoint(136, 218) != FramePoint(0, 300)
  {
  }

  /** Distinct pixels of a frame land on distinct points of it, pixel `i`
      at surface index `i`. */
  lemma FramePointSpec(i: nat, width: nat, height: nat)
    requires width > 0 && i < width * height < 0x1_0000_0000
    ensures 0 <= FramePoint(i, width).x < width && 0 <= FramePoint(i, width).y < height
    ensures Index(FramePoint(i, width), width) == i
  {
    RowMajor(width, height, i);
    var col := i % width;
    var row := i / width;
    MulIsProduct(row, width);
    if row > 0 {
      MulAtLeast(width, row);
      assert width * row == row * width;
    }
    assert row <= i;
    assert Index(IPoint(col, row), width) == Mul(row, width) + col;
  }

  lemma FramePointInjective(i: nat, j: nat, width: nat, height: nat)
    requires width > 0 && i < width * height < 0x1_0000_0000 && j < width * height
    requires i != j
    ensures FramePoint(i, width) != FramePoint(j, width)
  {
    FramePointSpec(i, width, height);
    FramePointSpec(j, width, height);
  }

  /** A surface showing `colors` in row-major order from its top-left
      corner, the default colour after them. */
  predicate Drawn(s: Surface<Colors.Color>, width: uint32, height: uint32, colors: seq<Colors.Color>)
  {
    s.size == Size(width, height) && |s.pixels| == Mul(width, height) && |colors| <= |s.pixels| &&
    forall k :: 0 <= k < |s.pixels| ==> s.pixels[k] == if k < |colors| then colors[k] else Colors.Black
  }

  lemma U16Product(w: uint16, h: uint16)
    ensures Mul(w, h) == w * h < 0x1_0000_0000
  {
    MulIsProduct(w, h);
    MulMono(w, 0xFFFF, h);
    MulMono(h, 0xFFFF, 0xFFFF);
    assert h * 0xFFFF == 0xFFFF * h;
  }

  /** Whether the intended drawing succeeds: a zero width with pixels to
      place divides by zero, and a pixel beyond `width * height` indexes
      past the pixel vector. */
  predicate Draws(width: nat, height: nat, n: nat)
  {
    (n == 0 || width > 0) && n <= width * height
  }

  /** The drawing loop with the intended positions: a default-coloured
      surface, then colour `i` put at `FramePoint(i, width)`. */
  method DrawPixels(width: uint16, height: uint16, colors: seq<Colors.Color>) returns (r: Result<Surface<Colors.Color>>)
    ensures r.Ok? <==> Draws(width, height, |colors|)
    ensures r.Err? ==> r.error == Panic
    ensures r.Ok? ==> Valid(r.value) && Drawn(r.value, width, height, colors)
  {
    var size := Size(width, height);
    U16Product(width, height);
    var s := New(size);
    var i := 0;
    while i < |colors|
      invariant i <= |colors| && i <= |s.pixels|
      invariant i > 0 ==> width > 0
      invariant s.size == size && |s.pixels| == Mul(width, height)
      invariant forall k :: 0 <= k < |s.pixels| ==> s.pixels[k] == if k < i then colors[k] else Colors.Black
    {
      if width == 0 || i >= |s.pixels| {
        return Err(Panic);
      }
      var p := FramePoint(i, width);
      FramePointSpec(i, width, height);
      s := PutPixel(s, p, colors[i]);
      i := i + 1;
    }
    ProductValid(s);
    r := Ok(s);
  }

  /** Whether the drawing loop as written succeeds: positions come from
      `i as u16`, so only the first 65536 pixels need a place; the width
      is a divisor as soon as there is a pixel. */
  predicate DrawsAsWritten(width: nat, height: nat, n: nat)
  {
    n == 0 || (width > 0 && Min(n, 0x1_0000) <= width * height)
  }

  /** Of the `n` pixels, the last one sent to position `k`: positions
      repeat every 65536 pixels. */
  function LastWrap(k: nat, n: nat): nat
    requires k < n
  {
    k + 0x1_0000 * ((n - 1 - k) / 0x1_0000)
  }

  /** `LastWrap` picks the last pixel whose wrapped position is `k`. */
  lemma LastWrapSpec(k: nat, n: nat, i: nat)
    requires k < n && k < 0x1_0000
    ensures LastWrap(k, n) < n && LastWrap(k, n) % 0x1_0000 == k
    ensures LastWrap(k, n) < i < n ==> i % 0x1_0000 != k
  {
    var q := (n - 1 - k) / 0x1_0000;
    var r := (n - 1 - k) % 0x1_0000;
    assert n - 1 - k == 0x1_0000 * q + r;
    DivModUnique(LastWrap(k, n), 0x1_0000, q, k);
  }

  /** One more pixel: the position it goes to now shows it, every other
      keeps its last pixel. */
  lemma LastWrapStep(k: nat, i: nat)
    requires k <= i && k < 0x1_0000
    ensures k == i % 0x1_0000 ==> LastWrap(k, i + 1) == i
    ensures k != i % 0x1_0000 ==> k < i && LastWrap(k, i + 1) == LastWrap(k, i)
  {
    LastWrapSpec(k, i + 1, i);
    if k != i % 0x1_0000 {
      LastWrapSpec(k, i, i);
    }
  }

  /** The pixels after `i` colours are drawn as written: each of the first
      65536 positions shows the last colour sent there. */
  predicate ShowsLast(pixels: seq<Colors.Color>, colors: seq<Colors.Color>, i: nat)
    requires i <= |colors|
  {
    forall k :: 0 <= k < |pixels| ==>
      pixels[k] == if k < i && k < 0x1_0000 then colors[LastWrap(k, i)] else Colors.Black
  }

  /** Putting colour `i` at position `i % 65536` keeps `ShowsLast`. */
  lemma ShowsLastStep(pixels: seq<Colors.Color>, colors: seq<Colors.Color>, i: nat)
    requires i < |colors| && i % 0x1_0000 < |pixels|
    requires ShowsLast(pixels, colors, i)
    ensures ShowsLast(pixels[i % 0x1_0000 := colors[i]], colors, i + 1)
  {
    var next := pixels[i % 0x1_0000 := colors[i]];
    forall k | 0 <= k < |next|
      ensures next[k] == if k < i + 1 && k < 0x1_0000 then colors[LastWrap(k, i + 1)] else Colors.Black
    {
      if k < i + 1 && k < 0x1_0000 {
        LastWrapStep(k, i);
      }
    }
  }

  /** A surface as the loop as written leaves it: position `k` below 65536
      shows the last pixel sent there, every other the default colour. */
  predicate DrawnAsWritten(s: Surface<Colors.Color>, width: uint32, height: uint32, colors: seq<Colors.Color>)
  {
    s.size == Size(width, height) && |s.pixels| == Mul(width, height) &&
    forall k :: 0 <= k < |s.pixels| ==>
      s.pixels[k] == if k < |colors| && k < 0x1_0000 then colors[LastWrap(k, |colors|)] else Colors.Black
  }

  /** The drawing loop shared by `SHPFrame::surface` and `ICNTile::surface`,
      as written: colour `i` is put at `FramePointAsWritten(i, width)`,
      whose index is `i % 65536`; `put_pixel` panics past the pixel
      vector. */
  method DrawPixelsAsWritten(width: uint16, height: uint16, colors: seq<Colors.Color>) returns (r: Result<Surface<Colors.Color>>)
    ensures r.Ok? <==> DrawsAsWritten(width, height, |colors|)
    ensures r.Err? ==> r.error == Panic
    ensures r.Ok? ==> Valid(r.value) && DrawnAsWritten(r.value, width, height, colors)
  {
    var size := Size(width, height);
    U16Product(width, height);
    var s := New(size);
    var i := 0;
    while i < |colors|
      invariant i <= |colors|
      invariant i > 0 ==> width > 0 && Min(i, 0x1_0000) <= |s.pixels|
      invariant s.size == size && |s.pixels| == Mul(width, height)
      invariant ShowsLast(s.pixels, colors, i)
    {
      if width == 0 {
        return Err(Panic);
      }
      var j := i % 0x1_0000;
      if j >= |s.pixels| {
        return Err(Panic);
      }
      var p := FramePointAsWritten(i, width);
      FramePointSpec(j, width, height);
      ShowsLastStep(s.pixels, colors, i);
      s := PutPixel(s, p, colors[i]);
      i := i + 1;
    }
    ProductValid(s);
    r := Ok(s);
  }

  /** Up to 65536 pixels, positions do not wrap: the loop as written and
      the intended one succeed together and draw the same. */
  lemma DrawAgrees(s: Surface<Colors.Color>, width: uint16, height: uint16, colors: seq<Colors.Color>)
    requires |colors| <= 0x1_0000
    ensures DrawsAsWritten(width, height, |colors|) <==> Draws(width, height, |colors|)
    ensures Draws(width, height, |colors|) ==>
      (DrawnAsWritten(s, width, height, colors) <==> Drawn(s, width, height, colors))
  {
    if Draws(width, height, |colors|) {
      U16Product(width, height);
      forall k | 0 <= k < |colors|
        ensures LastWrap(k, |colors|) == k
      {
      }
    }
  }

  /** A 300 by 255 frame: with 80000 pixels the loop as written draws the
      first 65536 and succeeds where the intended one panics; with 76500
      pixels it paints pixel 65536 over pixel 0 at index 0, the top-left
      corner, where the intended one puts it at index 65536, the point
      (136, 218) (`CornerIndices`). */
  lemma WrapCounterexample(s: Surface<Colors.Color>, t: Surface<Colors.Color>, width: uint16, height: uint16, colors: seq<Colors.Color>)
    requires width == 300 && height == 255 && |colors| == 76500
    requires DrawnAsWritten(s, width, height, colors) && Drawn(t, width, height, colors)
    ensures DrawsAsWritten(width, height, 80000) && !Draws(width, height, 80000)
    ensures |s.pixels| == |t.pixels| == 76500
    ensures s.pixels[0] == colors[65536]
    ensures t.pixels[0] == colors[0] && t.pixels[65536] == colors[65536]
  {
    U16Product(width, height);
    assert LastWrap(0, 76500) == 65536;
  }

  /** The top-left corner of a 300-wide surface is index 0, and (136, 218)
      is index 65536. */
  lemma CornerIndices()
    ensures Index(IPoint(0, 0), 300) == 0 && Index(IPoint(136, 218), 300) == 65536
  {
    MulIsProduct(0, 300);
    MulIsProduct(218, 300);
  }

  /** `SHPFrame::surface`: every pixel's colour, then the drawing loop as
      written; the source writes each pixel twice, and the second write
      changes nothing. */
  method FrameSurface(f: ShpFrame, palette: Colors.Palette, faction: Faction) returns (r: Result<Surface<Colors.Color>>)
    ensures r.Ok? <==> DrawsAsWritten(f.width, f.height, |f.data|) && FrameColors(f, palette, faction).Ok?
    ensures r.Err? ==> r.error == Panic
    ensures r.Ok? ==> Valid(r.value) && DrawnAsWritten(r.value, f.width, f.height, FrameColors(f, palette, faction).value)
  {
    var colors := FrameColors(f, palette, faction);
    if colors.Err? {
      return Err(Panic);
    }
    r := DrawPixelsAsWritten(f.width, f.height, colors.value);
  }

  /** `SHPFrame::surface` with the intended positions. */
  method FrameSurfaceIntended(f: ShpFrame, palette: Colors.Palette, faction: Faction) returns (r: Result<Surface<Colors.Color>>)
    ensures r.Ok? <==> Draws(f.width, f.height, |f.data|) && FrameColors(f, palette, faction).Ok?
    ensures r.Err? ==> r.error == Panic
    ensures r.Ok? ==> Valid(r.value) && Drawn(r.value, f.width, f.height, FrameColors(f, palette, faction).value)
  {
    var colors := FrameColors(f, palette, faction);
    if colors.Err? {
      return Err(Panic);
    }
    r := DrawPixels(f.width, f.height, colors.value);
  }

  /** Writing the same colour twice at a point is writing it once. */
  lemma PutPixelTwice<T>(s: Surface<T>, p: IPoint, c: T)
    requires Addressable(s, p)
    ensures PutPixel(PutPixel(s, p, c), p, c) == PutPixel(s, p, c)
  {
  }

  /** On a drawn surface the `i`-th colour is the pixel at the `i`-th
      frame position, and every point past the colours shows the default
      colour. */
  lemma DrawnPixels(s: Surface<Colors.Color>, width: uint32, height: uint32, colors: seq<Colors.Color>, i: nat, q: IPoint)
    requires Valid(s) && Drawn(s, width, height, colors) && width > 0
    ensures i < |colors| ==> InBitmap(s, FramePoint(i, width)) && GetPixel(s, FramePoint(i, width)) == colors[i]
    ensures InBitmap(s, q) && q.y * width + q.x >= |colors| ==> GetPixel(s, q) == Colors.Black
  {
    MulIsProduct(width, height);
    if i < |colors| {
      FramePointSpec(i, width, height);
    }
    if InBitmap(s, q) {
      IndexOfInside(s, q);
    }
  }
}

=== FILE: faction.dfy ===
/** The factions of packages/dune2/src/constants.rs, their palette bands, and
    the remapping of faction-coloured palette indices shared by SHP frames and
    tiles. */
module Factions {
  import opened Common

  const ColorHarkonnen: nat := 144
  const ColorAtreides: nat := 160
  const ColorOrdos: nat := 176
  const ColorFremen: nat := 192
  const ColorSardaukar: nat := 208
  const ColorMercenary: nat := 224

  /** Declared in this order, which fixes `faction as usize`. */
  datatype Faction = Atreides | Harkonnen | Ordos | Fremen | Mercenary | Sardaukar

  /** `faction as usize` */
  function Ordinal(f: Faction): (n: nat)
    ensures n < 6
  {
    match f
    case Atreides => 0
    case Harkonnen => 1
    case Ordos => 2
    case Fremen => 3
    case Mercenary => 4
    case Sardaukar => 5
  }

  /** The faction declared at a position. */
  function FromOrdinal(n: nat): (f: Faction)
    requires n < 6
  {
    if n == 0 then Atreides
    else if n == 1 then Harkonnen
    else if n == 2 then Ordos
    else if n == 3 then Fremen
    else if n == 4 then Mercenary
    else Sardaukar
  }

  /** The ordinals number the six factions 0..5 without repetition. */
  lemma OrdinalBijective(f: Faction, n: nat)
    requires n < 6
    ensures FromOrdinal(Ordinal(f)) == f
    ensures Ordinal(FromOrdinal(n)) == n
  {
  }

  /** The palette band `COLOR_*` each faction is named with. */
  function FactionColor(f: Faction): nat
  {
    match f
    case Atreides => ColorAtreides
    case Harkonnen => ColorHarkonnen
    case Ordos => ColorOrdos
    case Fremen => ColorFremen
    case Mercenary => ColorMercenary
    case Sardaukar => ColorSardaukar
  }

  /** The bands are 16 apart, starting at 144, in the order Harkonnen,
      Atreides, Ordos, Fremen, Sardaukar, Mercenary. */
  lemma ColorBands()
    ensures ColorAtreides == ColorHarkonnen + 16 && ColorOrdos == ColorAtreides + 16
    ensures ColorFremen == ColorOrdos + 16 && ColorSardaukar == ColorFremen + 16
    ensures ColorMercenary == ColorSardaukar + 16
    ensures forall f :: ColorHarkonnen <= FactionColor(f) <= ColorMercenary && FactionColor(f) % 16 == 0
  {
  }

  // -----------------------------------------------------------------------
  // Faction colour remapping
  // -----------------------------------------------------------------------

  /** `16 * (faction as usize)` */
  function PaletteOffset(f: Faction): (n: nat)
    ensures n % 16 == 0 && n <= 80
  {
    16 * Ordinal(f)
  }

  /** Whether a palette index is one of the seven faction-coloured entries,
      `COLOR_HARKONNEN..COLOR_HARKONNEN + 7`. */
  predicate IsFactionColored(index: nat)
  {
    ColorHarkonnen <= index < ColorHarkonnen + 7
  }

  /** The index a faction-coloured pixel is drawn with: shifted by the
      faction's palette offset, and left alone without a faction. */
  function RemapIndex(index: nat, faction: Option<Faction>): (r: nat)
    ensures r >= index
  {
    if faction.Some? && IsFactionColored(index) then index + PaletteOffset(faction.value) else index
  }

  /** The remap moves exactly the faction-coloured indices, into the band
      at `144 + 16 * ordinal`, keeping their place inside the band. */
  lemma RemapSpec(index: nat, faction: Option<Faction>)
    ensures faction.None? || !IsFactionColored(index) ==> RemapIndex(index, faction) == index
    ensures faction.Some? && IsFactionColored(index) ==>
      RemapIndex(index, faction) - ColorHarkonnen - 16 * Ordinal(faction.value) == index - ColorHarkonnen
    ensures RemapIndex(index, faction) != index <==>
      faction.Some? && IsFactionColored(index) && faction.value != Atreides
  {
  }

  /** The shifted band starts at the faction's own `COLOR_*` constant only
      for Ordos and Fremen: the declaration order differs from the order of
      the colour bands, so Atreides keeps the Harkonnen band and Harkonnen
      gets the Atreides one, and likewise for Mercenary and Sardaukar. */
  lemma RemapBandOfFaction(f: Faction)
    ensures ColorHarkonnen + PaletteOffset(f) == FactionColor(f) <==> f == Ordos || f == Fremen
    ensures f == Atreides ==> ColorHarkonnen + PaletteOffset(f) == ColorHarkonnen
    ensures f == Harkonnen ==> ColorHarkonnen + PaletteOffset(f) == ColorAtreides
    ensures f == Mercenary ==> ColorHarkonnen + PaletteOffset(f) == ColorSardaukar
    ensures f == Sardaukar ==> ColorHarkonnen + PaletteOffset(f) == ColorMercenary
  {
  }

  // -----------------------------------------------------------------------
  // Parsing
  // -----------------------------------------------------------------------

  /** The lower-case name `try_from_str` accepts for each faction. */
  function Name(f: Faction): string
  {
    match f
    case Atreides => "atreides"
    case Harkonnen => "harkonnen"
    case Ordos => "ordos"
    case Fremen => "fremen"
    case Mercenary => "mercenary"
    case Sardaukar => "sardaukar"
  }

  /** The Kelvin sign, which Unicode lower-cases to the ASCII letter k. */
  const Kelvin: char := '\U{212A}'

  /** The lower case of one character as far as a match against an ASCII
      name can tell: the ASCII capitals and the Kelvin sign become ASCII
      letters; every other character that Unicode lower-cases stays
      outside ASCII, so it is kept as it is. */
  function LowerChar(ch: char): char
  {
    if 'A' <= ch <= 'Z' then (ch as int - 'A' as int + 'a' as int) as char
    else if ch == Kelvin then 'k'
    else ch
  }

  function UpperChar(ch: char): char
  {
    if 'a' <= ch <= 'z' then (ch as int - 'a' as int + 'A' as int) as char else ch
  }

  /** `str::to_lowercase`, character by character as `LowerChar` does. */
  function ToLower(s: string): (r: string)
    ensures |r| == |s| && forall i :: 0 <= i < |s| ==> r[i] == LowerChar(s[i])
  {
    seq(|s|, i requires 0 <= i < |s| => LowerChar(s[i]))
  }

  function ToUpper(s: string): (r: string)
    ensures |r| == |s| && forall i :: 0 <= i < |s| ==> r[i] == UpperChar(s[i])
  {
    seq(|s|, i requires 0 <= i < |s| => UpperChar(s[i]))
  }

  /** `Faction::try_from_str` */
  function TryFromStr(s: string): (r: Result<Faction>)
    ensures r.Ok? ==> Name(r.value) == ToLower(s)
    ensures r.Err? ==> r.error == FactionInvalidString(s) && forall f :: Name(f) != ToLower(s)
  {
    var lower := ToLower(s);
    if lower == "atreides" then Ok(Atreides)
    else if lower == "harkonnen" then Ok(Harkonnen)
    else if lower == "ordos" then Ok(Ordos)
    else if lower == "fremen" then Ok(Fremen)
    else if lower == "mercenary" then Ok(Mercenary)
    else if lower == "sardaukar" then Ok(Sardaukar)
    else Err(FactionInvalidString(s))
  }

  lemma NameIsLower(f: Faction)
    ensures ToLower(Name(f)) == Name(f)
    ensures ToLower(ToUpper(Name(f))) == Name(f)
  {
  }

  lemma NamesDistinct(f: Faction, g: Faction)
    ensures Name(f) == Name(g) ==> f == g
  {
  }

  /** Each faction parses back from its name, in any letter case. */
  lemma TryFromStrRoundTrip(f: Faction)
    ensures TryFromStr(Name(f)) == Ok(f)
    ensures TryFromStr(ToUpper(Name(f))) == Ok(f)
  {
    NameIsLower(f);
    var g := TryFromStr(Name(f)).value;
    NamesDistinct(f, g);
    var h := TryFromStr(ToUpper(Name(f))).value;
    NamesDistinct(f, h);
  }

  /** Parsing looks only at the lower-cased input: two strings that agree
      up to letter case parse to the same faction or both fail. */
  lemma TryFromStrCaseInsensitive(s: string, t: string)
    requires ToLower(s) == ToLower(t)
    ensures TryFromStr(s).Ok? == TryFromStr(t).Ok?
    ensures TryFromStr(s).Ok? ==> TryFromStr(s) == TryFromStr(t)
  {
    if TryFromStr(s).Ok? && TryFromStr(t).Ok? {
      NamesDistinct(TryFromStr(s).value, TryFromStr(t).value);
    }
  }

  /** The Kelvin sign counts as a k: "HAR\U{212A}ONNEN" names the
      Harkonnen. */
  lemma KelvinSignParses()
    ensures TryFromStr("HAR" + [Kelvin] + "ONNEN") == Ok(Harkonnen)
  {
    assert ToLower("HAR" + [Kelvin] + "ONNEN") == "harkonnen";
  }
}

=== FILE: geometry.dfy ===
/** The unsigned value types of packages/dune2/src: `Point` (point.rs),
    `Size` (size.rs) and `Shape` (shape.rs), with their arithmetic and the
    `Display` text of a shape.  Debug-build arithmetic panics on u32
    overflow and underflow, so each operation requires its result to fit. */
module Geometry {
  import opened Common

  // -----------------------------------------------------------------------
  // Point
  // -----------------------------------------------------------------------

  datatype Point = Point(x: uint32, y: uint32)

  /** `Point::zero()` */
  const Origin := Point(0, 0)

  function Add(p: Point, q: Point): (r: Point)
    requires p.x + q.x < 0x1_0000_0000 && p.y + q.y < 0x1_0000_0000
  {
    Point(p.x + q.x, p.y + q.y)
  }

  /** Componentwise subtraction, defined only when `q` is below `p` on both
      axes. */
  function Sub(p: Point, q: Point): (r: Point)
    requires q.x <= p.x && q.y <= p.y
  {
    Point(p.x - q.x, p.y - q.y)
  }

  /** `p * k`, the scalar on the left of each product as in the source. */
  function Scale(p: Point, k: uint32): (r: Point)
    requires k * p.x < 0x1_0000_0000 && k * p.y < 0x1_0000_0000
  {
    Point(k * p.x, k * p.y)
  }

  /** `k * p`, defined as `p * k`. */
  function ScaleLeft(k: uint32, p: Point): (r: Point)
    requires k * p.x < 0x1_0000_0000 && k * p.y < 0x1_0000_0000
  {
    Scale(p, k)
  }

  /** `zero` is the identity of addition, which commutes; subtraction undoes
      addition. */
  lemma PointAddLaws(p: Point, q: Point)
    requires p.x + q.x < 0x1_0000_0000 && p.y + q.y < 0x1_0000_0000
    ensures Add(p, Origin) == p && Add(Origin, p) == p
    ensures Add(p, q) == Add(q, p)
    ensures Sub(Add(p, q), q) == p
    ensures Sub(p, p) == Origin
  {
  }

  /** Scaling multiplies both coordinates, the same on either side; it
      distributes over addition. */
  lemma PointScaleLaws(p: Point, k: uint32)
    requires k * p.x < 0x1_0000_0000 && k * p.y < 0x1_0000_0000
    ensures ScaleLeft(k, p) == Scale(p, k)
    ensures Scale(p, k).x == k * p.x && Scale(p, k).y == k * p.y
    ensures Scale(p, 1) == p && Scale(p, 0) == Origin
  {
  }

  lemma PointScaleDistributes(p: Point, q: Point, k: uint32)
    requires p.x + q.x < 0x1_0000_0000 && p.y + q.y < 0x1_0000_0000
    requires k * (p.x + q.x) < 0x1_0000_0000 && k * (p.y + q.y) < 0x1_0000_0000
    ensures k * p.x < 0x1_0000_0000 && k * p.y < 0x1_0000_0000
    ensures k * q.x < 0x1_0000_0000 && k * q.y < 0x1_0000_0000
    ensures Scale(Add(p, q), k) == Add(Scale(p, k), Scale(q, k))
  {
    var kx: int := k * (p.x + q.x);
    var ky: int := k * (p.y + q.y);
    assert kx == k * p.x + k * q.x;
    assert ky == k * p.y + k * q.y;
  }

  // -----------------------------------------------------------------------
  // Size
  // -----------------------------------------------------------------------

  datatype Size = Size(width: uint32, height: uint32)

  /** `Size::zero()` */
  const EmptySize := Size(0, 0)

  // -----------------------------------------------------------------------
  // Shape
  // -----------------------------------------------------------------------

  datatype Shape = Shape(rows: uint32, columns: uint32)

  /** `shape * k` */
  function ShapeScale(s: Shape, k: uint32): (r: Shape)
    requires k * s.columns < 0x1_0000_0000 && k * s.rows < 0x1_0000_0000
  {
    Shape(k * s.rows, k * s.columns)
  }

  /** `k * shape`, defined as `shape * k`. */
  function ShapeScaleLeft(k: uint32, s: Shape): (r: Shape)
    requires k * s.columns < 0x1_0000_0000 && k * s.rows < 0x1_0000_0000
  {
    ShapeScale(s, k)
  }

  /** `shape * k` for a u8 `k`: the value cast to u32. */
  function ShapeScaleU8(s: Shape, k: uint8): (r: Shape)
    requires k * s.columns < 0x1_0000_0000 && k * s.rows < 0x1_0000_0000
  {
    ShapeScale(s, k as uint32)
  }

  /** `shape * k` for a u16 `k`: the value cast to u32. */
  function ShapeScaleU16(s: Shape, k: uint16): (r: Shape)
    requires k * s.columns < 0x1_0000_0000 && k * s.rows < 0x1_0000_0000
  {
    ShapeScale(s, k as uint32)
  }

  /** Scaling a shape scales both rows and columns, from either side, and
      a u8 or u16 scalar acts as the same value in u32. */
  lemma ShapeScaleLaws(s: Shape, k: uint32)
    requires k * s.columns < 0x1_0000_0000 && k * s.rows < 0x1_0000_0000
    ensures ShapeScale(s, k).rows == k * s.rows && ShapeScale(s, k).columns == k * s.columns
    ensures ShapeScaleLeft(k, s) == ShapeScale(s, k)
    ensures k < 0x100 ==> ShapeScaleU8(s, k) == ShapeScale(s, k)
    ensures k < 0x1_0000 ==> ShapeScaleU16(s, k) == ShapeScale(s, k)
    ensures ShapeScale(s, 1) == s
  {
  }

  // -----------------------------------------------------------------------
  // Display
  // -----------------------------------------------------------------------

  predicate IsDigit(ch: char)
  {
    '0' <= ch <= '9'
  }

  predicate AllDigits(s: string)
  {
    forall i :: 0 <= i < |s| ==> IsDigit(s[i])
  }

  /** `n` in decimal, as `{}` writes an integer. */
  function Decimal(n: nat): (r: string)
    ensures |r| > 0 && AllDigits(r)
    decreases n
  {
    var d := ['0' + (n % 10) as char];
    if n < 10 then d else Decimal(n / 10) + d
  }

  /** The number a string of decimal digits stands for. */
  function DecimalValue(s: string): nat
    requires AllDigits(s)
  {
    if |s| == 0 then 0 else 10 * DecimalValue(s[..|s| - 1]) + (s[|s| - 1] - '0') as int
  }

  lemma {:induction false} DecimalRoundTrip(n: nat)
    ensures DecimalValue(Decimal(n)) == n
    decreases n
  {
    var s := Decimal(n);
    if n >= 10 {
      DecimalRoundTrip(n / 10);
      assert s[..|s| - 1] == Decimal(n / 10);
    }
  }

  /** `format!("{}", shape)` */
  function ShapeDisplay(s: Shape): (r: string)
  {
    "{columns=" + Decimal(s.columns) + ", rows=" + Decimal(s.rows) + "}"
  }

  /** A digit string followed by a comma ends at the comma. */
  lemma DigitsBeforeComma(a: string, b: string, ra: string, rb: string)
    requires AllDigits(a) && AllDigits(b)
    requires a + [','] + ra == b + [','] + rb
    ensures a == b && ra == rb
  {
    var sa := a + [','] + ra;
    var sb := b + [','] + rb;
    assert forall i :: 0 <= i < |a| ==> sa[i] == a[i];
    assert forall i :: 0 <= i < |b| ==> sb[i] == b[i];
    assert sa[|a|] == ',' && sb[|b|] == ',';
    assert |a| == |b|;
    assert a == sa[..|a|] && b == sb[..|b|];
    assert ra == sa[|a| + 1..] && rb == sb[|b| + 1..];
  }

  /** Where the two numbers sit in the display text. */
  lemma DisplayLayout(a: string, b: string)
    ensures var d := "{columns=" + a + ", rows=" + b + "}";
      |d| == 9 + |a| + 7 + |b| + 1 &&
      d[..9] == "{columns=" && d[9..9 + |a|] == a && d[9 + |a|..9 + |a| + 7] == ", rows=" &&
      d[9 + |a| + 7..|d| - 1] == b && d[|d| - 1] == '}'
  {
  }

  /** The display text determines both numbers. */
  lemma DisplayParts(a: string, b: string, c: string, d: string)
    requires AllDigits(a) && AllDigits(b) && AllDigits(c) && AllDigits(d)
    requires "{columns=" + a + ", rows=" + b + "}" == "{columns=" + c + ", rows=" + d + "}"
    ensures a == c && b == d
  {
    var s := "{columns=" + a + ", rows=" + b + "}";
    var t := "{columns=" + c + ", rows=" + d + "}";
    var ra := " rows=" + b + "}";
    var rc := " rows=" + d + "}";
    assert s[9..] == a + [','] + ra;
    assert t[9..] == c + [','] + rc;
    DigitsBeforeComma(a, c, ra, rc);
    assert b == ra[6..|ra| - 1] && d == rc[6..|rc| - 1];
  }

  /** Two shapes display alike only if they are equal. */
  lemma ShapeDisplayInjective(s: Shape, t: Shape)
    requires ShapeDisplay(s) == ShapeDisplay(t)
    ensures s == t
  {
    DisplayParts(Decimal(s.columns), Decimal(s.rows), Decimal(t.columns), Decimal(t.rows));
    DecimalRoundTrip(s.columns);
    DecimalRoundTrip(t.columns);
    DecimalRoundTrip(s.rows);
    DecimalRoundTrip(t.rows);
  }

  /** The display of a shape: its shape and the decimal values it shows. */
  lemma ShapeDisplayShows(s: Shape)
    ensures var d := ShapeDisplay(s);
      d[..9] == "{columns=" && d[|d| - 1] == '}' &&
      var cols := d[9..9 + |Decimal(s.columns)|];
      AllDigits(cols) && DecimalValue(cols) == s.columns &&
      d[9 + |cols|..9 + |cols| + 7] == ", rows=" &&
      var rows := d[9 + |cols| + 7..|d| - 1];
      AllDigits(rows) && DecimalValue(rows) == s.rows
  {
    DisplayLayout(Decimal(s.columns), Decimal(s.rows));
    DecimalRoundTrip(s.columns);
    DecimalRoundTrip(s.rows);
  }
}

=== FILE: icn.dfy ===
/** The ICN tile-set decoder, written twice with the same logic in
    packages/rctoolkit/src/icn.rs and packages/dune2/src/icn.rs: an IFF-like
    container (`FORM`, `ICON`, then the `SINF`, `SSET`, `RPAL` and `RTBL`
    chunks, sizes big-endian), whose packed pixels are split into
    bpp-wide fields, most significant first, and looked up in the palette
    row the `RTBL` entry of the tile selects.  Integers are read with
    `try_read_from::<MSB>`, the `read`-based reader of
    packages/rctoolkit/src/io.rs, so a short read yields zeros rather than
    an error; packages/dune2/src/io.rs does not define that reader and the
    same behaviour is assumed for the dune2 copy. */
module Icn {
  import opened Common
  import opened Bytes
  import opened Reader
  import opened Surfaces
  import opened Rects
  import Colors
  import Dune2Shp

  const FormTag: seq<uint8> := [0x46, 0x4F, 0x52, 0x4D]
  const IconTag: seq<uint8> := [0x49, 0x43, 0x4F, 0x4E]
  const SinfTag: seq<uint8> := [0x53, 0x49, 0x4E, 0x46]
  const SsetTag: seq<uint8> := [0x53, 0x53, 0x45, 0x54]
  const RpalTag: seq<uint8> := [0x52, 0x50, 0x41, 0x4C]
  const RtblTag: seq<uint8> := [0x52, 0x54, 0x42, 0x4C]

  // -----------------------------------------------------------------------
  // check_chunk_id
  // -----------------------------------------------------------------------

  /** `check_chunk_id`: one `read` into a zeroed buffer as long as the tag,
      compared with the tag. */
  function CheckChunkId(c: Cursor, tag: seq<uint8>): (r: Result<Cursor>)
  {
    var (buf, _, c1) := ReadSome(c, |tag|);
    if buf != tag then Err(InvalidChunkId(tag, buf)) else Ok(c1)
  }

  predicate NoZeroByte(tag: seq<uint8>)
  {
    forall i :: 0 <= i < |tag| ==> tag[i] != 0
  }

  /** With the whole tag available the check passes exactly when the next
      bytes are the tag, and moves past them; the six tags contain no 0
      byte, so a read cut short by the end of the data always fails. */
  lemma CheckChunkIdSpec(c: Cursor, tag: seq<uint8>)
    ensures c.pos + |tag| <= |c.data| ==>
      (CheckChunkId(c, tag).Ok? <==> c.data[c.pos..c.pos + |tag|] == tag) &&
      (CheckChunkId(c, tag).Ok? ==> CheckChunkId(c, tag).value == Cursor(c.data, c.pos + |tag|))
    ensures |tag| > Remaining(c) && NoZeroByte(tag) ==> CheckChunkId(c, tag).Err?
    ensures CheckChunkId(c, tag).Err? ==> CheckChunkId(c, tag).error.InvalidChunkId?
  {
    var buf := ReadSome(c, |tag|).0;
    if c.pos + |tag| <= |c.data| {
      assert buf == c.data[c.pos..c.pos + |tag|];
    } else if |tag| > Remaining(c) && NoZeroByte(tag) {
      assert buf[|tag| - 1] == 0;
    }
  }

  lemma TagsHaveNoZeroByte()
    ensures NoZeroByte(FormTag) && NoZeroByte(IconTag) && NoZeroByte(SinfTag)
    ensures NoZeroByte(SsetTag) && NoZeroByte(RpalTag) && NoZeroByte(RtblTag)
  {
  }

  // -----------------------------------------------------------------------
  // ICNInfo
  // -----------------------------------------------------------------------

  datatype IcnInfo = IcnInfo(width: uint16, height: uint16, bitsPerPixel: uint16)

  /** `v << shift` on a u16: the bits shifted out are lost, and a shift of
      16 or more panics. */
  function ShiftLeft16(v: uint16, shift: nat): (r: Result<uint16>)
  {
    if shift >= 16 then Err(Panic) else Ok(Mul(v, Pow2(shift)) % 0x1_0000)
  }

  /** `ICNInfo::read_from` / `try_read_from`: the `SINF` tag, a chunk size
      that must be 4, then width, height, shift and bits per pixel, one
      byte each; the sizes are shifted left by `shift`. */
  function ReadInfo(c: Cursor): (r: Result<(IcnInfo, Cursor)>)
  {
    var c1 :- CheckChunkId(c, SinfTag);
    var (size, c2) := ReadU32Be(c1);
    if size != 4 then Err(InvalidSinfChunkSize(size))
    else
      var (w, c3) := ReadU8(c2);
      var (h, c4) := ReadU8(c3);
      var (shift, c5) := ReadU8(c4);
      var (bpp, c6) := ReadU8(c5);
      var width :- ShiftLeft16(w, shift);
      var height :- ShiftLeft16(h, shift);
      Ok((IcnInfo(width, height, bpp), c6))
  }

  /** The chunk as a file stores it. */
  function EncodeInfo(w: uint8, h: uint8, shift: uint8, bpp: uint8): seq<uint8>
  {
    SinfTag + [0, 0, 0, 4, w, h, shift, bpp]
  }

  lemma ReadInfoRejectsSize(c: Cursor)
    requires CheckChunkId(c, SinfTag).Ok?
    requires ReadU32Be(CheckChunkId(c, SinfTag).value).0 != 4
    ensures ReadInfo(c) == Err(InvalidSinfChunkSize(ReadU32Be(CheckChunkId(c, SinfTag).value).0))
  {
  }

  /** `get_tile_size`: `width * height * bit_per_pixels / 8`, each product
      a u16 that panics on overflow. */
  function TileSize(info: IcnInfo): (r: Result<nat>)
  {
    var wh := Mul(info.width, info.height);
    if wh >= 0x1_0000 then Err(Panic)
    else if Mul(wh, info.bitsPerPixel) >= 0x1_0000 then Err(Panic)
    else Ok(Mul(wh, info.bitsPerPixel) / 8)
  }

  /** `get_palette_size`: `1 << bit_per_pixels` in usize, a panic for a
      shift of 64 or more. */
  function PaletteSize(info: IcnInfo): (r: Result<nat>)
  {
    if info.bitsPerPixel >= 64 then Err(Panic) else Ok(Pow2(info.bitsPerPixel))
  }

  /** A tile holds `8 / bpp` pixels per byte, so `tile_size` bytes cover the
      tile when the product is a whole number of bytes; a palette row has
      one entry per field value. */
  lemma SizesSpec(info: IcnInfo)
    ensures TileSize(info).Ok? <==>
      info.width * info.height < 0x1_0000 && info.width * info.height * info.bitsPerPixel < 0x1_0000
    ensures TileSize(info).Ok? ==>
      8 * TileSize(info).value <= info.width * info.height * info.bitsPerPixel < 8 * TileSize(info).value + 8
    ensures PaletteSize(info).Ok? <==> info.bitsPerPixel < 64
    ensures PaletteSize(info).Ok? ==> PaletteSize(info).value == Pow2(info.bitsPerPixel) >= 1
  {
    MulIsProduct(info.width, info.height);
    MulIsProduct(Mul(info.width, info.height), info.bitsPerPixel);
  }

  // -----------------------------------------------------------------------
  // SSET, RPAL, RTBL
  // -----------------------------------------------------------------------

  /** `count` buffers of `n` bytes, each filled with `read_exact`. */
  function ReadChunks(c: Cursor, n: nat, count: nat): (r: Result<(seq<seq<uint8>>, Cursor)>)
    ensures r.Err? ==> r.error == UnexpectedEof
    ensures r.Ok? ==> |r.value.0| == count
    decreases count
  {
    if count == 0 then Ok(([], c))
    else
      var (chunk, c1) :- ReadExact(c, n);
      var (rest, c2) :- ReadChunks(c1, n, count - 1);
      Ok(([chunk] + rest, c2))
  }

  /** The chunks are read when `count * n` bytes remain, each `n` long,
      and the cursor moves past all of them. */
  lemma {:induction false} ReadChunksSpec(c: Cursor, n: nat, count: nat)
    ensures ReadChunks(c, n, count).Ok? <==> Mul(count, n) <= Remaining(c)
    ensures ReadChunks(c, n, count).Ok? ==>
      ReadChunks(c, n, count).value.1 == Cursor(c.data, c.pos + Mul(count, n)) &&
      forall i :: 0 <= i < count ==> |ReadChunks(c, n, count).value.0[i]| == n
    decreases count
  {
    if count > 0 {
      if n <= Remaining(c) {
        var c1 := Cursor(c.data, c.pos + n);
        ReadChunksSpec(c1, n, count - 1);
        var r := ReadChunks(c, n, count);
        var rest := ReadChunks(c1, n, count - 1);
        if rest.Ok? {
          assert r.value.0 == [ReadExact(c, n).value.0] + rest.value.0;
        }
      }
    }
  }

  /** Chunk `i` is the `n` bytes at offset `i * n`. */
  lemma {:induction false} ReadChunksSlice(c: Cursor, n: nat, count: nat, i: nat)
    requires ReadChunks(c, n, count).Ok? && c.pos <= |c.data| && i < count
    ensures Mul(i, n) + n <= Mul(count, n) <= Remaining(c)
    ensures ReadChunks(c, n, count).value.0[i] == c.data[c.pos + Mul(i, n)..c.pos + Mul(i, n) + n]
    decreases i
  {
    ReadChunksSpec(c, n, count);
    var c1 := Cursor(c.data, c.pos + n);
    var chunks := ReadChunks(c, n, count).value.0;
    var rest := ReadChunks(c1, n, count - 1);
    assert rest.Ok? && chunks == [c.data[c.pos..c.pos + n]] + rest.value.0;
    if i > 0 {
      ReadChunksSlice(c1, n, count - 1, i - 1);
      assert chunks[i] == rest.value.0[i - 1];
    }
  }

  lemma MulCons(count: nat, n: nat)
    requires count > 0
    ensures Mul(count, n) == n + Mul(count - 1, n)
    ensures forall i :: 1 <= i < count ==> Mul(i, n) == Mul(i - 1, n) + n
  {
  }

  /** `ICNSSet::read_from` / `from_reader`: the chunk size minus 4 (the
      subtraction panics below 4) divided by the tile size (a panic when it
      is 0) tiles, after 8 skipped bytes. */
  function ReadSset(c: Cursor, info: IcnInfo): (r: Result<(seq<seq<uint8>>, Cursor)>)
  {
    ReadSsetSized(c, TileSize(info))
  }

  /** The chunk reader given `get_tile_size`, which is evaluated after the
      chunk id and size are read. */
  function ReadSsetSized(c: Cursor, tileSize: Result<nat>): (r: Result<(seq<seq<uint8>>, Cursor)>)
  {
    var c1 :- CheckChunkId(c, SsetTag);
    var (size, c2) := ReadU32Be(c1);
    var n :- tileSize;
    if size < 4 || n == 0 then Err(Panic)
    else ReadChunks(Skip(c2, 8), n, Div(size - 4, n))
  }

  /** `ICNRPal::read_from` / `from_reader`: `chunk size / palette size`
      rows of palette-size bytes. */
  function ReadRpal(c: Cursor, info: IcnInfo): (r: Result<(seq<seq<uint8>>, Cursor)>)
  {
    ReadRpalSized(c, PaletteSize(info))
  }

  /** The chunk reader given `get_palette_size`, which is evaluated after
      the chunk id and size are read. */
  function ReadRpalSized(c: Cursor, palSize: Result<nat>): (r: Result<(seq<seq<uint8>>, Cursor)>)
  {
    var c1 :- CheckChunkId(c, RpalTag);
    var (size, c2) := ReadU32Be(c1);
    var n :- palSize;
    if n == 0 then Err(Panic)
    else ReadChunks(c2, n, Div(size, n))
  }

  /** `ICNRTbl::read_from` / `from_reader`: chunk-size bytes. */
  function ReadRtbl(c: Cursor): (r: Result<(seq<uint8>, Cursor)>)
  {
    var c1 :- CheckChunkId(c, RtblTag);
    var (size, c2) := ReadU32Be(c1);
    ReadExact(c2, size)
  }

  // -----------------------------------------------------------------------
  // Unpacking
  // -----------------------------------------------------------------------

  /** Field `k` of a packed byte holding `8 / bpp` fields, counted from the
      most significant end: `(b >> i * bpp) & ((1 << bpp) - 1)` for
      `i = 8 / bpp - 1 - k`. */
  function Field(b: uint8, bpp: nat, k: nat): (v: nat)
    requires 1 <= bpp && k < 8 / bpp
    ensures v < Pow2(bpp)
  {
    b / Pow2((8 / bpp - 1 - k) * bpp) % Pow2(bpp)
  }

  /** The palette entries one packed byte stands for.  For 1 to 7 bits per
      pixel, `1 << bpp` fits in a u8; at 8 it overflows the u8 and panics;
      above 8 a byte holds no field; at 0, `8 / bpp` divides by zero.  A
      field past the end of the row panics. */
  function UnpackByte(b: uint8, row: seq<uint8>, bpp: nat): (r: Result<seq<uint8>>)
    ensures r.Err? ==> r.error == Panic
    ensures r.Ok? && 1 <= bpp ==> |r.value| == 8 / bpp
  {
    if bpp == 0 || bpp == 8 then Err(Panic)
    else if bpp > 8 then Ok([])
    else if forall k :: 0 <= k < 8 / bpp ==> Field(b, bpp, k) < |row| then
      Ok(seq(8 / bpp, k requires 0 <= k < 8 / bpp => row[Field(b, bpp, k)]))
    else Err(Panic)
  }

  /** The loop over the bytes of one raw tile, with the palette row
      `rpal[index]` (a panic if there is no such row) looked up only when a
      field is produced. */
  function UnpackTile(raw: seq<uint8>, rpal: seq<seq<uint8>>, index: nat, bpp: nat): (r: Result<seq<uint8>>)
    ensures r.Err? ==> r.error == Panic
    decreases |raw|
  {
    if |raw| == 0 then Ok([])
    else if bpp == 0 || bpp == 8 then Err(Panic)
    else if bpp > 8 then Ok([])
    else if index >= |rpal| then Err(Panic)
    else
      var px :- UnpackByte(raw[0], rpal[index], bpp);
      var rest :- UnpackTile(raw[1..], rpal, index, bpp);
      Ok(px + rest)
  }

  /** Pixel `k` of byte `j` of a tile is at `j * (8 / bpp) + k` and is the
      row entry its field selects. */
  lemma {:induction false} UnpackTileSpec(raw: seq<uint8>, rpal: seq<seq<uint8>>, index: nat, bpp: nat)
    requires 1 <= bpp < 8
    requires UnpackTile(raw, rpal, index, bpp).Ok?
    ensures var px := UnpackTile(raw, rpal, index, bpp).value;
      |px| == Mul(|raw|, 8 / bpp) &&
      forall j, k :: 0 <= j < |raw| && 0 <= k < 8 / bpp ==>
        index < |rpal| && Field(raw[j], bpp, k) < |rpal[index]| &&
        Mul(j, 8 / bpp) + k < |px| && px[Mul(j, 8 / bpp) + k] == rpal[index][Field(raw[j], bpp, k)]
    decreases |raw|
  {
    if |raw| > 0 {
      var n := 8 / bpp;
      var head := UnpackByte(raw[0], rpal[index], bpp).value;
      var rest := UnpackTile(raw[1..], rpal, index, bpp).value;
      UnpackTileSpec(raw[1..], rpal, index, bpp);
      var px := head + rest;
      forall j, k | 0 <= j < |raw| && 0 <= k < n
        ensures Field(raw[j], bpp, k) < |rpal[index]|
        ensures Mul(j, n) + k < |px| && px[Mul(j, n) + k] == rpal[index][Field(raw[j], bpp, k)]
      {
        if j > 0 {
          assert raw[j] == raw[1..][j - 1];
          MulCons(j, n);
        }
      }
    }
  }

  /** The 4-bit layout of Dune II tiles: the high nibble is the first
      pixel, the low nibble the second, and the two give the byte back. */
  lemma FourBitFields(b: uint8)
    ensures 8 / 4 == 2
    ensures Field(b, 4, 0) == b / 16 && Field(b, 4, 1) == b % 16
    ensures 16 * Field(b, 4, 0) + Field(b, 4, 1) == b
  {
    assert Pow2(4) == 16 by {
      assert Pow2(1) == 2 && Pow2(2) == 4 && Pow2(3) == 8;
    }
    assert Pow2(0) == 1;
  }

  /** `ICNTile`; the rctoolkit copy builds a `Tile` of the same size and
      data. */
  datatype IcnTile = IcnTile(width: uint16, height: uint16, data: seq<uint8>)

  /** The zip of `SSET` and `RTBL`: tile `i` unpacked through palette row
      `rtbl[i]`; the first panic wins. */
  function UnpackTiles(sset: seq<seq<uint8>>, rtbl: seq<uint8>, rpal: seq<seq<uint8>>, info: IcnInfo): (r: Result<seq<IcnTile>>)
    requires |sset| == |rtbl|
    ensures r.Err? ==> r.error == Panic
    ensures r.Ok? ==> |r.value| == |sset|
    ensures r.Ok? ==> forall i :: 0 <= i < |sset| ==>
      UnpackTile(sset[i], rpal, rtbl[i], info.bitsPerPixel) == Ok(r.value[i].data) &&
      r.value[i].width == info.width && r.value[i].height == info.height
    decreases |sset|
  {
    if |sset| == 0 then Ok([])
    else
      var data :- UnpackTile(sset[0], rpal, rtbl[0], info.bitsPerPixel);
      var rest :- UnpackTiles(sset[1..], rtbl[1..], rpal, info);
      Ok([IcnTile(info.width, info.height, data)] + rest)
  }

  // -----------------------------------------------------------------------
  // ICNTile::surface
  // -----------------------------------------------------------------------

  /** The colours of a tile's pixels: `color_at` on each palette index, a
      panic past the end of the palette. */
  function TileColors(t: IcnTile, palette: Colors.Palette): (r: Result<seq<Colors.Color>>)
    ensures r.Ok? <==> forall i :: 0 <= i < |t.data| ==> t.data[i] < |palette.colors|
    ensures r.Err? ==> r.error == Panic
    ensures r.Ok? ==> (|r.value| == |t.data| &&
      forall i :: 0 <= i < |t.data| ==> r.value[i] == palette.colors[t.data[i]])
  {
    if forall i :: 0 <= i < |t.data| ==> t.data[i] < Colors.Len(palette) then
      Ok(seq(|t.data|, i requires 0 <= i < |t.data| => Colors.ColorAt(palette, t.data[i])))
    else Err(Panic)
  }

  /** `ICNTile::surface`: the tile's colours drawn by the loop of
      `SHPFrame::surface`, positions from `i as u16` as written. */
  method TileSurface(t: IcnTile, palette: Colors.Palette) returns (r: Result<Surface<Colors.Color>>)
    ensures r.Ok? <==>
      Dune2Shp.DrawsAsWritten(t.width, t.height, |t.data|) &&
      forall i :: 0 <= i < |t.data| ==> t.data[i] < |palette.colors|
    ensures r.Err? ==> r.error == Panic
    ensures r.Ok? ==> Valid(r.value) && Dune2Shp.DrawnAsWritten(r.value, t.width, t.height, TileColors(t, palette).value)
  {
    var colors := TileColors(t, palette);
    if colors.Err? {
      return Err(Panic);
    }
    r := Dune2Shp.DrawPixelsAsWritten(t.width, t.height, colors.value);
  }

  /** `ICNTile::surface` with the intended positions. */
  method TileSurfaceIntended(t: IcnTile, palette: Colors.Palette) returns (r: Result<Surface<Colors.Color>>)
    ensures r.Ok? <==>
      Dune2Shp.Draws(t.width, t.height, |t.data|) &&
      forall i :: 0 <= i < |t.data| ==> t.data[i] < |palette.colors|
    ensures r.Err? ==> r.error == Panic
    ensures r.Ok? ==> Valid(r.value) && Dune2Shp.Drawn(r.value, t.width, t.height, TileColors(t, palette).value)
  {
    var colors := TileColors(t, palette);
    if colors.Err? {
      return Err(Panic);
    }
    r := Dune2Shp.DrawPixels(t.width, t.height, colors.value);
  }

  // -----------------------------------------------------------------------
  // ICN::from_reader / read_tiles_from_reader
  // -----------------------------------------------------------------------


  /** The whole decoder: `FORM`, a skipped size, `ICON`, the four chunks in
      order, a check that `SSET` and `RTBL` count the same tiles, the
      unpacking. */
  function DecodeIcn(data: seq<uint8>): (r: Result<seq<IcnTile>>)
  {
    var c1 :- CheckChunkId(Cursor(data, 0), FormTag);
    var c2 :- CheckChunkId(Skip(c1, 4), IconTag);
    var (info, c3) :- ReadInfo(c2);
    var (sset, c4) :- ReadSset(c3, info);
    var (rpal, c5) :- ReadRpal(c4, info);
    var (rtbl, _) :- ReadRtbl(c5);
    if |sset| != |rtbl| then Err(SsetRtblSizeMismatch(|sset|, |rtbl|))
    else UnpackTiles(sset, rtbl, rpal, info)
  }

  /** Only data starting with the `FORM` tag decodes. */
  lemma DecodeIcnNeedsForm(data: seq<uint8>)
    ensures DecodeIcn(data).Ok? ==> |data| >= 4 && data[..4] == FormTag
  {
    CheckChunkIdSpec(Cursor(data, 0), FormTag);
    TagsHaveNoZeroByte();
  }

  // -----------------------------------------------------------------------
  // Encoding, the inverse of the decoder on well-formed input
  // -----------------------------------------------------------------------

  /** A u32 most significant byte first. */
  function BeBytes4(v: uint32): (r: seq<uint8>)
    ensures |r| == 4 && BeValue(r) == v
  {
    BeBytes(v, 4)
  }

  function BeBytes(v: nat, n: nat): (r: seq<uint8>)
    requires v < Pow256(n)
    ensures |r| == n && BeValue(r) == v
  {
    if n == 0 then [] else BeBytes(v / 256, n - 1) + [(v % 256) as uint8]
  }

  function Flatten(chunks: seq<seq<uint8>>): seq<uint8>
  {
    if |chunks| == 0 then [] else chunks[0] + Flatten(chunks[1..])
  }

  predicate AllOfLength(chunks: seq<seq<uint8>>, n: nat)
  {
    forall i :: 0 <= i < |chunks| ==> |chunks[i]| == n
  }

  /** The `SSET` chunk: its size counts the 4 bytes of an unused header, the
      reader skips 8 bytes after the size, then the tiles. */
  function EncodeSset(tiles: seq<seq<uint8>>): seq<uint8>
    requires 4 + |Flatten(tiles)| < 0x1_0000_0000
  {
    SsetTag + BeBytes4(4 + |Flatten(tiles)|) + Zeros(8) + Flatten(tiles)
  }

  function EncodeRpal(rows: seq<seq<uint8>>): seq<uint8>
    requires |Flatten(rows)| < 0x1_0000_0000
  {
    RpalTag + BeBytes4(|Flatten(rows)|) + Flatten(rows)
  }

  function EncodeRtbl(rtbl: seq<uint8>): seq<uint8>
    requires |rtbl| < 0x1_0000_0000
  {
    RtblTag + BeBytes4(|rtbl|) + rtbl
  }

  /** The reader's `SINF` sizes for the stored ones. */
  function InfoOf(w: uint8, h: uint8, shift: uint8, bpp: uint8): (info: IcnInfo)
    requires shift < 16
  {
    IcnInfo(ShiftLeft16(w, shift).value, ShiftLeft16(h, shift).value, bpp)
  }

  /** What a tile set needs to be written so that it reads back: a `SINF`
      shift the reader accepts, sizes it can compute, tiles and palette rows
      of those sizes, chunk sizes that fit in a u32. */
  predicate Encodable(w: uint8, h: uint8, shift: uint8, bpp: uint8,
                      tiles: seq<seq<uint8>>, rows: seq<seq<uint8>>, rtbl: seq<uint8>)
  {
    shift < 16 && TileSize(InfoOf(w, h, shift, bpp)).Ok? && TileSize(InfoOf(w, h, shift, bpp)).value > 0 &&
    bpp < 64 && AllOfLength(tiles, TileSize(InfoOf(w, h, shift, bpp)).value) && AllOfLength(rows, Pow2(bpp)) &&
    4 + |Flatten(tiles)| < 0x1_0000_0000 && |Flatten(rows)| < 0x1_0000_0000 && |rtbl| < 0x1_0000_0000
  }

  function EncodeIcn(formSize: uint32, w: uint8, h: uint8, shift: uint8, bpp: uint8,
                     tiles: seq<seq<uint8>>, rows: seq<seq<uint8>>, rtbl: seq<uint8>): seq<uint8>
    requires Encodable(w, h, shift, bpp, tiles, rows, rtbl)
  {
    FormTag + BeBytes4(formSize) + IconTag + EncodeInfo(w, h, shift, bpp) +
    EncodeSset(tiles) + EncodeRpal(rows) + EncodeRtbl(rtbl)
  }

  /** `e` is stored at the cursor. */
  predicate At(c: Cursor, e: seq<uint8>)
  {
    c.pos + |e| <= |c.data| && c.data[c.pos..c.pos + |e|] == e
  }

  /** Where the two halves of `head + tail` sit. */
  lemma AtSplit(c: Cursor, head: seq<uint8>, tail: seq<uint8>)
    requires At(c, head + tail)
    ensures At(c, head) && At(Cursor(c.data, c.pos + |head|), tail)
  {
    Split(c.data, c.pos, head + tail, head, tail);
  }

  /** Where the three parts of `a + b + t` sit. */
  lemma AtParts3(c: Cursor, a: seq<uint8>, b: seq<uint8>, t: seq<uint8>)
    requires At(c, a + b + t)
    ensures At(c, a) && At(Cursor(c.data, c.pos + |a|), b) && At(Cursor(c.data, c.pos + |a| + |b|), t)
  {
    AtSplit(c, a + b, t);
    AtSplit(c, a, b);
  }

  /** Where the first, second and last parts of `a + b + z + t` sit. */
  lemma AtParts4(c: Cursor, a: seq<uint8>, b: seq<uint8>, z: seq<uint8>, t: seq<uint8>)
    requires At(c, a + b + z + t)
    ensures At(c, a) && At(Cursor(c.data, c.pos + |a|), b)
    ensures At(Cursor(c.data, c.pos + |a| + |b| + |z|), t)
  {
    AtSplit(c, a + b + z, t);
    AtParts3(c, a, b, z);
  }

  lemma CheckChunkIdAt(c: Cursor, tag: seq<uint8>)
    requires At(c, tag)
    ensures CheckChunkId(c, tag) == Ok(Cursor(c.data, c.pos + |tag|))
  {
    CheckChunkIdSpec(c, tag);
  }

  lemma ReadU32BeAt(c: Cursor, v: uint32)
    requires At(c, BeBytes4(v))
    ensures ReadU32Be(c) == (v, Cursor(c.data, c.pos + 4))
  {
  }

  lemma {:induction false} FlattenLength(chunks: seq<seq<uint8>>, n: nat)
    requires AllOfLength(chunks, n)
    ensures |Flatten(chunks)| == Mul(|chunks|, n)
    decreases |chunks|
  {
    if |chunks| > 0 {
      FlattenLength(chunks[1..], n);
    }
  }

  /** Tiles of `n` bytes each, back to back, read back as themselves. */
  lemma {:induction false} ReadChunksAt(c: Cursor, chunks: seq<seq<uint8>>, n: nat)
    requires AllOfLength(chunks, n) && At(c, Flatten(chunks))
    ensures |Flatten(chunks)| == Mul(|chunks|, n)
    ensures ReadChunks(c, n, |chunks|) == Ok((chunks, Cursor(c.data, c.pos + |Flatten(chunks)|)))
    decreases |chunks|
  {
    if |chunks| > 0 {
      AtSplit(c, chunks[0], Flatten(chunks[1..]));
      var c1 := Cursor(c.data, c.pos + n);
      ReadChunksAt(c1, chunks[1..], n);
      assert ReadExact(c, n) == Ok((chunks[0], c1));
      assert chunks == [chunks[0]] + chunks[1..];
    }
  }

  lemma ReadInfoAt(c: Cursor, w: uint8, h: uint8, shift: uint8, bpp: uint8)
    requires At(c, EncodeInfo(w, h, shift, bpp))
    ensures ReadInfo(c) ==
      if shift < 16 then Ok((InfoOf(w, h, shift, bpp), Cursor(c.data, c.pos + 12))) else Err(Panic)
  {
    AtSplit(c, SinfTag, [0, 0, 0, 4, w, h, shift, bpp]);
    InfoBytes(Cursor(c.data, c.pos + 4), w, h, shift, bpp);
    InfoParts(c, w, h, shift, bpp);
  }

  /** The eight bytes of a `SINF` chunk after its id, one by one. */
  lemma InfoBytes(c: Cursor, w: uint8, h: uint8, shift: uint8, bpp: uint8)
    requires At(c, [0, 0, 0, 4, w, h, shift, bpp])
    ensures c.pos + 8 <= |c.data| && c.data[c.pos..c.pos + 4] == [0, 0, 0, 4]
    ensures c.data[c.pos + 4] == w && c.data[c.pos + 5] == h
    ensures c.data[c.pos + 6] == shift && c.data[c.pos + 7] == bpp
  {
    var tail: seq<uint8> := [0, 0, 0, 4, w, h, shift, bpp];
    SubSlice(c.data, c.pos, c.pos + 8, 0, 4);
    assert tail[0..4] == [0, 0, 0, 4];
    assert c.data[c.pos + 4] == tail[4] && c.data[c.pos + 5] == tail[5];
    assert c.data[c.pos + 6] == tail[6] && c.data[c.pos + 7] == tail[7];
  }

  /** A `SINF` chunk given by its id and its eight bytes. */
  lemma InfoParts(c: Cursor, w: uint8, h: uint8, shift: uint8, bpp: uint8)
    requires At(c, SinfTag) && c.pos + 12 <= |c.data| && c.data[c.pos + 4..c.pos + 8] == [0, 0, 0, 4]
    requires c.data[c.pos + 8] == w && c.data[c.pos + 9] == h
    requires c.data[c.pos + 10] == shift && c.data[c.pos + 11] == bpp
    ensures ReadInfo(c) ==
      if shift < 16 then Ok((InfoOf(w, h, shift, bpp), Cursor(c.data, c.pos + 12))) else Err(Panic)
  {
    CheckChunkIdAt(c, SinfTag);
    var c1 := Cursor(c.data, c.pos + 4);
    BeValue4([0, 0, 0, 4]);
    assert ReadU32Be(c1) == (4, Cursor(c.data, c1.pos + 4));
  }

  /** The parts of an encoded `SSET` chunk the reader looks at: its id,
      its size and its tiles. */
  predicate SsetAt(c: Cursor, tiles: seq<seq<uint8>>)
    requires 4 + |Flatten(tiles)| < 0x1_0000_0000
  {
    At(c, SsetTag) && At(Cursor(c.data, c.pos + 4), BeBytes4(4 + |Flatten(tiles)|)) &&
    At(Cursor(c.data, c.pos + 16), Flatten(tiles))
  }

  predicate RpalAt(c: Cursor, rows: seq<seq<uint8>>)
    requires |Flatten(rows)| < 0x1_0000_0000
  {
    At(c, RpalTag) && At(Cursor(c.data, c.pos + 4), BeBytes4(|Flatten(rows)|)) &&
    At(Cursor(c.data, c.pos + 8), Flatten(rows))
  }

  predicate RtblAt(c: Cursor, rtbl: seq<uint8>)
    requires |rtbl| < 0x1_0000_0000
  {
    At(c, RtblTag) && At(Cursor(c.data, c.pos + 4), BeBytes4(|rtbl|)) && At(Cursor(c.data, c.pos + 8), rtbl)
  }

  lemma SsetAtOf(c: Cursor, tiles: seq<seq<uint8>>)
    requires 4 + |Flatten(tiles)| < 0x1_0000_0000 && At(c, EncodeSset(tiles))
    ensures SsetAt(c, tiles) && |EncodeSset(tiles)| == 16 + |Flatten(tiles)|
  {
    AtParts4(c, SsetTag, BeBytes4(4 + |Flatten(tiles)|), Zeros(8), Flatten(tiles));
  }

  lemma RpalAtOf(c: Cursor, rows: seq<seq<uint8>>)
    requires |Flatten(rows)| < 0x1_0000_0000 && At(c, EncodeRpal(rows))
    ensures RpalAt(c, rows) && |EncodeRpal(rows)| == 8 + |Flatten(rows)|
  {
    AtParts3(c, RpalTag, BeBytes4(|Flatten(rows)|), Flatten(rows));
  }

  lemma RtblAtOf(c: Cursor, rtbl: seq<uint8>)
    requires |rtbl| < 0x1_0000_0000 && At(c, EncodeRtbl(rtbl))
    ensures RtblAt(c, rtbl) && |EncodeRtbl(rtbl)| == 8 + |rtbl|
  {
    AtParts3(c, RtblTag, BeBytes4(|rtbl|), rtbl);
  }

  /** Once the `SSET` id and size are read, the tile reader's result is
      the chunk reader's. */
  lemma ReadSsetUnfold(c: Cursor, c1: Cursor, size: uint32, c2: Cursor, n: nat, r: Result<(seq<seq<uint8>>, Cursor)>)
    requires CheckChunkId(c, SsetTag) == Ok(c1) && ReadU32Be(c1) == (size, c2)
    requires n > 0 && size >= 4 && ReadChunks(Skip(c2, 8), n, Div(size - 4, n)) == r
    ensures ReadSsetSized(c, Ok(n)) == r
  {
  }

  /** An `SSET` chunk given by its id, its size and its tiles, each where
      the encoder puts it. */
  lemma SsetParts(c: Cursor, n: nat, tiles: seq<seq<uint8>>, end: nat)
    requires n > 0 && AllOfLength(tiles, n) && 4 + |Flatten(tiles)| < 0x1_0000_0000
    requires SsetAt(c, tiles) && end == c.pos + 16 + |Flatten(tiles)|
    ensures ReadSsetSized(c, Ok(n)) == Ok((tiles, Cursor(c.data, end)))
  {
    var size := 4 + |Flatten(tiles)|;
    CheckChunkIdAt(c, SsetTag);
    ReadU32BeAt(Cursor(c.data, c.pos + 4), size);
    FlattenLength(tiles, n);
    DivMul(|tiles|, n);
    ChunksEnd(c.data, c.pos + 16, n, tiles, end);
    ReadSsetUnfold(c, Cursor(c.data, c.pos + 4), size, Cursor(c.data, c.pos + 8), n, Ok((tiles, Cursor(c.data, end))));
  }

  /** `ReadChunksAt` with the end position named by the caller. */
  lemma ChunksEnd(data: seq<uint8>, p: nat, n: nat, chunks: seq<seq<uint8>>, end: nat)
    requires AllOfLength(chunks, n) && At(Cursor(data, p), Flatten(chunks))
    requires end == p + |Flatten(chunks)|
    ensures ReadChunks(Cursor(data, p), n, |chunks|) == Ok((chunks, Cursor(data, end)))
  {
    ReadChunksAt(Cursor(data, p), chunks, n);
  }

  /** Once the `RPAL` id and size are read, the palette reader's result is
      the chunk reader's. */
  lemma ReadRpalUnfold(c: Cursor, c1: Cursor, size: uint32, c2: Cursor, n: nat, r: Result<(seq<seq<uint8>>, Cursor)>)
    requires CheckChunkId(c, RpalTag) == Ok(c1) && ReadU32Be(c1) == (size, c2)
    requires n > 0 && ReadChunks(c2, n, Div(size, n)) == r
    ensures ReadRpalSized(c, Ok(n)) == r
  {
  }

  /** An `RPAL` chunk given by its id, its size and its rows, each where
      the encoder puts it. */
  lemma RpalParts(c: Cursor, n: nat, rows: seq<seq<uint8>>, end: nat)
    requires n > 0 && AllOfLength(rows, n) && |Flatten(rows)| < 0x1_0000_0000
    requires RpalAt(c, rows) && end == c.pos + 8 + |Flatten(rows)|
    ensures ReadRpalSized(c, Ok(n)) == Ok((rows, Cursor(c.data, end)))
  {
    var size := |Flatten(rows)|;
    CheckChunkIdAt(c, RpalTag);
    ReadU32BeAt(Cursor(c.data, c.pos + 4), size);
    FlattenLength(rows, n);
    DivMul(|rows|, n);
    ChunksEnd(c.data, c.pos + 8, n, rows, end);
    ReadRpalUnfold(c, Cursor(c.data, c.pos + 4), size, Cursor(c.data, c.pos + 8), n, Ok((rows, Cursor(c.data, end))));
  }

  /** An `RTBL` chunk given by its id, its size and its bytes. */
  lemma RtblParts(c: Cursor, rtbl: seq<uint8>, end: nat)
    requires |rtbl| < 0x1_0000_0000 && end == c.pos + 8 + |rtbl|
    requires RtblAt(c, rtbl)
    ensures ReadRtbl(c) == Ok((rtbl, Cursor(c.data, end)))
  {
    CheckChunkIdAt(c, RtblTag);
    ReadU32BeAt(Cursor(c.data, c.pos + 4), |rtbl|);
  }

  /** Where the chunks of an encoded tile set sit. */
  lemma IcnLayout(formSize: uint32, w: uint8, h: uint8, shift: uint8, bpp: uint8,
                  tiles: seq<seq<uint8>>, rows: seq<seq<uint8>>, rtbl: seq<uint8>, rest: seq<uint8>)
    requires Encodable(w, h, shift, bpp, tiles, rows, rtbl)
    ensures var data := EncodeIcn(formSize, w, h, shift, bpp, tiles, rows, rtbl) + rest;
      var s := 24 + |EncodeSset(tiles)|;
      var t := s + |EncodeRpal(rows)|;
      At(Cursor(data, 0), FormTag) && At(Cursor(data, 8), IconTag) &&
      At(Cursor(data, 12), EncodeInfo(w, h, shift, bpp)) && At(Cursor(data, 24), EncodeSset(tiles)) &&
      At(Cursor(data, s), EncodeRpal(rows)) && At(Cursor(data, t), EncodeRtbl(rtbl))
  {
    var e1 := FormTag + BeBytes4(formSize);
    var e2 := e1 + IconTag;
    var e3 := e2 + EncodeInfo(w, h, shift, bpp);
    var e4 := e3 + EncodeSset(tiles);
    var e5 := e4 + EncodeRpal(rows);
    var e := e5 + EncodeRtbl(rtbl);
    var data := e + rest;
    assert At(Cursor(data, 0), e);
    AtSplit(Cursor(data, 0), e5, EncodeRtbl(rtbl));
    AtSplit(Cursor(data, 0), e4, EncodeRpal(rows));
    AtSplit(Cursor(data, 0), e3, EncodeSset(tiles));
    AtSplit(Cursor(data, 0), e2, EncodeInfo(w, h, shift, bpp));
    AtSplit(Cursor(data, 0), e1, IconTag);
    AtSplit(Cursor(data, 0), FormTag, BeBytes4(formSize));
  }

  lemma DecodeIcnUnfold(data: seq<uint8>, info: IcnInfo, c3: Cursor, sset: seq<seq<uint8>>, c4: Cursor,
                        rpal: seq<seq<uint8>>, c5: Cursor, rtbl: seq<uint8>, c6: Cursor)
    requires CheckChunkId(Cursor(data, 0), FormTag) == Ok(Cursor(data, 4))
    requires CheckChunkId(Cursor(data, 8), IconTag) == Ok(Cursor(data, 12))
    requires ReadInfo(Cursor(data, 12)) == Ok((info, c3))
    requires ReadSset(c3, info) == Ok((sset, c4))
    requires ReadRpal(c4, info) == Ok((rpal, c5))
    requires ReadRtbl(c5) == Ok((rtbl, c6))
    ensures DecodeIcn(data) ==
      if |sset| != |rtbl| then Err(SsetRtblSizeMismatch(|sset|, |rtbl|)) else UnpackTiles(sset, rtbl, rpal, info)
  {
  }

  // Each step below names the cursor the read ends at, so that the chain in
  // `DecodeIcnAt` only has to match the terms the steps produce.

  lemma ChunkIdStep(data: seq<uint8>, p: nat, tag: seq<uint8>, e: nat)
    requires At(Cursor(data, p), tag) && e == p + |tag|
    ensures CheckChunkId(Cursor(data, p), tag) == Ok(Cursor(data, e))
  {
    CheckChunkIdAt(Cursor(data, p), tag);
  }

  /** `SSET` at `p`, read with the tile size a `SINF` gives. */
  lemma SsetStep(data: seq<uint8>, p: nat, e: nat, info: IcnInfo, n: nat, tiles: seq<seq<uint8>>)
    requires TileSize(info) == Ok(n) && n > 0 && AllOfLength(tiles, n)
    requires 4 + |Flatten(tiles)| < 0x1_0000_0000
    requires SsetAt(Cursor(data, p), tiles) && e == p + 16 + |Flatten(tiles)|
    ensures ReadSset(Cursor(data, p), info) == Ok((tiles, Cursor(data, e)))
  {
    assert ReadSset(Cursor(data, p), info) == ReadSsetSized(Cursor(data, p), Ok(n));
    SsetParts(Cursor(data, p), n, tiles, e);
  }

  /** `RPAL` at `p`, read with the palette size a `SINF` gives. */
  lemma RpalStep(data: seq<uint8>, p: nat, e: nat, info: IcnInfo, rows: seq<seq<uint8>>)
    requires info.bitsPerPixel < 64 && AllOfLength(rows, Pow2(info.bitsPerPixel))
    requires |Flatten(rows)| < 0x1_0000_0000
    requires RpalAt(Cursor(data, p), rows) && e == p + 8 + |Flatten(rows)|
    ensures ReadRpal(Cursor(data, p), info) == Ok((rows, Cursor(data, e)))
  {
    RpalParts(Cursor(data, p), Pow2(info.bitsPerPixel), rows, e);
  }

  lemma RtblStep(data: seq<uint8>, p: nat, e: nat, rtbl: seq<uint8>)
    requires |rtbl| < 0x1_0000_0000
    requires RtblAt(Cursor(data, p), rtbl) && e == p + 8 + |rtbl|
    ensures ReadRtbl(Cursor(data, p)) == Ok((rtbl, Cursor(data, e)))
  {
    RtblParts(Cursor(data, p), rtbl, e);
  }

  /** The decoder over data laid out as the encoder lays it out, once the
      `SINF` chunk has been read; `s`, `t` and `u` are where `RPAL`,
      `RTBL` and whatever follows them start. */
  lemma DecodeIcnAt(data: seq<uint8>, info: IcnInfo, n: nat,
                    tiles: seq<seq<uint8>>, rows: seq<seq<uint8>>, rtbl: seq<uint8>, s: nat, t: nat, u: nat)
    requires At(Cursor(data, 0), FormTag) && At(Cursor(data, 8), IconTag)
    requires ReadInfo(Cursor(data, 12)) == Ok((info, Cursor(data, 24)))
    requires TileSize(info) == Ok(n) && n > 0 && AllOfLength(tiles, n) && 4 + |Flatten(tiles)| < 0x1_0000_0000
    requires info.bitsPerPixel < 64 && AllOfLength(rows, Pow2(info.bitsPerPixel)) && |Flatten(rows)| < 0x1_0000_0000
    requires |rtbl| < 0x1_0000_0000
    requires SsetAt(Cursor(data, 24), tiles) && s == 40 + |Flatten(tiles)|
    requires RpalAt(Cursor(data, s), rows) && t == s + 8 + |Flatten(rows)|
    requires RtblAt(Cursor(data, t), rtbl) && u == t + 8 + |rtbl|
    ensures DecodeIcn(data) ==
      if |tiles| == |rtbl| then UnpackTiles(tiles, rtbl, rows, info)
      else Err(SsetRtblSizeMismatch(|tiles|, |rtbl|))
  {
    ChunkIdStep(data, 0, FormTag, 4);
    ChunkIdStep(data, 8, IconTag, 12);
    SsetStep(data, 24, s, info, n, tiles);
    RpalStep(data, s, t, info, rows);
    RtblStep(data, t, u, rtbl);
    DecodeIcnUnfold(data, info, Cursor(data, 24), tiles, Cursor(data, s), rows, Cursor(data, t), rtbl, Cursor(data, u));
  }

  /** The decoder over any data holding the encoder's chunks where the
      encoder puts them. */
  lemma DecodeIcnLaidOut(data: seq<uint8>, w: uint8, h: uint8, shift: uint8, bpp: uint8,
                         tiles: seq<seq<uint8>>, rows: seq<seq<uint8>>, rtbl: seq<uint8>)
    requires Encodable(w, h, shift, bpp, tiles, rows, rtbl)
    requires At(Cursor(data, 0), FormTag) && At(Cursor(data, 8), IconTag)
    requires At(Cursor(data, 12), EncodeInfo(w, h, shift, bpp)) && At(Cursor(data, 24), EncodeSset(tiles))
    requires At(Cursor(data, 24 + |EncodeSset(tiles)|), EncodeRpal(rows))
    requires At(Cursor(data, 24 + |EncodeSset(tiles)| + |EncodeRpal(rows)|), EncodeRtbl(rtbl))
    ensures DecodeIcn(data) ==
      if |tiles| == |rtbl| then UnpackTiles(tiles, rtbl, rows, InfoOf(w, h, shift, bpp))
      else Err(SsetRtblSizeMismatch(|tiles|, |rtbl|))
  {
    var info := InfoOf(w, h, shift, bpp);
    ReadInfoAt(Cursor(data, 12), w, h, shift, bpp);
    assert ReadInfo(Cursor(data, 12)) == Ok((info, Cursor(data, 24)));
    var s := 24 + |EncodeSset(tiles)|;
    var t := s + |EncodeRpal(rows)|;
    SsetAtOf(Cursor(data, 24), tiles);
    RpalAtOf(Cursor(data, s), rows);
    RtblAtOf(Cursor(data, t), rtbl);
    DecodeIcnAt(data, info, TileSize(info).value, tiles, rows, rtbl, s, t, t + |EncodeRtbl(rtbl)|);
  }

  /** Decoding an encoded tile set reads back its chunks and unpacks them:
      the tiles come back when `SSET` and `RTBL` agree in length, and the
      mismatch is reported otherwise.  Whatever follows the chunks is
      ignored. */
  lemma DecodeIcnRoundTrip(formSize: uint32, w: uint8, h: uint8, shift: uint8, bpp: uint8,
                           tiles: seq<seq<uint8>>, rows: seq<seq<uint8>>, rtbl: seq<uint8>, rest: seq<uint8>)
    requires Encodable(w, h, shift, bpp, tiles, rows, rtbl)
    ensures DecodeIcn(EncodeIcn(formSize, w, h, shift, bpp, tiles, rows, rtbl) + rest) ==
      if |tiles| == |rtbl| then UnpackTiles(tiles, rtbl, rows, InfoOf(w, h, shift, bpp))
      else Err(SsetRtblSizeMismatch(|tiles|, |rtbl|))
  {
    IcnLayout(formSize, w, h, shift, bpp, tiles, rows, rtbl, rest);
    DecodeIcnLaidOut(EncodeIcn(formSize, w, h, shift, bpp, tiles, rows, rtbl) + rest, w, h, shift, bpp, tiles, rows, rtbl);
  }
}

=== FILE: lcw.dfy ===
/** The two decompression stages shared, character for character, by
    packages/rctoolkit/src/shp.rs and packages/dune2/src/shp.rs: the
    overlapping back-reference copy `copy_block` used by the LCW
    decompressor, and the zero-run expansion applied to its output. */
module Lcw {
  import opened Common
  import opened Reader

  /** Appends `count` bytes one at a time, the i-th read at `offset + i` of
      the buffer as it stands at that moment, so a window that overlaps the
      bytes being written reads them back. */
  function CopyFrom(data: seq<uint8>, offset: nat, count: nat): (r: seq<uint8>)
    requires count == 0 || offset < |data|
    ensures |r| == |data| + count
    ensures r[..|data|] == data
    ensures forall k :: |data| <= k < |r| ==> r[k] == r[k - |data| + offset]
    decreases count
  {
    if count == 0 then data
    else
      var next := data + [data[offset]];
      var r := CopyFrom(next, offset + 1, count - 1);
      assert r[..|next|] == next;
      assert r[|data|] == next[|data|] == data[offset] == r[offset];
      r
  }

  /** Whether `copy_block(data, count, pos, relative)` runs without a panic
      on a buffer of length `len`: in relative mode `data.len() - pos` must
      not underflow, and every read `data[offset + i]` must be in bounds,
      which (as the buffer grows in step) reduces to the first one. */
  predicate CopyDefined(len: nat, count: nat, pos: nat, relative: bool)
  {
    if relative then pos <= len && (count == 0 || 1 <= pos)
    else count == 0 || pos < len
  }

  /** `copy_block`: the source window starts `pos` bytes before the end of
      the output in relative mode and at `pos` in absolute mode. */
  function CopyBlock(data: seq<uint8>, count: nat, pos: nat, relative: bool): (r: Result<seq<uint8>>)
    ensures r.Ok? <==> CopyDefined(|data|, count, pos, relative)
    ensures r.Err? ==> r.error == Panic
    ensures r.Ok? ==> |r.value| == |data| + count && r.value[..|data|] == data
    ensures r.Ok? && relative ==>
      forall k :: |data| <= k < |r.value| ==> r.value[k] == r.value[k - pos]
    ensures r.Ok? && !relative ==>
      forall k :: |data| <= k < |r.value| ==> r.value[k] == r.value[k - |data| + pos]
  {
    if relative && pos > |data| then Err(Panic)
    else
      var offset := if relative then |data| - pos else pos;
      if count > 0 && offset >= |data| then Err(Panic)
      else
        Ok(CopyFrom(data, offset, count))
  }

  /** The same copy as a loop over a growing buffer, the way the Rust code
      runs it; it agrees with `CopyBlock` on every input. */
  method CopyBlockInPlace(data: seq<uint8>, count: nat, pos: nat, relative: bool)
    returns (r: Result<seq<uint8>>)
    ensures r.Ok? <==> CopyDefined(|data|, count, pos, relative)
    ensures r.Err? ==> r.error == Panic
    ensures r.Ok? ==> |r.value| == |data| + count && r.value[..|data|] == data
    ensures r.Ok? ==> forall k :: |data| <= k < |r.value| ==>
      r.value[k] == r.value[k - |data| + (if relative then |data| - pos else pos)]
  {
    if relative && pos > |data| {
      return Err(Panic);
    }
    var offset := if relative then |data| - pos else pos;
    var out := data;
    var i := 0;
    while i < count
      invariant 0 <= i <= count
      invariant |out| == |data| + i
      invariant out[..|data|] == data
      invariant i > 0 ==> offset < |data|
      invariant forall k :: |data| <= k < |out| ==> out[k] == out[k - |data| + offset]
    {
      if offset + i >= |out| {
        return Err(Panic);
      }
      out := out + [out[offset + i]];
      i := i + 1;
    }
    return Ok(out);
  }

  // ---------------------------------------------------------------------
  // Zero-run expansion (`inflate_rle_zero_data` / `inflate_rle_data`)
  // ---------------------------------------------------------------------

  /** A 0 byte is followed by a count and expands to that many zeros; any
      other byte is copied once.  A 0 with no count byte after it makes the
      Rust code `unwrap` a `None`. */
  function InflateRleZero(rle: seq<uint8>): (r: Result<seq<uint8>>)
    ensures r.Err? ==> r.error == Panic && |rle| > 0
    ensures r.Ok? ==> |r.value| <= 255 * |rle|
    decreases |rle|
  {
    if |rle| == 0 then Ok([])
    else if rle[0] != 0 then
      var rest :- InflateRleZero(rle[1..]);
      Ok([rle[0]] + rest)
    else if |rle| == 1 then Err(Panic)
    else
      var rest :- InflateRleZero(rle[2..]);
      Ok(Zeros(rle[1]) + rest)
  }

  /** Prefixes a successful result with `out`. */
  function Prepend(out: seq<uint8>, r: Result<seq<uint8>>): Result<seq<uint8>>
  {
    if r.Ok? then Ok(out + r.value) else r
  }

  /** A stream splits into tokens: a non-zero byte, or a 0 with its count. */
  predicate Complete(rle: seq<uint8>)
    decreases |rle|
  {
    if |rle| == 0 then true
    else if rle[0] != 0 then Complete(rle[1..])
    else |rle| >= 2 && Complete(rle[2..])
  }

  /** Expanding a stream made of whole tokens never fails. */
  lemma {:induction false} CompleteInflates(rle: seq<uint8>)
    ensures Complete(rle) <==> InflateRleZero(rle).Ok?
    decreases |rle|
  {
    if |rle| > 0 {
      if rle[0] != 0 {
        CompleteInflates(rle[1..]);
      } else if |rle| >= 2 {
        CompleteInflates(rle[2..]);
      }
    }
  }

  /** Expansion works token by token: after a stream of whole tokens, the
      rest expands independently. */
  lemma {:induction false} InflateRleZeroConcat(a: seq<uint8>, b: seq<uint8>)
    requires InflateRleZero(a).Ok?
    ensures InflateRleZero(a + b) == Prepend(InflateRleZero(a).value, InflateRleZero(b))
    decreases |a|
  {
    if |a| == 0 {
      assert a + b == b;
      var rb := InflateRleZero(b);
      assert rb.Ok? ==> [] + rb.value == rb.value;
    } else if a[0] != 0 {
      assert (a + b)[0] == a[0];
      assert (a + b)[1..] == a[1..] + b;
      var x := InflateRleZero(a[1..]).value;
      InflateRleZeroConcat(a[1..], b);
      assert InflateRleZero(a).value == [a[0]] + x;
      var rb := InflateRleZero(b);
      assert rb.Ok? ==> [a[0]] + (x + rb.value) == ([a[0]] + x) + rb.value;
    } else {
      assert (a + b)[0] == 0 && (a + b)[1] == a[1];
      assert (a + b)[2..] == a[2..] + b;
      var x := InflateRleZero(a[2..]).value;
      InflateRleZeroConcat(a[2..], b);
      assert InflateRleZero(a).value == Zeros(a[1]) + x;
      var rb := InflateRleZero(b);
      assert rb.Ok? ==> Zeros(a[1]) + (x + rb.value) == (Zeros(a[1]) + x) + rb.value;
    }
  }

  /** A 0 left without its count byte at the end of whole tokens is the
      `unwrap` failure. */
  lemma LoneTrailingZeroFails(a: seq<uint8>)
    requires Complete(a)
    ensures InflateRleZero(a + [0]) == Err(Panic)
  {
    CompleteInflates(a);
    InflateRleZeroConcat(a, [0]);
  }

  /** An encoder for the zero-run format: each run of zeros becomes 0,n
      pairs of at most 255 zeros, every other byte is kept. */
  function RleZeroEncode(data: seq<uint8>): (r: seq<uint8>)
    decreases |data|
  {
    if |data| == 0 then []
    else if data[0] != 0 then [data[0]] + RleZeroEncode(data[1..])
    else
      var n := ZeroRunLength(data, 255);
      [0, n] + RleZeroEncode(data[n..])
  }

  /** Length of the run of zeros at the start of `data`, capped at `cap`. */
  function ZeroRunLength(data: seq<uint8>, cap: nat): (n: nat)
    requires cap >= 1 && |data| > 0 && data[0] == 0
    ensures 1 <= n <= cap && n <= |data|
    ensures forall i :: 0 <= i < n ==> data[i] == 0
    ensures n < cap && n < |data| ==> data[n] != 0
  {
    if cap == 1 || |data| == 1 || data[1] != 0 then 1
    else 1 + ZeroRunLength(data[1..], cap - 1)
  }

  /** Expanding the encoding of any byte sequence gives it back. */
  lemma {:induction false} RleZeroRoundTrip(data: seq<uint8>)
    ensures InflateRleZero(RleZeroEncode(data)) == Ok(data)
    decreases |data|
  {
    var e := RleZeroEncode(data);
    if |data| > 0 {
      if data[0] != 0 {
        assert e[1..] == RleZeroEncode(data[1..]);
        RleZeroRoundTrip(data[1..]);
        assert data == [data[0]] + data[1..];
      } else {
        var n := ZeroRunLength(data, 255);
        assert e[2..] == RleZeroEncode(data[n..]);
        RleZeroRoundTrip(data[n..]);
        assert data[..n] == Zeros(n);
        assert data == data[..n] + data[n..];
      }
    }
  }

  /** The same expansion as a loop appending to an output buffer. */
  method InflateRleZeroLoop(rle: seq<uint8>) returns (r: Result<seq<uint8>>)
    ensures r == InflateRleZero(rle)
  {
    var out: seq<uint8> := [];
    var i := 0;
    assert rle[i..] == rle;
    assert InflateRleZero(rle).Ok? ==> [] + InflateRleZero(rle).value == InflateRleZero(rle).value;
    while i < |rle|
      invariant 0 <= i <= |rle|
      invariant InflateRleZero(rle) == Prepend(out, InflateRleZero(rle[i..]))
      decreases |rle| - i
    {
      var value := rle[i];
      assert rle[i..][0] == value;
      if value == 0 {
        if i + 1 >= |rle| {
          return Err(Panic);
        }
        assert rle[i..][2..] == rle[i + 2..];
        assert rle[i..][1] == rle[i + 1];
        var rest := InflateRleZero(rle[i + 2..]);
        assert InflateRleZero(rle[i..]) == Prepend(Zeros(rle[i + 1]), rest);
        assert rest.Ok? ==> out + (Zeros(rle[i + 1]) + rest.value) == (out + Zeros(rle[i + 1])) + rest.value;
        out := out + Zeros(rle[i + 1]);
        i := i + 2;
      } else {
        assert rle[i..][1..] == rle[i + 1..];
        var rest := InflateRleZero(rle[i + 1..]);
        assert InflateRleZero(rle[i..]) == Prepend([value], rest);
        assert rest.Ok? ==> out + ([value] + rest.value) == (out + [value]) + rest.value;
        out := out + [value];
        i := i + 1;
      }
    }
    assert rle[i..] == [];
    assert out + [] == out;
    return Ok(out);
  }
}

=== FILE: legacy_bitmap.dfy ===
/** The older `bitmap` crate of bitmap/src/lib.rs.  Its points are u32, so
    they are the non-negative points of `Rects`; its rects, `from_points`,
    `intersected`, bitmap, `new`, `index`, `pixel` and `put_pixel` behave as
    those of packages/bitmap/src/lib.rs (module `Bitmaps`) on such points.
    What differs is the point iterator: it tests `x < right`, so every row
    runs one column past the rect. */
module LegacyBitmaps {
  import opened Common
  import opened Geometry
  import opened Rects
  import opened PointRows
  import opened Bitmaps

  /** A rect whose corner is a u32 point. */
  predicate Unsigned(r: Rect)
  {
    Left(r) >= 0 && Top(r) >= 0
  }

  /** The step of `next`: one column to the right while `x < right`, else
      the start of the next row. */
  function AdvanceWide(it: RectWalk): IPoint
  {
    if it.current.x < Right(it.rect) then IPoint(it.current.x + 1, it.current.y)
    else IPoint(Left(it.rect), it.current.y + 1)
  }

  /** Everything `next` yields: it goes on while the current row is inside
      the rect. */
  function CollectWide(it: RectWalk): seq<IPoint>
    decreases Bottom(it.rect) - it.current.y, Right(it.rect) + 1 - it.current.x
  {
    if it.current.y < Bottom(it.rect) then [it.current] + CollectWide(it.(current := AdvanceWide(it)))
    else []
  }

  /** `rect.iter()` as written. */
  function PointsWide(r: Rect): seq<IPoint>
  {
    CollectWide(Walk(r))
  }

  /** From a point of a row, the walk finishes the row one column past the
      rect and yields the rows below it the same way. */
  lemma {:induction false} CollectWideFrom(r: Rect, x: int, y: int)
    requires Left(r) <= x <= Right(r)
    ensures CollectWide(RectWalk(r, IPoint(x, y))) ==
      if y < Bottom(r) then Span(x, Right(r) + 1, y) + Block(Left(r), Right(r) + 1, y + 1, Bottom(r)) else []
    decreases Bottom(r) - y, Right(r) + 1 - x
  {
    if y < Bottom(r) {
      if x < Right(r) {
        CollectWideFrom(r, x + 1, y);
      } else {
        CollectWideFrom(r, Left(r), y + 1);
      }
    }
  }

  /** The iterator yields, for each of the `height` rows, the columns
      `left` to `right` inclusive: `(width + 1) * height` points, the rect
      and the column just right of it. */
  lemma PointsWideSpec(r: Rect, p: IPoint)
    ensures PointsWide(r) == Block(Left(r), Right(r) + 1, Top(r), Bottom(r))
    ensures p in PointsWide(r) <==> Left(r) <= p.x <= Right(r) && Top(r) <= p.y < Bottom(r)
    ensures |PointsWide(r)| == Mul(Height(r), Width(r) + 1)
  {
    CollectWideFrom(r, Left(r), Top(r));
    BlockHas(Left(r), Right(r) + 1, Top(r), Bottom(r), p);
    BlockLength(Left(r), Right(r) + 1, Top(r), Bottom(r));
  }

  /** `fill_rect` as written. */
  function FillRectWide(b: Bitmap, rect: Rect, color: Color): (r: Result<Bitmap>)
    ensures r.Ok? ==> r.value.width == b.width && r.value.height == b.height
  {
    Paint(b, PointsWide(rect), _ => color)
  }

  /** `clear` as written. */
  function ClearWide(b: Bitmap, color: Color): (r: Result<Bitmap>)
    ensures r.Ok? ==> r.value.width == b.width && r.value.height == b.height
  {
    FillRectWide(b, BitmapRect(b), color)
  }

  /** When the column right of the rect is still inside the bitmap,
      `fill_rect` paints the rect and that column, and nothing else. */
  lemma FillRectWideSpec(b: Bitmap, rect: Rect, color: Color, q: IPoint)
    requires Valid(b) && Unsigned(rect) && InBitmap(b, q)
    requires Right(rect) < b.width && Bottom(rect) <= b.height
    ensures FillRectWide(b, rect, color).Ok?
    ensures Pixel(FillRectWide(b, rect, color).value, q) ==
      if Left(rect) <= q.x <= Right(rect) && Top(rect) <= q.y < Bottom(rect) then Ok(color) else Pixel(b, q)
  {
    var ps := PointsWide(rect);
    forall k | 0 <= k < |ps|
      ensures InBitmap(b, ps[k])
    {
      PointsWideSpec(rect, ps[k]);
    }
    PointsWideSpec(rect, q);
    PaintSpec(b, ps, _ => color, q);
  }

  /** `clear` reaches the point one column right of the bottom row, whose
      index is the pixel count: it panics on every non-empty bitmap. */
  lemma ClearPanics(b: Bitmap, color: Color)
    requires Valid(b) && b.width > 0 && b.height > 0
    ensures ClearWide(b, color) == Err(Panic)
  {
    WidePointPastEnd(b);
    PaintOk(b, PointsWide(BitmapRect(b)), _ => color);
  }

  /** The point one column right of the bottom row is walked and lies
      past the pixels. */
  lemma WidePointPastEnd(b: Bitmap)
    requires Valid(b) && b.width > 0 && b.height > 0
    ensures exists k :: 0 <= k < |PointsWide(BitmapRect(b))| && !Addressable(b, PointsWide(BitmapRect(b))[k])
  {
    var ps := PointsWide(BitmapRect(b));
    var p := IPoint(b.width, b.height - 1);
    PointsWideSpec(BitmapRect(b), p);
    var k :| 0 <= k < |ps| && ps[k] == p;
    MulIsProduct(b.width, b.height);
    assert Index(b, p) == |b.pixels|;
    assert !Addressable(b, ps[k]);
  }

  /** The smallest input that shows it: clearing a new 1x1 bitmap panics. */
  lemma ClearOneByOnePanics()
    ensures New(1, 1).Ok? && ClearWide(New(1, 1).value, Colors.Black) == Err(Panic)
  {
    ClearPanics(New(1, 1).value, Colors.Black);
  }

  /** `blit` as written. */
  function BlitWide(dst: Bitmap, src: Bitmap, srcRect: Rect, dstRect: Rect): (r: Result<Bitmap>)
    ensures r.Err? ==> r.error == Panic
  {
    var sc := ClipOrZero(srcRect, src);
    var dc := ClipOrZero(dstRect, dst);
    var size := BlitSize(sc, dc);
    CopyPairs(dst, src, Zip(PointsWide(FromPointAndSize(sc.topLeft, size)), PointsWide(FromPointAndSize(dc.topLeft, size))))
  }

  /** Walking a rect of the same size elsewhere yields the same points
      moved by the offset between the corners. */
  lemma PointsWideShift(w: Rect, s: Rect)
    requires s.size == w.size
    ensures PointsWide(s) == Translate(PointsWide(w), Left(s) - Left(w), Top(s) - Top(w))
  {
    CollectWideFrom(w, Left(w), Top(w));
    CollectWideFrom(s, Left(s), Top(s));
    BlockMoved(Left(w), Right(w) + 1, Top(w), Bottom(w), Left(s), Right(s) + 1, Top(s), Bottom(s));
  }

  /** `blit` as written copies from the points of the widened window
      moved into the source. */
  lemma BlitWideCopies(dst: Bitmap, src: Bitmap, srcRect: Rect, dstRect: Rect)
    ensures var w := Window(dst, src, srcRect, dstRect);
      var sc := ClipOrZero(srcRect, src);
      BlitWide(dst, src, srcRect, dstRect) ==
        CopyPairs(dst, src, Zip(Translate(PointsWide(w), Left(sc) - Left(w), Top(sc) - Top(w)), PointsWide(w)))
  {
    var sc := ClipOrZero(srcRect, src);
    var w := Window(dst, src, srcRect, dstRect);
    PointsWideShift(w, FromPointAndSize(sc.topLeft, w.size));
  }

  /** When the column right of the window lies in the destination and the
      column right of the walked source rect lies in the source, `blit`
      copies the window widened by that column, unscaled. */
  lemma BlitWideSpec(dst: Bitmap, src: Bitmap, srcRect: Rect, dstRect: Rect, q: IPoint)
    requires Valid(dst) && Valid(src) && InBitmap(dst, q)
    requires var w := Window(dst, src, srcRect, dstRect);
      Right(w) < dst.width && Right(w) + Left(ClipOrZero(srcRect, src)) - Left(w) < src.width
    ensures BlitWide(dst, src, srcRect, dstRect).Ok?
    ensures Pixel(BlitWide(dst, src, srcRect, dstRect).value, q) ==
      var w := Window(dst, src, srcRect, dstRect);
      if Left(w) <= q.x <= Right(w) && Top(w) <= q.y < Bottom(w) then Pixel(src, SourceOf(dst, src, srcRect, dstRect, q))
      else Pixel(dst, q)
  {
    var sc := ClipOrZero(srcRect, src);
    var w := Window(dst, src, srcRect, dstRect);
    BlitWideCopies(dst, src, srcRect, dstRect);
    WindowInside(dst, src, srcRect, dstRect, w.topLeft);
    if Height(w) > 0 {
      WindowInside(dst, src, srcRect, dstRect, IPoint(Left(w), Bottom(w) - 1));
    }
    CopyWideWindow(dst, src, w, Left(sc) - Left(w), Top(sc) - Top(w), q);
  }

  /** Copying onto the widened walk of a rect whose points, and the column
      right of it, lie in the destination and, moved, in the source. */
  lemma CopyWideWindow(dst: Bitmap, src: Bitmap, w: Rect, dx: int, dy: int, q: IPoint)
    requires Valid(dst) && Valid(src) && InBitmap(dst, q)
    requires Height(w) > 0 ==>
      0 <= Left(w) && Right(w) < dst.width && 0 <= Top(w) && Bottom(w) <= dst.height &&
      0 <= Left(w) + dx && Right(w) + dx < src.width && 0 <= Top(w) + dy && Bottom(w) + dy <= src.height
    ensures CopyPairs(dst, src, Zip(Translate(PointsWide(w), dx, dy), PointsWide(w))).Ok?
    ensures Pixel(CopyPairs(dst, src, Zip(Translate(PointsWide(w), dx, dy), PointsWide(w))).value, q) ==
      if Left(w) <= q.x <= Right(w) && Top(w) <= q.y < Bottom(w) then Pixel(src, Shift(q, dx, dy)) else Pixel(dst, q)
  {
    var ds := PointsWide(w);
    PointsWideSpec(w, q);
    forall k | 0 <= k < |ds|
      ensures InBitmap(dst, ds[k]) && InBitmap(src, Shift(ds[k], dx, dy))
    {
      PointsWideSpec(w, ds[k]);
    }
    CopyWindow(dst, src, ds, dx, dy, q);
  }

}

=== FILE: map_file.dfy ===
/** The icon map of packages/dune2/src/map.rs.  The file is a run of
    little-endian u16 words.  The first word counts the groups, the words
    after it say where each group's tile indices start, and every group is
    cut into icons of a shape chosen by the group's position. */
module Maps {
  import opened Common
  import opened Bytes

  /** map.rs's own `Shape`: rows and columns of tiles. */
  datatype Shape = Shape(rows: nat, columns: nat)

  /** The number of tiles of an icon of shape `s`. */
  function Area(s: Shape): nat
  {
    s.rows * s.columns
  }

  /** One icon: its shape and its tile indices, row after row. */
  datatype Icon = Icon(shape: Shape, tiles: seq<uint16>)

  datatype Map = Map(icons: seq<Icon>)

  // -----------------------------------------------------------------------
  // Shape::from_index
  // -----------------------------------------------------------------------

  /** `Shape::from_index`: the icon shape of group `index`.  Structures
      take 3×3, 2×2 or 3×2 tiles; every other group has single tiles. */
  function ShapeFromIndex(index: nat): (s: Shape)
    ensures s.columns <= s.rows <= 3 && 1 <= s.columns
    ensures Area(s) == 9 <==> index in {10, 19}
    ensures Area(s) == 6 <==> index in {12, 13, 20, 21}
    ensures Area(s) == 4 <==> index in {11, 14, 15, 16, 17, 18, 24, 25}
    ensures Area(s) == 1 <==> !(10 <= index <= 21 || 24 <= index <= 25)
    ensures Area(s) == 1 ==> s == Shape(1, 1)
  {
    match index
    case 10 => Shape(3, 3)
    case 11 | 25 => Shape(2, 2)
    case 12 | 13 => Shape(3, 2)
    case 14 | 15 | 16 | 17 | 18 | 24 => Shape(2, 2)
    case 19 => Shape(3, 3)
    case 20 | 21 => Shape(3, 2)
    case _ => Shape(1, 1)
  }

  // -----------------------------------------------------------------------
  // The words of the file
  // -----------------------------------------------------------------------

  /** The bytes of `ws`, each word least significant byte first. */
  function WordBytes(ws: seq<uint16>): (r: seq<uint8>)
    ensures |r| == 2 * |ws|
  {
    if |ws| == 0 then [] else [ws[0] % 256, ws[0] / 256] + WordBytes(ws[1..])
  }

  /** The reading loop of `from_reader`: two bytes at a time until the end
      of the input; a single byte left over is an error. */
  function ReadWords(data: seq<uint8>): (r: Result<seq<uint16>>)
    ensures r.Ok? <==> |data| % 2 == 0
    ensures r.Err? ==> r.error == UnexpectedEndOfFile
    ensures r.Ok? ==> |r.value| == |data| / 2
    decreases |data|
  {
    if |data| == 0 then Ok([])
    else if |data| == 1 then Err(UnexpectedEndOfFile)
    else
      var rest :- ReadWords(data[2..]);
      Ok([U16At(data, 0) as uint16] + rest)
  }

  /** Word `i` is the little-endian u16 at byte `2 * i`. */
  lemma {:induction false} ReadWordsValues(data: seq<uint8>)
    requires |data| % 2 == 0
    ensures forall i :: 0 <= i < |data| / 2 ==> ReadWords(data).value[i] == U16At(data, 2 * i)
    decreases |data|
  {
    if |data| > 0 {
      ReadWordsValues(data[2..]);
      var ws := ReadWords(data).value;
      assert ws == [U16At(data, 0) as uint16] + ReadWords(data[2..]).value;
      forall i | 1 <= i < |data| / 2
        ensures ws[i] == U16At(data, 2 * i)
      {
        assert ws[i] == ReadWords(data[2..]).value[i - 1];
        assert data[2..][2 * (i - 1)] == data[2 * i];
        assert data[2..][2 * (i - 1) + 1] == data[2 * i + 1];
      }
    }
  }

  /** Reading gives back the words that were written, and one byte more
      makes the input unreadable. */
  lemma {:induction false} ReadWordsRoundTrip(ws: seq<uint16>, b: uint8)
    ensures ReadWords(WordBytes(ws)) == Ok(ws)
    ensures ReadWords(WordBytes(ws) + [b]) == Err(UnexpectedEndOfFile)
    decreases |ws|
  {
    if |ws| > 0 {
      ReadWordsRoundTrip(ws[1..], b);
      var data := WordBytes(ws);
      assert data[2..] == WordBytes(ws[1..]);
      assert U16At(data, 0) == ws[0];
      assert ReadWords(data) == Ok([ws[0]] + ws[1..]);
      assert [ws[0]] + ws[1..] == ws;
      assert (data + [b])[2..] == data[2..] + [b];
    }
  }

  // -----------------------------------------------------------------------
  // Cutting a group into icons
  // -----------------------------------------------------------------------

  /** All the pieces of `parts`, one after the other. */
  function Concat(parts: seq<seq<uint16>>): seq<uint16>
  {
    if |parts| == 0 then [] else parts[0] + Concat(parts[1..])
  }

  /** The first `n` pieces of `size` words of `s`. */
  function Chunks(s: seq<uint16>, size: nat, n: nat): (r: seq<seq<uint16>>)
    requires Mul(n, size) <= |s|
    ensures |r| == n
  {
    if n == 0 then [] else [s[..size]] + Chunks(s[size..], size, n - 1)
  }

  /** Piece `k` is the `size` words from `k * size` on. */
  lemma {:induction false} ChunksAt(s: seq<uint16>, size: nat, n: nat)
    requires Mul(n, size) <= |s|
    ensures forall k :: 0 <= k < n ==> |Chunks(s, size, n)[k]| == size && SliceAt(s, Mul(k, size), Chunks(s, size, n)[k])
    decreases n
  {
    if n > 0 {
      var tail := s[size..];
      var rest := Chunks(tail, size, n - 1);
      ChunksAt(tail, size, n - 1);
      var r := Chunks(s, size, n);
      assert r == [s[..size]] + rest;
      forall k | 0 <= k < n
        ensures |r[k]| == size && SliceAt(s, Mul(k, size), r[k])
      {
        if k > 0 {
          assert r[k] == rest[k - 1];
          assert SliceAt(tail, Mul(k - 1, size), rest[k - 1]);
          SliceAtShift(s, size, Mul(k - 1, size), rest[k - 1]);
        }
      }
    }
  }

  /** The pieces together are the words up to `n * size`. */
  lemma {:induction false} ChunksConcat(s: seq<uint16>, size: nat, n: nat)
    requires Mul(n, size) <= |s|
    ensures Concat(Chunks(s, size, n)) == s[..Mul(n, size)]
    decreases n
  {
    if n > 0 {
      var tail := s[size..];
      ChunksConcat(tail, size, n - 1);
      var r := Chunks(s, size, n);
      assert r[1..] == Chunks(tail, size, n - 1);
      assert Concat(r) == s[..size] + tail[..Mul(n - 1, size)];
      SubSlice(s, size, |s|, 0, Mul(n - 1, size));
    }
  }

  /** The icons of `shape` over the given pieces. */
  function IconsOf(shape: Shape, pieces: seq<seq<uint16>>): (r: seq<Icon>)
    ensures |r| == |pieces|
  {
    seq(|pieces|, k requires 0 <= k < |pieces| => Icon(shape, pieces[k]))
  }

  /** The shape of the icons of group `index` when the group holds `count`
      words: a single-tile shape widens to one row of the whole group. */
  function GroupShape(index: nat, count: nat): (s: Shape)
    ensures count > 0 ==> Area(s) > 0
  {
    var shape := ShapeFromIndex(index);
    if Area(shape) == 1 then shape.(columns := count) else shape
  }

  /** One group of `from_reader`, as written: the words from `start` to
      `end` cut into `count / shape_size` icons.  `end - start` underflows
      when `end < start`, and an empty group of a single-tile shape divides
      by a shape size of zero. */
  function GroupIconsAsWritten(ws: seq<uint16>, index: nat, start: nat, end: nat): (r: Result<seq<Icon>>)
    ensures start <= end && Area(GroupShape(index, end - start)) == 0 ==> r == Err(Panic)
  {
    if end < start then Err(Panic)
    else
      var shape := GroupShape(index, end - start);
      if Area(shape) == 0 then Err(Panic)
      else
        var n := Div(end - start, Area(shape));
        if n == 0 then Ok([])
        else if start + Mul(n, Area(shape)) > |ws| then Err(Panic)
        else Ok(IconsOf(shape, Chunks(ws[start..], Area(shape), n)))
  }

  /** An empty group of a single-tile shape makes the as-written code
      divide by zero, where an empty group evidently holds no icon. */
  lemma EmptySingleTileGroupPanics()
    ensures GroupIconsAsWritten([2, 3, 3], 0, 3, 3) == Err(Panic)
    ensures GroupIcons([2, 3, 3], 0, 3, 3) == Ok([])
  {
    assert Area(GroupShape(0, 0)) == 0;
  }

  /** One group of `from_reader` with an empty group yielding no icon: the
      words from `start` to `end` cut into `count / shape_size` icons of
      consecutive words, the remainder dropped.  `end - start` underflows
      when `end < start`, and a slice past the last word panics. */
  function GroupIcons(ws: seq<uint16>, index: nat, start: nat, end: nat): (r: Result<seq<Icon>>)
    ensures r.Err? ==> r.error == Panic
    ensures end < start ==> r.Err?
    ensures start == end ==> r == Ok([])
    ensures end > start ==> r == GroupIconsAsWritten(ws, index, start, end)
  {
    if end < start then Err(Panic)
    else if start == end then Ok([])
    else GroupIconsAsWritten(ws, index, start, end)
  }

  /** Which grouping a reading of the file uses: the source's, or the one
      with an empty group yielding no icon. */
  datatype Reading = AsWritten | Intended

  /** One group under reading `g`.  The two readings differ only on an
      empty group, where the intended one gives no icon. */
  function Group(g: Reading, ws: seq<uint16>, index: nat, start: nat, end: nat): (r: Result<seq<Icon>>)
    ensures r.Err? ==> r.error == Panic
    ensures start != end ==> r == GroupIcons(ws, index, start, end)
    ensures r.Ok? ==> r == GroupIcons(ws, index, start, end)
  {
    if g == AsWritten then GroupIconsAsWritten(ws, index, start, end) else GroupIcons(ws, index, start, end)
  }

  /** A non-empty group succeeds exactly when its whole icons fit in the
      file. */
  lemma GroupIconsOk(ws: seq<uint16>, index: nat, start: nat, end: nat)
    requires start < end
    ensures var count := end - start;
      var size := Area(GroupShape(index, count));
      GroupIcons(ws, index, start, end).Ok? <==> count < size || start + count - count % size <= |ws|
  {
    var count := end - start;
    var size := Area(GroupShape(index, count));
    var n := Div(count, size);
    DivRemainder(count, size);
  }

  /** A non-empty group yields `count / shape_size` icons, icon `k`
      holding the `shape_size` words from `start + k * shape_size`; together
      the icons hold the group's words without the remainder. */
  lemma GroupIconsContent(ws: seq<uint16>, index: nat, start: nat, end: nat)
    requires start < end && GroupIcons(ws, index, start, end).Ok?
    ensures var icons := GroupIcons(ws, index, start, end).value;
      var count := end - start;
      var shape := GroupShape(index, count);
      var size := Area(shape);
      |icons| == count / size &&
      (forall k :: 0 <= k < |icons| ==>
        icons[k].shape == shape && |icons[k].tiles| == size &&
        SliceAt(ws, start + k * size, icons[k].tiles)) &&
      |Concat(Tiles(icons))| == count - count % size &&
      (count >= size ==> SliceAt(ws, start, Concat(Tiles(icons))))
  {
    var icons := GroupIcons(ws, index, start, end).value;
    var count := end - start;
    var shape := GroupShape(index, count);
    var size := Area(shape);
    var n := Div(count, size);
    DivRemainder(count, size);
    if n == 0 {
      assert icons == [];
      assert Concat(Tiles(icons)) == [];
    } else {
      assert icons == IconsOf(shape, Chunks(ws[start..], size, n));
      IconsOfChunks(ws, start, shape, size, n, icons);
    }
  }

  /** The icons over the first `n` pieces of `size` words from `start`:
      icon `k` holds the words from `start + k * size` on, and together
      they hold the first `n * size` words. */
  lemma IconsOfChunks(ws: seq<uint16>, start: nat, shape: Shape, size: nat, n: nat, icons: seq<Icon>)
    requires start + Mul(n, size) <= |ws|
    requires icons == IconsOf(shape, Chunks(ws[start..], size, n))
    ensures |icons| == n
    ensures forall k :: 0 <= k < n ==>
      icons[k].shape == shape && |icons[k].tiles| == size && SliceAt(ws, start + k * size, icons[k].tiles)
    ensures |Concat(Tiles(icons))| == Mul(n, size) && SliceAt(ws, start, Concat(Tiles(icons)))
  {
    var s := ws[start..];
    var pieces := Chunks(s, size, n);
    ChunksAt(s, size, n);
    forall k | 0 <= k < n
      ensures icons[k].shape == shape && |icons[k].tiles| == size && SliceAt(ws, start + k * size, icons[k].tiles)
    {
      IconOfChunk(ws, start, size, k, pieces[k]);
    }
    IconsConcat(ws, start, shape, size, n, icons);
  }

  lemma IconOfChunk(ws: seq<uint16>, start: nat, size: nat, k: nat, piece: seq<uint16>)
    requires start <= |ws| && SliceAt(ws[start..], Mul(k, size), piece)
    ensures SliceAt(ws, start + k * size, piece)
  {
    MulIsProduct(k, size);
    SliceAtShift(ws, start, Mul(k, size), piece);
  }

  lemma IconsConcat(ws: seq<uint16>, start: nat, shape: Shape, size: nat, n: nat, icons: seq<Icon>)
    requires start + Mul(n, size) <= |ws|
    requires icons == IconsOf(shape, Chunks(ws[start..], size, n))
    ensures |Concat(Tiles(icons))| == Mul(n, size) && SliceAt(ws, start, Concat(Tiles(icons)))
  {
    var s := ws[start..];
    ChunksConcat(s, size, n);
    assert Tiles(icons) == Chunks(s, size, n);
    assert SliceAt(s, 0, s[..Mul(n, size)]);
    SliceAtShift(ws, start, 0, s[..Mul(n, size)]);
  }

  /** The tiles of every icon, in order. */
  function Tiles(icons: seq<Icon>): (r: seq<seq<uint16>>)
    ensures |r| == |icons| && forall k :: 0 <= k < |icons| ==> r[k] == icons[k].tiles
  {
    seq(|icons|, k requires 0 <= k < |icons| => icons[k].tiles)
  }

  lemma MulLe(k: nat, n: nat, size: nat)
    requires k < n
    ensures k * size + size <= n * size
  {
    assert n * size == k * size + (n - k) * size;
    MulAtLeast(n - k, size);
  }

  /** A single-tile group of words inside the file is one icon: one row
      holding the whole group. */
  lemma SingleTileGroup(ws: seq<uint16>, index: nat, start: nat, end: nat)
    requires Area(ShapeFromIndex(index)) == 1
    requires start < end <= |ws|
    ensures GroupIcons(ws, index, start, end) == Ok([Icon(Shape(1, end - start), ws[start..end])])
  {
    var count := end - start;
    assert GroupShape(index, count) == Shape(1, count);
    assert Area(Shape(1, count)) == count;
    assert Div(count, count) == 1 by {
      assert Div(count - count, count) == 0;
    }
    assert Mul(1, count) == count;
    var pieces := Chunks(ws[start..], count, 1);
    assert pieces == [ws[start..][..count]];
    var icons := IconsOf(Shape(1, count), pieces);
    assert |icons| == 1 && icons[0] == Icon(Shape(1, count), ws[start..end]);
    assert icons == [Icon(Shape(1, count), ws[start..end])];
    assert ws[start..][..count] == ws[start..end];
  }

  // -----------------------------------------------------------------------
  // Map::from_reader
  // -----------------------------------------------------------------------

  /** How many groups `from_reader` walks: `count - 1` pairs of words,
      cut short where the words run out. */
  function GroupTotal(ws: seq<uint16>): (n: nat)
    requires |ws| > 0 && ws[0] > 0
    ensures n <= ws[0] - 1 && (n == 0 || n + 2 <= |ws|)
    ensures n == ws[0] - 1 || n + 2 == |ws| || |ws| < 2
  {
    Min(ws[0] - 1, if |ws| >= 2 then |ws| - 2 else 0)
  }

  /** Where group `i` lies: from word `i + 1` to word `i + 2`, an end of 0
      standing for the end of the file. */
  function GroupSpan(ws: seq<uint16>, i: nat): (span: (nat, nat))
    requires i + 2 < |ws|
    ensures span.0 == ws[i + 1]
    ensures span.1 == (if ws[i + 2] == 0 then |ws| else ws[i + 2])
  {
    var end := ws[i + 2];
    (ws[i + 1], if end == 0 then |ws| else end)
  }

  /** The icons of groups `i` up to `n`, in order. */
  function GroupsFrom(g: Reading, ws: seq<uint16>, i: nat, n: nat): (r: Result<seq<Icon>>)
    requires n == 0 || n + 2 <= |ws|
    ensures r.Err? ==> r.error == Panic
    decreases n - i
  {
    if i >= n then Ok([])
    else
      var span := GroupSpan(ws, i);
      var icons :- Group(g, ws, i, span.0, span.1);
      var rest :- GroupsFrom(g, ws, i + 1, n);
      Ok(icons + rest)
  }

  /** The icons of a map whose words are `ws`.  `first().unwrap()` panics
      on an empty file and `count - 1` underflows on a count of zero. */
  function FromWords(g: Reading, ws: seq<uint16>): (r: Result<Map>)
    ensures |ws| == 0 ==> r == Err(Panic)
    ensures |ws| > 0 && ws[0] == 0 ==> r == Err(Panic)
    ensures r.Err? ==> r.error == Panic
  {
    if |ws| == 0 || ws[0] == 0 then Err(Panic)
    else
      var icons :- GroupsFrom(g, ws, 0, GroupTotal(ws));
      Ok(Map(icons))
  }

  /** The words of the file, then the groups under reading `g`. */
  function ReadMap(g: Reading, data: seq<uint8>): (r: Result<Map>)
    ensures |data| % 2 == 1 ==> r == Err(UnexpectedEndOfFile)
    ensures |data| < 2 ==> r.Err?
  {
    var ws :- ReadWords(data);
    FromWords(g, ws)
  }

  /** `Map::from_reader`, an empty group of a single-tile shape dividing
      by zero as the source does. */
  function FromReader(data: seq<uint8>): (r: Result<Map>)
    ensures |data| % 2 == 1 ==> r == Err(UnexpectedEndOfFile)
    ensures |data| < 2 ==> r.Err?
  {
    ReadMap(AsWritten, data)
  }

  /** `Map::from_reader` with an empty group yielding no icon. */
  function FromReaderIntended(data: seq<uint8>): (r: Result<Map>)
    ensures |data| % 2 == 1 ==> r == Err(UnexpectedEndOfFile)
    ensures |data| < 2 ==> r.Err?
  {
    ReadMap(Intended, data)
  }

  /** A valid icon: as many tiles as its shape has, and at least one. */
  predicate WellFormed(icon: Icon)
  {
    |icon.tiles| == Area(icon.shape) > 0
  }

  /** Every icon of a group is well formed. */
  lemma GroupWellFormed(ws: seq<uint16>, index: nat, start: nat, end: nat)
    requires GroupIcons(ws, index, start, end).Ok?
    ensures forall k :: 0 <= k < |GroupIcons(ws, index, start, end).value| ==> WellFormed(GroupIcons(ws, index, start, end).value[k])
  {
    if start < end {
      GroupIconsContent(ws, index, start, end);
    }
  }

  /** Groups `i` up to `n` succeed exactly when each of them does, and
      then every icon they give is well formed. */
  lemma {:induction false} GroupsFromSpec(g: Reading, ws: seq<uint16>, i: nat, n: nat)
    requires n == 0 || n + 2 <= |ws|
    ensures GroupsFrom(g, ws, i, n).Ok? <==>
      forall j :: i <= j < n ==> Group(g, ws, j, GroupSpan(ws, j).0, GroupSpan(ws, j).1).Ok?
    ensures GroupsFrom(g, ws, i, n).Ok? ==>
      forall k :: 0 <= k < |GroupsFrom(g, ws, i, n).value| ==> WellFormed(GroupsFrom(g, ws, i, n).value[k])
    decreases n - i
  {
    if i < n {
      GroupsFromSpec(g, ws, i + 1, n);
      var span := GroupSpan(ws, i);
      var first := Group(g, ws, i, span.0, span.1);
      if first.Ok? {
        GroupWellFormed(ws, i, span.0, span.1);
      }
      if first.Ok? && GroupsFrom(g, ws, i + 1, n).Ok? {
        var rest := GroupsFrom(g, ws, i + 1, n).value;
        var all := GroupsFrom(g, ws, i, n).value;
        assert all == first.value + rest;
        forall k | 0 <= k < |all|
          ensures WellFormed(all[k])
        {
          if k >= |first.value| {
            assert all[k] == rest[k - |first.value|];
          }
        }
      }
    }
  }

  /** Where the source's grouping succeeds it gives what the intended one
      gives, and the two part ways only at an empty group. */
  lemma {:induction false} GroupsFromAgree(ws: seq<uint16>, i: nat, n: nat)
    requires n == 0 || n + 2 <= |ws|
    ensures GroupsFrom(AsWritten, ws, i, n).Ok? ==> GroupsFrom(AsWritten, ws, i, n) == GroupsFrom(Intended, ws, i, n)
    ensures GroupsFrom(AsWritten, ws, i, n) != GroupsFrom(Intended, ws, i, n) ==>
      exists j :: i <= j < n && GroupSpan(ws, j).0 == GroupSpan(ws, j).1
    decreases n - i
  {
    if i < n {
      GroupsFromAgree(ws, i + 1, n);
      var span := GroupSpan(ws, i);
      if GroupsFrom(AsWritten, ws, i, n) != GroupsFrom(Intended, ws, i, n) && span.0 != span.1 {
        assert Group(AsWritten, ws, i, span.0, span.1) == Group(Intended, ws, i, span.0, span.1);
        assert GroupsFrom(AsWritten, ws, i + 1, n) != GroupsFrom(Intended, ws, i + 1, n);
      }
    }
  }

  /** `from_reader` succeeds exactly when the file is whole words, its
      count is positive and every walked group succeeds; every icon it
      gives has as many tiles as its shape. */
  lemma FromReaderSpec(g: Reading, data: seq<uint8>)
    ensures var r := ReadMap(g, data);
      r.Ok? <==> (|data| % 2 == 0 &&
        var ws := ReadWords(data).value;
        |ws| > 0 && ws[0] > 0 &&
        forall j :: 0 <= j < GroupTotal(ws) ==> Group(g, ws, j, GroupSpan(ws, j).0, GroupSpan(ws, j).1).Ok?)
    ensures var r := ReadMap(g, data);
      r.Ok? ==> forall k :: 0 <= k < |r.value.icons| ==> WellFormed(r.value.icons[k])
  {
    if |data| % 2 == 0 {
      var ws := ReadWords(data).value;
      if |ws| > 0 && ws[0] > 0 {
        GroupsFromSpec(g, ws, 0, GroupTotal(ws));
      }
    }
  }

  /** Where the source's `from_reader` succeeds it reads what the intended
      one reads. */
  lemma FromReaderAgrees(data: seq<uint8>)
    ensures FromReader(data).Ok? ==> FromReader(data) == FromReaderIntended(data)
  {
    if |data| % 2 == 0 {
      var ws := ReadWords(data).value;
      if |ws| > 0 && ws[0] > 0 {
        GroupsFromAgree(ws, 0, GroupTotal(ws));
      }
    }
  }

  /** The six bytes `02 00 03 00 03 00`: a count of 2, so one group, whose
      start and end are both word 3.  It is empty and single-tile: the
      source divides by zero, the intended reading gives a map without
      icons. */
  lemma EmptyGroupFileCounterexample(data: seq<uint8>)
    requires data == [2, 0, 3, 0, 3, 0]
    ensures FromReader(data) == Err(Panic)
    ensures FromReaderIntended(data) == Ok(Map([]))
  {
    var ws: seq<uint16> := [2, 3, 3];
    ReadWordsRoundTrip(ws, 0);
    assert WordBytes(ws) == data;
    assert GroupTotal(ws) == 1;
    EmptySingleTileGroupPanics();
    assert GroupSpan(ws, 0) == (3, 3);
    assert GroupsFrom(AsWritten, ws, 0, 1) == Err(Panic);
    assert Group(Intended, ws, 0, 3, 3) == Ok([]);
    assert GroupsFrom(Intended, ws, 1, 1) == Ok([]);
    var none: seq<Icon> := [];
    assert none + none == none;
    assert GroupsFrom(Intended, ws, 0, 1) == Ok([]);
  }

  /** Reading the bytes of a list of words is reading the words. */
  lemma FromReaderOfWords(g: Reading, ws: seq<uint16>)
    ensures ReadMap(g, WordBytes(ws)) == FromWords(g, ws)
  {
    ReadWordsRoundTrip(ws, 0);
  }
}

=== FILE: packaged_bitmap.dfy ===
/** The `bitmap` crate of packages/bitmap/src/lib.rs: an RGB bitmap with
    signed point addressing, the rect point iterator, pixel access,
    `fill_rect`, `clear` and the unscaled `blit`.  The crate's `Rect` and
    `Size` are the ones of packages/dune2/src/rect.rs (module `Rects`), with
    i32 corners taken as unbounded integers. */
module Bitmaps {
  import opened Common
  import opened Geometry
  import opened Rects
  import opened PointRows
  import opened Bytes
  import opened Reader
  import Colors
  import BmpWriters

  type Color = Colors.Color

  // -----------------------------------------------------------------------
  // RectIterator
  // -----------------------------------------------------------------------

  /** The state of `RectIterator`: the rect and the next point. */
  datatype RectWalk = RectWalk(rect: Rect, current: IPoint)

  /** `RectIterator::new`: the walk starts at the top left corner. */
  function Walk(r: Rect): RectWalk
  {
    RectWalk(r, r.topLeft)
  }

  /** The point after the current one: one column to the right, or the
      start of the next row after the last column. */
  function Advance(it: RectWalk): IPoint
  {
    if it.current.x < Right(it.rect) - 1 then IPoint(it.current.x + 1, it.current.y)
    else IPoint(Left(it.rect), it.current.y + 1)
  }

  /** Everything `next` yields as written: it goes on while the current row
      is above `bottom - 1`, so the last row of the rect is never
      reached. */
  function CollectAsWritten(it: RectWalk): seq<IPoint>
    decreases Bottom(it.rect) - it.current.y, Right(it.rect) - it.current.x
  {
    if it.current.y < Bottom(it.rect) - 1 then [it.current] + CollectAsWritten(it.(current := Advance(it)))
    else []
  }

  /** `rect.iter()` as written. */
  function PointsAsWritten(r: Rect): seq<IPoint>
  {
    CollectAsWritten(Walk(r))
  }

  /** The iterator as evidently intended: it goes on while the current row
      is inside the rect, and yields nothing for a rect without columns. */
  function Collect(it: RectWalk): seq<IPoint>
    decreases Bottom(it.rect) - it.current.y, Right(it.rect) - it.current.x
  {
    if Width(it.rect) > 0 && it.current.y < Bottom(it.rect) then [it.current] + Collect(it.(current := Advance(it)))
    else []
  }

  /** `rect.iter()` as evidently intended. */
  function Points(r: Rect): seq<IPoint>
  {
    Collect(Walk(r))
  }

  /** From a point of a row, the walk as written finishes that row and
      yields the rows below it up to `bottom - 2`. */
  lemma {:induction false} CollectAsWrittenFrom(r: Rect, x: int, y: int)
    requires Width(r) > 0 && Left(r) <= x < Right(r)
    ensures CollectAsWritten(RectWalk(r, IPoint(x, y))) ==
      if y < Bottom(r) - 1 then Span(x, Right(r), y) + Block(Left(r), Right(r), y + 1, Bottom(r) - 1) else []
    decreases Bottom(r) - y, Right(r) - x
  {
    if y < Bottom(r) - 1 {
      if x < Right(r) - 1 {
        CollectAsWrittenFrom(r, x + 1, y);
      } else {
        CollectAsWrittenFrom(r, Left(r), y + 1);
      }
    }
  }

  /** As written, the iterator misses the bottom row: it yields the rows
      `top` to `bottom - 2` of the rect, `width * (height - 1)` points. */
  lemma PointsAsWrittenSpec(r: Rect, p: IPoint)
    requires Width(r) > 0
    ensures PointsAsWritten(r) == Block(Left(r), Right(r), Top(r), Bottom(r) - 1)
    ensures p in PointsAsWritten(r) <==> Contains(r, p) && p.y < Bottom(r) - 1
    ensures Height(r) > 0 ==> |PointsAsWritten(r)| == Mul(Height(r) - 1, Width(r))
  {
    CollectAsWrittenFrom(r, Left(r), Top(r));
    BlockHas(Left(r), Right(r), Top(r), Bottom(r) - 1, p);
    if Height(r) > 0 {
      BlockLength(Left(r), Right(r), Top(r), Bottom(r) - 1);
    }
  }

  /** From a row of a rect without columns, the walk as written jumps from
      row to row at the left edge. */
  lemma {:induction false} CollectZeroWidth(r: Rect, y: int)
    requires Width(r) == 0
    ensures CollectAsWritten(RectWalk(r, IPoint(Left(r), y))) == Block(Left(r), Left(r) + 1, y, Bottom(r) - 1)
    decreases Bottom(r) - y
  {
    if y < Bottom(r) - 1 {
      CollectZeroWidth(r, y + 1);
      assert Span(Left(r), Left(r) + 1, y) == [IPoint(Left(r), y)];
    }
  }

  /** As written, a rect without columns but with two rows or more yields
      points of the left edge, none of which the rect contains. */
  lemma ZeroWidthAsWritten(r: Rect)
    requires Width(r) == 0
    ensures PointsAsWritten(r) == Block(Left(r), Left(r) + 1, Top(r), Bottom(r) - 1)
    ensures Height(r) >= 2 ==> |PointsAsWritten(r)| == Height(r) - 1 && PointsAsWritten(r)[0] == r.topLeft
    ensures forall k :: 0 <= k < |PointsAsWritten(r)| ==> !Contains(r, PointsAsWritten(r)[k])
  {
    CollectZeroWidth(r, Top(r));
    if Height(r) >= 2 {
      BlockLength(Left(r), Left(r) + 1, Top(r), Bottom(r) - 1);
      MulIsProduct(Height(r) - 1, 1);
    }
  }

  /** From a point of a row, the intended walk finishes that row and yields
      the rows below it. */
  lemma {:induction false} CollectFrom(r: Rect, x: int, y: int)
    requires Width(r) > 0 && Left(r) <= x < Right(r)
    ensures Collect(RectWalk(r, IPoint(x, y))) ==
      if y < Bottom(r) then Span(x, Right(r), y) + Block(Left(r), Right(r), y + 1, Bottom(r)) else []
    decreases Bottom(r) - y, Right(r) - x
  {
    if y < Bottom(r) {
      if x < Right(r) - 1 {
        CollectFrom(r, x + 1, y);
      } else {
        CollectFrom(r, Left(r), y + 1);
      }
    }
  }

  /** The intended iterator yields every point of the rect once, row by
      row: `width * height` points, exactly those the rect contains. */
  lemma PointsSpec(r: Rect, p: IPoint)
    ensures Points(r) == Block(Left(r), Right(r), Top(r), Bottom(r))
    ensures p in Points(r) <==> Contains(r, p)
    ensures |Points(r)| == Mul(Height(r), Width(r))
  {
    PointsBlock(r);
    BlockHas(Left(r), Right(r), Top(r), Bottom(r), p);
    BlockLength(Left(r), Right(r), Top(r), Bottom(r));
  }

  // -----------------------------------------------------------------------
  // Bitmap
  // -----------------------------------------------------------------------

  datatype Bitmap = Bitmap(width: uint32, height: uint32, pixels: seq<Color>)

  /** What `Bitmap::new` establishes and no method changes: one pixel per
      point. */
  predicate Valid(b: Bitmap)
  {
    |b.pixels| == Mul(b.width, b.height)
  }

  /** `Bitmap::new`: `width * height` black pixels; the u32 product panics
      when it overflows. */
  function New(width: uint32, height: uint32): (r: Result<Bitmap>)
    ensures r.Ok? ==> Valid(r.value) && r.value.width == width && r.value.height == height
    ensures r.Err? ==> r.error == Panic
  {
    var n := Mul(width, height);
    if n >= 0x1_0000_0000 then Err(Panic)
    else Ok(Bitmap(width, height, Repeat(Colors.Black, n)))
  }

  /** `Bitmap::rect`: the origin and the bitmap's size. */
  function BitmapRect(b: Bitmap): Rect
  {
    Rect(IPoint(0, 0), Size(b.width, b.height))
  }

  /** The points of the bitmap. */
  predicate InBitmap(b: Bitmap, p: IPoint)
  {
    Contains(BitmapRect(b), p)
  }

  /** `index`: `y * width + x`, negative for points left of or above the
      origin. */
  function Index(b: Bitmap, p: IPoint): int
  {
    p.y * b.width + p.x
  }

  /** Whether the index lands in the pixel vector; a negative index cast
      to usize is far past its end. */
  predicate Addressable(b: Bitmap, p: IPoint)
  {
    0 <= Index(b, p) < |b.pixels|
  }

  /** `pixel`: indexing the vector, which panics outside it. */
  function Pixel(b: Bitmap, p: IPoint): (r: Result<Color>)
    ensures r.Ok? <==> Addressable(b, p)
    ensures r.Err? ==> r.error == Panic
  {
    if Addressable(b, p) then Ok(b.pixels[Index(b, p)]) else Err(Panic)
  }

  /** `put_pixel`: writing into the vector, which panics outside it. */
  function PutPixel(b: Bitmap, p: IPoint, c: Color): (r: Result<Bitmap>)
    ensures r.Ok? <==> Addressable(b, p)
    ensures r.Ok? ==> r.value.width == b.width && r.value.height == b.height && |r.value.pixels| == |b.pixels|
    ensures r.Err? ==> r.error == Panic
  {
    if Addressable(b, p) then Ok(b.(pixels := b.pixels[Index(b, p) := c])) else Err(Panic)
  }

  /** Points of the bitmap have indices inside the pixel vector, distinct
      for distinct points. */
  lemma IndexInside(b: Bitmap, p: IPoint, q: IPoint)
    requires Valid(b) && InBitmap(b, p) && InBitmap(b, q)
    ensures Addressable(b, p)
    ensures p != q ==> Index(b, p) != Index(b, q)
  {
    var w: nat := b.width;
    MulIsProduct(w, b.height);
    var x: nat := p.x;
    var y: nat := p.y;
    RowMajorOf(w, x, y);
    RowMajor(w, b.height, y * w + x);
    var x': nat := q.x;
    var y': nat := q.y;
    RowMajorOf(w, x', y');
  }

  /** A new bitmap is black at every point. */
  lemma NewSpec(width: uint32, height: uint32, p: IPoint)
    requires New(width, height).Ok? && InBitmap(New(width, height).value, p)
    ensures Pixel(New(width, height).value, p) == Ok(Colors.Black)
  {
    IndexInside(New(width, height).value, p, p);
  }

  /** What `put_pixel` changes: the point written reads back the colour,
      every other point of the bitmap reads as before. */
  lemma PutThenPixel(b: Bitmap, p: IPoint, c: Color, q: IPoint)
    requires Valid(b) && InBitmap(b, p) && InBitmap(b, q)
    ensures PutPixel(b, p, c).Ok? && Valid(PutPixel(b, p, c).value)
    ensures Pixel(PutPixel(b, p, c).value, q) == if q == p then Ok(c) else Pixel(b, q)
  {
    IndexInside(b, p, q);
    IndexInside(b, q, p);
  }

  // -----------------------------------------------------------------------
  // Painting a sequence of points
  // -----------------------------------------------------------------------

  /** `put_pixel` at each point in turn, the colour given by `f`; the
      first point outside the pixel vector panics. */
  function Paint(b: Bitmap, ps: seq<IPoint>, f: IPoint -> Color): (r: Result<Bitmap>)
    ensures r.Ok? ==> r.value.width == b.width && r.value.height == b.height && |r.value.pixels| == |b.pixels|
    ensures r.Err? ==> r.error == Panic
    decreases |ps|
  {
    if |ps| == 0 then Ok(b)
    else
      var b' :- PutPixel(b, ps[0], f(ps[0]));
      Paint(b', ps[1..], f)
  }

  /** Painting succeeds exactly when every point has an index inside the
      pixel vector. */
  lemma {:induction false} PaintOk(b: Bitmap, ps: seq<IPoint>, f: IPoint -> Color)
    ensures Paint(b, ps, f).Ok? <==> forall k :: 0 <= k < |ps| ==> Addressable(b, ps[k])
    decreases |ps|
  {
    if |ps| > 0 && Addressable(b, ps[0]) {
      var b' := PutPixel(b, ps[0], f(ps[0])).value;
      PaintOk(b', ps[1..], f);
      assert forall k :: 0 <= k < |ps| - 1 ==> ps[1..][k] == ps[k + 1];
    }
  }

  /** Painting points of the bitmap gives each of them its colour and
      leaves the other points alone. */
  lemma {:induction false} PaintSpec(b: Bitmap, ps: seq<IPoint>, f: IPoint -> Color, q: IPoint)
    requires Valid(b) && InBitmap(b, q)
    requires forall k :: 0 <= k < |ps| ==> InBitmap(b, ps[k])
    ensures Paint(b, ps, f).Ok? && Valid(Paint(b, ps, f).value)
    ensures Pixel(Paint(b, ps, f).value, q) == if q in ps then Ok(f(q)) else Pixel(b, q)
    decreases |ps|
  {
    if |ps| > 0 {
      PutThenPixel(b, ps[0], f(ps[0]), q);
      var b' := PutPixel(b, ps[0], f(ps[0])).value;
      assert forall k :: 0 <= k < |ps| - 1 ==> ps[1..][k] == ps[k + 1];
      PaintSpec(b', ps[1..], f, q);
      assert q in ps <==> q == ps[0] || q in ps[1..] by {
        assert ps == [ps[0]] + ps[1..];
      }
    }
  }

  // -----------------------------------------------------------------------
  // fill_rect, clear
  // -----------------------------------------------------------------------

  /** `fill_rect` as written: `put_pixel` at each point the iterator
      yields. */
  function FillRectAsWritten(b: Bitmap, rect: Rect, color: Color): (r: Result<Bitmap>)
    ensures r.Ok? ==> r.value.width == b.width && r.value.height == b.height
  {
    Paint(b, PointsAsWritten(rect), _ => color)
  }

  /** `fill_rect` with the intended iterator. */
  function FillRect(b: Bitmap, rect: Rect, color: Color): (r: Result<Bitmap>)
    ensures r.Ok? ==> r.value.width == b.width && r.value.height == b.height
  {
    Paint(b, Points(rect), _ => color)
  }

  /** Whether every point of `rect` lies in the bitmap. */
  predicate Inside(b: Bitmap, rect: Rect)
  {
    Width(rect) == 0 || Height(rect) == 0 ||
    (0 <= Left(rect) && Right(rect) <= b.width && 0 <= Top(rect) && Bottom(rect) <= b.height)
  }

  /** As written, `fill_rect` of a rect inside the bitmap paints its points
      above the bottom row and nothing else. */
  lemma FillRectAsWrittenSpec(b: Bitmap, rect: Rect, color: Color, q: IPoint)
    requires Valid(b) && Inside(b, rect) && Width(rect) > 0 && InBitmap(b, q)
    ensures FillRectAsWritten(b, rect, color).Ok?
    ensures Pixel(FillRectAsWritten(b, rect, color).value, q) ==
      if Contains(rect, q) && q.y < Bottom(rect) - 1 then Ok(color) else Pixel(b, q)
  {
    var ps := PointsAsWritten(rect);
    forall k | 0 <= k < |ps|
      ensures InBitmap(b, ps[k])
    {
      PointsAsWrittenSpec(rect, ps[k]);
    }
    PointsAsWrittenSpec(rect, q);
    PaintSpec(b, ps, _ => color, q);
  }

  /** `fill_rect` paints exactly the points of the rect inside the bitmap. */
  lemma FillRectSpec(b: Bitmap, rect: Rect, color: Color, q: IPoint)
    requires Valid(b) && Inside(b, rect) && InBitmap(b, q)
    ensures FillRect(b, rect, color).Ok? && Valid(FillRect(b, rect, color).value)
    ensures Pixel(FillRect(b, rect, color).value, q) == if Contains(rect, q) then Ok(color) else Pixel(b, q)
  {
    var ps := Points(rect);
    forall k | 0 <= k < |ps|
      ensures InBitmap(b, ps[k])
    {
      PointsSpec(rect, ps[k]);
    }
    PointsSpec(rect, q);
    PaintSpec(b, ps, _ => color, q);
  }

  /** `clear` as written: `fill_rect` of the bitmap's own rect. */
  function ClearAsWritten(b: Bitmap, color: Color): (r: Result<Bitmap>)
    ensures r.Ok? ==> r.value.width == b.width && r.value.height == b.height
  {
    FillRectAsWritten(b, BitmapRect(b), color)
  }

  function Clear(b: Bitmap, color: Color): (r: Result<Bitmap>)
    ensures r.Ok? ==> r.value.width == b.width && r.value.height == b.height
  {
    FillRect(b, BitmapRect(b), color)
  }

  /** As written, `clear` leaves the bottom row as it was. */
  lemma ClearMissesBottomRow(b: Bitmap, color: Color, x: int)
    requires Valid(b) && 0 <= x < b.width && b.height > 0
    ensures ClearAsWritten(b, color).Ok?
    ensures Pixel(ClearAsWritten(b, color).value, IPoint(x, b.height - 1)) == Pixel(b, IPoint(x, b.height - 1))
  {
    FillRectAsWrittenSpec(b, BitmapRect(b), color, IPoint(x, b.height - 1));
  }

  /** The smallest input that shows it: clearing a new 1x1 bitmap to white
      leaves its one pixel black. */
  lemma ClearOneByOne()
    ensures New(1, 1).Ok?
    ensures ClearAsWritten(New(1, 1).value, Colors.Color(255, 255, 255)).Ok?
    ensures Pixel(ClearAsWritten(New(1, 1).value, Colors.Color(255, 255, 255)).value, IPoint(0, 0)) == Ok(Colors.Black)
  {
    ClearMissesBottomRow(New(1, 1).value, Colors.Color(255, 255, 255), 0);
    NewSpec(1, 1, IPoint(0, 0));
  }

  /** `clear` with the intended iterator sets every point. */
  lemma ClearFills(b: Bitmap, color: Color, q: IPoint)
    requires Valid(b) && InBitmap(b, q)
    ensures Clear(b, color).Ok? && Valid(Clear(b, color).value)
    ensures Pixel(Clear(b, color).value, q) == Ok(color)
  {
    FillRectSpec(b, BitmapRect(b), color, q);
  }

  // -----------------------------------------------------------------------
  // blit
  // -----------------------------------------------------------------------

  /** A rect clipped to a bitmap, or the zero rect when they miss. */
  function ClipOrZero(r: Rect, b: Bitmap): Rect
  {
    match Intersected(r, BitmapRect(b))
    case Some(c) => c
    case None => ZeroRect
  }

  /** The colour `pixel` reads, where it does not panic. */
  function SourceColor(src: Bitmap, p: IPoint): Color
  {
    if Addressable(src, p) then src.pixels[Index(src, p)] else Colors.Black
  }

  /** The loop of `blit` over the zipped iterators: read the source point,
      write the destination point. */
  function CopyPairs(dst: Bitmap, src: Bitmap, pairs: seq<(IPoint, IPoint)>): (r: Result<Bitmap>)
    ensures r.Err? ==> r.error == Panic
    decreases |pairs|
  {
    if |pairs| == 0 then Ok(dst)
    else
      var c :- Pixel(src, pairs[0].0);
      var d :- PutPixel(dst, pairs[0].1, c);
      CopyPairs(d, src, pairs[1..])
  }

  /** Copying from the points `ds` moved by `(dx, dy)` paints `ds` with the
      source colours there. */
  lemma {:induction false} CopyTranslated(dst: Bitmap, src: Bitmap, ds: seq<IPoint>, dx: int, dy: int, f: IPoint -> Color)
    requires forall k :: 0 <= k < |ds| ==> Addressable(src, Shift(ds[k], dx, dy))
    requires forall k :: 0 <= k < |ds| ==> f(ds[k]) == SourceColor(src, Shift(ds[k], dx, dy))
    ensures CopyPairs(dst, src, Zip(Translate(ds, dx, dy), ds)) == Paint(dst, ds, f)
    decreases |ds|
  {
    if |ds| > 0 {
      var pairs := Zip(Translate(ds, dx, dy), ds);
      assert pairs[1..] == Zip(Translate(ds[1..], dx, dy), ds[1..]);
      var put := PutPixel(dst, ds[0], f(ds[0]));
      if put.Ok? {
        CopyTranslated(put.value, src, ds[1..], dx, dy, f);
      }
    }
  }

  /** The common size of the clipped rects `blit` walks. */
  function BlitSize(sc: Rect, dc: Rect): Size
  {
    Size(Min(Width(sc), Width(dc)), Min(Height(sc), Height(dc)))
  }

  /** `blit` as written: both rects are clipped to their bitmaps (the zero
      rect when they miss), cut to their common size, and walked together
      from their top left corners. */
  function BlitAsWritten(dst: Bitmap, src: Bitmap, srcRect: Rect, dstRect: Rect): (r: Result<Bitmap>)
    ensures r.Err? ==> r.error == Panic
  {
    var sc := ClipOrZero(srcRect, src);
    var dc := ClipOrZero(dstRect, dst);
    var size := BlitSize(sc, dc);
    CopyPairs(dst, src, Zip(PointsAsWritten(FromPointAndSize(sc.topLeft, size)), PointsAsWritten(FromPointAndSize(dc.topLeft, size))))
  }

  /** `blit` with the intended iterator. */
  function Blit(dst: Bitmap, src: Bitmap, srcRect: Rect, dstRect: Rect): (r: Result<Bitmap>)
    ensures r.Err? ==> r.error == Panic
  {
    var sc := ClipOrZero(srcRect, src);
    var dc := ClipOrZero(dstRect, dst);
    var size := BlitSize(sc, dc);
    CopyPairs(dst, src, Zip(Points(FromPointAndSize(sc.topLeft, size)), Points(FromPointAndSize(dc.topLeft, size))))
  }

  /** The destination window of `blit`: the clipped destination cut to the
      common size. */
  function Window(dst: Bitmap, src: Bitmap, srcRect: Rect, dstRect: Rect): Rect
  {
    FromPointAndSize(ClipOrZero(dstRect, dst).topLeft, BlitSize(ClipOrZero(srcRect, src), ClipOrZero(dstRect, dst)))
  }

  /** The source point copied to `q`: the offset between the clipped
      corners. */
  function SourceOf(dst: Bitmap, src: Bitmap, srcRect: Rect, dstRect: Rect, q: IPoint): IPoint
  {
    var sc := ClipOrZero(srcRect, src);
    var dc := ClipOrZero(dstRect, dst);
    Shift(q, Left(sc) - Left(dc), Top(sc) - Top(dc))
  }

  /** The window lies in the destination, and its points copied from lie
      in the source. */
  lemma WindowInside(dst: Bitmap, src: Bitmap, srcRect: Rect, dstRect: Rect, q: IPoint)
    ensures Inside(dst, Window(dst, src, srcRect, dstRect))
    ensures Contains(Window(dst, src, srcRect, dstRect), q) ==>
      InBitmap(dst, q) && InBitmap(src, SourceOf(dst, src, srcRect, dstRect, q))
    ensures Width(Window(dst, src, srcRect, dstRect)) == 0 ==> Height(Window(dst, src, srcRect, dstRect)) == 0
  {
  }

  /** Copying from the points of the bitmap `ds` moved into the source
      gives each of them the source pixel and leaves the other points
      alone. */
  lemma CopyWindow(dst: Bitmap, src: Bitmap, ds: seq<IPoint>, dx: int, dy: int, q: IPoint)
    requires Valid(dst) && Valid(src) && InBitmap(dst, q)
    requires forall k :: 0 <= k < |ds| ==> InBitmap(dst, ds[k]) && InBitmap(src, Shift(ds[k], dx, dy))
    ensures CopyPairs(dst, src, Zip(Translate(ds, dx, dy), ds)).Ok?
    ensures Valid(CopyPairs(dst, src, Zip(Translate(ds, dx, dy), ds)).value)
    ensures Pixel(CopyPairs(dst, src, Zip(Translate(ds, dx, dy), ds)).value, q) ==
      if q in ds then Pixel(src, Shift(q, dx, dy)) else Pixel(dst, q)
  {
    var f := (p: IPoint) => SourceColor(src, Shift(p, dx, dy));
    forall k | 0 <= k < |ds|
      ensures Addressable(src, Shift(ds[k], dx, dy))
    {
      IndexInside(src, Shift(ds[k], dx, dy), Shift(ds[k], dx, dy));
    }
    CopyTranslated(dst, src, ds, dx, dy, f);
    PaintSpec(dst, ds, f, q);
  }

  /** The points of a rect, row by row. */
  lemma PointsBlock(r: Rect)
    ensures Points(r) == Block(Left(r), Right(r), Top(r), Bottom(r))
  {
    if Width(r) > 0 {
      CollectFrom(r, Left(r), Top(r));
    } else {
      BlockEmpty(Left(r), Right(r), Top(r), Bottom(r));
    }
  }

  /** Walking a rect of the same size elsewhere yields the same points
      moved by the offset between the corners. */
  lemma PointsShift(w: Rect, s: Rect)
    requires s.size == w.size
    ensures Points(s) == Translate(Points(w), Left(s) - Left(w), Top(s) - Top(w))
  {
    PointsBlock(w);
    PointsBlock(s);
    BlockMoved(Left(w), Right(w), Top(w), Bottom(w), Left(s), Right(s), Top(s), Bottom(s));
  }

  lemma PointsAsWrittenShift(w: Rect, s: Rect)
    requires s.size == w.size
    ensures PointsAsWritten(s) == Translate(PointsAsWritten(w), Left(s) - Left(w), Top(s) - Top(w))
  {
    var dx := Left(s) - Left(w);
    var dy := Top(s) - Top(w);
    if Width(w) == 0 {
      ZeroWidthAsWritten(w);
      ZeroWidthAsWritten(s);
      BlockShift(Left(w), Left(w) + 1, Top(w), Bottom(w) - 1, dx, dy);
    } else {
      CollectAsWrittenFrom(w, Left(w), Top(w));
      CollectAsWrittenFrom(s, Left(s), Top(s));
      BlockMoved(Left(w), Right(w), Top(w), Bottom(w) - 1, Left(s), Right(s), Top(s), Bottom(s) - 1);
    }
  }

  /** `blit` with the intended iterator copies the source, unscaled, onto
      every point of the window and leaves the rest of the destination
      alone. */
  lemma BlitSpec(dst: Bitmap, src: Bitmap, srcRect: Rect, dstRect: Rect, q: IPoint)
    requires Valid(dst) && Valid(src) && InBitmap(dst, q)
    ensures Blit(dst, src, srcRect, dstRect).Ok? && Valid(Blit(dst, src, srcRect, dstRect).value)
    ensures Pixel(Blit(dst, src, srcRect, dstRect).value, q) ==
      if Contains(Window(dst, src, srcRect, dstRect), q) then Pixel(src, SourceOf(dst, src, srcRect, dstRect, q))
      else Pixel(dst, q)
  {
    var sc := ClipOrZero(srcRect, src);
    var w := Window(dst, src, srcRect, dstRect);
    BlitCopies(dst, src, srcRect, dstRect);
    WindowCorners(dst, src, srcRect, dstRect);
    CopyRect(dst, src, w, Left(sc) - Left(w), Top(sc) - Top(w), q);
  }

  /** `blit` with the intended iterator copies from the points of the
      window moved into the source. */
  lemma BlitCopies(dst: Bitmap, src: Bitmap, srcRect: Rect, dstRect: Rect)
    ensures var w := Window(dst, src, srcRect, dstRect);
      var sc := ClipOrZero(srcRect, src);
      Blit(dst, src, srcRect, dstRect) ==
        CopyPairs(dst, src, Zip(Translate(Points(w), Left(sc) - Left(w), Top(sc) - Top(w)), Points(w)))
  {
    var sc := ClipOrZero(srcRect, src);
    var w := Window(dst, src, srcRect, dstRect);
    PointsShift(w, FromPointAndSize(sc.topLeft, w.size));
  }

  /** `blit` as written copies from the points of the window, bottom row
      left out, moved into the source. */
  lemma BlitAsWrittenCopies(dst: Bitmap, src: Bitmap, srcRect: Rect, dstRect: Rect)
    ensures var w := Window(dst, src, srcRect, dstRect);
      var sc := ClipOrZero(srcRect, src);
      BlitAsWritten(dst, src, srcRect, dstRect) ==
        CopyPairs(dst, src, Zip(Translate(PointsAsWritten(w), Left(sc) - Left(w), Top(sc) - Top(w)), PointsAsWritten(w)))
  {
    var sc := ClipOrZero(srcRect, src);
    var w := Window(dst, src, srcRect, dstRect);
    PointsAsWrittenShift(w, FromPointAndSize(sc.topLeft, w.size));
  }

  /** A non-empty window lies in the destination, and moved by the offset
      between the clipped corners, in the source. */
  lemma WindowCorners(dst: Bitmap, src: Bitmap, srcRect: Rect, dstRect: Rect)
    ensures var w := Window(dst, src, srcRect, dstRect);
      var sc := ClipOrZero(srcRect, src);
      CopyFits(dst, src, w, Left(sc) - Left(w), Top(sc) - Top(w))
  {
    var w := Window(dst, src, srcRect, dstRect);
    WindowInside(dst, src, srcRect, dstRect, w.topLeft);
    if Width(w) > 0 && Height(w) > 0 {
      WindowInside(dst, src, srcRect, dstRect, IPoint(Right(w) - 1, Bottom(w) - 1));
    }
  }

  /** A rect with no columns has no rows, and a non-empty one lies in the
      destination and, moved, in the source. */
  predicate CopyFits(dst: Bitmap, src: Bitmap, w: Rect, dx: int, dy: int)
  {
    (Width(w) == 0 ==> Height(w) == 0) &&
    (Width(w) > 0 && Height(w) > 0 ==>
      0 <= Left(w) && Right(w) <= dst.width && 0 <= Top(w) && Bottom(w) <= dst.height &&
      0 <= Left(w) + dx && Right(w) + dx <= src.width && 0 <= Top(w) + dy && Bottom(w) + dy <= src.height)
  }

  /** Copying onto the points of a rect that fits. */
  lemma CopyRect(dst: Bitmap, src: Bitmap, w: Rect, dx: int, dy: int, q: IPoint)
    requires Valid(dst) && Valid(src) && InBitmap(dst, q) && CopyFits(dst, src, w, dx, dy)
    ensures CopyPairs(dst, src, Zip(Translate(Points(w), dx, dy), Points(w))).Ok?
    ensures Valid(CopyPairs(dst, src, Zip(Translate(Points(w), dx, dy), Points(w))).value)
    ensures Pixel(CopyPairs(dst, src, Zip(Translate(Points(w), dx, dy), Points(w))).value, q) ==
      if Contains(w, q) then Pixel(src, Shift(q, dx, dy)) else Pixel(dst, q)
  {
    var ds := Points(w);
    PointsSpec(w, q);
    forall k | 0 <= k < |ds|
      ensures InBitmap(dst, ds[k]) && InBitmap(src, Shift(ds[k], dx, dy))
    {
      PointsSpec(w, ds[k]);
    }
    CopyWindow(dst, src, ds, dx, dy, q);
  }

  /** Copying onto the points the iterator as written yields for a rect
      that fits. */
  lemma CopyRectAsWritten(dst: Bitmap, src: Bitmap, w: Rect, dx: int, dy: int, q: IPoint)
    requires Valid(dst) && Valid(src) && InBitmap(dst, q) && CopyFits(dst, src, w, dx, dy)
    ensures CopyPairs(dst, src, Zip(Translate(PointsAsWritten(w), dx, dy), PointsAsWritten(w))).Ok?
    ensures Pixel(CopyPairs(dst, src, Zip(Translate(PointsAsWritten(w), dx, dy), PointsAsWritten(w))).value, q) ==
      if Contains(w, q) && q.y < Bottom(w) - 1 then Pixel(src, Shift(q, dx, dy)) else Pixel(dst, q)
  {
    var ds := PointsAsWritten(w);
    if Width(w) == 0 {
      ZeroWidthAsWritten(w);
    } else {
      PointsAsWrittenSpec(w, q);
      forall k | 0 <= k < |ds|
        ensures InBitmap(dst, ds[k]) && InBitmap(src, Shift(ds[k], dx, dy))
      {
        PointsAsWrittenSpec(w, ds[k]);
      }
    }
    CopyWindow(dst, src, ds, dx, dy, q);
  }

  /** As written, `blit` misses the bottom row of the window. */
  lemma BlitAsWrittenSpec(dst: Bitmap, src: Bitmap, srcRect: Rect, dstRect: Rect, q: IPoint)
    requires Valid(dst) && Valid(src) && InBitmap(dst, q)
    ensures BlitAsWritten(dst, src, srcRect, dstRect).Ok?
    ensures Pixel(BlitAsWritten(dst, src, srcRect, dstRect).value, q) ==
      var w := Window(dst, src, srcRect, dstRect);
      if Contains(w, q) && q.y < Bottom(w) - 1 then Pixel(src, SourceOf(dst, src, srcRect, dstRect, q))
      else Pixel(dst, q)
  {
    var sc := ClipOrZero(srcRect, src);
    var w := Window(dst, src, srcRect, dstRect);
    BlitAsWrittenCopies(dst, src, srcRect, dstRect);
    WindowCorners(dst, src, srcRect, dstRect);
    CopyRectAsWritten(dst, src, w, Left(sc) - Left(w), Top(sc) - Top(w), q);
  }

  // -----------------------------------------------------------------------
  // write: a 24-bit BMP file
  // -----------------------------------------------------------------------

  /** The u32 whose little-endian bytes are `ppi2ppm(300).to_be_bytes()`:
      1181 byte-swapped. */
  const SwappedPixelsPerMeter: uint32 := 0x9D04_0000

  /** Written big-endian, 1181 fills the field with the bytes of
      2634285056 as a little-endian reader sees them. */
  lemma SwappedBytes()
    ensures LeBytes(SwappedPixelsPerMeter, 4) == Reverse(LeBytes(BmpWriters.PixelsPerMeter, 4))
    ensures BeValue(LeBytes(SwappedPixelsPerMeter, 4)) == BmpWriters.PixelsPerMeter
  {
    assert LeBytes(SwappedPixelsPerMeter, 4) == [0x00, 0x00, 0x04, 0x9D];
    assert LeBytes(BmpWriters.PixelsPerMeter, 4) == [0x9D, 0x04, 0x00, 0x00];
    assert Reverse([0x00, 0x00, 0x04, 0x9D]) == [0x9D, 0x04, 0x00, 0x00];
    BeIsReversedLe(LeBytes(SwappedPixelsPerMeter, 4));
    Pow256Values();
    LeRoundTrip(BmpWriters.PixelsPerMeter, 4);
  }

  /** `4 * ceil(3 * width / 4)`, in exact arithmetic: a row of blue-green-red
      pixels rounded up to whole 32-bit words. */
  function RowSize24(width: nat): (r: nat)
    ensures 3 * width <= r < 3 * width + 4 && r % 4 == 0
  {
    DivIsQuotient(3 * width + 3, 4);
    4 * Div(3 * width + 3, 4)
  }

  /** The 24-bit row size is the one the palette writer computes from the
      depth in bits. */
  lemma RowSize24Agrees(width: nat)
    ensures RowSize24(width) == BmpWriters.RowSize(24, width)
  {
    var a := 3 * width + 3;
    DivIsQuotient(a, 4);
    DivIsQuotient(Mul(24, width) + 31, 32);
    MulIsProduct(24, width);
    DivModUnique(24 * width + 31, 32, a / 4, 8 * (a % 4) + 7);
  }

  /** Blue, green and red of each colour, in order. */
  function Bgr(cs: seq<Color>): (r: seq<uint8>)
    ensures |r| == 3 * |cs|
  {
    if |cs| == 0 then [] else [cs[0].blue, cs[0].green, cs[0].red] + Bgr(cs[1..])
  }

  /** Colour `i` is written at byte `3 * i`. */
  lemma {:induction false} BgrAt(cs: seq<Color>)
    ensures forall i :: 0 <= i < |cs| ==> SliceAt(Bgr(cs), 3 * i, [cs[i].blue, cs[i].green, cs[i].red])
  {
    if |cs| > 0 {
      var head := [cs[0].blue, cs[0].green, cs[0].red];
      var rest := Bgr(cs[1..]);
      BgrAt(cs[1..]);
      SliceAtConcat(head, rest, 0, head);
      forall i | 1 <= i < |cs|
        ensures SliceAt(Bgr(cs), 3 * i, [cs[i].blue, cs[i].green, cs[i].red])
      {
        assert cs[1..][i - 1] == cs[i];
        SliceAtConcat(head, rest, 3 * (i - 1), [cs[i].blue, cs[i].green, cs[i].red]);
      }
    }
  }

  /** Row `y` of a valid bitmap lies inside its pixel vector. */
  lemma RowFits(b: Bitmap, y: nat)
    requires Valid(b) && y < b.height
    ensures Mul(y, b.width) + b.width <= |b.pixels|
  {
    var w: nat := b.width;
    MulIsProduct(y + 1, w);
    MulIsProduct(b.height, w);
    MulIsProduct(w, b.height);
    if y + 1 < b.height {
      MulAtLeast(b.height - (y + 1), w);
      assert b.height * w == (y + 1) * w + (b.height - (y + 1)) * w;
    }
  }

  /** Along row `y`, the index counts up from `y * width`. */
  lemma IndexInRow(b: Bitmap, x: int, y: nat)
    ensures Index(b, IPoint(x, y)) == Mul(y, b.width) + x
  {
    MulIsProduct(y, b.width);
  }

  /** Row `y` as written: the slice of the pixel vector that holds it, as
      blue-green-red bytes, then `pad` zero bytes. */
  function Row24(b: Bitmap, pad: nat, y: nat): (r: seq<uint8>)
    requires Valid(b) && y < b.height
    ensures |r| == 3 * b.width + pad
  {
    RowFits(b, y);
    var start := Mul(y, b.width);
    Bgr(b.pixels[start..start + b.width]) + Zeros(pad)
  }

  /** The rows of the bitmap, top to bottom. */
  function Rows24(b: Bitmap, pad: nat): (rows: seq<seq<uint8>>)
    requires Valid(b)
    ensures |rows| == b.height
    ensures forall y :: 0 <= y < b.height ==> rows[y] == Row24(b, pad, y)
  {
    seq(b.height, y requires 0 <= y < b.height => Row24(b, pad, y))
  }

  /** Every row is `3 * width + pad` bytes long. */
  lemma Rows24Len(b: Bitmap, pad: nat)
    requires Valid(b)
    ensures forall k :: 0 <= k < |Rows24(b, pad)| ==> |Rows24(b, pad)[k]| == 3 * b.width + pad
  {
  }

  /** `write` with `resolution` in the pixels-per-metre fields: "BM", the
      file header with the pixel array offset 54, the DIB header for 24
      bits per pixel and no colour table, then the rows from the bottom
      one up, each padded to whole words; the file size is patched in as a
      u32.  The row size `4 * ceil(3 * width / 4)` is a u32 and panics when
      it overflows; so does `3 * width`, which is no larger. */
  function WriteWith(b: Bitmap, resolution: uint32): (r: Result<seq<uint8>>)
    requires Valid(b)
    ensures r.Err? ==> r.error == Panic
  {
    var rowSize := RowSize24(b.width);
    if rowSize >= 0x1_0000_0000 then Err(Panic)
    else
      var pixels := BmpWriters.Stack(Rows24(b, rowSize - 3 * b.width));
      Ok(BmpWriters.Header(Info(b, |pixels|, resolution)) + pixels)
  }

  /** The header values of a file with a pixel array of `count` bytes. */
  function Info(b: Bitmap, count: nat, resolution: uint32): BmpWriters.HeaderInfo
  {
    BmpWriters.HeaderInfo(AsU32(BmpWriters.HeadersSize + count), BmpWriters.HeadersSize, b.width, b.height, 24, 0, resolution)
  }

  /** `write` as written: the resolution goes out big-endian. */
  function WriteAsWritten(b: Bitmap): (r: Result<seq<uint8>>)
    requires Valid(b)
  {
    WriteWith(b, SwappedPixelsPerMeter)
  }

  /** `write` with the resolution little-endian, as the BMP format and the
      palette writer have it. */
  function Write(b: Bitmap): (r: Result<seq<uint8>>)
    requires Valid(b)
  {
    WriteWith(b, BmpWriters.PixelsPerMeter)
  }

  /** Writing panics exactly for bitmaps too wide for a u32 row size;
      below a width of about 1.4 billion pixels it succeeds. */
  lemma WriteOk(b: Bitmap, resolution: uint32)
    requires Valid(b)
    ensures 3 * b.width + 4 <= 0x1_0000_0000 ==> WriteWith(b, resolution).Ok?
    ensures 3 * b.width >= 0x1_0000_0000 ==> WriteWith(b, resolution).Err?
  {
  }

  /** Headers `h` followed by a stack of rows of `rowLen` bytes: `h` in
      front, row `y` lying `n - 1 - y` row lengths after it. */
  lemma HeadThenRows(h: seq<uint8>, rows: seq<seq<uint8>>, rowLen: nat, y: nat, out: seq<uint8>, at: nat)
    requires forall k :: 0 <= k < |rows| ==> |rows[k]| == rowLen
    requires y < |rows| && out == h + BmpWriters.Stack(rows)
    requires at == |h| + Mul(|rows| - 1 - y, rowLen)
    ensures SliceAt(out, at, rows[y])
  {
    BmpWriters.StackAt(rows, rowLen);
    SliceAtConcat(h, BmpWriters.Stack(rows), Mul(|rows| - 1 - y, rowLen), rows[y]);
  }

  /** The written file is the headers, holding its own length as the file
      size, followed by `height` rows of `RowSize24(width)` bytes. */
  lemma WriteLayout(b: Bitmap, resolution: uint32)
    requires Valid(b) && WriteWith(b, resolution).Ok?
    ensures var out := WriteWith(b, resolution).value;
      |out| == BmpWriters.HeadersSize + Mul(b.height, RowSize24(b.width)) &&
      out[..BmpWriters.HeadersSize] == BmpWriters.Header(Info(b, Mul(b.height, RowSize24(b.width)), resolution))
  {
    var rowSize := RowSize24(b.width);
    var rows := Rows24(b, rowSize - 3 * b.width);
    BmpWriters.StackAt(rows, rowSize);
  }

  /** Row `y` lies `height - 1 - y` rows into the pixel array of the
      written file `out`. */
  lemma WriteRow(b: Bitmap, resolution: uint32, out: seq<uint8>, y: nat)
    requires Valid(b) && WriteWith(b, resolution) == Ok(out) && y < b.height
    ensures SliceAt(out, BmpWriters.HeadersSize + Mul(b.height - 1 - y, RowSize24(b.width)),
                    Row24(b, RowSize24(b.width) - 3 * b.width, y))
  {
    var rows := Rows24(b, RowSize24(b.width) - 3 * b.width);
    RowAfterHeaders(b, BmpWriters.Header(Info(b, |BmpWriters.Stack(rows)|, resolution)), rows, out, y);
  }

  /** `WriteRow` for any headers of the right length. */
  lemma RowAfterHeaders(b: Bitmap, h: seq<uint8>, rows: seq<seq<uint8>>, out: seq<uint8>, y: nat)
    requires Valid(b) && y < b.height && |h| == BmpWriters.HeadersSize
    requires rows == Rows24(b, RowSize24(b.width) - 3 * b.width) && out == h + BmpWriters.Stack(rows)
    ensures SliceAt(out, BmpWriters.HeadersSize + Mul(b.height - 1 - y, RowSize24(b.width)),
                    Row24(b, RowSize24(b.width) - 3 * b.width, y))
  {
    Rows24Len(b, RowSize24(b.width) - 3 * b.width);
    HeadThenRows(h, rows, RowSize24(b.width), y, out, BmpWriters.HeadersSize + Mul(b.height - 1 - y, RowSize24(b.width)));
  }

  /** Field `i` of a header, decoded little-endian from `out` at
      `2 + Offset(i)`, reads `value`. */
  predicate ReadsField(out: seq<uint8>, i: nat, value: nat)
  {
    2 + BmpWriters.Offset(i) + BmpWriters.FieldWidth(i) <= |out| &&
    LeValue(out[2 + BmpWriters.Offset(i)..2 + BmpWriters.Offset(i) + BmpWriters.FieldWidth(i)]) == value
  }

  /** A reader of the written headers finds "BM" and, decoding field `i`,
      the file length as its size, 54 as the pixel array offset, the
      bitmap's dimensions, 24 bits per pixel, no colour table and the
      resolution. */
  lemma WriteHeader(b: Bitmap, resolution: uint32, i: nat)
    requires Valid(b) && WriteWith(b, resolution).Ok? && i < BmpWriters.FieldCount
    ensures var out := WriteWith(b, resolution).value;
      |out| >= BmpWriters.HeadersSize && out[0] == 0x42 && out[1] == 0x4D &&
      ReadsField(out, i, BmpWriters.FieldValue(BmpWriters.HeaderInfo(AsU32(|out|), 54, b.width, b.height, 24, 0, resolution), i))
  {
    var out := WriteWith(b, resolution).value;
    WriteLayout(b, resolution);
    HeaderFields(b, resolution, out, i);
  }

  /** `WriteHeader` for any output laid out as `WriteLayout` says. */
  lemma HeaderFields(b: Bitmap, resolution: uint32, out: seq<uint8>, i: nat)
    requires i < BmpWriters.FieldCount
    requires |out| == BmpWriters.HeadersSize + Mul(b.height, RowSize24(b.width))
    requires out[..BmpWriters.HeadersSize] == BmpWriters.Header(Info(b, Mul(b.height, RowSize24(b.width)), resolution))
    ensures |out| >= BmpWriters.HeadersSize && out[0] == 0x42 && out[1] == 0x4D &&
      ReadsField(out, i, BmpWriters.FieldValue(BmpWriters.HeaderInfo(AsU32(|out|), 54, b.width, b.height, 24, 0, resolution), i))
  {
    BmpWriters.ReadHeaderField(out, Info(b, Mul(b.height, RowSize24(b.width)), resolution), i);
  }

  /** In row `y`, the colour of pixel `x` lies at byte `3 * x`. */
  lemma RowPixel(b: Bitmap, pad: nat, x: nat, y: nat)
    requires Valid(b) && x < b.width && y < b.height
    ensures Mul(y, b.width) + x < |b.pixels|
    ensures var c := b.pixels[Mul(y, b.width) + x];
      SliceAt(Row24(b, pad, y), 3 * x, [c.blue, c.green, c.red])
  {
    var start := Mul(y, b.width);
    RowFits(b, y);
    var cs := b.pixels[start..start + b.width];
    BgrAt(cs);
    SliceAtConcat(Bgr(cs), Zeros(pad), 3 * x, [cs[x].blue, cs[x].green, cs[x].red]);
  }

  /** Pixel `(x, y)` is written as its blue, green and red bytes, `3 * x`
      bytes into its row, which lies `height - 1 - y` rows into the pixel
      array. */
  lemma WritePixel(b: Bitmap, resolution: uint32, x: nat, y: nat)
    requires Valid(b) && WriteWith(b, resolution).Ok? && x < b.width && y < b.height
    ensures Pixel(b, IPoint(x, y)).Ok?
    ensures var c := Pixel(b, IPoint(x, y)).value;
      SliceAt(WriteWith(b, resolution).value,
              BmpWriters.HeadersSize + Mul(b.height - 1 - y, RowSize24(b.width)) + 3 * x,
              [c.blue, c.green, c.red])
  {
    var out := WriteWith(b, resolution).value;
    WriteRow(b, resolution, out, y);
    PixelInRow(b, out, x, y);
  }

  /** `WritePixel` for any output holding row `y` where `WriteRow` puts it. */
  lemma PixelInRow(b: Bitmap, out: seq<uint8>, x: nat, y: nat)
    requires Valid(b) && x < b.width && y < b.height
    requires SliceAt(out, BmpWriters.HeadersSize + Mul(b.height - 1 - y, RowSize24(b.width)),
                     Row24(b, RowSize24(b.width) - 3 * b.width, y))
    ensures Pixel(b, IPoint(x, y)).Ok?
    ensures var c := Pixel(b, IPoint(x, y)).value;
      SliceAt(out, BmpWriters.HeadersSize + Mul(b.height - 1 - y, RowSize24(b.width)) + 3 * x,
              [c.blue, c.green, c.red])
  {
    var pad := RowSize24(b.width) - 3 * b.width;
    RowPixel(b, pad, x, y);
    var c := b.pixels[Mul(y, b.width) + x];
    IndexInRow(b, x, y);
    SliceAtNested(out, BmpWriters.HeadersSize + Mul(b.height - 1 - y, RowSize24(b.width)),
                  Row24(b, pad, y), 3 * x, [c.blue, c.green, c.red]);
  }

  /** Each row ends in fewer than four zero bytes. */
  lemma WritePadding(b: Bitmap, resolution: uint32, y: nat, j: nat)
    requires Valid(b) && WriteWith(b, resolution).Ok? && y < b.height && 3 * b.width + j < RowSize24(b.width)
    ensures RowSize24(b.width) - 3 * b.width < 4
    ensures SliceAt(WriteWith(b, resolution).value,
                    BmpWriters.HeadersSize + Mul(b.height - 1 - y, RowSize24(b.width)) + 3 * b.width + j, [0])
  {
    var out := WriteWith(b, resolution).value;
    WriteRow(b, resolution, out, y);
    PaddingInRow(b, out, y, j);
  }

  /** `WritePadding` for any output holding row `y` where `WriteRow` puts
      it. */
  lemma PaddingInRow(b: Bitmap, out: seq<uint8>, y: nat, j: nat)
    requires Valid(b) && y < b.height && 3 * b.width + j < RowSize24(b.width)
    requires SliceAt(out, BmpWriters.HeadersSize + Mul(b.height - 1 - y, RowSize24(b.width)),
                     Row24(b, RowSize24(b.width) - 3 * b.width, y))
    ensures SliceAt(out, BmpWriters.HeadersSize + Mul(b.height - 1 - y, RowSize24(b.width)) + 3 * b.width + j, [0])
  {
    var pad := RowSize24(b.width) - 3 * b.width;
    RowFits(b, y);
    var cs := b.pixels[Mul(y, b.width)..Mul(y, b.width) + b.width];
    assert Zeros(pad)[j..j + 1] == [0];
    SliceAtConcat(Bgr(cs), Zeros(pad), j, [0]);
    SliceAtNested(out, BmpWriters.HeadersSize + Mul(b.height - 1 - y, RowSize24(b.width)),
                  Row24(b, pad, y), 3 * b.width + j, [0]);
  }

  /** As written, a BMP reader finds 2634285056 pixels per metre in both
      resolution fields instead of 1181; the corrected writer stores 1181. */
  lemma ResolutionAsWritten(b: Bitmap)
    requires Valid(b) && WriteAsWritten(b).Ok?
    ensures Write(b).Ok?
    ensures ReadsField(WriteAsWritten(b).value, 10, 0x9D04_0000)
    ensures ReadsField(Write(b).value, 10, BmpWriters.PixelsPerMeter)
  {
    WriteHeader(b, SwappedPixelsPerMeter, 10);
    WriteHeader(b, BmpWriters.PixelsPerMeter, 10);
  }
}

=== FILE: palette_dedup.dfy ===
/** The deduplicating palette of packages/bitmap/src/color.rs: a vector of
    colours plus a hash map from colour to position.  Unlike the palette of
    a `.pal` file, `add` never stores a colour twice: it returns the
    position the colour already has, or appends it. */
module DedupPalettes {
  import opened Common
  import Colors

  type Color = Colors.Color

  datatype DedupPalette = DedupPalette(index: map<Color, nat>, colors: seq<Color>)

  /** `Palette::new()` */
  const Empty := DedupPalette(map[], [])

  /** No colour occurs twice. */
  predicate Distinct(s: seq<Color>)
  {
    forall i, j :: 0 <= i < j < |s| ==> s[i] != s[j]
  }

  /** The map and the vector agree: every stored colour is found at its
      position, and the map holds nothing else. */
  ghost predicate Valid(p: DedupPalette)
  {
    (forall c :: c in p.index ==> p.index[c] < |p.colors| && p.colors[p.index[c]] == c) &&
    (forall i :: 0 <= i < |p.colors| ==> p.colors[i] in p.index && p.index[p.colors[i]] == i)
  }

  /** A valid palette holds every colour once. */
  lemma ValidDistinct(p: DedupPalette)
    requires Valid(p)
    ensures Distinct(p.colors)
  {
    forall i, j | 0 <= i < j < |p.colors|
      ensures p.colors[i] != p.colors[j]
    {
    }
  }

  lemma EmptyValid()
    ensures Valid(Empty) && Len(Empty) == 0
  {
  }

  /** `add`: a colour already present keeps its position and the palette
      does not change; a new colour is appended and gets the old length. */
  function Add(p: DedupPalette, c: Color): (r: (DedupPalette, nat))
    ensures Valid(p) ==> Valid(r.0)
    ensures Valid(p) && c in p.colors ==> r.0 == p && r.1 < |p.colors| && p.colors[r.1] == c
    ensures Valid(p) && c !in p.colors ==> r.0.colors == p.colors + [c] && r.1 == |p.colors|
  {
    if c in p.index then (p, p.index[c])
    else
      var q := DedupPalette(p.index[c := |p.colors|], p.colors + [c]);
      assert Valid(p) ==> Valid(q) by {
        if Valid(p) {
          forall d | d in q.index
            ensures q.index[d] < |q.colors| && q.colors[q.index[d]] == d
          {
            if d != c {
              assert q.index[d] == p.index[d];
            }
          }
          forall i | 0 <= i < |p.colors|
            ensures q.index[q.colors[i]] == i
          {
            assert p.colors[i] != c;
          }
        }
      }
      (q, |p.colors|)
  }

  function Len(p: DedupPalette): (n: nat)
    ensures n == |p.colors|
  {
    |p.colors|
  }

  /** `iter`: the colours in the order they were first added. */
  function Iter(p: DedupPalette): (r: seq<Color>)
    ensures |r| == Len(p)
    ensures forall i :: 0 <= i < |r| ==> r[i] == ColorAt(p, i)
  {
    p.colors
  }

  /** Iterating a valid palette yields each colour once, and exactly the
      colours `color_index` finds. */
  lemma IterDistinct(p: DedupPalette, c: Color)
    requires Valid(p)
    ensures Distinct(Iter(p))
    ensures c in Iter(p) <==> ColorIndex(p, c).Some?
  {
    ValidDistinct(p);
  }

  /** `color_index`: the map lookup, absent exactly for colours never
      added. */
  function ColorIndex(p: DedupPalette, c: Color): (r: Option<nat>)
    ensures Valid(p) ==> (r.Some? <==> c in p.colors)
    ensures Valid(p) && r.Some? ==> r.value < |p.colors| && p.colors[r.value] == c
  {
    if c in p.index then Some(p.index[c]) else None
  }

  /** `color_at`: indexing the vector, which panics past the end.  On a
      valid palette it inverts `color_index`. */
  function ColorAt(p: DedupPalette, i: nat): (c: Color)
    requires i < Len(p)
    ensures Valid(p) ==> ColorIndex(p, c) == Some(i)
  {
    p.colors[i]
  }

  /** What `add` makes visible: the colour at the returned index, found by
      `color_index`; earlier positions keep their colours. */
  lemma AddThenLookup(p: DedupPalette, c: Color)
    requires Valid(p)
    ensures var (q, i) := Add(p, c);
      i < Len(q) && ColorAt(q, i) == c && ColorIndex(q, c) == Some(i) &&
      Len(q) == (if c in p.colors then Len(p) else Len(p) + 1) &&
      forall j :: 0 <= j < Len(p) ==> ColorAt(q, j) == ColorAt(p, j)
  {
  }

  /** Adding a colour twice returns the same index and leaves the palette as
      the first addition left it. */
  lemma AddIdempotent(p: DedupPalette, c: Color)
    requires Valid(p)
    ensures Add(Add(p, c).0, c) == Add(p, c)
  {
  }

  // -----------------------------------------------------------------------
  // Adding a sequence of colours
  // -----------------------------------------------------------------------

  /** Reference meaning of a palette built from `cs`: the first occurrence
      of each colour, in order. */
  function FirstOccurrences(cs: seq<Color>): seq<Color>
    decreases |cs|
  {
    if |cs| == 0 then []
    else
      var init := cs[..|cs| - 1];
      if cs[|cs| - 1] in init then FirstOccurrences(init) else FirstOccurrences(init) + [cs[|cs| - 1]]
  }

  /** `add` applied to each colour of `cs` in turn, collecting the returned
      indices. */
  function AddAll(p: DedupPalette, cs: seq<Color>): (r: (DedupPalette, seq<nat>))
    decreases |cs|
  {
    if |cs| == 0 then (p, [])
    else
      var prev := AddAll(p, cs[..|cs| - 1]);
      var step := Add(prev.0, cs[|cs| - 1]);
      (step.0, prev.1 + [step.1])
  }

  /** Whether `idx` reads back `cs` from the colours `colors`. */
  predicate Encodes(colors: seq<Color>, idx: seq<nat>, cs: seq<Color>)
  {
    |idx| == |cs| && forall k :: 0 <= k < |cs| ==> idx[k] < |colors| && colors[idx[k]] == cs[k]
  }

  /** One `add` extends the encoding by the added colour. */
  lemma AddEncodes(q: DedupPalette, idx: seq<nat>, init: seq<Color>, c: Color)
    requires Valid(q) && Encodes(q.colors, idx, init)
    ensures Encodes(Add(q, c).0.colors, idx + [Add(q, c).1], init + [c])
  {
    var a := Add(q, c);
    forall k | 0 <= k < |init|
      ensures idx[k] < |a.0.colors| && a.0.colors[idx[k]] == init[k]
    {
      if c !in q.colors {
        assert a.0.colors[idx[k]] == q.colors[idx[k]];
      }
    }
  }

  /** One `add` extends the first occurrences by the added colour when it
      is new. */
  lemma AddFirst(q: DedupPalette, init: seq<Color>, c: Color)
    requires Valid(q) && q.colors == FirstOccurrences(init)
    requires forall d :: d in q.colors <==> d in init
    ensures Add(q, c).0.colors == FirstOccurrences(init + [c])
    ensures forall d :: d in Add(q, c).0.colors <==> d in init + [c]
  {
    assert (init + [c])[..|init|] == init;
  }

  /** Unfolds `AddAll` once, at the last colour. */
  lemma AddAllLast(p: DedupPalette, cs: seq<Color>)
    requires |cs| > 0
    ensures var prev := AddAll(p, cs[..|cs| - 1]);
      AddAll(p, cs) == (Add(prev.0, cs[|cs| - 1]).0, prev.1 + [Add(prev.0, cs[|cs| - 1]).1])
  {
  }

  /** Starting from an empty palette, adding `cs` stores its first
      occurrences in order, and every returned index reads its colour
      back: the palette and the index sequence together encode `cs`. */
  lemma {:induction false} AddAllSpec(cs: seq<Color>)
    ensures var r := AddAll(Empty, cs);
      Valid(r.0) && r.0.colors == FirstOccurrences(cs) &&
      (forall c :: c in r.0.colors <==> c in cs) &&
      Encodes(r.0.colors, r.1, cs)
    decreases |cs|
  {
    if |cs| > 0 {
      var init := cs[..|cs| - 1];
      var c := cs[|cs| - 1];
      AddAllSpec(init);
      var prev := AddAll(Empty, init);
      AddAllLast(Empty, cs);
      AddEncodes(prev.0, prev.1, init, c);
      AddFirst(prev.0, init, c);
      assert init + [c] == cs;
    }
  }

  /** The index sequence `add` returns for `cs` reads `cs` back through
      `color_at`. */
  lemma AddAllRoundTrip(cs: seq<Color>, k: nat)
    requires k < |cs|
    ensures var r := AddAll(Empty, cs);
      k < |r.1| && r.1[k] < Len(r.0) && ColorAt(r.0, r.1[k]) == cs[k]
  {
    AddAllSpec(cs);
  }

  /** A sequence without repeats has as many elements as its set. */
  lemma {:induction false} DistinctCard(s: seq<Color>)
    requires Distinct(s)
    ensures |set c | c in s| == |s|
    decreases |s|
  {
    if |s| > 0 {
      var init := s[..|s| - 1];
      var c := s[|s| - 1];
      DistinctCard(init);
      assert c !in init;
      assert (set d | d in s) == (set d | d in init) + {c} by {
        assert s == init + [c];
      }
    }
  }

  /** The palette built from `cs` has one entry per distinct colour. */
  lemma AddAllLen(cs: seq<Color>)
    ensures Len(AddAll(Empty, cs).0) == |set c | c in cs|
  {
    AddAllSpec(cs);
    var q := AddAll(Empty, cs).0;
    ValidDistinct(q);
    DistinctCard(q.colors);
    assert (set c | c in q.colors) == (set c | c in cs);
  }
}

=== FILE: point_rows.dfy ===
/** Reference meaning of the point iterators of the two bitmap crates: the
    points of a block of rows, each row scanned left to right, the rows
    top to bottom.  What each `RectIterator` yields is proved equal to such
    a block. */
module PointRows {
  import opened Common
  import opened Rects

  /** The points `(x, y)`, ..., `(xEnd - 1, y)`. */
  function Span(x: int, xEnd: int, y: int): seq<IPoint>
    decreases xEnd - x
  {
    if x >= xEnd then [] else [IPoint(x, y)] + Span(x + 1, xEnd, y)
  }

  /** Rows `y` to `yEnd - 1`, each from `left` to `right - 1`. */
  function Block(left: int, right: int, y: int, yEnd: int): seq<IPoint>
    decreases yEnd - y
  {
    if y >= yEnd then [] else Span(left, right, y) + Block(left, right, y + 1, yEnd)
  }

  /** A span holds the points of its row between its ends, once each, in
      order. */
  lemma {:induction false} SpanSpec(x: int, xEnd: int, y: int)
    ensures |Span(x, xEnd, y)| == Max(xEnd - x, 0)
    ensures forall k :: 0 <= k < |Span(x, xEnd, y)| ==> Span(x, xEnd, y)[k] == IPoint(x + k, y)
    decreases xEnd - x
  {
    if x < xEnd {
      SpanSpec(x + 1, xEnd, y);
    }
  }

  lemma SpanHas(x: int, xEnd: int, y: int, p: IPoint)
    ensures p in Span(x, xEnd, y) <==> p.y == y && x <= p.x < xEnd
  {
    SpanSpec(x, xEnd, y);
    if p.y == y && x <= p.x < xEnd {
      assert Span(x, xEnd, y)[p.x - x] == p;
    }
  }

  /** A block holds exactly the points between its edges. */
  lemma {:induction false} BlockHas(left: int, right: int, y: int, yEnd: int, p: IPoint)
    ensures p in Block(left, right, y, yEnd) <==> left <= p.x < right && y <= p.y < yEnd
    decreases yEnd - y
  {
    if y < yEnd {
      BlockHas(left, right, y + 1, yEnd, p);
      SpanHas(left, right, y, p);
    }
  }

  /** A block of `h` rows of `w` points has `h * w` points. */
  lemma {:induction false} BlockLength(left: int, right: int, y: int, yEnd: int)
    requires left <= right && y <= yEnd
    ensures |Block(left, right, y, yEnd)| == Mul(yEnd - y, right - left)
    decreases yEnd - y
  {
    if y < yEnd {
      BlockLength(left, right, y + 1, yEnd);
      SpanSpec(left, right, y);
    }
  }

  /** A block with no columns is empty. */
  lemma {:induction false} BlockEmpty(left: int, right: int, y: int, yEnd: int)
    requires right <= left
    ensures Block(left, right, y, yEnd) == []
    decreases yEnd - y
  {
    if y < yEnd {
      BlockEmpty(left, right, y + 1, yEnd);
    }
  }

  // -----------------------------------------------------------------------
  // Translation
  // -----------------------------------------------------------------------

  function Shift(p: IPoint, dx: int, dy: int): IPoint
  {
    IPoint(p.x + dx, p.y + dy)
  }

  /** Every point moved by `(dx, dy)`. */
  function Translate(ps: seq<IPoint>, dx: int, dy: int): (r: seq<IPoint>)
    ensures |r| == |ps|
    ensures forall k :: 0 <= k < |ps| ==> r[k] == Shift(ps[k], dx, dy)
  {
    seq(|ps|, k requires 0 <= k < |ps| => Shift(ps[k], dx, dy))
  }

  lemma TranslateConcat(a: seq<IPoint>, b: seq<IPoint>, dx: int, dy: int)
    ensures Translate(a + b, dx, dy) == Translate(a, dx, dy) + Translate(b, dx, dy)
  {
  }

  /** A moved span is the span between the moved ends. */
  lemma {:induction false} SpanShift(x: int, xEnd: int, y: int, dx: int, dy: int)
    ensures Span(x + dx, xEnd + dx, y + dy) == Translate(Span(x, xEnd, y), dx, dy)
    decreases xEnd - x
  {
    if x < xEnd {
      SpanShift(x + 1, xEnd, y, dx, dy);
      TranslateConcat([IPoint(x, y)], Span(x + 1, xEnd, y), dx, dy);
    }
  }

  /** A moved block is the block between the moved edges. */
  lemma {:induction false} BlockShift(left: int, right: int, y: int, yEnd: int, dx: int, dy: int)
    ensures Block(left + dx, right + dx, y + dy, yEnd + dy) == Translate(Block(left, right, y, yEnd), dx, dy)
    decreases yEnd - y
  {
    if y < yEnd {
      BlockShift(left, right, y + 1, yEnd, dx, dy);
      SpanShift(left, right, y, dx, dy);
      TranslateConcat(Span(left, right, y), Block(left, right, y + 1, yEnd), dx, dy);
    }
  }

  /** `BlockShift` with the moved block given by its own ends. */
  lemma BlockMoved(left: int, right: int, y: int, yEnd: int, left2: int, right2: int, y2: int, yEnd2: int)
    requires right2 - left2 == right - left && yEnd2 - y2 == yEnd - y
    ensures Block(left2, right2, y2, yEnd2) == Translate(Block(left, right, y, yEnd), left2 - left, y2 - y)
  {
    BlockShift(left, right, y, yEnd, left2 - left, y2 - y);
  }

  /** The pairs of `zip`: as many as the shorter sequence has. */
  function Zip<A, B>(a: seq<A>, b: seq<B>): (r: seq<(A, B)>)
    ensures |r| == Min(|a|, |b|)
    ensures forall k :: 0 <= k < |r| ==> r[k] == (a[k], b[k])
  {
    seq(Min(|a|, |b|), k requires 0 <= k < Min(|a|, |b|) => (a[k], b[k]))
  }
}

=== FILE: reader.dfy ===
/** A seekable byte source: the file contents plus a cursor.  Two read
    primitives model the two `std::io::Read` calls the decoders use:
    `read_exact`, which fails when too few bytes remain, and a single
    `read`, which fills what it can and leaves the rest of the buffer at 0.
    Also the integer readers of packages/dune2/src/io.rs (`read_exact`
    based) and packages/rctoolkit/src/io.rs (`read` based, either order). */
module Reader {
  import opened Common
  import opened Bytes

  /** The cursor may lie beyond the end of the data, as a seek past the end
      of a file does; reads there yield no bytes. */
  datatype Cursor = Cursor(data: seq<uint8>, pos: nat)

  function Remaining(c: Cursor): nat
  {
    if c.pos <= |c.data| then |c.data| - c.pos else 0
  }

  function Zeros(n: nat): (r: seq<uint8>)
    ensures |r| == n
    ensures forall i :: 0 <= i < n ==> r[i] == 0
  {
    seq(n, _ => 0)
  }

  /** `reader.read_exact(&mut buf)` with `buf.len() == n`. */
  function ReadExact(c: Cursor, n: nat): (r: Result<(seq<uint8>, Cursor)>)
    ensures r.Ok? <==> n <= Remaining(c)
    ensures r.Err? ==> r.error == UnexpectedEof
    ensures r.Ok? ==> |r.value.0| == n && r.value.1 == Cursor(c.data, c.pos + n)
    ensures r.Ok? ==> forall i :: 0 <= i < n ==> r.value.0[i] == c.data[c.pos + i]
  {
    if n == 0 then Ok(([], c))
    else if n <= Remaining(c) then Ok((c.data[c.pos..c.pos + n], Cursor(c.data, c.pos + n)))
    else Err(UnexpectedEof)
  }

  /** One `reader.read(&mut buf)` with a zeroed `buf` of length `n`: the
      available prefix is filled, the count read is returned and the tail
      keeps its zeros. */
  function ReadSome(c: Cursor, n: nat): (r: (seq<uint8>, nat, Cursor))
    ensures |r.0| == n
    ensures r.1 == Min(n, Remaining(c)) && r.2 == Cursor(c.data, c.pos + r.1)
    ensures forall i :: 0 <= i < r.1 ==> r.0[i] == c.data[c.pos + i]
    ensures forall i :: r.1 <= i < n ==> r.0[i] == 0
  {
    var k := Min(n, Remaining(c));
    var got := if k == 0 then [] else c.data[c.pos..c.pos + k];
    (got + Zeros(n - k), k, Cursor(c.data, c.pos + k))
  }

  /** `SeekFrom::Current(delta)` for a non-negative delta. */
  function Skip(c: Cursor, delta: nat): Cursor
  {
    Cursor(c.data, c.pos + delta)
  }

  /** The primitive integer types the readers are generated for. */
  datatype IntType = I8 | U8 | I16 | U16 | I32 | U32 | I64 | U64 | I128 | U128 {
    /** `std::mem::size_of::<T>()` */
    function Size(): nat
    {
      match this
      case I8 | U8 => 1
      case I16 | U16 => 2
      case I32 | U32 => 4
      case I64 | U64 => 8
      case I128 | U128 => 16
    }

    predicate Signed()
    {
      I8? || I16? || I32? || I64? || I128?
    }

    /** Whether `v` is a value of this type. */
    predicate Holds(v: int)
    {
      if Signed() then -(Pow256(Size()) as int) <= 2 * v < Pow256(Size())
      else 0 <= v < Pow256(Size())
    }
  }

  datatype ByteOrder = LSB | MSB

  /** `T::from_le_bytes` / `T::from_be_bytes` on exactly `size_of::<T>()` bytes. */
  function FromBytes(t: IntType, order: ByteOrder, bs: seq<uint8>): int
    requires |bs| == t.Size()
  {
    var u := if order == LSB then LeValue(bs) else BeValue(bs);
    if t.Signed() then ToSigned(u, t.Size()) else u
  }

  lemma FromBytesHolds(t: IntType, order: ByteOrder, bs: seq<uint8>)
    requires |bs| == t.Size()
    ensures t.Holds(FromBytes(t, order, bs))
  {
    LeValueBound(bs);
    LeValueBound(Reverse(bs));
    BeIsReversedLe(bs);
  }

  /** `FromLEReader::from_le_reader` of packages/dune2/src/io.rs: exactly
      `size_of::<T>()` bytes through `read_exact`, then `from_le_bytes`. */
  function FromLeReader(t: IntType, c: Cursor): (r: Result<(int, Cursor)>)
    ensures r.Ok? <==> t.Size() <= Remaining(c)
    ensures r.Err? ==> r.error == UnexpectedEof
    ensures r.Ok? ==> r.value.1 == Cursor(c.data, c.pos + t.Size())
    ensures r.Ok? ==> r.value.0 == FromBytes(t, LSB, c.data[c.pos..c.pos + t.Size()])
    ensures r.Ok? ==> t.Holds(r.value.0)
  {
    var (bs, c') :- ReadExact(c, t.Size());
    FromBytesHolds(t, LSB, bs);
    Ok((FromBytes(t, LSB, bs), c'))
  }

  /** Reading back the little-endian bytes of an unsigned value gives that
      value, and consumes exactly those bytes. */
  lemma FromLeReaderRoundTrip(t: IntType, v: nat, rest: seq<uint8>)
    requires !t.Signed() && v < Pow256(t.Size())
    ensures FromLeReader(t, Cursor(LeBytes(v, t.Size()) + rest, 0))
         == Ok((v, Cursor(LeBytes(v, t.Size()) + rest, t.Size())))
  {
    var bs := LeBytes(v, t.Size());
    assert (bs + rest)[0..t.Size()] == bs;
    LeRoundTrip(v, t.Size());
  }

  /** `T::try_read_from::<Ord>` of packages/rctoolkit/src/io.rs: one `read`
      into a zeroed buffer of `size_of::<T>()` bytes, decoded in the chosen
      byte order; a short read leaves the missing bytes at 0 and is not an
      error. */
  function TryReadFrom(t: IntType, order: ByteOrder, c: Cursor): (r: (int, Cursor))
    ensures t.Holds(r.0)
    ensures r.1 == Cursor(c.data, c.pos + Min(t.Size(), Remaining(c)))
    ensures t.Size() <= Remaining(c) ==> r.0 == FromBytes(t, order, c.data[c.pos..c.pos + t.Size()])
    ensures Remaining(c) == 0 ==> r.0 == 0
  {
    var (buf, _, c') := ReadSome(c, t.Size());
    ReadSomeBuffer(t, c);
    FromBytesHolds(t, order, buf);
    (FromBytes(t, order, buf), c')
  }

  lemma ReadSomeBuffer(t: IntType, c: Cursor)
    ensures Remaining(c) == 0 ==> ReadSome(c, t.Size()).0 == Zeros(t.Size())
    ensures t.Size() <= Remaining(c) ==> ReadSome(c, t.Size()).0 == c.data[c.pos..c.pos + t.Size()]
    ensures forall order :: Remaining(c) == 0 ==> FromBytes(t, order, ReadSome(c, t.Size()).0) == 0
  {
    if Remaining(c) == 0 {
      assert ReadSome(c, t.Size()).0 == Zeros(t.Size());
      ZerosDecodeToZero(t, LSB);
      ZerosDecodeToZero(t, MSB);
    }
  }

  lemma ZerosDecodeToZero(t: IntType, order: ByteOrder)
    ensures FromBytes(t, order, Zeros(t.Size())) == 0
  {
    ZerosLe(t.Size());
    ZerosBe(t.Size());
  }

  lemma {:induction false} ZerosLe(n: nat)
    ensures LeValue(Zeros(n)) == 0
  {
    if n > 0 {
      assert Zeros(n)[1..] == Zeros(n - 1);
      ZerosLe(n - 1);
    }
  }

  lemma {:induction false} ZerosBe(n: nat)
    ensures BeValue(Zeros(n)) == 0
  {
    if n > 0 {
      assert Zeros(n)[..n - 1] == Zeros(n - 1);
      ZerosBe(n - 1);
    }
  }

  // The unsigned reads the rctoolkit decoders make, written byte by byte:
  // a byte past the end reads as 0, which is what the zero-filled buffer of
  // `try_read_from` gives; the `…Agrees` lemmas connect the two.

  /** The byte `i` places after the cursor, or 0 past the end. */
  function PeekByte(c: Cursor, i: nat): (r: uint8)
    ensures i < Remaining(c) ==> r == c.data[c.pos + i]
    ensures i >= Remaining(c) ==> r == 0
  {
    if c.pos + i < |c.data| then c.data[c.pos + i] else 0
  }

  /** The cursor after a `read` of `n` bytes. */
  function Advance(c: Cursor, n: nat): Cursor
  {
    Cursor(c.data, c.pos + Min(n, Remaining(c)))
  }

  function ReadU8(c: Cursor): (r: (uint8, Cursor))
    ensures r.1 == Advance(c, 1)
    ensures Remaining(c) >= 1 ==> r.0 == c.data[c.pos]
    ensures Remaining(c) == 0 ==> r.0 == 0
  {
    (PeekByte(c, 0), Advance(c, 1))
  }

  function ReadU16Le(c: Cursor): (r: (uint16, Cursor))
    ensures r.1 == Advance(c, 2)
    ensures Remaining(c) >= 2 ==> r.0 == LeValue(c.data[c.pos..c.pos + 2])
  {
    LeValue2Of(c);
    (PeekByte(c, 0) as int + 256 * (PeekByte(c, 1) as int), Advance(c, 2))
  }

  function ReadU32Be(c: Cursor): (r: (uint32, Cursor))
    ensures r.1 == Advance(c, 4)
    ensures Remaining(c) >= 4 ==> r.0 == BeValue(c.data[c.pos..c.pos + 4])
  {
    BeValue4Of(c);
    (0x100_0000 * (PeekByte(c, 0) as int) + 0x1_0000 * (PeekByte(c, 1) as int)
       + 0x100 * (PeekByte(c, 2) as int) + PeekByte(c, 3) as int, Advance(c, 4))
  }

  lemma LeValue2Of(c: Cursor)
    ensures Remaining(c) >= 2 ==>
      LeValue(c.data[c.pos..c.pos + 2]) == PeekByte(c, 0) as int + 256 * (PeekByte(c, 1) as int)
  {
    if Remaining(c) >= 2 {
      LeValue2(c.data[c.pos..c.pos + 2]);
    }
  }

  lemma BeValue4Of(c: Cursor)
    ensures Remaining(c) >= 4 ==>
      BeValue(c.data[c.pos..c.pos + 4]) == 0x100_0000 * (PeekByte(c, 0) as int) + 0x1_0000 * (PeekByte(c, 1) as int)
        + 0x100 * (PeekByte(c, 2) as int) + PeekByte(c, 3) as int
  {
    if Remaining(c) >= 4 {
      BeValue4(c.data[c.pos..c.pos + 4]);
    }
  }

  /** The byte of a zero-filled `read` buffer at index `i`. */
  lemma ReadSomePeek(c: Cursor, n: nat, i: nat)
    requires i < n
    ensures ReadSome(c, n).0[i] == PeekByte(c, i)
  {
  }

  lemma ReadU8Agrees(c: Cursor)
    ensures ReadU8(c).0 == TryReadFrom(U8, LSB, c).0 && ReadU8(c).1 == TryReadFrom(U8, LSB, c).1
  {
    var buf := ReadSome(c, 1).0;
    ReadSomePeek(c, 1, 0);
    assert buf[1..] == [];
  }

  lemma ReadU16LeAgrees(c: Cursor)
    ensures ReadU16Le(c).0 == TryReadFrom(U16, LSB, c).0 && ReadU16Le(c).1 == TryReadFrom(U16, LSB, c).1
  {
    var buf := ReadSome(c, 2).0;
    ReadSomePeek(c, 2, 0);
    ReadSomePeek(c, 2, 1);
    LeValue2(buf);
  }

  lemma ReadU32BeAgrees(c: Cursor)
    ensures ReadU32Be(c).0 == TryReadFrom(U32, MSB, c).0 && ReadU32Be(c).1 == TryReadFrom(U32, MSB, c).1
  {
    var buf := ReadSome(c, 4).0;
    ReadSomePeek(c, 4, 0);
    ReadSomePeek(c, 4, 1);
    ReadSomePeek(c, 4, 2);
    ReadSomePeek(c, 4, 3);
    BeValue4(buf);
  }
}

=== FILE: rect.dfy ===
/** Rectangles over signed points, packages/dune2/src/rect.rs: a top-left
    corner and an unsigned size, the derived edges, normalisation from two
    corners, intersection, and the row-major point iterator.  The corner
    coordinates are i32 in the source; here they are unbounded integers, so
    `right` and `bottom` never wrap. */
module Rects {
  import opened Common
  import opened Geometry

  /** `Point` as rect.rs uses it: signed coordinates. */
  datatype IPoint = IPoint(x: int, y: int)

  datatype Rect = Rect(topLeft: IPoint, size: Size)

  /** `Rect::from_point_and_size` */
  function FromPointAndSize(topLeft: IPoint, size: Size): (r: Rect)
  {
    Rect(topLeft, size)
  }

  /** `Rect::zero()` */
  const ZeroRect := Rect(IPoint(0, 0), EmptySize)

  function Left(r: Rect): int { r.topLeft.x }
  function Top(r: Rect): int { r.topLeft.y }
  function Width(r: Rect): nat { r.size.width }
  function Height(r: Rect): nat { r.size.height }

  function Right(r: Rect): (v: int)
    ensures v >= Left(r)
  {
    r.topLeft.x + r.size.width
  }

  function Bottom(r: Rect): (v: int)
    ensures v >= Top(r)
  {
    r.topLeft.y + r.size.height
  }

  function TopRight(r: Rect): IPoint { IPoint(Right(r), Top(r)) }
  function BottomLeft(r: Rect): IPoint { IPoint(Left(r), Bottom(r)) }
  function BottomRight(r: Rect): IPoint { IPoint(Right(r), Bottom(r)) }

  /** The points a rect covers: right and bottom edges excluded. */
  predicate Contains(r: Rect, p: IPoint)
  {
    Left(r) <= p.x < Right(r) && Top(r) <= p.y < Bottom(r)
  }

  /** `Rect::from_points`: the componentwise minimum is the top left and
      the distances between the points are the size. */
  function FromPoints(p1: IPoint, p2: IPoint): (r: Rect)
    requires -0x1_0000_0000 < p1.x - p2.x < 0x1_0000_0000
    requires -0x1_0000_0000 < p1.y - p2.y < 0x1_0000_0000
    ensures Left(r) == Min(p1.x, p2.x) && Right(r) == Max(p1.x, p2.x)
    ensures Top(r) == Min(p1.y, p2.y) && Bottom(r) == Max(p1.y, p2.y)
  {
    var topLeft := IPoint(Min(p1.x, p2.x), Min(p1.y, p2.y));
    var bottomRight := IPoint(Max(p1.x, p2.x), Max(p1.y, p2.y));
    Rect(topLeft, Size(bottomRight.x - topLeft.x, bottomRight.y - topLeft.y))
  }

  /** The order of the two corners does not matter, and any pair of
      opposite corners of a rect gives the rect back. */
  lemma FromPointsNormalises(p1: IPoint, p2: IPoint, r: Rect)
    requires -0x1_0000_0000 < p1.x - p2.x < 0x1_0000_0000
    requires -0x1_0000_0000 < p1.y - p2.y < 0x1_0000_0000
    ensures FromPoints(p1, p2) == FromPoints(p2, p1)
    ensures FromPoints(r.topLeft, BottomRight(r)) == r
    ensures FromPoints(BottomRight(r), r.topLeft) == r
    ensures FromPoints(TopRight(r), BottomLeft(r)) == r
  {
  }

  /** `intersected`: the overlap of two rects, when it is not empty. */
  function Intersected(a: Rect, b: Rect): (r: Option<Rect>)
    ensures r.Some? <==> Max(Left(a), Left(b)) < Min(Right(a), Right(b)) && Max(Top(a), Top(b)) < Min(Bottom(a), Bottom(b))
    ensures r.Some? ==>
      Left(r.value) == Max(Left(a), Left(b)) && Right(r.value) == Min(Right(a), Right(b)) &&
      Top(r.value) == Max(Top(a), Top(b)) && Bottom(r.value) == Min(Bottom(a), Bottom(b))
  {
    var left := Max(Left(a), Left(b));
    var right := Min(Right(a), Right(b));
    var top := Max(Top(a), Top(b));
    var bottom := Min(Bottom(a), Bottom(b));
    if left < right && top < bottom then Some(FromPoints(IPoint(left, top), IPoint(right, bottom)))
    else None
  }

  /** The intersection covers exactly the points both rects cover; it is
      absent exactly when they share no point, and it does not depend on
      the order of the operands. */
  lemma IntersectedSpec(a: Rect, b: Rect, p: IPoint)
    ensures Intersected(a, b) == Intersected(b, a)
    ensures Intersected(a, b).Some? ==> (Contains(Intersected(a, b).value, p) <==> Contains(a, p) && Contains(b, p))
    ensures Intersected(a, b).None? ==> !(Contains(a, p) && Contains(b, p))
  {
  }

  /** Whether a rect has a point at all. */
  lemma IntersectedNoneIffDisjoint(a: Rect, b: Rect)
    ensures Intersected(a, b).None? <==> forall p :: !(Contains(a, p) && Contains(b, p))
  {
    if Intersected(a, b).Some? {
      var p := Intersected(a, b).value.topLeft;
      IntersectedSpec(a, b, p);
      assert Contains(a, p) && Contains(b, p);
    }
  }

  // -----------------------------------------------------------------------
  // RectIterator
  // -----------------------------------------------------------------------

  /** The state of `RectIterator`: a counter running up to
      `width * height`. */
  datatype RectIterator = RectIterator(rect: Rect, current: nat, last: nat)

  /** `RectIterator::new`; the u32 product must not overflow. */
  function Iter(r: Rect): (it: RectIterator)
    requires Width(r) * Height(r) < 0x1_0000_0000
  {
    RectIterator(r, 0, Width(r) * Height(r))
  }

  /** The point for counter value `n`: column `n % width`, row
      `n / width`. */
  function PointAt(r: Rect, n: nat): IPoint
    requires Width(r) > 0
  {
    IPoint(Left(r) + n % Width(r), Top(r) + n / Width(r))
  }

  /** `next`: the point for the counter, then the counter moves on. */
  function Next(it: RectIterator): (r: Option<(IPoint, RectIterator)>)
    ensures r.Some? ==> r.value.1 == it.(current := it.current + 1)
  {
    if it.current < it.last && Width(it.rect) > 0 then
      Some((PointAt(it.rect, it.current), it.(current := it.current + 1)))
    else None
  }

  /** Everything the iterator still yields. */
  function Collect(it: RectIterator): (ps: seq<IPoint>)
    decreases it.last - it.current
  {
    match Next(it)
    case None => []
    case Some((p, it')) => [p] + Collect(it')
  }

  /** The `k`-th point, counting from `it.current`. */
  lemma {:induction false} CollectSpec(it: RectIterator)
    requires it.current <= it.last && (it.last > 0 ==> Width(it.rect) > 0)
    ensures |Collect(it)| == it.last - it.current
    ensures forall k :: 0 <= k < |Collect(it)| ==> Collect(it)[k] == PointAt(it.rect, it.current + k)
    decreases it.last - it.current
  {
    if it.current < it.last {
      var it' := it.(current := it.current + 1);
      CollectSpec(it');
      assert Collect(it) == [PointAt(it.rect, it.current)] + Collect(it');
    }
  }

  /** A counter below `w * h` splits into a column below `w` and a row
      below `h`. */
  lemma RowMajor(w: nat, h: nat, k: nat)
    requires w > 0
    ensures k < w * h <==> k / w < h
    ensures (k / w) * w + k % w == k
  {
    var q := k / w;
    assert k == q * w + k % w;
    if q >= h {
      var d: int := q - h;
      assert q * w == h * w + d * w;
      assert d * w >= 0;
    } else {
      MulAtLeast(h - q, w);
      assert h * w == q * w + (h - q) * w;
    }
  }

  /** A counter below `w * h` is a column below `w` and a row below `h`. */
  lemma SplitCounter(w: nat, h: nat, k: nat) returns (col: nat, row: nat)
    requires k < w * h
    ensures col < w && row < h && row * w + col == k
  {
    if w > 0 {
      RowMajor(w, h, k);
      col, row := k % w, k / w;
    }
  }

  lemma RowMajorOf(w: nat, x: nat, y: nat)
    requires x < w
    ensures (y * w + x) / w == y && (y * w + x) % w == x
  {
    DivModUnique(y * w + x, w, y, x);
  }

  /** The iterator yields `width * height` points, the `k`-th at column
      `k % width` and row `k / width`; the zero rect yields none. */
  lemma IterSpec(r: Rect)
    requires Width(r) * Height(r) < 0x1_0000_0000
    ensures |Collect(Iter(r))| == Width(r) * Height(r)
    ensures Width(r) > 0 ==> forall k :: 0 <= k < Width(r) * Height(r) ==>
      Collect(Iter(r))[k] == IPoint(Left(r) + k % Width(r), Top(r) + k / Width(r))
    ensures Collect(Iter(ZeroRect)) == []
  {
    CollectSpec(Iter(r));
    CollectSpec(Iter(ZeroRect));
  }

  /** Counters below `width * height` name points of the rect. */
  lemma PointAtInside(r: Rect, k: nat)
    requires Width(r) > 0 && k < Width(r) * Height(r)
    ensures Contains(r, PointAt(r, k))
  {
    var w := Width(r);
    RowMajor(w, Height(r), k);
    var col := k % w;
    var row := k / w;
    assert 0 <= col < w && 0 <= row < Height(r);
    assert PointAt(r, k) == IPoint(Left(r) + col, Top(r) + row);
  }

  /** Every point of the rect has a counter below `width * height`. */
  lemma PointAtOnto(r: Rect, p: IPoint) returns (k: nat)
    requires Contains(r, p)
    ensures Width(r) > 0 && k < Width(r) * Height(r) && PointAt(r, k) == p
  {
    var w := Width(r);
    var x: nat := p.x - Left(r);
    var y: nat := p.y - Top(r);
    k := y * w + x;
    RowMajorOf(w, x, y);
    RowMajor(w, Height(r), k);
  }

  /** The points yielded are exactly the points of the rect. */
  lemma IterCovers(r: Rect, p: IPoint)
    requires Width(r) * Height(r) < 0x1_0000_0000
    ensures p in Collect(Iter(r)) <==> Contains(r, p)
  {
    var ps := Collect(Iter(r));
    CollectSpec(Iter(r));
    if p in ps {
      var k :| 0 <= k < |ps| && ps[k] == p;
      PointAtInside(r, k);
    }
    if Contains(r, p) {
      var k := PointAtOnto(r, p);
      assert ps[k] == p;
    }
  }
}

=== FILE: surface.dfy ===
/** Pixel surfaces and the drawing helpers built on them:
    packages/dune2/src/surface.rs (`Surface`), packages/dune2/src/bitmap.rs
    (`rect`, `fill_rect`, `clear`, `create_range_mapper`, `blit`,
    `point_to_index`) and packages/dune2/src/utils.rs (the signed
    `point_to_index`).  Surfaces are values: drawing returns a new surface. */
module Surfaces {
  import opened Common
  import opened Geometry
  import opened Rects
  import opened Colors

  // -----------------------------------------------------------------------
  // Surface
  // -----------------------------------------------------------------------

  /** A `width * height` grid of pixels, row after row.  `Surface` holds
      colours; tiles reuse the grid with palette indices as pixels. */
  datatype Surface<T> = Surface(size: Size, pixels: seq<T>)

  /** One colour per pixel, the pixel count a u32 product; so every point
      of the surface indexes the pixel vector (`ProductValid`). */
  ghost predicate Valid<T>(s: Surface<T>)
  {
    Covers(s.size, |s.pixels|)
  }

  /** `count` pixels are `width * height` of them, a u32, and every point
      of the size indexes one of them. */
  ghost predicate Covers(size: Size, count: nat)
  {
    count == Mul(size.width, size.height) < 0x1_0000_0000 &&
    forall p :: Contains(FromPointAndSize(IPoint(0, 0), size), p) ==> Index(p, size.width) < count
  }

  /** A grid of the given size with every pixel `value`. */
  function Filled<T>(size: Size, value: T): (s: Surface<T>)
    requires Mul(size.width, size.height) < 0x1_0000_0000
    ensures Valid(s) && s.size == size
    ensures forall p :: InBitmap(s, p) ==> GetPixel(s, p) == value
  {
    var s := Surface(size, Repeat(value, Mul(size.width, size.height)));
    ProductValid(s);
    s
  }

  /** `Surface::new`: every pixel the default colour. */
  function New(size: Size): (s: Surface<Color>)
    requires Mul(size.width, size.height) < 0x1_0000_0000
    ensures Valid(s) && s.size == size
    ensures forall p :: InBitmap(s, p) ==> GetPixel(s, p) == Black
  {
    Filled(size, Black)
  }

  function SurfaceWidth<T>(s: Surface<T>): nat { s.size.width }
  function SurfaceHeight<T>(s: Surface<T>): nat { s.size.height }

  /** `index`: the coordinates cast to u32, then `y * width + x`. */
  function Index(p: IPoint, width: nat): nat
  {
    Mul(AsU32(p.y), width) + AsU32(p.x)
  }

  /** Whether `get_pixel` / `put_pixel` at `p` stay inside the pixel
      vector; otherwise they panic. */
  predicate Addressable<T>(s: Surface<T>, p: IPoint)
  {
    Index(p, s.size.width) < |s.pixels|
  }

  function GetPixel<T>(s: Surface<T>, p: IPoint): T
    requires Addressable(s, p)
  {
    s.pixels[Index(p, s.size.width)]
  }

  function PutPixel<T>(s: Surface<T>, p: IPoint, c: T): (t: Surface<T>)
    requires Addressable(s, p)
    ensures t.size == s.size && |t.pixels| == |s.pixels|
  {
    s.(pixels := s.pixels[Index(p, s.size.width) := c])
  }

  /** `Bitmap::rect`: the origin and the surface's size. */
  function BitmapRect<T>(s: Surface<T>): (r: Rect)
  {
    FromPointAndSize(IPoint(0, 0), s.size)
  }

  /** The points of the surface. */
  predicate InBitmap<T>(s: Surface<T>, p: IPoint)
  {
    Contains(BitmapRect(s), p)
  }

  lemma BitmapRectSpec<T>(s: Surface<T>, p: IPoint)
    ensures Left(BitmapRect(s)) == 0 && Top(BitmapRect(s)) == 0
    ensures Width(BitmapRect(s)) == SurfaceWidth(s) && Height(BitmapRect(s)) == SurfaceHeight(s)
    ensures InBitmap(s, p) <==> 0 <= p.x < SurfaceWidth(s) && 0 <= p.y < SurfaceHeight(s)
  {
  }

  /** Inside the surface `index` is the row-major position, below the
      pixel count. */
  lemma IndexOfInside<T>(s: Surface<T>, p: IPoint)
    requires InBitmap(s, p) && |s.pixels| == Mul(s.size.width, s.size.height)
    ensures Index(p, s.size.width) == p.y * s.size.width + p.x < |s.pixels|
  {
    var w := s.size.width;
    var x: nat := p.x;
    var y: nat := p.y;
    MulIsProduct(y, w);
    MulIsProduct(w, s.size.height);
    RowMajorOf(w, x, y);
    RowMajor(w, s.size.height, y * w + x);
  }

  /** A pixel vector of `width * height` entries makes a valid surface. */
  lemma ProductValid<T>(s: Surface<T>)
    requires |s.pixels| == Mul(s.size.width, s.size.height) < 0x1_0000_0000
    ensures Valid(s)
  {
    forall p | Contains(FromPointAndSize(IPoint(0, 0), s.size), p)
      ensures Index(p, s.size.width) < |s.pixels|
    {
      IndexOfInside(s, p);
    }
  }

  /** Different points of the surface have different indices. */
  lemma IndexInjective<T>(s: Surface<T>, p: IPoint, q: IPoint)
    requires Valid(s) && InBitmap(s, p) && InBitmap(s, q) && p != q
    ensures Index(p, s.size.width) != Index(q, s.size.width)
  {
    IndexOfInside(s, p);
    IndexOfInside(s, q);
    var w := s.size.width;
    var x: nat := p.x;
    var y: nat := p.y;
    var x': nat := q.x;
    var y': nat := q.y;
    RowMajorOf(w, x, y);
    RowMajorOf(w, x', y');
  }

  /** What `put_pixel` changes: the point written reads back the colour,
      every other point of the surface reads as before. */
  lemma PutThenGet<T>(s: Surface<T>, p: IPoint, c: T, q: IPoint)
    requires Valid(s) && InBitmap(s, p) && InBitmap(s, q)
    ensures Valid(PutPixel(s, p, c))
    ensures GetPixel(PutPixel(s, p, c), q) == if q == p then c else GetPixel(s, q)
  {
    if q != p {
      IndexInjective(s, p, q);
    }
  }

  /** Every entry of the pixel vector is the pixel of some point. */
  lemma PixelAt<T>(s: Surface<T>, i: nat) returns (p: IPoint)
    requires Valid(s) && i < |s.pixels|
    ensures InBitmap(s, p) && Index(p, s.size.width) == i && GetPixel(s, p) == s.pixels[i]
  {
    MulIsProduct(s.size.width, s.size.height);
    var col, row := SplitCounter(s.size.width, s.size.height, i);
    p := IPoint(col, row);
    IndexOfInside(s, p);
  }

  /** Two surfaces of one size that agree on every point are equal. */
  lemma Extensional<T>(s: Surface<T>, t: Surface<T>)
    requires Valid(s) && Valid(t) && s.size == t.size
    requires forall q :: InBitmap(s, q) ==> GetPixel(s, q) == GetPixel(t, q)
    ensures s == t
  {
    forall i | 0 <= i < |s.pixels|
      ensures s.pixels[i] == t.pixels[i]
    {
      var p := PixelAt(s, i);
      assert GetPixel(t, p) == t.pixels[i];
    }
  }

  // -----------------------------------------------------------------------
  // Painting a rect
  // -----------------------------------------------------------------------

  /** Whether a rect lies inside the surface or covers nothing. */
  predicate Fits<T>(s: Surface<T>, r: Rect)
  {
    Width(r) == 0 || Height(r) == 0 ||
    (0 <= Left(r) && Right(r) <= SurfaceWidth(s) && 0 <= Top(r) && Bottom(r) <= SurfaceHeight(s))
  }

  /** The double loop `for y in top..bottom { for x in left..right { … } }`
      shared by `fill_rect` and `blit`: each point of `r` gets `f` of
      itself, row after row. */
  method Paint<T>(s: Surface<T>, r: Rect, f: IPoint -> T) returns (t: Surface<T>)
    requires Valid(s) && Fits(s, r)
    ensures Valid(t) && t.size == s.size
    ensures forall q :: InBitmap(s, q) ==> GetPixel(t, q) == if Contains(r, q) then f(q) else GetPixel(s, q)
  {
    t := s;
    var y := Top(r);
    while y < Bottom(r)
      invariant Top(r) <= y <= Bottom(r)
      invariant Valid(t) && t.size == s.size
      invariant forall q :: InBitmap(s, q) ==>
        GetPixel(t, q) == if Contains(r, q) && q.y < y then f(q) else GetPixel(s, q)
      decreases Bottom(r) - y
    {
      var x := Left(r);
      while x < Right(r)
        invariant Left(r) <= x <= Right(r)
        invariant Valid(t) && t.size == s.size
        invariant forall q :: InBitmap(s, q) ==>
          GetPixel(t, q) == if Contains(r, q) && (q.y < y || (q.y == y && q.x < x)) then f(q) else GetPixel(s, q)
        decreases Right(r) - x
      {
        var p := IPoint(x, y);
        var t' := PutPixel(t, p, f(p));
        forall q | InBitmap(s, q)
          ensures GetPixel(t', q) == if q == p then f(p) else GetPixel(t, q)
        {
          PutThenGet(t, p, f(p), q);
        }
        t := t';
        x := x + 1;
      }
      y := y + 1;
    }
  }

  /** `fill_rect`: the colour lands on exactly the points of the surface
      that `rect` covers. */
  method FillRect<T>(s: Surface<T>, rect: Rect, color: T) returns (t: Surface<T>)
    requires Valid(s)
    ensures Valid(t) && t.size == s.size
    ensures forall q :: InBitmap(s, q) ==> GetPixel(t, q) == if Contains(rect, q) then color else GetPixel(s, q)
  {
    var clip := Intersected(rect, BitmapRect(s));
    if clip.Some? {
      t := Paint(s, clip.value, _ => color);
      forall q | InBitmap(s, q)
        ensures GetPixel(t, q) == if Contains(rect, q) then color else GetPixel(s, q)
      {
        IntersectedSpec(rect, BitmapRect(s), q);
      }
    } else {
      t := s;
      forall q | InBitmap(s, q)
        ensures !Contains(rect, q)
      {
        IntersectedSpec(rect, BitmapRect(s), q);
      }
    }
  }

  /** `clear`: every pixel becomes the colour. */
  method Clear<T>(s: Surface<T>, color: T) returns (t: Surface<T>)
    requires Valid(s)
    ensures Valid(t) && t.size == s.size
    ensures forall i :: 0 <= i < |t.pixels| ==> t.pixels[i] == color
  {
    t := FillRect(s, BitmapRect(s), color);
    forall i | 0 <= i < |t.pixels|
      ensures t.pixels[i] == color
    {
      var p := PixelAt(t, i);
    }
  }

  // -----------------------------------------------------------------------
  // Blit
  // -----------------------------------------------------------------------

  /** `create_range_mapper` in exact arithmetic: `n` in `[iMin, iMax)`
      scaled onto `[oMin, oMax)`, rounded down.  The mapper is never
      applied to an empty input range. */
  function MapRange(n: int, iMin: int, iMax: int, oMin: int, oMax: int): int
  {
    if iMax <= iMin then oMin else (n - iMin) * (oMax - oMin) / (iMax - iMin) + oMin
  }

  lemma MulMono(a: int, b: int, c: nat)
    requires a <= b
    ensures a * c <= b * c
  {
    var d: nat := b - a;
    assert b * c == a * c + d * c;
  }

  lemma DivBelow(m: nat, l: nat, d: nat)
    requires l > 0 && m < l * d
    ensures m / l < d
  {
    var q := m / l;
    assert q * l <= m;
    if q >= d {
      MulMono(d, q, l);
    }
  }

  /** A point of the input range lands in the output range; an empty
      output range sends everything to its start, and ranges of one length
      map by translation. */
  lemma MapRangeSpec(n: int, iMin: int, iMax: int, oMin: int, oMax: int)
    requires iMin <= n < iMax && oMin <= oMax
    ensures oMin <= MapRange(n, iMin, iMax, oMin, oMax)
    ensures oMin < oMax ==> MapRange(n, iMin, iMax, oMin, oMax) < oMax
    ensures oMin == oMax ==> MapRange(n, iMin, iMax, oMin, oMax) == oMin
    ensures iMax - iMin == oMax - oMin ==> MapRange(n, iMin, iMax, oMin, oMax) == n - iMin + oMin
  {
    var a: nat := n - iMin;
    var l: nat := iMax - iMin;
    var d: nat := oMax - oMin;
    var q := (a * d) / l;
    assert a * d >= 0;
    if d > 0 {
      MulMono(a, l - 1, d);
      assert (l - 1) * d == l * d - d;
      DivBelow(a * d, l, d);
    }
    if l == d {
      DivModUnique(a * d, l, a, 0);
    }
  }

  /** A rect clipped to a surface, or the zero rect when they miss. */
  function ClipOrZero<T>(r: Rect, s: Surface<T>): (c: Rect)
  {
    match Intersected(r, BitmapRect(s))
    case Some(c) => c
    case None => ZeroRect
  }

  /** The source point `blit` reads for destination point `q`. */
  function BlitSource(srcClip: Rect, dstClip: Rect, q: IPoint): IPoint
  {
    IPoint(MapRange(q.x, Left(dstClip), Right(dstClip), Left(srcClip), Right(srcClip)),
           MapRange(q.y, Top(dstClip), Bottom(dstClip), Top(srcClip), Bottom(srcClip)))
  }

  /** The pixel `get_pixel` returns, read only where it does not panic. */
  function SourcePixel(src: Surface<Color>, p: IPoint): Color
  {
    if Addressable(src, p) then GetPixel(src, p) else Black
  }

  /** Inside a non-empty clipped source, every destination point of the
      clipped destination reads a source point inside the clipped source;
      with no source overlap it reads the source origin. */
  lemma BlitSourceInside(src: Surface<Color>, srcRect: Rect, dstClip: Rect, q: IPoint)
    requires Contains(dstClip, q)
    ensures var sc := ClipOrZero(srcRect, src);
      var p := BlitSource(sc, dstClip, q);
      (Intersected(srcRect, BitmapRect(src)).Some? ==> Contains(sc, p) && InBitmap(src, p)) &&
      (Intersected(srcRect, BitmapRect(src)).None? ==> p == IPoint(0, 0))
  {
    var sc := ClipOrZero(srcRect, src);
    MapRangeSpec(q.x, Left(dstClip), Right(dstClip), Left(sc), Right(sc));
    MapRangeSpec(q.y, Top(dstClip), Bottom(dstClip), Top(sc), Bottom(sc));
    var p := BlitSource(sc, dstClip, q);
    if Intersected(srcRect, BitmapRect(src)).Some? {
      IntersectedSpec(srcRect, BitmapRect(src), p);
    }
  }

  /** Same-size clipped rects are copied without scaling. */
  lemma BlitSourceUnscaled(srcClip: Rect, dstClip: Rect, q: IPoint)
    requires Contains(dstClip, q) && srcClip.size == dstClip.size
    ensures BlitSource(srcClip, dstClip, q) == IPoint(q.x - Left(dstClip) + Left(srcClip), q.y - Top(dstClip) + Top(srcClip))
  {
    MapRangeSpec(q.x, Left(dstClip), Right(dstClip), Left(srcClip), Right(srcClip));
    MapRangeSpec(q.y, Top(dstClip), Bottom(dstClip), Top(srcClip), Bottom(srcClip));
  }

  /** `blit`: both rects are clipped to their surfaces, a clip that misses
      becomes the zero rect, and each point of the clipped destination gets
      the source pixel its coordinates scale to.  With no destination
      overlap nothing changes; reading the source origin of a surface with
      no pixels panics. */
  method Blit(src: Surface<Color>, srcRect: Rect, dst: Surface<Color>, dstRect: Rect) returns (r: Result<Surface<Color>>)
    requires Valid(src) && Valid(dst)
    ensures r.Err? <==> Intersected(dstRect, BitmapRect(dst)).Some? && Intersected(srcRect, BitmapRect(src)).None? && |src.pixels| == 0
    ensures r.Err? ==> r.error == Panic
    ensures r.Ok? ==> Valid(r.value) && r.value.size == dst.size
    ensures r.Ok? ==> forall q :: Contains(ClipOrZero(dstRect, dst), q) ==>
      Addressable(src, BlitSource(ClipOrZero(srcRect, src), ClipOrZero(dstRect, dst), q))
    ensures r.Ok? ==> forall q :: InBitmap(dst, q) ==>
      var dc := ClipOrZero(dstRect, dst);
      var p := BlitSource(ClipOrZero(srcRect, src), dc, q);
      GetPixel(r.value, q) == if Contains(dc, q) then SourcePixel(src, p) else GetPixel(dst, q)
  {
    var sc := ClipOrZero(srcRect, src);
    var dc := ClipOrZero(dstRect, dst);
    if Intersected(dstRect, BitmapRect(dst)).Some? && Intersected(srcRect, BitmapRect(src)).None? && |src.pixels| == 0 {
      return Err(Panic);
    }
    forall q | Contains(dc, q)
      ensures Addressable(src, BlitSource(sc, dc, q))
    {
      BlitSourceInside(src, srcRect, dc, q);
    }
    assert Fits(dst, dc) by {
      if Intersected(dstRect, BitmapRect(dst)).Some? {
        IntersectedSpec(dstRect, BitmapRect(dst), dc.topLeft);
      }
    }
    var t := Paint(dst, dc, q => SourcePixel(src, BlitSource(sc, dc, q)));
    r := Ok(t);
  }

  // -----------------------------------------------------------------------
  // point_to_index
  // -----------------------------------------------------------------------

  /** `point_to_index` of bitmap.rs, over unsigned points: `None` outside
      the size, the row-major index inside it. */
  function PointToIndex(p: Point, size: Size): (r: Option<nat>)
    requires p.x < size.width && p.y < size.height ==> p.y * size.width + p.x < 0x1_0000_0000
    ensures r.None? <==> p.x >= size.width || p.y >= size.height
  {
    if p.x >= size.width || p.y >= size.height then None
    else Some(p.y * size.width + p.x)
  }

  /** The index inside the size determines the point: it is below
      `width * height` and splits back into the column and the row. */
  lemma PointToIndexInverse(p: Point, size: Size)
    requires p.x < size.width && p.y < size.height && p.y * size.width + p.x < 0x1_0000_0000
    ensures var i := PointToIndex(p, size).value;
      i < size.width * size.height && i % size.width == p.x && i / size.width == p.y
  {
    RowMajorOf(size.width, p.x, p.y);
    RowMajor(size.width, size.height, p.y * size.width + p.x);
  }

  /** Whether the signed `point_to_index` reaches its product. */
  predicate ReachesProduct(p: IPoint, size: Size)
  {
    (p.x >= 0 || AsU32(p.x) < size.width) && (p.y >= 0 || AsU32(p.y) < size.height)
  }

  /** Whether the u32 arithmetic of the signed `point_to_index` overflows,
      which panics. */
  predicate IndexOverflows(p: IPoint, size: Size)
  {
    ReachesProduct(p, size) && AsU32(p.y) * size.width + AsU32(p.x) >= 0x1_0000_0000
  }

  /** `point_to_index` of utils.rs, over signed points, for the points
      where it does not overflow (`IndexOverflows`).  Its guards test
      `x < 0 && x as u32 >= width`: a negative coordinate is rejected (as
      it wraps to at least 2^31), but nothing rejects a coordinate at or
      past the size. */
  function PointToIndexSigned(p: IPoint, size: Size): (r: Option<nat>)
    ensures r.Some? <==> ReachesProduct(p, size)
    ensures !IndexOverflows(p, size) && r.Some? ==> r.value < 0x1_0000_0000
  {
    if p.x < 0 && AsU32(p.x) >= size.width then None
    else if p.y < 0 && AsU32(p.y) >= size.height then None
    else Some(AsU32(p.y) * size.width + AsU32(p.x))
  }

  /** For i32 coordinates and a size below 2^31 on each axis, a negative
      coordinate gives `None`, a non-negative point gives `y * width + x`,
      past the edge included; inside the size both variants agree. */
  lemma PointToIndexSignedSpec(p: IPoint, size: Size)
    requires -0x8000_0000 <= p.x < 0x8000_0000 && -0x8000_0000 <= p.y < 0x8000_0000
    requires size.width < 0x8000_0000 && size.height < 0x8000_0000
    requires ReachesProduct(p, size) ==> AsU32(p.y) * size.width + AsU32(p.x) < 0x1_0000_0000
    ensures p.x < 0 || p.y < 0 ==> PointToIndexSigned(p, size).None?
    ensures p.x >= 0 && p.y >= 0 ==> PointToIndexSigned(p, size) == Some(p.y * size.width + p.x)
    ensures 0 <= p.x < size.width && 0 <= p.y < size.height ==>
      PointToIndexSigned(p, size) == PointToIndex(Point(p.x, p.y), size)
  {
  }

  /** The missing upper bound: a point one past the right edge still gets
      an index, the one of the first pixel of the next row. */
  lemma PointToIndexSignedPastEdge(size: Size, y: nat)
    requires 0 < size.width && (y + 1) * size.width < 0x1_0000_0000
    ensures PointToIndexSigned(IPoint(size.width, y), size) == Some((y + 1) * size.width)
    ensures PointToIndex(Point(size.width, y), size).None?
  {
    assert y * size.width + size.width == (y + 1) * size.width;
  }
}

=== FILE: tile.dfy ===
/** Tiles of packages/dune2/src/tile.rs: palette-index grids that can be
    mirrored and resized around an anchor, and `TileBitmap`, which reads a
    tile through a palette with the faction colours remapped. */
module Tiles {
  import opened Common
  import opened Geometry
  import opened Rects
  import Colors
  import opened Factions
  import opened Surfaces

  // -----------------------------------------------------------------------
  // Anchors
  // -----------------------------------------------------------------------

  datatype AnchorPosition = AnchorPosition(left: int32, top: int32)

  datatype TileAnchor =
    | Position(position: AnchorPosition)
    | BottomLeft | BottomCenter | BottomRight
    | CenterLeft | Center | CenterRight
    | TopLeft | TopCenter | TopRight

  /** A size whose sides keep their value under `as i32`. */
  predicate FitsI32(s: Size)
  {
    s.width < 0x8000_0000 && s.height < 0x8000_0000
  }

  /** `n / 2` in i32, which truncates toward zero. */
  function Half(n: int): (r: int)
    ensures n >= 0 ==> 0 <= 2 * r <= n < 2 * r + 2
    ensures n < 0 ==> 2 * r - 2 < n <= 2 * r <= 0
  {
    if n >= 0 then n / 2 else -((-n) / 2)
  }

  /** `TileAnchor::to_position`: where the top-left corner of a `src`-sized
      tile goes inside a `dst`-sized one.  The halving is i32 division, which
      truncates toward zero. */
  function ToPosition(a: TileAnchor, src: Size, dst: Size): (pos: AnchorPosition)
    requires FitsI32(src) && FitsI32(dst)
  {
    var dw := dst.width - src.width;
    var dh := dst.height - src.height;
    var left :=
      match a
      case Position(p) => p.left
      case TopLeft | CenterLeft => 0
      case BottomLeft | TopCenter | Center | BottomCenter => Half(dw)
      case TopRight | CenterRight | BottomRight => dw;
    var top :=
      match a
      case Position(p) => p.top
      case TopLeft | TopCenter | TopRight => 0
      case CenterLeft | Center | CenterRight => Half(dh)
      case BottomLeft | BottomCenter | BottomRight => dh;
    AnchorPosition(left, top)
  }

  /** An offset that leaves margins on both sides differing by at most
      one: `offset` before the tile, `dstLen - offset - srcLen` after it. */
  predicate Centred(offset: int, srcLen: nat, dstLen: nat)
  {
    -1 <= (dstLen - offset - srcLen) - offset <= 1
  }

  /** The anchors place the tile flush left (or top), flush right (or
      bottom), or centred.  `BottomLeft` is centred horizontally: it shares
      the arm of the centred anchors. */
  lemma ToPositionAligns(a: TileAnchor, src: Size, dst: Size)
    requires FitsI32(src) && FitsI32(dst)
    ensures var pos := ToPosition(a, src, dst);
      (a.Position? ==> pos == a.position) &&
      (a.TopLeft? || a.CenterLeft? ==> pos.left == 0) &&
      (a.BottomLeft? || a.TopCenter? || a.Center? || a.BottomCenter? ==> Centred(pos.left, src.width, dst.width)) &&
      (a.TopRight? || a.CenterRight? || a.BottomRight? ==> pos.left + src.width == dst.width) &&
      (a.TopLeft? || a.TopCenter? || a.TopRight? ==> pos.top == 0) &&
      (a.CenterLeft? || a.Center? || a.CenterRight? ==> Centred(pos.top, src.height, dst.height)) &&
      (a.BottomLeft? || a.BottomCenter? || a.BottomRight? ==> pos.top + src.height == dst.height)
  {
  }

  // -----------------------------------------------------------------------
  // Tile
  // -----------------------------------------------------------------------

  datatype Tile = Tile(data: seq<uint8>, size: Size)

  /** The tile's bytes as a grid of palette indices. */
  function Grid(t: Tile): Surface<uint8>
  {
    Surface(t.size, t.data)
  }

  // -----------------------------------------------------------------------
  // Transform
  // -----------------------------------------------------------------------

  datatype TileTransformation = FlipX | FlipY | FlipXY

  /** The point `TileTransformIterator::next` reads for output point `p`. */
  function Mirror(tr: TileTransformation, size: Size, p: IPoint): (q: IPoint)
  {
    match tr
    case FlipX => IPoint(size.width - p.x - 1, p.y)
    case FlipY => IPoint(p.x, size.height - p.y - 1)
    case FlipXY => IPoint(size.width - p.x - 1, size.height - p.y - 1)
  }

  /** Mirroring maps the grid onto itself and undoes itself; `FlipXY` is
      `FlipX` after `FlipY`. */
  lemma MirrorLaws(tr: TileTransformation, size: Size, p: IPoint)
    ensures 0 <= p.x < size.width && 0 <= p.y < size.height ==>
      var q := Mirror(tr, size, p); 0 <= q.x < size.width && 0 <= q.y < size.height
    ensures Mirror(tr, size, Mirror(tr, size, p)) == p
    ensures Mirror(FlipXY, size, p) == Mirror(FlipX, size, Mirror(FlipY, size, p))
  {
  }

  /** The byte the transform iterator yields for output point `p`: the
      byte at the mirrored point, which lies inside the tile whenever `p`
      does. */
  function MirroredPixel(t: Tile, tr: TileTransformation, p: IPoint): uint8
  {
    var q := Mirror(tr, t.size, p);
    if Addressable(Grid(t), q) then GetPixel(Grid(t), q) else 0
  }

  /** The walk of `TileTransformIterator` from position `(cx, cy)` over a
      `w * h` grid, yielding `f` of each position: the next column, or the
      first column of the next row after the last one, until the rows run
      out. */
  function Scan(f: IPoint -> uint8, w: nat, h: nat, cx: nat, cy: nat): seq<uint8>
    requires cy < h ==> cx < w
    decreases h - cy, w - cx
  {
    if cy >= h then []
    else [f(IPoint(cx, cy))] + (if cx < w - 1 then Scan(f, w, h, cx + 1, cy) else Scan(f, w, h, 0, cy + 1))
  }

  /** `Tile::transform`: no transformation gives the tile back; a flip
      collects what the iterator yields, keeping the size.  An empty-width
      tile with rows would underflow `width - 1`. */
  function Transform(t: Tile, tr: Option<TileTransformation>): (r: Tile)
    requires Valid(Grid(t)) && (t.size.width > 0 || t.size.height == 0)
    ensures r.size == t.size && Valid(Grid(r))
  {
    match tr
    case None => t
    case Some(f) =>
      var r := Tile(Scan(p => MirroredPixel(t, f, p), t.size.width, t.size.height, 0, 0), t.size);
      ScanLength(p => MirroredPixel(t, f, p), t.size.width, t.size.height);
      ProductValid(Grid(r));
      r
  }

  /** The rest of row `cy` from column `cx`, then the following rows. */
  lemma {:induction false} ScanRow(f: IPoint -> uint8, w: nat, h: nat, cx: nat, cy: nat)
    requires cy < h && cx < w
    ensures |Scan(f, w, h, cx, cy)| == w - cx + |Scan(f, w, h, 0, cy + 1)|
    ensures Scan(f, w, h, cx, cy)[w - cx..] == Scan(f, w, h, 0, cy + 1)
    ensures forall i :: 0 <= i < w - cx ==> Scan(f, w, h, cx, cy)[i] == f(IPoint(cx + i, cy))
    decreases w - cx
  {
    var s := Scan(f, w, h, cx, cy);
    if cx < w - 1 {
      ScanRow(f, w, h, cx + 1, cy);
      var rest := Scan(f, w, h, cx + 1, cy);
      assert s == [f(IPoint(cx, cy))] + rest;
      RowStep(s, rest, Scan(f, w, h, 0, cy + 1), f, w, cx, cy);
    } else {
      assert s == [f(IPoint(cx, cy))] + Scan(f, w, h, 0, cy + 1);
    }
  }

  /** A row from column `cx` is its first value and then the row from
      column `cx + 1`. */
  lemma RowStep(s: seq<uint8>, rest: seq<uint8>, tail: seq<uint8>, f: IPoint -> uint8, w: nat, cx: nat, cy: nat)
    requires cx < w - 1 && s == [f(IPoint(cx, cy))] + rest
    requires |rest| == w - (cx + 1) + |tail| && rest[w - (cx + 1)..] == tail
    requires forall i :: 0 <= i < w - (cx + 1) ==> rest[i] == f(IPoint(cx + 1 + i, cy))
    ensures |s| == w - cx + |tail| && s[w - cx..] == tail
    ensures forall i :: 0 <= i < w - cx ==> s[i] == f(IPoint(cx + i, cy))
  {
    assert s[w - cx..] == rest[w - (cx + 1)..];
    forall i | 0 < i < w - cx
      ensures s[i] == f(IPoint(cx + i, cy))
    {
      assert s[i] == rest[i - 1];
    }
  }

  /** `s` holds `f(p)` at `(p.y - row0) * w + p.x`, the place of `p` in a
      row-major walk that starts at row `row0`. */
  ghost predicate PlacedAt(s: seq<uint8>, f: IPoint -> uint8, w: nat, row0: nat, p: IPoint)
  {
    0 <= p.x && row0 <= p.y && Mul(p.y - row0, w) + p.x < |s| && s[Mul(p.y - row0, w) + p.x] == f(p)
  }

  /** Rows `cy..h` of the walk: each position sits in its row-major
      place. */
  lemma {:induction false} ScanRows(f: IPoint -> uint8, w: nat, h: nat, cy: nat)
    requires w > 0 && cy <= h
    ensures |Scan(f, w, h, 0, cy)| == Mul(h - cy, w)
    ensures forall p: IPoint :: 0 <= p.x < w && cy <= p.y < h ==> PlacedAt(Scan(f, w, h, 0, cy), f, w, cy, p)
    decreases h - cy
  {
    if cy < h {
      ScanRow(f, w, h, 0, cy);
      ScanRows(f, w, h, cy + 1);
      RowsCons(Scan(f, w, h, 0, cy), Scan(f, w, h, 0, cy + 1), f, w, h, cy);
    }
  }

  /** Row `cy` followed by the rows after it. */
  lemma RowsCons(s: seq<uint8>, rest: seq<uint8>, f: IPoint -> uint8, w: nat, h: nat, cy: nat)
    requires w > 0 && cy < h && |s| == w + |rest| && s[w..] == rest
    requires forall i :: 0 <= i < w ==> s[i] == f(IPoint(0 + i, cy))
    requires |rest| == Mul(h - (cy + 1), w)
    requires forall p: IPoint :: 0 <= p.x < w && cy + 1 <= p.y < h ==> PlacedAt(rest, f, w, cy + 1, p)
    ensures |s| == Mul(h - cy, w)
    ensures forall p: IPoint :: 0 <= p.x < w && cy <= p.y < h ==> PlacedAt(s, f, w, cy, p)
  {
    forall p: IPoint | 0 <= p.x < w && cy <= p.y < h
      ensures PlacedAt(s, f, w, cy, p)
    {
      if p.y == cy {
        assert s[p.x] == f(IPoint(0 + p.x, cy));
      } else {
        RowShift(s, rest, f, w, cy, p);
      }
    }
  }

  /** A place in the rows after the first, `w` further into `s`. */
  lemma RowShift(s: seq<uint8>, rest: seq<uint8>, f: IPoint -> uint8, w: nat, cy: nat, p: IPoint)
    requires |s| == w + |rest| && s[w..] == rest
    requires p.y > cy && PlacedAt(rest, f, w, cy + 1, p)
    ensures PlacedAt(s, f, w, cy, p)
  {
    var k: nat := p.y - (cy + 1);
    assert Mul(p.y - cy, w) == Mul(k, w) + w;
    assert s[w + Mul(k, w) + p.x] == rest[Mul(k, w) + p.x];
  }

  /** The walk yields one value per position. */
  lemma ScanLength(f: IPoint -> uint8, w: nat, h: nat)
    requires w > 0 || h == 0
    ensures |Scan(f, w, h, 0, 0)| == Mul(w, h)
  {
    MulIsProduct(h, w);
    MulIsProduct(w, h);
    if h > 0 {
      ScanRows(f, w, h, 0);
    }
  }

  /** In the walk from the origin, `f(q)` sits at `index(q)`. */
  lemma ScanPixels(f: IPoint -> uint8, w: nat, h: nat, q: IPoint)
    requires w < 0x1_0000_0000 && h < 0x1_0000_0000
    requires 0 <= q.x < w && 0 <= q.y < h
    ensures Index(q, w) < |Scan(f, w, h, 0, 0)| && Scan(f, w, h, 0, 0)[Index(q, w)] == f(q)
  {
    ScanRows(f, w, h, 0);
    assert PlacedAt(Scan(f, w, h, 0, 0), f, w, 0, q);
    assert AsU32(q.x) == q.x && AsU32(q.y) == q.y;
  }

  /** A flip keeps the size and reads every point from its mirror image. */
  lemma TransformSpec(t: Tile, tr: TileTransformation, q: IPoint)
    requires Valid(Grid(t)) && (t.size.width > 0 || t.size.height == 0)
    requires InBitmap(Grid(t), q)
    ensures InBitmap(Grid(t), Mirror(tr, t.size, q))
    ensures GetPixel(Grid(Transform(t, Some(tr))), q) == GetPixel(Grid(t), Mirror(tr, t.size, q))
  {
    MirrorLaws(tr, t.size, q);
    ScanPixels(p => MirroredPixel(t, tr, p), t.size.width, t.size.height, q);
  }

  /** `transform(None)` is the identity, and a flip applied twice gives the
      tile back. */
  lemma TransformInvolution(t: Tile, tr: TileTransformation)
    requires Valid(Grid(t)) && (t.size.width > 0 || t.size.height == 0)
    ensures Transform(t, None) == t
    ensures Transform(Transform(t, Some(tr)), Some(tr)) == t
  {
    var once := Transform(t, Some(tr));
    var twice := Transform(once, Some(tr));
    forall q | InBitmap(Grid(t), q)
      ensures GetPixel(Grid(t), q) == GetPixel(Grid(twice), q)
    {
      TransformSpec(once, tr, q);
      TransformSpec(t, tr, Mirror(tr, t.size, q));
      MirrorLaws(tr, t.size, q);
    }
    Extensional(Grid(t), Grid(twice));
  }

  /** One point of `FlipXY` against `FlipY` then `FlipX`. */
  lemma FlipXYPoint(t: Tile, q: IPoint)
    requires Valid(Grid(t)) && (t.size.width > 0 || t.size.height == 0)
    requires InBitmap(Grid(t), q)
    ensures GetPixel(Grid(Transform(t, Some(FlipXY))), q) == GetPixel(Grid(Transform(Transform(t, Some(FlipY)), Some(FlipX))), q)
  {
    var y := Transform(t, Some(FlipY));
    var m := Mirror(FlipX, t.size, q);
    TransformSpec(t, FlipXY, q);
    TransformSpec(y, FlipX, q);
    TransformSpec(t, FlipY, m);
    assert Mirror(FlipY, t.size, m) == Mirror(FlipXY, t.size, q);
  }

  /** Flipping both axes is flipping vertically, then horizontally. */
  lemma TransformFlipXY(t: Tile)
    requires Valid(Grid(t)) && (t.size.width > 0 || t.size.height == 0)
    ensures Transform(t, Some(FlipXY)) == Transform(Transform(t, Some(FlipY)), Some(FlipX))
  {
    var xy := Transform(t, Some(FlipXY));
    var yx := Transform(Transform(t, Some(FlipY)), Some(FlipX));
    forall q | InBitmap(Grid(xy), q)
      ensures GetPixel(Grid(xy), q) == GetPixel(Grid(yx), q)
    {
      FlipXYPoint(t, q);
    }
    Extensional(Grid(xy), Grid(yx));
  }

  // -----------------------------------------------------------------------
  // Resize
  // -----------------------------------------------------------------------

  /** The copy window of `resize` along one axis: where it starts in the
      old tile and in the new one, and how many pixels it spans. */
  datatype Span = Span(srcStart: nat, dstStart: nat, len: nat)

  /** The window along one axis for an anchor offset.  A non-negative
      offset starts the window at 0 in the old tile and at the offset in
      the new one; a negative offset starts it at `|offset|` in the old
      tile and at 0 in the new one; either way it is cut at both ends, and
      empty when the start lies past an end.  `None` is the `abs` of
      `i32::MIN`, which overflows. */
  function AxisSpan(offset: int32, srcLen: uint32, dstLen: uint32): (sp: Option<Span>)
    ensures sp.None? <==> offset == -0x8000_0000
    ensures sp.Some? ==> sp.value.dstStart - sp.value.srcStart == offset
    ensures sp.Some? ==> sp.value.len <= srcLen && sp.value.len <= dstLen
    ensures sp.Some? && sp.value.len > 0 ==>
      sp.value.srcStart + sp.value.len <= srcLen && sp.value.dstStart + sp.value.len <= dstLen
  {
    if offset >= 0 then
      var left := offset;
      var len := if dstLen >= left then Min(dstLen - left, srcLen) else 0;
      Some(Span(0, left, len))
    else if offset == -0x8000_0000 then None
    else
      var left := -offset;
      var len := if srcLen >= left then Min(dstLen, srcLen - left) else 0;
      Some(Span(left, 0, len))
  }

  /** A position of the new tile lies in the window exactly when it lies
      in the new tile and, moved back by the offset, in the old one. */
  lemma AxisSpanCovers(offset: int32, srcLen: uint32, dstLen: uint32, x: int)
    requires offset != -0x8000_0000
    ensures var sp := AxisSpan(offset, srcLen, dstLen).value;
      sp.dstStart <= x < sp.dstStart + sp.len <==> 0 <= x < dstLen && 0 <= x - offset < srcLen
  {
  }

  /** Where `resize` puts the old tile's top-left corner: at the anchor,
      `Center` when none is given. */
  function Placement(src: Size, dst: Size, anchor: Option<TileAnchor>): (pos: AnchorPosition)
    requires FitsI32(src) && FitsI32(dst)
    ensures anchor.None? ==> pos == ToPosition(Center, src, dst)
    ensures anchor.Some? ==> pos == ToPosition(anchor.value, src, dst)
  {
    ToPosition(if anchor.Some? then anchor.value else Center, src, dst)
  }

  /** The old tile moved by `pos`, read at `q`: 0 where `q - pos` falls
      outside the old tile. */
  function ShiftedPixel(t: Tile, pos: AnchorPosition, q: IPoint): uint8
  {
    var p := IPoint(q.x - pos.left, q.y - pos.top);
    if InBitmap(Grid(t), p) && Addressable(Grid(t), p) then GetPixel(Grid(t), p) else 0
  }

  /** `Tile::resize`.  The same size gives the tile back.  Otherwise the
      new tile starts zeroed and receives the old tile moved to the anchor
      position: each new pixel is the old one at `q - pos`, or 0 where
      that lies outside the old tile.  `abs(i32::MIN)` and a u32 overflow
      of the new pixel count panic.  The copy is written as a paint of the
      destination window; `ResizeZip` shows that the zipped iterators of
      the source pair up the same points. */
  method Resize(t: Tile, size: Size, anchor: Option<TileAnchor>) returns (r: Result<Tile>)
    requires Valid(Grid(t)) && FitsI32(t.size) && FitsI32(size)
    ensures size == t.size ==> r == Ok(t)
    ensures size != t.size ==> var pos := Placement(t.size, size, anchor);
      (r.Err? <==> pos.left == -0x8000_0000 || pos.top == -0x8000_0000 || Mul(size.width, size.height) >= 0x1_0000_0000)
    ensures r.Err? ==> r.error == Panic
    ensures r.Ok? ==> r.value.size == size && Valid(Grid(r.value))
    ensures r.Ok? && size != t.size ==> var pos := Placement(t.size, size, anchor);
      forall q :: InBitmap(Grid(r.value), q) ==>
        GetPixel(Grid(r.value), q) ==
          var p := IPoint(q.x - pos.left, q.y - pos.top);
          if InBitmap(Grid(t), p) then GetPixel(Grid(t), p) else 0
  {
    if size == t.size {
      return Ok(t);
    }
    var pos := Placement(t.size, size, anchor);
    var xs := AxisSpan(pos.left, t.size.width, size.width);
    if xs.None? {
      return Err(Panic);
    }
    var ys := AxisSpan(pos.top, t.size.height, size.height);
    if ys.None? {
      return Err(Panic);
    }
    if Mul(size.width, size.height) >= 0x1_0000_0000 {
      return Err(Panic);
    }
    var window := Rect(IPoint(xs.value.dstStart, ys.value.dstStart), Size(xs.value.len, ys.value.len));
    var blank := Filled(size, 0 as uint8);
    var painted := Paint(blank, window, q => ShiftedPixel(t, pos, q));
    forall q | InBitmap(painted, q)
      ensures GetPixel(painted, q) ==
        var p := IPoint(q.x - pos.left, q.y - pos.top);
        if InBitmap(Grid(t), p) then GetPixel(Grid(t), p) else 0
    {
      WindowShift(t, size, pos, xs.value, ys.value, q);
    }
    assert Grid(Tile(painted.pixels, size)) == painted;
    r := Ok(Tile(painted.pixels, size));
  }

  /** The window holds exactly the points of the new tile that the anchor
      moves a point of the old tile onto. */
  lemma WindowShift(t: Tile, size: Size, pos: AnchorPosition, xs: Span, ys: Span, q: IPoint)
    requires AxisSpan(pos.left, t.size.width, size.width) == Some(xs)
    requires AxisSpan(pos.top, t.size.height, size.height) == Some(ys)
    requires 0 <= q.x < size.width && 0 <= q.y < size.height
    ensures Contains(Rect(IPoint(xs.dstStart, ys.dstStart), Size(xs.len, ys.len)), q) <==>
      InBitmap(Grid(t), IPoint(q.x - pos.left, q.y - pos.top))
  {
    AxisSpanCovers(pos.left, t.size.width, size.width, q.x);
    AxisSpanCovers(pos.top, t.size.height, size.height, q.y);
  }

  /** The copy loop of `resize` zips the iterators of the source and the
      destination windows: the `k`-th pair is a point of the new tile and
      the point of the old tile the anchor moves onto it, and
      `point_to_index` finds both at their row-major index. */
  lemma ResizeZip(t: Tile, size: Size, pos: AnchorPosition, xs: Span, ys: Span, k: nat)
    requires Valid(Grid(t)) && Mul(size.width, size.height) < 0x1_0000_0000
    requires AxisSpan(pos.left, t.size.width, size.width) == Some(xs)
    requires AxisSpan(pos.top, t.size.height, size.height) == Some(ys)
    requires k < xs.len * ys.len
    ensures var src := PointAt(Rect(IPoint(xs.srcStart, ys.srcStart), Size(xs.len, ys.len)), k);
      var dst := PointAt(Rect(IPoint(xs.dstStart, ys.dstStart), Size(xs.len, ys.len)), k);
      src == IPoint(dst.x - pos.left, dst.y - pos.top) &&
      InBitmap(Grid(t), src) && 0 <= dst.x < size.width && 0 <= dst.y < size.height &&
      PointToIndexSigned(src, t.size) == Some(Index(src, t.size.width)) &&
      PointToIndexSigned(dst, size) == Some(Index(dst, size.width))
  {
    var srcRect := Rect(IPoint(xs.srcStart, ys.srcStart), Size(xs.len, ys.len));
    var dstRect := Rect(IPoint(xs.dstStart, ys.dstStart), Size(xs.len, ys.len));
    var src := PointAt(srcRect, k);
    var dst := PointAt(dstRect, k);
    PointAtInside(srcRect, k);
    PointAtInside(dstRect, k);
    IndexOfInside(Grid(t), src);
    IndexOfInside(Surface(size, Repeat(0, Mul(size.width, size.height))), dst);
  }

  // -----------------------------------------------------------------------
  // TileBitmap
  // -----------------------------------------------------------------------

  /** `TileBitmap`: a tile read through a palette, faction colours
      remapped when a faction is given.  `with_palette` is the
      constructor. */
  datatype TileBitmap = TileBitmap(tile: Tile, palette: Colors.Palette, faction: Option<Faction>)

  function TileBitmapWidth(b: TileBitmap): nat { b.tile.size.width }
  function TileBitmapHeight(b: TileBitmap): nat { b.tile.size.height }

  /** `get_pixel`: the signed `point_to_index` of the point, then the tile
      byte there, remapped for the faction and looked up in the palette.
      The u32 index arithmetic, the tile vector and the palette vector
      each panic when overrun. */
  function TileBitmapPixel(b: TileBitmap, p: IPoint): (r: Result<Option<Colors.Color>>)
    ensures r.Ok? && r.value.Some? ==> r.value.value in b.palette.colors
  {
    var size := b.tile.size;
    if IndexOverflows(p, size) then Err(Panic)
    else
      match PointToIndexSigned(p, size)
      case None => Ok(None)
      case Some(index) =>
        if index >= |b.tile.data| then Err(Panic)
        else
          var colorIndex := RemapIndex(b.tile.data[index], b.faction);
          if colorIndex >= |b.palette.colors| then Err(Panic)
          else Ok(Some(Colors.ColorAt(b.palette, colorIndex)))
  }

  /** A point with a negative i32 coordinate reads as no colour; a point
      of the tile reads as the palette colour of its remapped byte, and
      panics only when the palette is too short for it.  So the width and
      height are the extent of the readable pixels. */
  lemma TileBitmapPixelSpec(b: TileBitmap, p: IPoint)
    requires Valid(Grid(b.tile)) && FitsI32(b.tile.size)
    requires -0x8000_0000 <= p.x < 0x8000_0000 && -0x8000_0000 <= p.y < 0x8000_0000
    ensures p.x < 0 || p.y < 0 ==> TileBitmapPixel(b, p) == Ok(None)
    ensures 0 <= p.x < TileBitmapWidth(b) && 0 <= p.y < TileBitmapHeight(b) ==>
      InBitmap(Grid(b.tile), p) &&
      var i := RemapIndex(GetPixel(Grid(b.tile), p), b.faction);
      (TileBitmapPixel(b, p).Ok? <==> i < |b.palette.colors|) &&
      (i < |b.palette.colors| ==> TileBitmapPixel(b, p) == Ok(Some(b.palette.colors[i])))
  {
    if 0 <= p.x < TileBitmapWidth(b) && 0 <= p.y < TileBitmapHeight(b) {
      IndexOfInside(Grid(b.tile), p);
    }
  }
}

=== FILE: tilemap.dfy ===
/** Tilemap bitmaps of packages/dune2/src/tilemap.rs: a tilemap's tile
    indices resolved against an asset bundle into one tile bitmap per cell,
    and pixel reads that pick the cell and the point inside its tile. */
module Tilemaps {
  import opened Common
  import opened Geometry
  import opened Rects
  import Colors
  import opened Factions
  import opened Surfaces
  import opened Tiles
  import opened Tilesets
  import opened AssetStore

  /** `TilemapBitmap`: the cell bitmaps row after row, the tilemap's shape
      and the tileset's tile size. */
  datatype TilemapBitmap = TilemapBitmap(bitmaps: seq<TileBitmap>, shape: Shape, tileSize: Size)

  /** Whether every index names a tile of the tileset. */
  predicate AllInRange(indices: seq<nat>, count: nat)
  {
    forall i :: 0 <= i < |indices| ==> indices[i] < count
  }

  /** The position of the first index that names no tile. */
  function FirstOutOfRange(indices: seq<nat>, count: nat): (k: nat)
    requires !AllInRange(indices, count)
    ensures k < |indices| && indices[k] >= count && AllInRange(indices[..k], count)
  {
    if indices[0] >= count then 0
    else
      assert !AllInRange(indices[1..], count) by {
        var i :| 0 <= i < |indices| && indices[i] >= count;
        assert indices[1..][i - 1] == indices[i];
      }
      var k := 1 + FirstOutOfRange(indices[1..], count);
      assert forall i :: 1 <= i < k ==> indices[..k][i] == indices[1..][..k - 1][i - 1];
      k
  }

  /** The `map` / `collect::<Result<Vec<_>>>` of `try_with_resources`:
      `tile_at` for each index in turn, stopping at the first failure. */
  function CollectBitmaps(ts: Tileset, indices: seq<nat>, palette: Colors.Palette, faction: Option<Faction>): (r: Result<seq<TileBitmap>>)
    ensures r.Ok? <==> AllInRange(indices, |ts.tiles|)
    ensures r.Ok? ==> |r.value| == |indices|
    ensures r.Ok? ==> forall i :: 0 <= i < |indices| ==> r.value[i] == TileBitmap(ts.tiles[indices[i]], palette, faction)
    ensures r.Err? ==> r.error == TilesetInvalidTileIndex(ts.id, indices[FirstOutOfRange(indices, |ts.tiles|)])
  {
    if |indices| == 0 then Ok([])
    else
      var tile :- TileAt(ts, indices[0]);
      var rest :- CollectBitmaps(ts, indices[1..], palette, faction);
      assert forall i :: 1 <= i < |indices| ==> indices[i] == indices[1..][i - 1];
      Ok([TileBitmap(tile, palette, faction)] + rest)
  }

  /** `TilemapBitmap::try_with_resources`: an unknown tileset fails first,
      then the first index past the tile count; otherwise there is one
      bitmap per tilemap entry, in order, with the bundle's palette. */
  function TryWithResources(tilemap: Tilemap, faction: Option<Faction>, resources: Assets): (r: Result<TilemapBitmap>)
    ensures r.Ok? <==> (tilemap.tileset in resources.tilesets &&
                        AllInRange(tilemap.tiles, |resources.tilesets[tilemap.tileset].tiles|))
    ensures tilemap.tileset !in resources.tilesets ==> r == Err(TilesetInvalidId(tilemap.tileset))
    ensures tilemap.tileset in resources.tilesets && r.Err? ==> var ts := resources.tilesets[tilemap.tileset];
      r.error == TilesetInvalidTileIndex(ts.id, tilemap.tiles[FirstOutOfRange(tilemap.tiles, |ts.tiles|)])
    ensures r.Ok? ==> var ts := resources.tilesets[tilemap.tileset];
      r.value.shape == tilemap.shape && r.value.tileSize == ts.tileSize &&
      |r.value.bitmaps| == |tilemap.tiles| &&
      forall i :: 0 <= i < |tilemap.tiles| ==>
        r.value.bitmaps[i] == TileBitmap(ts.tiles[tilemap.tiles[i]], resources.palette, faction)
  {
    var tileset :- GetTileset(resources, tilemap.tileset);
    var bitmaps :- CollectBitmaps(tileset, tilemap.tiles, resources.palette, faction);
    Ok(TilemapBitmap(bitmaps, tilemap.shape, TileSize(tileset)))
  }

  /** `width`: the columns times the width of the first bitmap; no bitmap
      at all, or a u32 overflow, panics. */
  function Width(b: TilemapBitmap): (r: Result<nat>)
    ensures r.Ok? <==> |b.bitmaps| > 0 && b.shape.columns * TileBitmapWidth(b.bitmaps[0]) < 0x1_0000_0000
    ensures r.Ok? ==> r.value == b.shape.columns * TileBitmapWidth(b.bitmaps[0])
  {
    if |b.bitmaps| == 0 then Err(Panic)
    else
      var w := b.shape.columns * TileBitmapWidth(b.bitmaps[0]);
      if w >= 0x1_0000_0000 then Err(Panic) else Ok(w)
  }

  /** `height`: the rows times the height of the first bitmap. */
  function Height(b: TilemapBitmap): (r: Result<nat>)
    ensures r.Ok? <==> |b.bitmaps| > 0 && b.shape.rows * TileBitmapHeight(b.bitmaps[0]) < 0x1_0000_0000
    ensures r.Ok? ==> r.value == b.shape.rows * TileBitmapHeight(b.bitmaps[0])
  {
    if |b.bitmaps| == 0 then Err(Panic)
    else
      var h := b.shape.rows * TileBitmapHeight(b.bitmaps[0]);
      if h >= 0x1_0000_0000 then Err(Panic) else Ok(h)
  }

  /** Built from a sized tileset, the bitmap measures the shape in tiles
      times the tile size. */
  lemma ExtentOfSized(tilemap: Tilemap, faction: Option<Faction>, resources: Assets)
    requires TryWithResources(tilemap, faction, resources).Ok? && |tilemap.tiles| > 0
    requires Sized(resources.tilesets[tilemap.tileset])
    ensures var b := TryWithResources(tilemap, faction, resources).value;
      var size := resources.tilesets[tilemap.tileset].tileSize;
      (Width(b).Ok? ==> Width(b).value == tilemap.shape.columns * size.width) &&
      (Height(b).Ok? ==> Height(b).value == tilemap.shape.rows * size.height)
  {
    var b := TryWithResources(tilemap, faction, resources).value;
    assert b.bitmaps[0].tile == resources.tilesets[tilemap.tileset].tiles[tilemap.tiles[0]];
  }

  /** `get_pixel`: no colour at a negative coordinate; otherwise the cell
      at column `x / tile width` and row `y / tile height`, entry
      `row * columns + col`, read at the point `(x % tile width,
      y % tile height)` of its tile.  A zero tile side divides by zero, and
      the u32 entry arithmetic and the bitmap vector panic when overrun. */
  function GetPixel(b: TilemapBitmap, p: IPoint): (r: Result<Option<Colors.Color>>)
    requires -0x8000_0000 <= p.x < 0x8000_0000 && -0x8000_0000 <= p.y < 0x8000_0000
  {
    if p.x < 0 || p.y < 0 then Ok(None)
    else if b.tileSize.width == 0 || b.tileSize.height == 0 then Err(Panic)
    else
      var col := p.x / b.tileSize.width;
      var row := p.y / b.tileSize.height;
      var index := row * b.shape.columns + col;
      if index >= 0x1_0000_0000 || index >= |b.bitmaps| then Err(Panic)
      else TileBitmapPixel(b.bitmaps[index], IPoint(p.x % b.tileSize.width, p.y % b.tileSize.height))
  }

  /** Pixel reads go cell by cell: the point at column `col`, row `row` of
      the grid and `local` inside the tile reads `local` of that cell's
      bitmap; a negative coordinate reads nothing. */
  lemma GetPixelByCell(b: TilemapBitmap, col: nat, row: nat, local: IPoint)
    requires 0 <= local.x < b.tileSize.width && 0 <= local.y < b.tileSize.height
    requires col < b.shape.columns && row * b.shape.columns + col < |b.bitmaps|
    requires col * b.tileSize.width + local.x < 0x8000_0000 && row * b.tileSize.height + local.y < 0x8000_0000
    requires |b.bitmaps| < 0x1_0000_0000
    ensures GetPixel(b, IPoint(col * b.tileSize.width + local.x, row * b.tileSize.height + local.y)) ==
      TileBitmapPixel(b.bitmaps[row * b.shape.columns + col], local)
  {
    RowMajorOf(b.tileSize.width, local.x, col);
    RowMajorOf(b.tileSize.height, local.y, row);
  }

  /** Every point with non-negative coordinates is some cell's local
      point: the inverse of `GetPixelByCell`. */
  lemma CellOf(b: TilemapBitmap, p: IPoint) returns (col: nat, row: nat, local: IPoint)
    requires b.tileSize.width > 0 && b.tileSize.height > 0 && 0 <= p.x && 0 <= p.y
    ensures 0 <= local.x < b.tileSize.width && 0 <= local.y < b.tileSize.height
    ensures p == IPoint(col * b.tileSize.width + local.x, row * b.tileSize.height + local.y)
  {
    col, row := p.x / b.tileSize.width, p.y / b.tileSize.height;
    local := IPoint(p.x % b.tileSize.width, p.y % b.tileSize.height);
  }

  lemma GetPixelNegative(b: TilemapBitmap, p: IPoint)
    requires -0x8000_0000 <= p.x < 0x8000_0000 && -0x8000_0000 <= p.y < 0x8000_0000
    ensures p.x < 0 || p.y < 0 ==> GetPixel(b, p) == Ok(None)
  {
  }
}

=== FILE: tileset.dfy ===
/** Tilesets of packages/dune2/src/tileset.rs: an id, the size every tile
    must have, and the tiles in the order they were added.  `add` mutates
    in place in the source; here it returns the grown tileset, and on
    error the caller keeps the old one, which is what the source leaves
    behind. */
module Tilesets {
  import opened Common
  import opened Geometry
  import opened Tiles

  datatype Tileset = Tileset(id: string, tileSize: Size, tiles: seq<Tile>)

  /** The invariant `add` keeps: every stored tile has the tileset's tile
      size. */
  predicate Sized(ts: Tileset)
  {
    forall i :: 0 <= i < |ts.tiles| ==> ts.tiles[i].size == ts.tileSize
  }

  /** `Tileset::new`: no tiles yet. */
  function New(id: string, tileSize: Size): (ts: Tileset)
    ensures ts.id == id && ts.tileSize == tileSize && TileCount(ts) == 0
    ensures Sized(ts)
  {
    Tileset(id, tileSize, [])
  }

  /** `add`: a tile of the tileset's size is appended; any other size is
      refused with the tileset id and the offending size. */
  function Add(ts: Tileset, tile: Tile): (r: Result<Tileset>)
    ensures r.Ok? <==> tile.size == ts.tileSize
    ensures r.Ok? ==> r.value.id == ts.id && r.value.tileSize == ts.tileSize
    ensures r.Ok? ==> TileCount(r.value) == TileCount(ts) + 1
    ensures r.Ok? ==> r.value.tiles[..TileCount(ts)] == ts.tiles && r.value.tiles[TileCount(ts)] == tile
    ensures r.Err? ==> r.error == TilesetInvalidTileSize(ts.id, tile.size.width, tile.size.height)
  {
    if ts.tileSize == tile.size then Ok(ts.(tiles := ts.tiles + [tile]))
    else Err(TilesetInvalidTileSize(ts.id, tile.size.width, tile.size.height))
  }

  /** `add` is the only way tiles get in, and it keeps `Sized`. */
  lemma AddKeepsSized(ts: Tileset, tile: Tile)
    requires Sized(ts)
    ensures Add(ts, tile).Ok? ==> Sized(Add(ts, tile).value)
  {
    if Add(ts, tile).Ok? {
      var r := Add(ts, tile).value;
      forall i | 0 <= i < |r.tiles|
        ensures r.tiles[i].size == r.tileSize
      {
        if i < |ts.tiles| {
          assert r.tiles[i] == r.tiles[..TileCount(ts)][i];
        }
      }
    }
  }

  /** `tile_at`: the tile at a position below the count, otherwise an
      error naming the tileset and the index. */
  function TileAt(ts: Tileset, index: nat): (r: Result<Tile>)
    ensures r.Ok? <==> index < TileCount(ts)
    ensures r.Ok? ==> r.value == ts.tiles[index]
    ensures r.Err? ==> r.error == TilesetInvalidTileIndex(ts.id, index)
  {
    if index < |ts.tiles| then Ok(ts.tiles[index])
    else Err(TilesetInvalidTileIndex(ts.id, index))
  }

  function TileSize(ts: Tileset): Size { ts.tileSize }

  function TileCount(ts: Tileset): (n: nat)
    ensures n == |ts.tiles|
  {
    |ts.tiles|
  }

  /** A tile just added is found at the old count, the earlier tiles stay
      where they were, and every tile found in a sized tileset has the
      tile size. */
  lemma AddThenTileAt(ts: Tileset, tile: Tile, index: nat)
    requires Sized(ts) && Add(ts, tile).Ok?
    ensures TileAt(Add(ts, tile).value, TileCount(ts)) == Ok(tile)
    ensures index < TileCount(ts) ==> TileAt(Add(ts, tile).value, index) == TileAt(ts, index)
    ensures TileAt(Add(ts, tile).value, index).Ok? ==> TileAt(Add(ts, tile).value, index).value.size == TileSize(ts)
  {
    var r := Add(ts, tile).value;
    AddKeepsSized(ts, tile);
    if index < TileCount(ts) {
      assert r.tiles[index] == r.tiles[..TileCount(ts)][index];
    }
  }
}

=== FILE: toolkit_shp.dfy ===
/** The SHP sprite reader of packages/rctoolkit/src/shp.rs: version probe,
    frame-offset table, the stream-based LCW decompressor and the frame
    reader.  Integers in the stream are read with the short-read tolerant
    `try_read_from` of packages/rctoolkit/src/io.rs, so a read past the end
    yields 0 rather than an error. */
module ToolkitShp {
  import opened Common
  import opened Bytes
  import opened Reader
  import opened Lcw

  datatype Version = V100 | V107

  // -----------------------------------------------------------------------
  // Header
  // -----------------------------------------------------------------------

  /** `shp_read_version`: the u16 at byte 4 is 0 in version 1.07 files. */
  function ReadVersion(data: seq<uint8>): (r: Result<(Version, Cursor)>)
    ensures r.Ok? <==> |data| >= 6
    ensures r.Err? ==> r.error == UnexpectedEof
    ensures r.Ok? ==> r.value.1 == Cursor(data, 0)
    ensures r.Ok? ==> (r.value.0 == V107 <==> data[4] == 0 && data[5] == 0)
  {
    var (buf, _) :- ReadExact(Cursor(data, 4), 2);
    LeValue2(buf);
    var version := if LeValue(buf) == 0 then V107 else V100;
    Ok((version, Cursor(data, 0)))
  }

  function OffsetSize(version: Version): nat
  {
    if version == V100 then 2 else 4
  }

  /** The value one table entry stands for: a u16 in 1.00 files, a u32 plus
      2 in 1.07 files, the addition failing when it overflows a u32. */
  function OffsetValue(version: Version, bs: seq<uint8>): (r: Result<nat>)
    requires |bs| == OffsetSize(version)
    ensures r.Err? <==> version == V107 && LeValue(bs) + 2 >= 0x1_0000_0000
    ensures r.Err? ==> r.error == Panic
    ensures r.Ok? ==> r.value == LeValue(bs) + (if version == V107 then 2 else 0)
  {
    if version == V100 then Ok(LeValue(bs))
    else if LeValue(bs) + 2 >= 0x1_0000_0000 then Err(Panic)
    else Ok(LeValue(bs) + 2)
  }

  /** One `shp_read_frame_offset_v100` / `_v107`. */
  function ReadOffset(c: Cursor, version: Version): (r: Result<(nat, Cursor)>)
    ensures OffsetSize(version) > Remaining(c) ==> r == Err(UnexpectedEof)
    ensures OffsetSize(version) <= Remaining(c) ==>
      var bs := c.data[c.pos..c.pos + OffsetSize(version)];
      match OffsetValue(version, bs)
      case Ok(v) => r == Ok((v, Cursor(c.data, c.pos + OffsetSize(version))))
      case Err(e) => r == Err(e)
  {
    var (bs, c') :- ReadExact(c, OffsetSize(version));
    var v :- OffsetValue(version, bs);
    Ok((v, c'))
  }

  /** `n` consecutive table entries. */
  function ReadOffsets(c: Cursor, version: Version, n: nat): (r: Result<(seq<nat>, Cursor)>)
    ensures r.Ok? ==> |r.value.0| == n
    ensures r.Ok? ==> r.value.1 == Cursor(c.data, c.pos + n * OffsetSize(version))
    ensures r.Err? ==> r.error == UnexpectedEof || r.error == Panic
    decreases n
  {
    if n == 0 then Ok(([], c))
    else
      var (v, c1) :- ReadOffset(c, version);
      var (rest, c2) :- ReadOffsets(c1, version, n - 1);
      Ok(([v] + rest, c2))
  }

  /** A table cut short by the end of the file is an error. */
  lemma {:induction false} ReadOffsetsShort(c: Cursor, version: Version, n: nat)
    requires n * OffsetSize(version) > Remaining(c)
    ensures ReadOffsets(c, version, n).Err?
    decreases n
  {
    var sz := OffsetSize(version);
    assert n > 0;
    if sz <= Remaining(c) {
      var c1 := Cursor(c.data, c.pos + sz);
      assert (n - 1) * sz == n * sz - sz;
      assert ReadOffset(c, version).Ok? ==> ReadOffset(c, version).value.1 == c1;
      ReadOffsetsShort(c1, version, n - 1);
    }
  }

  /** `offsets.windows(2).map(|o| (o[0], o[1] - o[0]))`: each frame is the
      (start, length) of the region up to the next offset; a decreasing
      pair underflows the u64 subtraction. */
  function FramePairs(offsets: seq<nat>): (r: Result<seq<(nat, nat)>>)
    ensures r.Ok? <==> forall i :: 0 <= i < |offsets| - 1 ==> offsets[i] <= offsets[i + 1]
    ensures r.Err? ==> r.error == Panic
    ensures r.Ok? ==> |r.value| == Max(|offsets| - 1, 0)
    ensures r.Ok? ==> forall i :: 0 <= i < |r.value| ==>
      r.value[i].0 == offsets[i] && r.value[i].0 + r.value[i].1 == offsets[i + 1]
    decreases |offsets|
  {
    if |offsets| < 2 then Ok([])
    else if offsets[1] < offsets[0] then Err(Panic)
    else
      var rest :- FramePairs(offsets[1..]);
      Ok([(offsets[0], offsets[1] - offsets[0])] + rest)
  }

  /** `shp_read_frame_offsets`: a u16 frame count, then count + 1 offsets
      turned into count (start, length) pairs. */
  function ReadFrameOffsets(c: Cursor, version: Version): (r: Result<seq<(nat, nat)>>)
    ensures 2 > Remaining(c) ==> r == Err(UnexpectedEof)
    ensures r.Ok? ==> |r.value| == c.data[c.pos] as int + 256 * (c.data[c.pos + 1] as int)
  {
    var (buf, c1) :- ReadExact(c, 2);
    LeValue2(buf);
    var count := LeValue(buf);
    var (offsets, _) :- ReadOffsets(c1, version, count + 1);
    FramePairs(offsets)
  }

  /** Little-endian table entries for a list of offsets, the way a 1.00 or
      1.07 file stores them. */
  function EncodeOffsets(version: Version, offsets: seq<nat>): (r: seq<uint8>)
    requires forall i :: 0 <= i < |offsets| ==> OffsetEncodable(version, offsets[i])
    ensures |r| == |offsets| * OffsetSize(version)
  {
    if |offsets| == 0 then []
    else
      assert OffsetEncodable(version, offsets[0]);
      EncodeOffset(version, offsets[0]) + EncodeOffsets(version, offsets[1..])
  }

  predicate OffsetEncodable(version: Version, v: nat)
  {
    if version == V100 then v < 0x1_0000 else 2 <= v < 0x1_0000_0000
  }

  /** The bytes one entry is stored as. */
  function EncodeOffset(version: Version, v: nat): (r: seq<uint8>)
    requires OffsetEncodable(version, v)
    ensures |r| == OffsetSize(version)
  {
    LeBytes(if version == V100 then v else v - 2, OffsetSize(version))
  }

  /** An encoded entry reads back as its value. */
  lemma ReadOffsetAt(data: seq<uint8>, p: nat, version: Version, v: nat)
    requires OffsetEncodable(version, v)
    requires p + OffsetSize(version) <= |data|
    requires data[p..p + OffsetSize(version)] == EncodeOffset(version, v)
    ensures ReadOffset(Cursor(data, p), version) == Ok((v, Cursor(data, p + OffsetSize(version))))
  {
    Pow256Values();
    LeRoundTrip(if version == V100 then v else v - 2, OffsetSize(version));
  }

  /** One entry read, then the rest. */
  lemma ReadOffsetsCons(c: Cursor, version: Version, offsets: seq<nat>, c1: Cursor, c2: Cursor)
    requires |offsets| > 0
    requires ReadOffset(c, version) == Ok((offsets[0], c1))
    requires ReadOffsets(c1, version, |offsets| - 1) == Ok((offsets[1..], c2))
    ensures ReadOffsets(c, version, |offsets|) == Ok((offsets, c2))
  {
    assert [offsets[0]] + offsets[1..] == offsets;
  }

  lemma {:induction false} ReadOffsetsAt(data: seq<uint8>, p: nat, version: Version, offsets: seq<nat>)
    requires forall i :: 0 <= i < |offsets| ==> OffsetEncodable(version, offsets[i])
    requires p + |EncodeOffsets(version, offsets)| <= |data|
    requires data[p..p + |EncodeOffsets(version, offsets)|] == EncodeOffsets(version, offsets)
    ensures ReadOffsets(Cursor(data, p), version, |offsets|)
         == Ok((offsets, Cursor(data, p + |EncodeOffsets(version, offsets)|)))
    decreases |offsets|
  {
    if |offsets| > 0 {
      var e := EncodeOffsets(version, offsets);
      assert OffsetEncodable(version, offsets[0]);
      var head := EncodeOffset(version, offsets[0]);
      var tail := EncodeOffsets(version, offsets[1..]);
      assert e == head + tail;
      Split(data, p, e, head, tail);
      ReadOffsetAt(data, p, version, offsets[0]);
      var later := offsets[1..];
      forall i | 0 <= i < |later|
        ensures OffsetEncodable(version, later[i])
      {
        assert later[i] == offsets[i + 1];
      }
      ReadOffsetsAt(data, p + |head|, version, later);
      ReadOffsetsCons(Cursor(data, p), version, offsets, Cursor(data, p + |head|), Cursor(data, p + |head| + |tail|));
    }
  }

  /** Reading back an encoded table gives the offsets and consumes exactly
      the encoded bytes, whatever surrounds them. */
  lemma ReadOffsetsRoundTrip(version: Version, pre: seq<uint8>, offsets: seq<nat>, rest: seq<uint8>)
    requires forall i :: 0 <= i < |offsets| ==> OffsetEncodable(version, offsets[i])
    ensures var data := pre + EncodeOffsets(version, offsets) + rest;
      ReadOffsets(Cursor(data, |pre|), version, |offsets|)
        == Ok((offsets, Cursor(data, |pre| + |offsets| * OffsetSize(version))))
  {
    Middle(pre, EncodeOffsets(version, offsets), rest);
    ReadOffsetsAt(pre + EncodeOffsets(version, offsets) + rest, |pre|, version, offsets);
  }

  // -----------------------------------------------------------------------
  // LCW
  // -----------------------------------------------------------------------

  /** A decoded LCW command.  `Copy` reads `pos` bytes back from the end of
      the output when `relative` holds and at `pos` otherwise. */
  datatype Command =
    | End
    | Literal(bytes: seq<uint8>)
    | RepeatLast(count: nat)
    | Copy(count: nat, pos: nat, relative: bool)
    | Fill(count: nat, value: uint8)

  /** The command-reading half of one pass of the `loop { match … }` of
      `inflate_lcw_data`, in a stream whose copies are `relative`.  Bit
      tests are written arithmetically: `cmd & 0xc0 == 0x80` is
      `cmd / 64 == 2`, `cmd & 0x80 == 0` is `cmd < 0x80`, `(cmd & 0x70) >> 4`
      is `cmd / 16` for such a `cmd`, and `(cmd & 0x0f) << 8 | p` is
      `cmd % 16 * 256 + p`.  What each command byte means is stated by the
      `Parse…` lemmas below. */
  function ParseCommand(c: Cursor, relative: bool): (r: Result<(Command, Cursor)>)
    // At the end of input the command and position read as 0: a relative
    // copy from 0 bytes back, and the cursor does not move.
    ensures Remaining(c) == 0 ==> r == Ok((Copy(3, 0, true), c))
    ensures r.Err? ==> r.error == UnexpectedEof
    ensures r.Ok? ==> r.value.1.data == c.data
    ensures r.Ok? && Remaining(c) > 0 ==> Remaining(r.value.1) < Remaining(c)
    ensures r.Ok? && r.value.0.End? ==>
      r.value.1 == Cursor(c.data, c.pos + 1) && c.pos < |c.data| && c.data[c.pos] == 0x80
  {
    var (cmd, c1) := ReadU8(c);
    if cmd == 0x80 then Ok((End, c1))
    else if cmd / 64 == 2 then
      var (bytes, c2) :- ReadExact(c1, cmd % 64);
      Ok((Literal(bytes), c2))
    else if cmd < 0x80 then
      var count := cmd / 16 + 3;
      var (lo, c2) := ReadU8(c1);
      var pos := (cmd % 16) as int * 256 + lo as int;
      if pos == 1 then Ok((RepeatLast(count), c2))
      else Ok((Copy(count, pos, true), c2))
    else if cmd == 0xFE then
      var (count, c2) := ReadU16Le(c1);
      var (value, c3) := ReadU8(c2);
      Ok((Fill(count, value), c3))
    else if cmd == 0xFF then
      var (count, c2) := ReadU16Le(c1);
      var (pos, c3) := ReadU16Le(c2);
      Ok((Copy(count, pos, relative), c3))
    else
      var (pos, c2) := ReadU16Le(c1);
      Ok((Copy(cmd % 64 + 3, pos, relative), c2))
  }

  /** The output-writing half: what a command other than `End` appends.
      Repeating the last byte of an empty output is `unwrap` of `None`. */
  function Execute(cmd: Command, out: seq<uint8>): (r: Result<seq<uint8>>)
    requires !cmd.End?
    ensures r.Err? ==> r.error == Panic
    ensures r.Ok? ==> |out| <= |r.value| && r.value[..|out|] == out
    ensures cmd.Literal? ==> r == Ok(out + cmd.bytes)
    ensures cmd.Fill? ==> (r.Ok? && |r.value| == |out| + cmd.count &&
      forall k :: |out| <= k < |r.value| ==> r.value[k] == cmd.value)
    ensures cmd.RepeatLast? ==> (r.Ok? <==> |out| > 0)
    ensures cmd.RepeatLast? && r.Ok? ==> (|r.value| == |out| + cmd.count &&
      forall k :: |out| <= k < |r.value| ==> r.value[k] == out[|out| - 1])
    ensures cmd.Copy? ==> r == CopyBlock(out, cmd.count, cmd.pos, cmd.relative)
  {
    match cmd
    case Literal(bytes) => Ok(out + bytes)
    case RepeatLast(count) =>
      if |out| == 0 then Err(Panic) else Ok(out + Repeat(out[|out| - 1], count))
    case Copy(count, pos, relative) => CopyBlock(out, count, pos, relative)
    case Fill(count, value) => Ok(out + Repeat(value, count))
  }

  /** What one pass of the loop does: stop (the 0x80 end marker) or emit,
      leaving the output longer and the cursor further on. */
  datatype Step = Stop(c: Cursor) | Emit(out: seq<uint8>, c: Cursor)

  function LcwStep(c: Cursor, out: seq<uint8>, relative: bool): (r: Result<Step>)
    ensures Remaining(c) == 0 ==> r == Err(Panic)
    ensures r.Err? ==> r.error == Panic || r.error == UnexpectedEof
    ensures r.Ok? ==> r.value.c.data == c.data && c.pos < r.value.c.pos <= |c.data|
    ensures r.Ok? ==> Remaining(r.value.c) < Remaining(c)
    ensures r.Ok? && r.value.Emit? ==> |out| <= |r.value.out| && r.value.out[..|out|] == out
    ensures r.Ok? && r.value.Stop? ==>
      r.value.c == Cursor(c.data, c.pos + 1) && c.pos < |c.data| && c.data[c.pos] == 0x80
  {
    var (cmd, c') :- ParseCommand(c, relative);
    if cmd.End? then Ok(Stop(c'))
    else
      var out' :- Execute(cmd, out);
      Ok(Emit(out', c'))
  }

  /** A step emits exactly what its command appends. */
  lemma StepExecutes(c: Cursor, out: seq<uint8>, relative: bool, cmd: Command, c': Cursor)
    requires ParseCommand(c, relative) == Ok((cmd, c')) && !cmd.End?
    ensures var e := Execute(cmd, out);
      LcwStep(c, out, relative) == if e.Ok? then Ok(Emit(e.value, c')) else Err(e.error)
  {
  }

  lemma ReadU16LeValue(c: Cursor)
    ensures Remaining(c) >= 2 ==> ReadU16Le(c).0 == U16At(c.data, c.pos)
  {
    if Remaining(c) >= 2 {
      LeValue2(c.data[c.pos..c.pos + 2]);
    }
  }

  /** 0x80 ends the stream. */
  lemma ParseEnd(c: Cursor, relative: bool)
    requires Remaining(c) > 0 && c.data[c.pos] == 0x80
    ensures ParseCommand(c, relative) == Ok((End, Cursor(c.data, c.pos + 1)))
  {
  }

  /** Command 1, `10cccccc`: the next `cccccc` input bytes are copied; too
      few of them is an end-of-file error. */
  lemma ParseLiteral(c: Cursor, relative: bool)
    requires Remaining(c) > 0 && c.data[c.pos] / 64 == 2 && c.data[c.pos] != 0x80
    ensures var count := c.data[c.pos] % 64;
      var r := ParseCommand(c, relative);
      (r.Ok? <==> count < Remaining(c)) &&
      (r.Ok? ==> r == Ok((Literal(c.data[c.pos + 1..c.pos + 1 + count]), Cursor(c.data, c.pos + 1 + count))))
  {
    var count := c.data[c.pos] % 64;
    if count < Remaining(c) {
      var c1 := Cursor(c.data, c.pos + 1);
      assert ReadExact(c1, count).value.0 == c.data[c.pos + 1..c.pos + 1 + count];
    }
  }

  /** Command 2, `0cccpppp pppppppp`: ccc + 3 bytes copied from `pos` bytes
      back, whatever the stream's mode; `pos` 1 repeats the last byte. */
  lemma ParseRelativeCopy(c: Cursor, relative: bool)
    requires Remaining(c) >= 2 && c.data[c.pos] < 0x80
    ensures var count := c.data[c.pos] / 16 + 3;
      var pos := (c.data[c.pos] % 16) as int * 256 + c.data[c.pos + 1] as int;
      ParseCommand(c, relative)
        == Ok((if pos == 1 then RepeatLast(count) else Copy(count, pos, true), Cursor(c.data, c.pos + 2)))
  {
  }

  /** Command 4, `0xfe`: a u16 count, then the byte to repeat. */
  lemma ParseFill(c: Cursor, relative: bool)
    requires Remaining(c) >= 4 && c.data[c.pos] == 0xFE
    ensures ParseCommand(c, relative)
      == Ok((Fill(U16At(c.data, c.pos + 1), c.data[c.pos + 3]), Cursor(c.data, c.pos + 4)))
  {
    ReadU16LeValue(Cursor(c.data, c.pos + 1));
  }

  /** Command 5, `0xff`: a u16 count and a u16 position, copied in the
      stream's mode. */
  lemma ParseLongCopy(c: Cursor, relative: bool)
    requires Remaining(c) >= 5 && c.data[c.pos] == 0xFF
    ensures ParseCommand(c, relative)
      == Ok((Copy(U16At(c.data, c.pos + 1), U16At(c.data, c.pos + 3), relative), Cursor(c.data, c.pos + 5)))
  {
    ReadU16LeValue(Cursor(c.data, c.pos + 1));
    ReadU16LeValue(Cursor(c.data, c.pos + 3));
  }

  /** Command 3, `11cccccc pppp`: cccccc + 3 bytes from a u16 position,
      copied in the stream's mode. */
  lemma ParseMediumCopy(c: Cursor, relative: bool)
    requires Remaining(c) >= 3 && 0xC0 <= c.data[c.pos] < 0xFE
    ensures ParseCommand(c, relative)
      == Ok((Copy(c.data[c.pos] % 64 + 3, U16At(c.data, c.pos + 1), relative), Cursor(c.data, c.pos + 3)))
  {
    ReadU16LeValue(Cursor(c.data, c.pos + 1));
  }

  lemma PrefixOfPrefix(a: seq<uint8>, b: seq<uint8>, c: seq<uint8>)
    requires |a| <= |b| && b[..|a|] == a && |b| <= |c| && c[..|b|] == b
    ensures |a| <= |c| && c[..|a|] == a
  {
    assert c[..|a|] == c[..|b|][..|a|];
  }

  /** The command loop from a given cursor and output.  It ends only by
      consuming a 0x80 byte: running out of input is a panic. */
  function InflateLcw(c: Cursor, out: seq<uint8>, relative: bool): (r: Result<(seq<uint8>, Cursor)>)
    ensures r.Ok? ==> r.value.1.data == c.data && c.pos < r.value.1.pos <= |c.data|
    ensures r.Ok? ==> c.data[r.value.1.pos - 1] == 0x80
    ensures r.Err? ==> r.error == Panic || r.error == UnexpectedEof
    decreases Remaining(c)
  {
    var step := LcwStep(c, out, relative);
    if step.Err? then Err(step.error)
    else if step.value.Stop? then Ok((out, step.value.c))
    else InflateLcw(step.value.c, step.value.out, relative)
  }

  /** The loop only ever appends: what was output before is kept as it
      was. */
  lemma {:induction false} InflateLcwExtends(c: Cursor, out: seq<uint8>, relative: bool)
    ensures var r := InflateLcw(c, out, relative);
      r.Ok? ==> |out| <= |r.value.0| && r.value.0[..|out|] == out
    decreases Remaining(c)
  {
    var step := LcwStep(c, out, relative);
    if step.Ok? && step.value.Emit? {
      InflateLcwExtends(step.value.c, step.value.out, relative);
      var r := InflateLcw(c, out, relative);
      if r.Ok? {
        PrefixOfPrefix(out, step.value.out, r.value.0);
      }
    }
  }

  /** `inflate_lcw_data`: a leading 0 selects relative copies and is
      consumed; any other first byte is put back and read as a command. */
  function InflateLcwData(c: Cursor): (r: Result<(seq<uint8>, Cursor)>)
    ensures Remaining(c) > 0 && c.data[c.pos] == 0 ==>
      r == InflateLcw(Cursor(c.data, c.pos + 1), [], true)
    ensures Remaining(c) > 0 && c.data[c.pos] != 0 ==>
      r == InflateLcw(c, [], false)
    ensures Remaining(c) == 0 ==> r == Err(Panic)
  {
    var (first, c1) := ReadU8(c);
    var relative := first == 0;
    var start := if relative then c1 else c;
    InflateLcw(start, [], relative)
  }

  /** A stream of literal runs of at most 63 bytes closed by 0x80, the
      simplest input the decompressor accepts. */
  function EncodeLiterals(data: seq<uint8>): (r: seq<uint8>)
    decreases |data|
  {
    if |data| == 0 then [0x80]
    else
      var n := Min(|data|, 63);
      [0x80 + n] + data[..n] + EncodeLiterals(data[n..])
  }

  /** One turn of the command loop. */
  lemma InflateLcwUnfold(c: Cursor, out: seq<uint8>, relative: bool)
    ensures var step := LcwStep(c, out, relative);
      (step.Ok? && step.value.Stop? ==> InflateLcw(c, out, relative) == Ok((out, step.value.c))) &&
      (step.Ok? && step.value.Emit? ==>
        InflateLcw(c, out, relative) == InflateLcw(step.value.c, step.value.out, relative))
  {
  }

  lemma InflateLcwEmit(c: Cursor, out: seq<uint8>, relative: bool, out': seq<uint8>, c': Cursor)
    requires LcwStep(c, out, relative) == Ok(Emit(out', c'))
    ensures InflateLcw(c, out, relative) == InflateLcw(c', out', relative)
  {
    InflateLcwUnfold(c, out, relative);
  }

  /** A non-empty literal-run stream starts with one run of up to 63
      bytes. */
  lemma LiteralsHead(data: seq<uint8>)
    requires |data| > 0
    ensures var n := Min(|data|, 63);
      EncodeLiterals(data) == [0x80 + n] + data[..n] + EncodeLiterals(data[n..])
  {
  }

  /** A literal-run stream starts with a run or with the end marker, never
      with the 0 that would select relative copies. */
  lemma LiteralsStart(data: seq<uint8>)
    ensures |EncodeLiterals(data)| > 0 && EncodeLiterals(data)[0] >= 0x80
  {
  }

  /** The first chunk of a literal-run stream, located in `s` at `p`: the
      run header, the run's bytes `head`, then the stream of the rest. */
  lemma LiteralChunk(s: seq<uint8>, p: nat, data: seq<uint8>, head: seq<uint8>, tail: seq<uint8>)
    requires |data| > 0
    requires head == data[..Min(|data|, 63)] && tail == EncodeLiterals(data[Min(|data|, 63)..])
    requires p + |EncodeLiterals(data)| <= |s|
    requires s[p..p + |EncodeLiterals(data)|] == EncodeLiterals(data)
    ensures |EncodeLiterals(data)| == 1 + |head| + |tail|
    ensures s[p] == 0x80 + |head| && s[p + 1..p + 1 + |head|] == head
    ensures s[p + 1 + |head|..p + 1 + |head| + |tail|] == tail
  {
    LiteralsHead(data);
    Chunk(s, p, 0x80 + |head|, head, tail);
  }

  lemma StepLiteralAt(s: seq<uint8>, p: nat, n: nat, out: seq<uint8>, relative: bool)
    requires 1 <= n <= 63 && p + 1 + n <= |s| && s[p] == 0x80 + n
    ensures LcwStep(Cursor(s, p), out, relative) == Ok(Emit(out + s[p + 1..p + 1 + n], Cursor(s, p + 1 + n)))
  {
    ParseLiteral(Cursor(s, p), relative);
    StepExecutes(Cursor(s, p), out, relative, Literal(s[p + 1..p + 1 + n]), Cursor(s, p + 1 + n));
  }

  lemma LiteralsJoin(out: seq<uint8>, data: seq<uint8>, n: nat)
    requires n <= |data|
    ensures (out + data[..n]) + data[n..] == out + data
  {
    assert data[..n] + data[n..] == data;
  }

  /** One literal run followed by the stream of the bytes after it. */
  lemma {:induction false} InflateLiteralsCons(s: seq<uint8>, p: nat, data: seq<uint8>, n: nat, out: seq<uint8>,
                                               relative: bool, head: seq<uint8>, rest: seq<uint8>, end: nat)
    requires 1 <= n <= 63 && n <= |data| && head == data[..n] && rest == data[n..]
    requires end == p + 1 + n + |EncodeLiterals(rest)| <= |s|
    requires s[p] == 0x80 + n && s[p + 1..p + 1 + n] == head
    requires s[p + 1 + n..end] == EncodeLiterals(rest)
    ensures InflateLcw(Cursor(s, p), out, relative) == Ok((out + data, Cursor(s, end)))
    decreases |data|, 0
  {
    InflateLiterals(s, p + 1 + n, rest, out + head, relative);
    StepLiteralAt(s, p, n, out, relative);
    InflateLcwEmit(Cursor(s, p), out, relative, out + head, Cursor(s, p + 1 + n));
    LiteralsJoin(out, data, n);
  }

  lemma {:induction false} InflateLiterals(s: seq<uint8>, p: nat, data: seq<uint8>, out: seq<uint8>, relative: bool)
    requires p + |EncodeLiterals(data)| <= |s|
    requires s[p..p + |EncodeLiterals(data)|] == EncodeLiterals(data)
    ensures InflateLcw(Cursor(s, p), out, relative)
         == Ok((out + data, Cursor(s, p + |EncodeLiterals(data)|)))
    decreases |data|, 1
  {
    if |data| == 0 {
      assert s[p] == EncodeLiterals(data)[0];
      ParseEnd(Cursor(s, p), relative);
      InflateLcwUnfold(Cursor(s, p), out, relative);
      assert out + data == out;
    } else {
      var n := Min(|data|, 63);
      var head, rest := data[..n], data[n..];
      LiteralChunk(s, p, data, head, EncodeLiterals(rest));
      InflateLiteralsCons(s, p, data, n, out, relative, head, rest, p + |EncodeLiterals(data)|);
    }
  }

  /** Decompressing a literal-run stream gives the bytes back and stops
      right after the end marker. */
  lemma LiteralsRoundTrip(data: seq<uint8>, rest: seq<uint8>)
    ensures var s := EncodeLiterals(data) + rest;
      InflateLcwData(Cursor(s, 0)) == Ok((data, Cursor(s, |EncodeLiterals(data)|)))
  {
    var s := EncodeLiterals(data) + rest;
    LiteralsStart(data);
    assert s[0] == EncodeLiterals(data)[0];
    assert s[0..|EncodeLiterals(data)|] == EncodeLiterals(data);
    InflateLiterals(s, 0, data, [], false);
    assert [] + data == data;
  }

  // -----------------------------------------------------------------------
  // Frames
  // -----------------------------------------------------------------------

  /** An `SHPFrame`: the size read from the header and the decoded pixels. */
  datatype Frame = Frame(width: nat, height: nat, data: seq<uint8>)

  /** The ten fixed header bytes: two flag bytes, slices, width, height,
      frame size and the size of the RLE data. */
  datatype FrameHeader = FrameHeader(flags: uint8, slices: uint8, width: nat, height: uint8,
                                     frameSize: nat, rleSize: nat)

  /** The header as the bytes at `p` spell it. */
  function HeaderAt(data: seq<uint8>, p: nat): FrameHeader
    requires p + 10 <= |data|
  {
    FrameHeader(data[p], data[p + 2], U16At(data, p + 3), data[p + 5], U16At(data, p + 6), U16At(data, p + 8))
  }

  /** The flag bits of the first header byte (`BitArr!` in `Lsb0` order). */
  predicate HasRemapTable(flags: uint8) { flags % 2 == 1 }
  predicate NoLcw(flags: uint8) { flags / 2 % 2 == 1 }
  predicate CustomSizeRemap(flags: uint8) { flags / 4 % 2 == 1 }

  /** The header reads of `shp_read_frame`: the flag bytes with
      `read_exact`, the rest with `try_read_from`. */
  function ReadFrameHeader(c: Cursor): (r: Result<(FrameHeader, Cursor)>)
    ensures r.Ok? <==> 2 <= Remaining(c)
    ensures r.Err? ==> r.error == UnexpectedEof
    ensures 10 <= Remaining(c) ==> r == Ok((HeaderAt(c.data, c.pos), Cursor(c.data, c.pos + 10)))
  {
    var (flagBytes, c1) :- ReadExact(c, 2);
    var (slices, c2) := ReadU8(c1);
    var (width, c3) := ReadU16Le(c2);
    var (height, c4) := ReadU8(c3);
    var (frameSize, c5) := ReadU16Le(c4);
    var (rleSize, c6) := ReadU16Le(c5);
    ReadU16LeValue(c2);
    ReadU16LeValue(c4);
    ReadU16LeValue(c5);
    Ok((FrameHeader(flagBytes[0], slices, width, height, frameSize, rleSize), c6))
  }

  /** `data[i] = remap_table[data[i]]` for every byte, panicking on an index
      outside the table. */
  function Remap(data: seq<uint8>, table: seq<uint8>): (r: Result<seq<uint8>>)
    ensures r.Ok? <==> forall i :: 0 <= i < |data| ==> data[i] < |table|
    ensures r.Err? ==> r.error == Panic
    ensures r.Ok? ==> |r.value| == |data|
    ensures r.Ok? ==> forall i :: 0 <= i < |data| ==> r.value[i] == table[data[i]]
  {
    if forall i :: 0 <= i < |data| ==> data[i] < |table| then
      Ok(seq(|data|, i requires 0 <= i < |data| => table[data[i]]))
    else Err(Panic)
  }

  /** The remap table: 16 bytes, a counted table, or none. */
  function ReadRemapTable(flags: uint8, c: Cursor): (r: (seq<uint8>, Cursor))
    ensures !HasRemapTable(flags) ==> r == ([], c)
    ensures HasRemapTable(flags) && !CustomSizeRemap(flags) ==> |r.0| == 16
    ensures HasRemapTable(flags) && CustomSizeRemap(flags) && Remaining(c) > 0 ==> |r.0| == c.data[c.pos]
  {
    var (size, c1) :=
      if !HasRemapTable(flags) then (0, c)
      else if CustomSizeRemap(flags) then ReadU8(c)
      else (16, c);
    // `remap_table_size` single-byte reads, each 0 past the end
    var (table, _, c2) := ReadSome(c1, size);
    (table, c2)
  }

  /** The RLE stream: stored as is when flag bit 1 is set, LCW-compressed
      otherwise; then expanded. */
  function DecodePayload(c: Cursor, h: FrameHeader): (r: Result<seq<uint8>>)
    ensures NoLcw(h.flags) && h.rleSize > Remaining(c) ==> r == Err(UnexpectedEof)
    ensures NoLcw(h.flags) && h.rleSize <= Remaining(c) && c.pos <= |c.data| ==>
      r == InflateRleZero(c.data[c.pos..c.pos + h.rleSize])
    ensures !NoLcw(h.flags) ==>
      r == (var l := InflateLcwData(c); if l.Ok? then InflateRleZero(l.value.0) else Err(l.error))
  {
    var (rle, _) :- if NoLcw(h.flags) then ReadExact(c, h.rleSize) else InflateLcwData(c);
    InflateRleZero(rle)
  }

  /** `shp_read_frame` at `offset`, expecting `size` bytes: the header,
      then the rest of the frame from the cursor after it. */
  function ReadFrame(data: seq<uint8>, offset: nat, size: nat): (r: Result<Frame>)
    ensures offset + 2 > |data| ==> r == Err(UnexpectedEof)
    ensures offset + 10 <= |data| ==>
      r == ReadFrameBody(HeaderAt(data, offset), Cursor(data, offset + 10), size)
  {
    var (h, c1) :- ReadFrameHeader(Cursor(data, offset));
    ReadFrameBody(h, c1, size)
  }

  /** The part of `shp_read_frame` after the header: the two consistency
      checks, the remap table, the payload and the remapping.  A non-empty
      table leaves only table entries in the frame. */
  function ReadFrameBody(h: FrameHeader, c: Cursor, size: nat): (r: Result<Frame>)
    ensures h.slices != h.height ==> r == Err(SlicesMismatch(h.slices, h.height))
    ensures h.slices == h.height && h.frameSize != size ==> r == Err(FrameSizeMismatch(h.frameSize, size))
    ensures r.Ok? ==> r.value.width == h.width && r.value.height == h.height
    ensures r.Ok? ==> var table := ReadRemapTable(h.flags, c).0;
      |table| > 0 ==> forall i :: 0 <= i < |r.value.data| ==> r.value.data[i] in table
  {
    if h.slices != h.height then Err(SlicesMismatch(h.slices, h.height))
    else if size != h.frameSize then Err(FrameSizeMismatch(h.frameSize, size))
    else
      var (remap, c2) := ReadRemapTable(h.flags, c);
      var pixels :- DecodePayload(c2, h);
      var out :- if |remap| > 0 then Remap(pixels, remap) else Ok(pixels);
      Ok(Frame(h.width, h.height, out))
  }

  /** The header of an uncompressed frame (flag bit 1 set, no remap table)
      followed by the zero-run encoding of `pixels`. */
  function EncodeRawFrame(width: uint16, height: uint8, pixels: seq<uint8>): (r: seq<uint8>)
    requires FrameEncodable(pixels)
    ensures |r| == 10 + |RleZeroEncode(pixels)|
  {
    var rle := RleZeroEncode(pixels);
    [2, 0, height] + LeBytes(width, 2) + [height] + LeBytes(10 + |rle|, 2) + LeBytes(|rle|, 2) + rle
  }

  predicate FrameEncodable(pixels: seq<uint8>)
  {
    10 + |RleZeroEncode(pixels)| < 0x1_0000
  }

  lemma RawFrameHeader(width: uint16, height: uint8, pixels: seq<uint8>, data: seq<uint8>, o: nat)
    requires FrameEncodable(pixels)
    requires o + 10 + |RleZeroEncode(pixels)| <= |data|
    requires data[o..o + 10 + |RleZeroEncode(pixels)|] == EncodeRawFrame(width, height, pixels)
    ensures var n := |RleZeroEncode(pixels)|;
      HeaderAt(data, o) == FrameHeader(2, height, width, height, 10 + n, n)
  {
    var rle := RleZeroEncode(pixels);
    var f := EncodeRawFrame(width, height, pixels);
    var w := LeBytes(width, 2);
    var fs := LeBytes(10 + |rle|, 2);
    var rs := LeBytes(|rle|, 2);
    Pow256Values();
    LeRoundTrip(width, 2);
    LeRoundTrip(10 + |rle|, 2);
    LeRoundTrip(|rle|, 2);
    LeValue2(w);
    LeValue2(fs);
    LeValue2(rs);
    assert f[0] == 2 && f[2] == height && f[5] == height;
    assert f[3] == w[0] && f[4] == w[1];
    assert f[6] == fs[0] && f[7] == fs[1];
    assert f[8] == rs[0] && f[9] == rs[1];
    assert forall i :: 0 <= i < 10 ==> data[o + i] == f[i];
  }

  /** Reading back an encoded uncompressed frame gives its size and pixels. */
  lemma RawFrameRoundTrip(width: uint16, height: uint8, pixels: seq<uint8>, pre: seq<uint8>, rest: seq<uint8>)
    requires FrameEncodable(pixels)
    ensures var f := EncodeRawFrame(width, height, pixels);
      ReadFrame(pre + f + rest, |pre|, |f|) == Ok(Frame(width, height, pixels))
  {
    var rle := RleZeroEncode(pixels);
    var f := EncodeRawFrame(width, height, pixels);
    var data := pre + f + rest;
    var o := |pre|;
    Middle(pre, f, rest);
    RawFrameHeader(width, height, pixels, data, o);
    RawFramePayload(width, height, pixels, data, o);
    RleZeroRoundTrip(pixels);
    ReadStoredFrame(data, o, width, height, |rle|);
  }

  /** A frame with flags 2 (stored, no remap table) and consistent sizes
      reads as the zero-run expansion of the `n` bytes after its header. */
  lemma ReadStoredFrame(data: seq<uint8>, o: nat, width: nat, height: uint8, n: nat)
    requires o + 10 + n <= |data|
    requires HeaderAt(data, o) == FrameHeader(2, height, width, height, 10 + n, n)
    ensures var e := InflateRleZero(data[o + 10..o + 10 + n]);
      ReadFrame(data, o, 10 + n) == if e.Ok? then Ok(Frame(width, height, e.value)) else Err(e.error)
  {
    var h := HeaderAt(data, o);
    var c := Cursor(data, o + 10);
    assert NoLcw(h.flags) && !HasRemapTable(h.flags);
    assert ReadRemapTable(h.flags, c) == ([], c);
    assert DecodePayload(c, h) == InflateRleZero(data[o + 10..o + 10 + n]);
    assert ReadFrame(data, o, 10 + n) == ReadFrameBody(h, c, 10 + n);
  }

  /** The zero-run bytes of an encoded frame sit right after its header. */
  lemma RawFramePayload(width: uint16, height: uint8, pixels: seq<uint8>, data: seq<uint8>, o: nat)
    requires FrameEncodable(pixels)
    requires o + 10 + |RleZeroEncode(pixels)| <= |data|
    requires data[o..o + 10 + |RleZeroEncode(pixels)|] == EncodeRawFrame(width, height, pixels)
    ensures data[o + 10..o + 10 + |RleZeroEncode(pixels)|] == RleZeroEncode(pixels)
  {
    var rle := RleZeroEncode(pixels);
    var f := EncodeRawFrame(width, height, pixels);
    SubSlice(data, o, o + |f|, 10, |f|);
    assert f[10..] == rle;
  }

  /** `read_tiles_from_reader`: every frame listed in the offset table, in
      order. */
  function ReadFrames(data: seq<uint8>): (r: Result<seq<Frame>>)
    ensures |data| < 6 ==> r == Err(UnexpectedEof)
    ensures r.Ok? ==> |r.value| == data[0] as int + 256 * (data[1] as int)
  {
    var (version, c) :- ReadVersion(data);
    var pairs :- ReadFrameOffsets(c, version);
    ReadFramesAt(data, pairs)
  }

  function ReadFramesAt(data: seq<uint8>, pairs: seq<(nat, nat)>): (r: Result<seq<Frame>>)
    ensures r.Ok? ==> |r.value| == |pairs|
    ensures r.Ok? ==> forall i :: 0 <= i < |pairs| ==> ReadFrame(data, pairs[i].0, pairs[i].1) == Ok(r.value[i])
    decreases |pairs|
  {
    if |pairs| == 0 then Ok([])
    else
      var f :- ReadFrame(data, pairs[0].0, pairs[0].1);
      var rest :- ReadFramesAt(data, pairs[1..]);
      Ok([f] + rest)
  }
}

=== FILE: unpak.dfy ===
/** The PAK archive reader of packages/unpak/src/command.rs.  A PAK file
    starts with a table of contents: per entry a u32 little-endian offset
    and a NUL-terminated name; an offset of 0 ends the table and stands for
    the end of the file.  Entry `i` runs from its offset to the next
    entry's offset, so the entry the end marker gives is never extracted.
    Names are kept as bytes: `from_utf8_lossy` is not modelled. */
module Unpak {
  import opened Common
  import opened Bytes
  import opened Reader

  /** `PAKRawEntry`: where an entry starts, and its name. */
  datatype RawEntry = RawEntry(offset: nat, name: seq<uint8>)

  /** A file written out by `run`: its name and its bytes. */
  datatype File = File(name: seq<uint8>, content: seq<uint8>)

  /** `read_offset`: one `read` of four bytes, which on a cursor reads
      four bytes exactly when four remain.  Anything short of four bytes
      gives `None`; a zero offset seeks to the end and gives the data
      length; any other offset is returned as it is. */
  function ReadOffset(c: Cursor): (r: Option<(nat, Cursor)>)
    ensures r.Some? ==> r.value.1.data == c.data && Remaining(r.value.1) < Remaining(c)
  {
    if Remaining(c) < 4 then None
    else
      var offset := LeValue(c.data[c.pos..c.pos + 4]);
      if offset == 0 then Some((|c.data|, Cursor(c.data, |c.data|))) else Some((offset, Cursor(c.data, c.pos + 4)))
  }

  /** The read `read_offset` makes is the one `Reader.ReadSome` models. */
  lemma ReadOffsetReads(c: Cursor)
    ensures ReadOffset(c).Some? <==> ReadSome(c, 4).1 == 4
    ensures ReadOffset(c).Some? ==> ReadSome(c, 4).0 == c.data[c.pos..c.pos + 4] && ReadSome(c, 4).2 == Cursor(c.data, c.pos + 4)
  {
  }

  /** What `read_offset` returns, in terms of the four bytes at the
      cursor. */
  lemma ReadOffsetSpec(c: Cursor)
    ensures ReadOffset(c).Some? <==> Remaining(c) >= 4
    ensures ReadOffset(c).Some? && LeValue(c.data[c.pos..c.pos + 4]) != 0 ==>
      ReadOffset(c).value == (LeValue(c.data[c.pos..c.pos + 4]), Cursor(c.data, c.pos + 4))
    ensures ReadOffset(c).Some? && LeValue(c.data[c.pos..c.pos + 4]) == 0 ==>
      ReadOffset(c).value == (|c.data|, Cursor(c.data, |c.data|))
  {
  }

  /** The position of the first NUL byte at or after `p`, or the end of the
      data when there is none. */
  function NulFrom(data: seq<uint8>, p: nat): (q: nat)
    requires p <= |data|
    ensures p <= q <= |data|
    ensures forall i :: p <= i < q ==> data[i] != 0
    ensures q < |data| ==> data[q] == 0
    decreases |data| - p
  {
    if p == |data| || data[p] == 0 then p else NulFrom(data, p + 1)
  }

  /** `read_cstring`: `read_until(0)` takes the bytes up to and including
      the first NUL, or up to the end when there is none, and `pop` drops
      the last byte taken.  So a terminated name comes back without its
      NUL, an unterminated one loses its last byte, and at the end of the
      data the name is empty.  `read_until` on a cursor cannot fail, so the
      `unwrap` in `next` never panics. */
  function ReadCString(c: Cursor): (r: (seq<uint8>, Cursor))
    ensures r.1.data == c.data && Remaining(r.1) <= Remaining(c)
  {
    if c.pos >= |c.data| then ([], c)
    else
      var q := NulFrom(c.data, c.pos);
      var taken := c.data[c.pos..Min(q + 1, |c.data|)];
      (taken[..|taken| - 1], Cursor(c.data, c.pos + |taken|))
  }

  /** What `read_cstring` returns, in terms of the first NUL at or after
      the cursor. */
  lemma ReadCStringSpec(c: Cursor)
    ensures c.pos >= |c.data| ==> ReadCString(c) == ([], c)
    ensures c.pos < |c.data| && NulFrom(c.data, c.pos) < |c.data| ==>
      var q := NulFrom(c.data, c.pos);
      ReadCString(c) == (c.data[c.pos..q], Cursor(c.data, q + 1)) && 0 !in ReadCString(c).0
    ensures c.pos < |c.data| && NulFrom(c.data, c.pos) == |c.data| ==>
      ReadCString(c) == (c.data[c.pos..|c.data| - 1], Cursor(c.data, |c.data|)) && 0 !in ReadCString(c).0
  {
    if c.pos < |c.data| {
      var q := NulFrom(c.data, c.pos);
      var name := ReadCString(c).0;
      assert name == c.data[c.pos..Min(q + 1, |c.data|) - 1];
      assert forall i :: 0 <= i < |name| ==> name[i] == c.data[c.pos + i];
    }
  }

  /** Everything `PAKRawEntryReader` yields from cursor `c`: an entry per
      offset read, until fewer than four bytes remain. */
  function Entries(c: Cursor): seq<RawEntry>
    decreases Remaining(c)
  {
    var offset := ReadOffset(c);
    if offset.None? then []
    else
      var name := ReadCString(offset.value.1);
      [RawEntry(offset.value.0, name.0)] + Entries(name.1)
  }

  /** `PAKRawEntryReader::new(data).collect()` */
  function RawEntries(data: seq<uint8>): seq<RawEntry>
  {
    Entries(Cursor(data, 0))
  }

  // -----------------------------------------------------------------------
  // The table of contents, as a writer would lay it out
  // -----------------------------------------------------------------------

  /** Reference encoding of table entries: each offset as four
      little-endian bytes, then the name and a NUL. */
  function TableBytes(es: seq<RawEntry>): (r: seq<uint8>)
    decreases |es|
  {
    if |es| == 0 then [] else EntryBytes(es[0]) + TableBytes(es[1..])
  }

  /** An entry the table can hold: a non-zero u32 offset (zero marks the
      end) and a name without NUL. */
  predicate Storable(e: RawEntry)
  {
    0 < e.offset < 0x1_0000_0000 && 0 !in e.name
  }

  /** A terminated name is read back whole, and the cursor stops right
      after its NUL. */
  lemma ReadName(data: seq<uint8>, p: nat, name: seq<uint8>)
    requires 0 !in name && SliceAt(data, p, name + [0])
    ensures ReadCString(Cursor(data, p)) == (name, Cursor(data, p + |name| + 1))
  {
    var q := p + |name|;
    assert data[q] == (name + [0])[|name|] == 0;
    forall i | p <= i < q
      ensures data[i] != 0
    {
      assert data[i] == (name + [0])[i - p] == name[i - p];
    }
    NulAt(data, p, q);
    ReadCStringSpec(Cursor(data, p));
    assert data[p..q] == (name + [0])[..|name|] == name;
  }

  /** The first NUL from `p` is at `q` when `q` holds one and nothing
      before it does. */
  lemma {:induction false} NulAt(data: seq<uint8>, p: nat, q: nat)
    requires p <= q < |data| && data[q] == 0
    requires forall i :: p <= i < q ==> data[i] != 0
    ensures NulFrom(data, p) == q
    decreases q - p
  {
    if p < q {
      NulAt(data, p + 1, q);
    }
  }

  /** A stored offset is read back. */
  lemma ReadStoredOffset(data: seq<uint8>, p: nat, offset: nat)
    requires 0 < offset < 0x1_0000_0000 && SliceAt(data, p, LeBytes(offset, 4))
    ensures ReadOffset(Cursor(data, p)) == Some((offset, Cursor(data, p + 4)))
  {
    Pow256Values();
    LeRoundTrip(offset, 4);
    ReadOffsetSpec(Cursor(data, p));
  }

  /** The table bytes of one entry. */
  function EntryBytes(e: RawEntry): (r: seq<uint8>)
    ensures |r| == 4 + |e.name| + 1
  {
    LeBytes(e.offset, 4) + e.name + [0]
  }

  /** One storable entry is read back from its table bytes. */
  lemma ReadEntry(c: Cursor, e: RawEntry, next: Cursor)
    requires Storable(e) && SliceAt(c.data, c.pos, EntryBytes(e))
    requires next == Cursor(c.data, c.pos + |EntryBytes(e)|)
    ensures ReadsEntry(c, e, next)
  {
    Split(c.data, c.pos, EntryBytes(e), LeBytes(e.offset, 4), e.name + [0]);
    ReadStoredOffset(c.data, c.pos, e.offset);
    ReadName(c.data, c.pos + 4, e.name);
  }

  lemma {:induction false} TableBytesAppend(a: seq<RawEntry>, b: seq<RawEntry>)
    ensures TableBytes(a + b) == TableBytes(a) + TableBytes(b)
    decreases |a|
  {
    if |a| > 0 {
      assert (a + b)[0] == a[0] && (a + b)[1..] == a[1..] + b;
      TableBytesAppend(a[1..], b);
    } else {
      assert a + b == b;
    }
  }

  /** The table bytes of entry `k` follow those of the entries before it. */
  lemma EntryAt(data: seq<uint8>, p: nat, es: seq<RawEntry>, k: nat)
    requires k < |es| && SliceAt(data, p, TableBytes(es))
    ensures SliceAt(data, p + |TableBytes(es[..k])|, EntryBytes(es[k]))
    ensures |TableBytes(es[..k + 1])| == |TableBytes(es[..k])| + |EntryBytes(es[k])|
  {
    assert es == es[..k] + es[k..];
    TableBytesAppend(es[..k], es[k..]);
    assert es[..k + 1] == es[..k] + [es[k]];
    TableBytesAppend(es[..k], [es[k]]);
    assert TableBytes([es[k]]) == EntryBytes(es[k]);
    assert TableBytes(es[k..]) == EntryBytes(es[k]) + TableBytes(es[k + 1..]);
    SliceAtNested(data, p, TableBytes(es), |TableBytes(es[..k])|, EntryBytes(es[k]));
  }

  /** The cursor before each entry of a table laid out from `p`, and the
      one after the table. */
  function TableCursors(data: seq<uint8>, p: nat, es: seq<RawEntry>): (r: seq<Cursor>)
    ensures |r| == |es| + 1
  {
    seq(|es| + 1, k requires 0 <= k <= |es| => Cursor(data, p + |TableBytes(es[..k])|))
  }

  /** From cursor `c`, `read_offset` and `read_cstring` give back entry `e`
      and leave the cursor at `next`. */
  predicate ReadsEntry(c: Cursor, e: RawEntry, next: Cursor)
  {
    ReadOffset(c) == Some((e.offset, Cursor(c.data, c.pos + 4))) &&
    ReadCString(Cursor(c.data, c.pos + 4)) == (e.name, next)
  }

  /** Entry `k` of `es` is read from cursor `k` of `cs`, which leaves the
      cursor at `k + 1`. */
  predicate ReadsAll(cs: seq<Cursor>, es: seq<RawEntry>)
  {
    |cs| == |es| + 1 && forall k :: 0 <= k < |es| ==> ReadsEntry(cs[k], es[k], cs[k + 1])
  }

  /** Each entry of a table of storable entries is read back from where it
      lies. */
  lemma TableReads(data: seq<uint8>, p: nat, es: seq<RawEntry>)
    requires forall k :: 0 <= k < |es| ==> Storable(es[k])
    requires SliceAt(data, p, TableBytes(es))
    ensures ReadsAll(TableCursors(data, p, es), es)
    ensures TableCursors(data, p, es)[0] == Cursor(data, p)
    ensures TableCursors(data, p, es)[|es|] == Cursor(data, p + |TableBytes(es)|)
  {
    var cs := TableCursors(data, p, es);
    forall k | 0 <= k < |es|
      ensures ReadsEntry(cs[k], es[k], cs[k + 1])
    {
      EntryAt(data, p, es, k);
      ReadEntry(cs[k], es[k], cs[k + 1]);
    }
    assert es[..0] == [] && es[..|es|] == es;
  }

  /** What the iterator yields from the first of cursors that read `es`
      one after the other. */
  lemma ReadsAllEntries(cs: seq<Cursor>, es: seq<RawEntry>)
    requires ReadsAll(cs, es)
    ensures Entries(cs[0]) == es + Entries(cs[|es|])
  {
    var ys := seq(|es| + 1, k requires 0 <= k <= |es| => Entries(cs[k]));
    forall k | 0 <= k < |es|
      ensures ys[k] == [es[k]] + ys[k + 1]
    {
      EntriesStep(cs[k], es[k], Cursor(cs[k].data, cs[k].pos + 4), cs[k + 1]);
    }
    Chain(ys, es);
  }

  /** Reading a table of storable entries gives them back, in order, and
      goes on after the table. */
  lemma ReadTable(data: seq<uint8>, p: nat, es: seq<RawEntry>)
    requires forall k :: 0 <= k < |es| ==> Storable(es[k])
    requires SliceAt(data, p, TableBytes(es))
    ensures Entries(Cursor(data, p)) == es + Entries(Cursor(data, p + |TableBytes(es)|))
  {
    TableReads(data, p, es);
    ReadsAllEntries(TableCursors(data, p, es), es);
  }

  /** When each of `ys` is an entry of `es` followed by the next of `ys`,
      the first of `ys` is all of `es` followed by the last. */
  lemma {:induction false} Chain<T>(ys: seq<seq<T>>, es: seq<T>)
    requires |ys| == |es| + 1
    requires forall k :: 0 <= k < |es| ==> ys[k] == [es[k]] + ys[k + 1]
    ensures ys[0] == es + ys[|es|]
    decreases |es|
  {
    if |es| > 0 {
      forall k | 0 <= k < |es[1..]|
        ensures ys[1..][k] == [es[1..][k]] + ys[1..][k + 1]
      {
        assert ys[1..][k] == ys[k + 1] && ys[1..][k + 1] == ys[k + 2] && es[1..][k] == es[k + 1];
      }
      Chain(ys[1..], es[1..]);
      assert es == [es[0]] + es[1..];
    }
  }

  /** One step of the iterator, for an offset and a name already read. */
  lemma EntriesStep(c: Cursor, e: RawEntry, c1: Cursor, c2: Cursor)
    requires ReadOffset(c) == Some((e.offset, c1)) && ReadCString(c1) == (e.name, c2)
    ensures Entries(c) == [e] + Entries(c2)
  {
  }

  /** Four zero bytes end the table: they give one last entry, at the end
      of the data and with an empty name, and nothing after it is read. */
  lemma EndMarker(data: seq<uint8>, p: nat)
    requires SliceAt(data, p, [0, 0, 0, 0])
    ensures Entries(Cursor(data, p)) == [RawEntry(|data|, [])]
  {
    assert data[p..p + 4] == [0, 0, 0, 0];
    assert LeValue([0, 0, 0, 0]) == 0 by {
      assert [0, 0, 0, 0][1..] == [0, 0, 0];
      assert [0, 0, 0][1..] == [0, 0];
      assert [0, 0][1..] == [0];
    }
    ReadOffsetSpec(Cursor(data, p));
    ReadCStringSpec(Cursor(data, |data|));
    var end := Cursor(data, |data|);
    ReadOffsetSpec(end);
  }

  /** With fewer than four bytes left, nothing more is read. */
  lemma ShortTail(c: Cursor)
    requires Remaining(c) < 4
    ensures Entries(c) == []
  {
    ReadOffsetSpec(c);
  }

  // -----------------------------------------------------------------------
  // Entry sizes
  // -----------------------------------------------------------------------

  /** Adjacent entries never go down. */
  predicate Ascending(es: seq<RawEntry>)
  {
    forall i :: 0 <= i < |es| - 1 ==> es[i].offset <= es[i + 1].offset
  }

  /** The sizes `run` computes: `next_entry.0 - entry.0` for every entry
      but the last, a u64 subtraction that panics when the offsets go
      down.  The loop range `0..len - 1` itself panics on an empty list. */
  function EntrySizes(es: seq<RawEntry>): (r: Result<seq<nat>>)
    ensures r.Err? ==> r.error == Panic
  {
    if |es| == 0 then Err(Panic) else SizesFrom(es)
  }

  function SizesFrom(es: seq<RawEntry>): (r: Result<seq<nat>>)
    requires |es| >= 1
    ensures r.Err? ==> r.error == Panic
    decreases |es|
  {
    if |es| == 1 then Ok([])
    else if es[1].offset < es[0].offset then Err(Panic)
    else
      var rest :- SizesFrom(es[1..]);
      Ok([es[1].offset - es[0].offset] + rest)
  }

  /** Sizes come out exactly for a non-empty ascending list, one per entry
      but the last, each the distance to the next offset. */
  lemma {:induction false} SizesFromSpec(es: seq<RawEntry>)
    requires |es| >= 1
    ensures SizesFrom(es).Ok? <==> Ascending(es)
    ensures SizesFrom(es).Ok? ==>
      |SizesFrom(es).value| == |es| - 1 &&
      forall i :: 0 <= i < |es| - 1 ==> SizesFrom(es).value[i] == es[i + 1].offset - es[i].offset
    decreases |es|
  {
    if |es| > 1 {
      SizesFromSpec(es[1..]);
      if es[0].offset <= es[1].offset && Ascending(es[1..]) {
        forall i | 0 <= i < |es| - 1
          ensures es[i].offset <= es[i + 1].offset
        {
          if i > 0 {
            assert es[1..][i - 1] == es[i];
          }
        }
      }
      if Ascending(es) {
        assert forall i :: 0 <= i < |es[1..]| - 1 ==> es[1..][i] == es[i + 1];
      }
    }
  }

  lemma EntrySizesSpec(es: seq<RawEntry>)
    ensures EntrySizes(es).Ok? <==> |es| > 0 && Ascending(es)
    ensures EntrySizes(es).Ok? ==>
      |EntrySizes(es).value| == |es| - 1 &&
      forall i :: 0 <= i < |es| - 1 ==> EntrySizes(es).value[i] == es[i + 1].offset - es[i].offset
  {
    if |es| > 0 {
      SizesFromSpec(es);
    }
  }

  function Sum(s: seq<nat>): nat
  {
    if |s| == 0 then 0 else s[0] + Sum(s[1..])
  }

  /** The sizes add up to the span from the first offset to the last. */
  lemma {:induction false} SizesTelescope(es: seq<RawEntry>)
    requires EntrySizes(es).Ok?
    ensures es[0].offset <= es[|es| - 1].offset
    ensures Sum(EntrySizes(es).value) == es[|es| - 1].offset - es[0].offset
    decreases |es|
  {
    if |es| > 1 {
      assert SizesFrom(es).value == [es[1].offset - es[0].offset] + SizesFrom(es[1..]).value;
      SizesTelescope(es[1..]);
    }
  }

  /** An archive with fewer than four bytes has no entries, and `run`
      panics on it. */
  lemma ShortArchivePanics(data: seq<uint8>)
    requires |data| < 4
    ensures RawEntries(data) == [] && EntrySizes(RawEntries(data)) == Err(Panic)
  {
  }

  // -----------------------------------------------------------------------
  // Extraction
  // -----------------------------------------------------------------------

  /** `entry_data.resize(size, 0)`: truncated, or extended with zeros. */
  function Resize(buf: seq<uint8>, size: nat): (r: seq<uint8>)
    ensures |r| == size
    ensures forall i :: 0 <= i < Min(size, |buf|) ==> r[i] == buf[i]
    ensures forall i :: |buf| <= i < size ==> r[i] == 0
  {
    if size <= |buf| then buf[..size] else buf + Zeros(size - |buf|)
  }

  /** A seek to `offset`, then one `read` into `buf`: the bytes the data
      holds from `offset` on overwrite the front of `buf`, and the rest of
      `buf` keeps what it held. */
  function ReadInto(data: seq<uint8>, offset: nat, buf: seq<uint8>): (r: seq<uint8>)
    ensures |r| == |buf|
    ensures forall i :: 0 <= i < |r| ==> r[i] == if offset + i < |data| then data[offset + i] else buf[i]
  {
    var n := Min(|buf|, Remaining(Cursor(data, offset)));
    if n == 0 then buf else data[offset..offset + n] + buf[n..]
  }

  /** The extraction loop of `run` as written: one buffer, resized to each
      entry's size and read into, serves every entry. */
  function ExtractFromAsWritten(data: seq<uint8>, es: seq<RawEntry>, buf: seq<uint8>): (r: Result<seq<File>>)
    requires |es| >= 1
    decreases |es|
  {
    if |es| == 1 then Ok([])
    else if es[1].offset < es[0].offset then Err(Panic)
    else
      var content := ReadInto(data, es[0].offset, Resize(buf, es[1].offset - es[0].offset));
      var rest :- ExtractFromAsWritten(data, es[1..], content);
      Ok([File(es[0].name, content)] + rest)
  }

  /** `run` as written, the output directory left out: the files it
      writes, in order. */
  function ExtractAsWritten(data: seq<uint8>, es: seq<RawEntry>): (r: Result<seq<File>>)
  {
    if |es| == 0 then Err(Panic) else ExtractFromAsWritten(data, es, [])
  }

  /** The bytes of an entry from `lo` to `hi` the data actually holds. */
  function Held(data: seq<uint8>, lo: nat, hi: nat): (r: seq<uint8>)
    requires lo <= hi
    ensures |r| == Min(hi, |data|) - Min(lo, |data|)
    ensures hi <= |data| ==> r == data[lo..hi]
  {
    data[Min(lo, |data|)..Min(hi, |data|)]
  }

  /** The extraction loop with each file holding only the bytes `read`
      delivered. */
  function ExtractFrom(data: seq<uint8>, es: seq<RawEntry>): (r: Result<seq<File>>)
    requires |es| >= 1
    decreases |es|
  {
    if |es| == 1 then Ok([])
    else if es[1].offset < es[0].offset then Err(Panic)
    else
      var rest :- ExtractFrom(data, es[1..]);
      Ok([File(es[0].name, Held(data, es[0].offset, es[1].offset))] + rest)
  }

  /** `run` with each file holding only the bytes the archive has for it. */
  function Extract(data: seq<uint8>, es: seq<RawEntry>): (r: Result<seq<File>>)
  {
    if |es| == 0 then Err(Panic) else ExtractFrom(data, es)
  }

  /** Reference meaning of extraction: file `i` is named after entry `i`
      and holds the data from its offset to the next one. */
  function Slices(data: seq<uint8>, es: seq<RawEntry>): (r: seq<File>)
    requires Ascending(es)
    ensures |r| == Max(|es| - 1, 0)
  {
    seq(Max(|es| - 1, 0), i requires 0 <= i < Max(|es| - 1, 0) => File(es[i].name, Held(data, es[i].offset, es[i + 1].offset)))
  }

  lemma {:induction false} ExtractFromSpec(data: seq<uint8>, es: seq<RawEntry>)
    requires |es| >= 1
    ensures ExtractFrom(data, es).Ok? <==> Ascending(es)
    ensures Ascending(es) ==> ExtractFrom(data, es) == Ok(Slices(data, es))
    decreases |es|
  {
    SizesFromSpec(es);
    if |es| > 1 {
      ExtractFromSpec(data, es[1..]);
      SizesFromSpec(es[1..]);
      if Ascending(es) {
        assert Ascending(es[1..]) by {
          assert forall i :: 0 <= i < |es[1..]| - 1 ==> es[1..][i] == es[i + 1];
        }
        var r := [File(es[0].name, Held(data, es[0].offset, es[1].offset))] + Slices(data, es[1..]);
        assert r == Slices(data, es);
      } else {
        if es[0].offset <= es[1].offset {
          assert !Ascending(es[1..]);
        }
      }
    }
  }

  /** Extraction succeeds exactly when the sizes do, and then gives the
      reference slices. */
  lemma ExtractSpec(data: seq<uint8>, es: seq<RawEntry>)
    ensures Extract(data, es).Ok? <==> EntrySizes(es).Ok?
    ensures Extract(data, es).Ok? ==> Ascending(es) && Extract(data, es).value == Slices(data, es)
  {
    EntrySizesSpec(es);
    if |es| > 0 {
      ExtractFromSpec(data, es);
    }
  }

  /** The file of entry `i` has the size `run` computes for it whenever its
      end lies inside the data. */
  lemma ExtractSizes(data: seq<uint8>, es: seq<RawEntry>, i: nat)
    requires Extract(data, es).Ok? && i < |es| - 1 && es[i + 1].offset <= |data|
    ensures EntrySizes(es).Ok?
    ensures |Extract(data, es).value| == |EntrySizes(es).value| == |es| - 1
    ensures |Extract(data, es).value[i].content| == EntrySizes(es).value[i]
  {
    ExtractSpec(data, es);
    EntrySizesSpec(es);
  }

  /** The shared buffer makes no difference while every entry ends inside
      the data, and the two fail on the same inputs. */
  lemma {:induction false} AsWrittenAgrees(data: seq<uint8>, es: seq<RawEntry>, buf: seq<uint8>)
    requires |es| >= 1
    ensures ExtractFromAsWritten(data, es, buf).Ok? <==> ExtractFrom(data, es).Ok?
    ensures es[|es| - 1].offset <= |data| && Ascending(es) ==> ExtractFromAsWritten(data, es, buf) == ExtractFrom(data, es)
    decreases |es|
  {
    if |es| > 1 && es[0].offset <= es[1].offset {
      var content := ReadInto(data, es[0].offset, Resize(buf, es[1].offset - es[0].offset));
      AsWrittenAgrees(data, es[1..], content);
      if es[|es| - 1].offset <= |data| && Ascending(es) {
        assert Ascending(es[1..]) by {
          assert forall i :: 0 <= i < |es[1..]| - 1 ==> es[1..][i] == es[i + 1];
        }
        OffsetInside(es, 1);
        assert content == Held(data, es[0].offset, es[1].offset);
      }
    }
  }

  /** In an ascending list no offset exceeds the last one. */
  lemma {:induction false} OffsetInside(es: seq<RawEntry>, i: nat)
    requires i < |es| && Ascending(es)
    ensures es[i].offset <= es[|es| - 1].offset
    decreases |es| - i
  {
    if i < |es| - 1 {
      OffsetInside(es, i + 1);
    }
  }

  /** The table of an archive whose entry 1 ends past the data, after an
      entry 0 of 10 bytes: offsets 1, 11 and 100 with empty names, then
      two bytes of 7. */
  const LeakingArchive: seq<uint8> := [1, 0, 0, 0, 0, 11, 0, 0, 0, 0, 100, 0, 0, 0, 0, 7, 7]

  const LeakingTable: seq<RawEntry> := [RawEntry(1, []), RawEntry(11, []), RawEntry(100, [])]

  /** A table that fills all but the last three bytes or fewer is read
      whole, and nothing after it. */
  lemma TableThenShort(data: seq<uint8>, es: seq<RawEntry>)
    requires forall k :: 0 <= k < |es| ==> Storable(es[k])
    requires SliceAt(data, 0, TableBytes(es)) && |data| < |TableBytes(es)| + 4
    ensures Entries(Cursor(data, 0)) == es
  {
    ReadTable(data, 0, es);
    ShortTail(Cursor(data, |TableBytes(es)|));
    assert es + [] == es;
  }

  /** A table closed by the end marker is read whole, then the marker's
      entry. */
  lemma TableThenEnd(data: seq<uint8>, es: seq<RawEntry>)
    requires forall k :: 0 <= k < |es| ==> Storable(es[k])
    requires SliceAt(data, 0, TableBytes(es)) && SliceAt(data, |TableBytes(es)|, [0, 0, 0, 0])
    ensures Entries(Cursor(data, 0)) == es + [RawEntry(|data|, [])]
  {
    ReadTable(data, 0, es);
    EndMarker(data, |TableBytes(es)|);
  }

  lemma LeakingLayout()
    ensures forall k :: 0 <= k < |LeakingTable| ==> Storable(LeakingTable[k])
    ensures SliceAt(LeakingArchive, 0, TableBytes(LeakingTable)) && |TableBytes(LeakingTable)| == 15
  {
    var es := LeakingTable;
    assert TableBytes(es) == LeakingArchive[..15] by {
      assert TableBytes(es[2..]) == [100, 0, 0, 0, 0];
      assert TableBytes(es[1..]) == [11, 0, 0, 0, 0] + TableBytes(es[2..]);
    }
  }

  /** The table of `LeakingArchive` reads as its comment says. */
  lemma LeakingEntries()
    ensures RawEntries(LeakingArchive) == LeakingTable
  {
    LeakingLayout();
    TableThenShort(LeakingArchive, LeakingTable);
  }

  /** As written, the file of entry 1 of `LeakingArchive` holds the 6
      bytes the archive has for it, then bytes left in the buffer by entry
      0: its byte 9 is the 100 at archive position 10.  Corrected, it holds
      just the 6 bytes.  `LeakingEntries` shows these are the entries `run`
      reads. */
  lemma StaleBytes()
    ensures ExtractAsWritten(LeakingArchive, LeakingTable).Ok?
    ensures var f := ExtractAsWritten(LeakingArchive, LeakingTable).value[1];
      |f.content| == 89 && f.content[9] == 100 && f.content[..6] == LeakingArchive[11..]
    ensures Extract(LeakingArchive, LeakingTable).Ok?
    ensures Extract(LeakingArchive, LeakingTable).value[1].content == LeakingArchive[11..]
  {
    var data := LeakingArchive;
    var f0 := ReadInto(data, 1, Resize([], 10));
    assert f0 == data[1..11];
    var f1 := ReadInto(data, 11, Resize(f0, 89));
    assert f1[9] == f0[9] == 100;
  }

  // -----------------------------------------------------------------------
  // Round trip through a reference writer
  // -----------------------------------------------------------------------

  /** The table entries of an archive holding `files` back to back, the
      first stored at `start`. */
  function Layout(files: seq<File>, start: nat): (r: seq<RawEntry>)
    ensures |r| == |files|
    decreases |files|
  {
    if |files| == 0 then [] else [RawEntry(start, files[0].name)] + Layout(files[1..], start + |files[0].content|)
  }

  /** All contents, back to back. */
  function Contents(files: seq<File>): seq<uint8>
    decreases |files|
  {
    if |files| == 0 then [] else files[0].content + Contents(files[1..])
  }

  /** Table bytes taken by the names: four offset bytes, the name and its
      NUL for each file. */
  function NamesSize(files: seq<File>): nat
    decreases |files|
  {
    if |files| == 0 then 0 else 4 + |files[0].name| + 1 + NamesSize(files[1..])
  }

  /** Reference writer: the table, the end marker, then the contents. */
  function Pack(files: seq<File>): seq<uint8>
  {
    TableBytes(Layout(files, NamesSize(files) + 4)) + [0, 0, 0, 0] + Contents(files)
  }

  /** `run` on `pak` as written: the entries read from its table, then
      extraction through the one reused buffer. */
  function Unpack(pak: seq<uint8>): (r: Result<seq<File>>)
  {
    ExtractAsWritten(pak, RawEntries(pak))
  }

  /** `run` with each file holding only the bytes the archive has for it. */
  function UnpackIntended(pak: seq<uint8>): (r: Result<seq<File>>)
  {
    Extract(pak, RawEntries(pak))
  }

  lemma {:induction false} TableSize(files: seq<File>, start: nat)
    ensures |TableBytes(Layout(files, start))| == NamesSize(files)
    decreases |files|
  {
    if |files| > 0 {
      TableSize(files[1..], start + |files[0].content|);
    }
  }

  lemma {:induction false} ContentsAppend(a: seq<File>, b: seq<File>)
    ensures Contents(a + b) == Contents(a) + Contents(b)
    decreases |a|
  {
    if |a| > 0 {
      assert (a + b)[0] == a[0];
      assert (a + b)[1..] == a[1..] + b;
      ContentsAppend(a[1..], b);
    } else {
      assert a + b == b;
    }
  }

  /** Entry `k` names file `k` and starts after the contents of the files
      before it. */
  lemma {:induction false} LayoutAt(files: seq<File>, start: nat, k: nat)
    requires k < |files|
    ensures Layout(files, start)[k] == RawEntry(start + |Contents(files[..k])|, files[k].name)
    decreases k
  {
    if k > 0 {
      LayoutAt(files[1..], start + |files[0].content|, k - 1);
      assert files[..k] == [files[0]] + files[1..][..k - 1];
    }
  }

  /** File `k` lies in the contents where its entry says. */
  lemma ContentAt(files: seq<File>, k: nat)
    requires k < |files|
    ensures |Contents(files[..k + 1])| == |Contents(files[..k])| + |files[k].content|
    ensures SliceAt(Contents(files), |Contents(files[..k])|, files[k].content)
  {
    assert files[..k + 1] == files[..k] + [files[k]];
    ContentsAppend(files[..k], [files[k]]);
    assert Contents([files[k]]) == files[k].content;
    assert files == files[..k + 1] + files[k + 1..];
    ContentsAppend(files[..k + 1], files[k + 1..]);
  }

  /** The entries of a packed archive can be stored in a table. */
  lemma PackedStorable(files: seq<File>)
    requires forall k :: 0 <= k < |files| ==> 0 !in files[k].name
    requires |Pack(files)| < 0x1_0000_0000
    ensures var es := Layout(files, NamesSize(files) + 4);
      forall k :: 0 <= k < |es| ==> Storable(es[k])
  {
    var start := NamesSize(files) + 4;
    var es := Layout(files, start);
    TableSize(files, start);
    forall k | 0 <= k < |es|
      ensures Storable(es[k])
    {
      LayoutAt(files, start, k);
      ContentAt(files, k);
      assert files == files[..k] + files[k..];
      ContentsAppend(files[..k], files[k..]);
    }
  }

  /** A packed archive starts with its table, then the end marker. */
  lemma PackedTable(files: seq<File>)
    ensures var t := TableBytes(Layout(files, NamesSize(files) + 4));
      SliceAt(Pack(files), 0, t) && SliceAt(Pack(files), |t|, [0, 0, 0, 0])
  {
    var t := TableBytes(Layout(files, NamesSize(files) + 4));
    assert Pack(files) == t + ([0, 0, 0, 0] + Contents(files));
    SliceAtConcat(t, [0, 0, 0, 0] + Contents(files), 0, t);
    SliceAtConcat(t, [0, 0, 0, 0] + Contents(files), 0, [0, 0, 0, 0]);
  }

  /** The entries read from a packed archive: one per file, then the end
      marker's. */
  lemma PackedEntries(files: seq<File>)
    requires forall k :: 0 <= k < |files| ==> 0 !in files[k].name
    requires |Pack(files)| < 0x1_0000_0000
    ensures RawEntries(Pack(files)) == PackedList(files)
  {
    PackedStorable(files);
    PackedTable(files);
    TableThenEnd(Pack(files), Layout(files, NamesSize(files) + 4));
  }

  /** One file of a packed archive extracts to what was packed. */
  lemma PackedSlice(files: seq<File>, k: nat)
    requires k < |files|
    ensures var start := NamesSize(files) + 4;
      var es := Layout(files, start) + [RawEntry(|Pack(files)|, [])];
      es[k].offset <= es[k + 1].offset <= |Pack(files)| &&
      File(es[k].name, Held(Pack(files), es[k].offset, es[k + 1].offset)) == files[k]
  {
    var start := NamesSize(files) + 4;
    var layout := Layout(files, start);
    var es := layout + [RawEntry(|Pack(files)|, [])];
    var data := Pack(files);
    TableSize(files, start);
    assert |data| == start + |Contents(files)|;
    ContentAt(files, k);
    LayoutAt(files, start, k);
    assert es[k] == layout[k];
    var lo := start + |Contents(files[..k])|;
    var hi := lo + |files[k].content|;
    if k + 1 < |files| {
      LayoutAt(files, start, k + 1);
      assert es[k + 1] == layout[k + 1];
    } else {
      assert files[..k + 1] == files;
    }
    assert es[k + 1].offset == hi;
    assert hi <= |data| by {
      assert files == files[..k + 1] + files[k + 1..];
      ContentsAppend(files[..k + 1], files[k + 1..]);
    }
    assert data == (TableBytes(layout) + [0, 0, 0, 0]) + Contents(files);
    SliceAtConcat(TableBytes(layout) + [0, 0, 0, 0], Contents(files), |Contents(files[..k])|, files[k].content);
  }

  /** Extraction gives `files` when each file is named after its entry and
      holds the data from its entry's offset to the next one. */
  lemma ExtractEach(data: seq<uint8>, es: seq<RawEntry>, files: seq<File>)
    requires |es| == |files| + 1
    requires forall i :: 0 <= i < |files| ==> es[i].offset <= es[i + 1].offset
    requires forall i :: 0 <= i < |files| ==> File(es[i].name, Held(data, es[i].offset, es[i + 1].offset)) == files[i]
    ensures Extract(data, es) == Ok(files)
  {
    ExtractSpec(data, es);
    EntrySizesSpec(es);
    assert Slices(data, es) == files;
  }

  /** The entries `run` reads from a packed archive. */
  function PackedList(files: seq<File>): (r: seq<RawEntry>)
    ensures |r| == |files| + 1
  {
    Layout(files, NamesSize(files) + 4) + [RawEntry(|Pack(files)|, [])]
  }

  /** Every file of a packed archive lies between its entry's offset and
      the next. */
  lemma PackedSlices(files: seq<File>)
    ensures forall i :: 0 <= i < |files| ==> PackedList(files)[i].offset <= PackedList(files)[i + 1].offset
    ensures forall i :: 0 <= i < |files| ==>
      File(PackedList(files)[i].name, Held(Pack(files), PackedList(files)[i].offset, PackedList(files)[i + 1].offset)) == files[i]
  {
    forall i | 0 <= i < |files|
      ensures PackedList(files)[i].offset <= PackedList(files)[i + 1].offset
      ensures File(PackedList(files)[i].name, Held(Pack(files), PackedList(files)[i].offset, PackedList(files)[i + 1].offset)) == files[i]
    {
      PackedSlice(files, i);
    }
  }

  /** The entries of a packed archive extract to the packed files. */
  lemma PackedExtract(files: seq<File>)
    ensures Extract(Pack(files), PackedList(files)) == Ok(files)
  {
    PackedSlices(files);
    ExtractEach(Pack(files), PackedList(files), files);
  }

  /** Unpacking a packed archive gives back its files, names and contents,
      in order. */
  lemma UnpackPack(files: seq<File>)
    requires forall k :: 0 <= k < |files| ==> 0 !in files[k].name
    requires |Pack(files)| < 0x1_0000_0000
    ensures Unpack(Pack(files)) == Ok(files)
    ensures UnpackIntended(Pack(files)) == Ok(files)
  {
    var data := Pack(files);
    var es := PackedList(files);
    PackedEntries(files);
    PackedExtract(files);
    ExtractSpec(data, es);
    AsWrittenAgrees(data, es, []);
  }

  /** `run` as written fails on the same archives as the intended one, and
      when it succeeds with the last entry ending inside the archive it
      gives the same files. */
  lemma UnpackAgrees(pak: seq<uint8>)
    ensures Unpack(pak).Ok? <==> UnpackIntended(pak).Ok?
    ensures var es := RawEntries(pak);
      Unpack(pak).Ok? && es[|es| - 1].offset <= |pak| ==> Unpack(pak) == UnpackIntended(pak)
  {
    var es := RawEntries(pak);
    if |es| > 0 {
      AsWrittenAgrees(pak, es, []);
      ExtractSpec(pak, es);
    }
  }

  /** On `LeakingArchive`, `run` as written writes a second file of 89
      bytes where the archive holds 6 for it. */
  lemma UnpackStale()
    ensures Unpack(LeakingArchive).Ok? && UnpackIntended(LeakingArchive).Ok?
    ensures |Unpack(LeakingArchive).value| == |UnpackIntended(LeakingArchive).value| == 2
    ensures |Unpack(LeakingArchive).value[1].content| == 89
    ensures UnpackIntended(LeakingArchive).value[1].content == LeakingArchive[11..]
  {
    LeakingEntries();
    StaleBytes();
  }
}
